=== FILE: README.md ===
# Shooting: a verified model of the learning playground, the submission viewer, the game and the print worksheet

The repository is a JavaScript teaching kit built around a small canvas
shooting game. Learners follow a sequence of lesson steps (`step1` …
`step13`) in a browser playground, edit HTML, CSS and a multi-file
JavaScript program, and export their work as JSON. A teacher-side viewer
loads the exported files, lists the records per step and shows a line diff
between two submissions. A print page generates a numbered answer table for
paper worksheets. This project models the logic core of those pages in
Dafny and proves what that logic promises:

- **Line diff** (`LineDiff`, `MyersTrace`, `MyersFixed`, `MyersAsWritten`,
  `DiffRender`, `HtmlEscape`). It covers:
  - `splitLines`;
  - the forward pass of `myersDiffLines`;
  - `backtrackMyers`, which turns the trace into equal/delete/add
    operations;
  - `renderDiffToElement`, which turns those into escaped rows with
    `+`, `-` and ` ` signs.
- **Multi-file codec** (`ModuleCodec`, `CodecProofs`, `CodecRoundTrip`,
  `CodecFixed`). The playground joins the step's files into one text.
  Each file starts with a `// --- file: name ---` marker, and that text
  splits back into a file map. `loadStepSources` fetches and assembles a
  step.
- **Text and record helpers** (`PageText`, `JsReplace`, `GuideMarkdown`,
  `ExportName`, `ViewerRecords`):
  - the playground covers the `?step=` parameter, the live-server cut,
    the `<base href>` insertion (with the `$` patterns that
    `String.prototype.replace` expands in its replacement string), the module keys of the runner page, and
    the guide Markdown renderer;
  - the export covers its file name and the parsing of that name back;
  - the viewer covers its JSON record extraction, step keys, compare
    references and default compare pair.
- **Game rules** (`GameCollision`, `GameApply`, `Cull`, `GameBullets`,
  `GameHud`, `GameInput`, `GameWeapon`, `GameMain`). These model the
  modular game under `game/js`:
  - box collision detection, and applying the detected hits;
  - bullet spawning and culling;
  - the score and life counters;
  - the keyboard handler and the weapon level;
  - the start / playing / game-over state machine.
- **Lesson steps** (`LessonWeapon`, `LessonShooting`, `LessonCollision`,
  `LessonPlayer`, `LessonInput`, `LessonGame`). The same game as the
  learner writes it in steps 10–13:
  - circle collisions, where each bullet takes out at most one enemy;
  - the shot cooldown and the spread weapon;
  - the clamped player and the one-shot upgrade key;
  - the single-file step 13 frame.
- **Print table** (`PrintTable`). It models `generate-table.js`:
  - "count of large questions, then the count of small questions of
    each" becomes labels `L.S`;
  - the labels are laid out two per row.

Shared building blocks are `Wrappers` (`Option`), `Strings` (trimming,
splitting, searching, decimal digits) and `SeqUtil` (`splice` as
`RemoveAt`, index-set removal, subsequences).

JavaScript semantics are written out where they matter:
- `Map.get(k) ?? d` and `undefined` become `Option`;
- `Array.prototype.splice(i, 1)` is `RemoveAt`;
- a backwards `for` loop that splices becomes `Cull.CullLoop`, proved
  equal to a reference filter;
- canvas coordinates are `real`, counters are `int`.

Randomness, enemy motion, the DOM and the clock are parameters (see
"Left out").

## Model

| member | source | states |
|---|---|---|
| LineDiff.NormalizeNewlines | docs/learning/viewer.js:44-47 | No CR survives the CRLF/CR-to-LF rewrite, and text without CR is returned unchanged |
| LineDiff.NormalizeKeepsPrefix | docs/learning/viewer.js:44-47 | Text before the first CR passes through the rewrite unchanged, whatever follows |
| LineDiff.NormalizeCrLf | docs/learning/viewer.js:44-47 | A CRLF pair after CR-free text becomes one LF, and the rest is rewritten on its own |
| LineDiff.NormalizeLoneCr | docs/learning/viewer.js:44-47 | A CR not followed by LF also becomes one LF, and the rest is rewritten on its own |
| LineDiff.SplitLines | docs/learning/viewer.js:44-47 | Splitting always yields at least one line, and no line holds a line break |
| LineDiff.SplitLinesJoin | docs/learning/viewer.js:44-47 | Joining the lines with LF gives back the text with its line breaks normalised, so no content is lost |
| LineDiff.SplitLinesEmpty | docs/learning/viewer.js:44-47 | The empty text is one empty line |
| LineDiff.SplitLinesTrailingNewline | docs/learning/viewer.js:44-47 | A trailing newline yields a final empty line |
| LineDiff.SplitLinesMixedBreaks | docs/learning/viewer.js:44-47 | CRLF and a lone CR both separate lines |
| LineDiff.SlideBounds | docs/learning/viewer.js:74-77 | The snake never moves back, and a snake that moves stays inside both inputs |
| LineDiff.SlideMatches | docs/learning/viewer.js:74-77 | Every line the snake passes over is equal in both inputs, and it stops at the first mismatch or an end |
| LineDiff.Forward | docs/learning/viewer.js:56-89 | The forward pass only appends rounds to the trace, at most one per possible edit count |
| LineDiff.EqualRun | docs/learning/viewer.js:114-118 | The diagonal walk back emits one equal operation per step, moving x and y back together |
| LineDiff.SideAppend | docs/learning/viewer.js:159-171 | The old side, new side and edit count of a concatenation are those of the parts |
| MyersTrace.TraceWellFormed | docs/learning/viewer.js:49-90 | Every round of the trace holds exactly the furthest-reaching points of the Myers recurrence, and only the last round reaches the end |
| MyersTrace.StepFacts | docs/learning/viewer.js:62-79 | Each point extends the better neighbour of the previous round (down from k+1 or right from k-1) by a snake |
| MyersTrace.PointBounds | docs/learning/viewer.js:62-79 | No point of any round has a negative x or y, and round r lies on or beyond the r-th anti-diagonal |
| MyersTrace.Monotone | docs/learning/viewer.js:62-79 | A point never falls behind the neighbour it extends from the previous round |
| MyersTrace.Exactness | docs/learning/viewer.js:80-83 | A point of the last round that reaches the end is exactly the corner (N, M) on diagonal N-M |
| MyersFixed.FixedDiffRebuilds | docs/learning/viewer.js:92-133 | `LineDiff.FixedDiff`, whose backtrack reads each step from the round before it, gives operations that rebuild the old text on their old side and the new text on their new side, with as many edits as the trace has rounds after the first |
| MyersAsWritten.SameTextAsWritten | docs/learning/viewer.js:49-133 | `LineDiff.MyersDiffLines` comparing a text with itself gives only equal operations, one per line |
| MyersAsWritten.SameTextFixed | docs/learning/viewer.js:92-133 | The corrected backtrack agrees on identical texts |
| MyersAsWritten.DeleteCounterexample | docs/learning/viewer.js:92-133 | For x,y,z against x,z the backtrack as written produces operations whose new side is not x,z |
| MyersAsWritten.DeleteFixed | docs/learning/viewer.js:92-133 | The corrected backtrack turns x,y,z into x,z by deleting only y |
| MyersAsWritten.AddCounterexample | docs/learning/viewer.js:92-133 | For x,z against x,y,z the backtrack as written produces operations whose new side is not x,y,z |
| MyersAsWritten.AddFixed | docs/learning/viewer.js:92-133 | The corrected backtrack turns x,z into x,y,z by adding only y |
| DiffRender.Sign | docs/learning/viewer.js:160-169 | The sign column is blank exactly for unchanged lines |
| DiffRender.RenderOps | docs/learning/viewer.js:135-172 | The "no difference" row appears exactly when both texts are empty or no operation is a change; otherwise there is one row per operation, with no raw angle bracket, whose text unescapes back to the line |
| DiffRender.RenderDiff | docs/learning/viewer.js:135-172 | Comparing a text with itself always shows the "no difference" row, and no row holds a raw angle bracket |
| DiffRender.DeleteRendered | docs/learning/viewer.js:135-172 | Deleting the middle of three lines renders, as written, as removed x, same y, same z |
| DiffRender.DeleteRenderedFixed | docs/learning/viewer.js:135-172 | With the corrected backtrack the same edit renders as same x, removed y, same z |
| HtmlEscape.EscapeDiffRoundTrip | docs/learning/viewer.js:154-158 | The diff escape leaves no angle bracket and decoding the entities gives back the line |
| HtmlEscape.EscapeHtml | learning/playground.js:17-24 | The chain of replace-all calls equals escaping each character on its own (ampersand first, so nothing is escaped twice); it leaves no angle bracket or quote, every ampersand starts an entity, and decoding gives back the text |
| ModuleCodec.SplitCrLf | learning/playground.js:255 | One piece per LF-separated line, with a trailing CR removed, and no piece holds a line feed |
| ModuleCodec.MarkerName | learning/playground.js:265-269 | A line read as a marker yields a non-empty name without white space |
| ModuleCodec.MapSet | learning/playground.js:260-263 | Setting a key adds it, reads back the new value, and leaves every other key's value as it was |
| ModuleCodec.SplitModules | learning/playground.js:249-278 | The splitter returns a map with each file name once, every name non-empty and without white space |
| ModuleCodec.NormalizeNames | learning/playground.js:729-730 | A name is in the normalised manifest exactly when it is the trimmed form of some entry and not blank; no name is empty and the list is no longer than the input |
| ModuleCodec.NormalizeNamesAppend | learning/playground.js:729-730 | Normalising keeps the manifest order: a concatenation normalises to the two parts' names in turn |
| ModuleCodec.NormalizeNamesSingle | learning/playground.js:729-730 | One entry contributes its trimmed form exactly when that is not blank |
| ModuleCodec.FallbackName | learning/playground.js:731-735 | A listed main.js is always the fallback; otherwise it is the first manifest name, or main.js when there is no manifest |
| ModuleCodec.AddMissing | learning/playground.js:749-752 | Every manifest name gets a file, parsed files keep their contents, and names with no section get empty contents |
| ModuleCodec.ParseCombined | learning/playground.js:728-754 | The names are the normalised manifest and the fallback is chosen from them; every manifest name and the fallback name are files; text without any marker is kept whole as the fallback file |
| ModuleCodec.ParseCombinedFixed | learning/playground.js:728-754 | When the splitter finds no section the whole text stays in the fallback file; otherwise it agrees with the parser as written |
| ModuleCodec.Sections | learning/playground.js:761-765 | One section per name of the order, each a marker followed by that file's trimmed code |
| ModuleCodec.Assemble | learning/playground.js:756-767 | Whatever the files hold, the combined text opens with the marker line of the first name written, then LF |
| ModuleCodec.StepJs | learning/playground.js:964-987 | A step without a manifest runs its main.js as is, and a step fails exactly when one of its listed files was not fetched |
| CodecProofs.MarkerRoundTrip | learning/playground.js:756-767 | The splitter reads back the name the assembler wrote into a marker |
| CodecProofs.MarkerDetected | learning/playground.js:245-247 | Text starting with an assembled marker is recognised as multi-file text |
| CodecProofs.DashesJoinName | learning/playground.js:265-269 | A fourth closing dash becomes part of the file name |
| CodecProofs.OpenMarkerSplits | learning/playground.js:249-278 | A marker missing its closing dashes is not a section marker, so the splitter finds no section |
| CodecProofs.OpenMarkerDropsCode | learning/playground.js:728-754 | A marker missing its closing dashes passes the loose check but every parsed file comes out empty, so the code after it is lost |
| CodecRoundTrip.SplitAssembled | learning/playground.js:249-278 | Splitting the assembled text finds one entry per file, in order, holding that file's code plus the section's blank line |
| CodecRoundTrip.ParseAssembled | learning/playground.js:728-754 | Parsing the assembled text gives each listed file back up to trailing white space |
| CodecRoundTrip.AssembleParseAssemble | learning/playground.js:756-767 | Assembling, parsing and assembling again gives the same combined text, for files whose names and code the markers can carry |
| CodecRoundTrip.NormalizeNamesKeeps | learning/playground.js:729-730 | An already trimmed manifest with no empty names is left as it is |
| CodecRoundTrip.StepJsIsAssembled | learning/playground.js:964-987 | A step with a manifest whose files were all fetched loads exactly the assembled text of those files |
| CodecRoundTrip.StepJsRoundTrip | learning/playground.js:964-987 | Parsing a loaded step and assembling it again reproduces what was loaded |
| CodecFixed.SplitFindsNothing | learning/playground.js:249-278 | The splitter returns nothing exactly when no line is a well-formed marker |
| CodecFixed.FixedKeepsOpenMarker | learning/playground.js:728-754 | With the correction, the code after an unclosed marker survives in the fallback file |
| CodecFixed.FixedRoundTrip | learning/playground.js:728-767 | The corrected parser keeps the assemble-parse-assemble round trip |
| PageText.GetStepParam | learning/playground.js:1-10 | The result is always a valid step name from step1 to step13; a valid query value is returned as is and anything else gives step1 |
| PageText.EveryStepAccepted | learning/playground.js:1-10 | Each of step1 … step13 is accepted |
| PageText.StepExamples | learning/playground.js:1-10 | A leading zero is accepted, while step14, step0 and a missing parameter give step1 |
| PageText.StripLiveServer | learning/playground.js:26-33 | The result is the text before the first live-server marker with trailing white space removed; it is a prefix of the page, holds no marker and ends without white space; without a marker only trailing white space goes |
| PageText.StripInjected | learning/playground.js:26-33 | A page whose injected block follows marker-free content is cut back to that content, trimmed at the end |
| PageText.StripIdempotent | learning/playground.js:26-33 | Stripping twice is stripping once |
| JsReplace.PatternExamples | learning/playground.js:240 | In a replacement string, two dollar signs give one, dollar-ampersand the matched text, dollar-backquote the text before the match, dollar-quote the text after it, and dollar-one stays as written |
| JsReplace.SubstitutionPlain | learning/playground.js:240 | A replacement string without a dollar sign is written as it is |
| JsReplace.SubstitutionPlainPrefix | learning/playground.js:240 | A dollar-free start of the replacement string is written as it is, ahead of the expansion of the rest |
| JsReplace.SubstitutionPlainSuffix | learning/playground.js:240 | A dollar-free end of the replacement string that does not start with a pattern character is written as it is, after the expansion of the rest |
| PageText.SubstitutionTemplate | learning/playground.js:240 | In the template the page's replace call passes, only the href is expanded |
| PageText.EnsureBaseHref | learning/playground.js:233-243 | A page that has a base tag is unchanged, and the result always has one |
| PageText.EnsureBaseHrefIdempotent | learning/playground.js:233-243 | A second call, with any href, changes nothing |
| PageText.BaseBeforeHead | learning/playground.js:233-243 | With a head, the base tag goes on its own line right before the first closing head tag and the rest of the page is kept around it; the href is written as replace expands its dollar patterns, which is the href itself when it holds no dollar sign |
| PageText.DollarQuoteCopiesRest | learning/playground.js:233-243 | An href holding the pattern for the text after the match gets the rest of the page copied into the tag |
| PageText.BaseFirst | learning/playground.js:233-243 | Without a head, the base tag and a newline are put in front of the unchanged page |
| PageText.ModuleKey | learning/playground.js:285-289 | Every module key starts with "./", and the key is ./main.js exactly for main.js or ./main.js |
| PageText.ModuleKeyIdempotent | learning/playground.js:285-289 | Keying a key changes nothing |
| PageText.ModuleKeyStrips | learning/playground.js:285-289 | Stripping the "./" the key added gives back the file name |
| PageText.RunnableModules | learning/playground.js:285-296 | The module page is built exactly when some file keys to ./main.js, and then holds every file under its key |
| GuideMarkdown.NextTick | learning/playground.js:35-39 | The next backtick at or after the start, or none before the end |
| GuideMarkdown.UntagInlineCode | learning/playground.js:35-39 | Removing the code tags from rendered inline code gives back the backtick text |
| GuideMarkdown.InlineMdDecodes | learning/playground.js:35-39 | Escaping, then marking up inline code, loses nothing: untagging and decoding gives back the Markdown text |
| GuideMarkdown.HeadingText | learning/playground.js:81-89 | A heading's text has no line break and does not start with white space |
| GuideMarkdown.HeadingLevels | learning/playground.js:81-89 | One to three hashes and a space make a heading with the text after them; four or more do not |
| GuideMarkdown.ItemText | learning/playground.js:91-99 | A list item's text has no line break and does not start with white space |
| GuideMarkdown.ItemLine | learning/playground.js:91-99 | Indentation, a dash, white space and text not starting with white space make an item holding exactly that text |
| GuideMarkdown.ItemNeedsDash | learning/playground.js:91-99 | A line whose first non-space character is not a dash is no item |
| GuideMarkdown.BlankIsNoItem | learning/playground.js:91-99 | A blank line is no item |
| GuideMarkdown.ItemNeedsGap | learning/playground.js:91-99 | A dash directly followed by a non-space character is no item |
| GuideMarkdown.GuideBlocks | learning/playground.js:41-113 | Every opened list is closed: the blocks of any guide never leave a list open or close one that is not open, and items stand only inside a list |
| GuideMarkdown.RunValid | learning/playground.js:41-113 | The line-by-line state (inside a list, inside a fence) stays consistent across any number of lines |
| GuideMarkdown.FencedBlock | learning/playground.js:62-79 | An opening fence, lines without a fence and a closing fence become one code block holding exactly those lines |
| GuideMarkdown.UnclosedFence | learning/playground.js:110-112 | A fence never closed still emits its lines as a code block at the end |
| ExportName.Sanitize | docs/learning/playground.js:221-231 | A blank name gives the empty base; otherwise the base is at most 80 characters, uses no reserved character or white space, has no doubled, leading or (below 80) trailing underscore, and keeps the name's other characters in order |
| ExportName.CleanSeparator | docs/learning/playground.js:225-229 | Between two tidy parts, any non-empty run of reserved characters, white space and underscores becomes exactly one underscore; nothing is deleted |
| ExportName.SanitizeSeparator | docs/learning/playground.js:221-231 | A name made of two tidy parts around such a run, short enough not to be cut, is saved as the two parts joined by one underscore |
| ExportName.SanitizeExample | docs/learning/playground.js:221-231 | "my_file: v2" is saved as my_file_v2 |
| ExportName.CleanIdentity | docs/learning/playground.js:221-231 | A name already made only of kept characters and single inner underscores is left unchanged |
| ExportName.TrailingUnderscoreSurvives | docs/learning/playground.js:221-231 | The 80-character cut happens after underscores are trimmed, so a cut name can end in an underscore |
| ExportName.Pad2 | docs/learning/playground.js:249-259 | A month or day is written as exactly two digits that read back as the number |
| ExportName.ExportFilenameRoundTrip | docs/learning/playground.js:249-259 | Parsing a generated export file name gives back the sanitised base, whether it was a submission, and the date |
| ExportName.ExportFilename | docs/learning/playground.js:249-259 | A generated export file name always ends in .json |
| ViewerRecords.Lookup | docs/learning/viewer.js:183-227 | A property is found exactly when the object has it, and the value found is the one written last under that key |
| ViewerRecords.FirstDigitRun | docs/learning/viewer.js:174-181 | There is no digit run exactly when the text has no digit; otherwise the result is the first maximal run of digits |
| ViewerRecords.NormalizeStepKey | docs/learning/viewer.js:174-181 | A string key becomes a step name or nothing, a non-negative number always becomes a step name, and any other value becomes nothing |
| ViewerRecords.NormalizeStepKeyIdempotent | docs/learning/viewer.js:174-181 | Normalising twice is normalising once, step names are kept, and text without digits gives nothing |
| ViewerRecords.NormalizeStepKeyDigits | docs/learning/viewer.js:174-181 | Any other string becomes "step" followed by its first run of digits |
| ViewerRecords.NormalizeNegativeKey | docs/learning/viewer.js:174-181 | A negative number keeps its minus sign in the step key, and normalising that key again drops it |
| ViewerRecords.EntriesSpec | docs/learning/viewer.js:190-191 | The entries of a parsed object have exactly the object's keys, each once, and each with the value the object holds under it (the last one written) |
| ViewerRecords.EntriesUnique | docs/learning/viewer.js:190-191 | An object written without repeated keys has its fields as its entries, in order |
| ViewerRecords.EntriesRepeated | docs/learning/viewer.js:190-191 | A key written twice is one entry, with the second value |
| ViewerRecords.RepeatedStepOnce | docs/learning/viewer.js:189-206 | An export whose items name step1 twice yields one record for step1, made from the later item |
| ViewerRecords.FromItemsAppend | docs/learning/viewer.js:189-206 | The records of concatenated item lists are the records of each, in order |
| ViewerRecords.FromItemsSteps | docs/learning/viewer.js:189-206 | Every record taken from an export's items has a step name |
| ViewerRecords.ExtractRecords | docs/learning/viewer.js:183-227 | A file that is not a JSON object yields no record; every record has a step key and the file's name, and from an export's items the step is step followed by digits |
| ViewerRecords.ItemsWin | docs/learning/viewer.js:189-206 | When the file has an items object, the records come from its entries alone, one per distinct key |
| ViewerRecords.SubmitShape | docs/learning/viewer.js:209-224 | A single submission yields no record without a usable step, otherwise exactly one record for its step; a numeric timestamp is not kept |
| ViewerRecords.StepNumberOfNat | docs/learning/viewer.js:229-232 | The number read back from "step" plus a number is that number |
| ViewerRecords.StepNumberNone | docs/learning/viewer.js:229-232 | Text with no "step" followed by a digit has no step number |
| ViewerRecords.ReadRefShape | docs/learning/viewer.js:500-504 | Two digit runs around a colon read as the reference they spell |
| ViewerRecords.ReadRefOnlyShape | docs/learning/viewer.js:500-504 | Only two digit runs around a colon read as a reference |
| ViewerRecords.ReadRefKey | docs/learning/viewer.js:489-504 | Reading the option value written for a reference gives that reference back |
| ViewerRecords.RefKeyInjective | docs/learning/viewer.js:489-504 | Different references get different option values |
| ViewerRecords.KeyIndex | docs/learning/viewer.js:512-516 | The first position holding the key, or -1 exactly when no position holds it |
| ViewerRecords.DefaultAfterFirst | docs/learning/viewer.js:512-531 | With a later record selected, its predecessor is compared against it |
| ViewerRecords.DefaultAtFirst | docs/learning/viewer.js:512-531 | With the first record selected, the first two are compared |
| ViewerRecords.DefaultAbsent | docs/learning/viewer.js:512-531 | With the selection not in the list, the oldest is compared against the newest |
| ViewerRecords.DefaultFew | docs/learning/viewer.js:512-531 | With fewer than two records both sides are the same key, or empty for none |
| ViewerRecords.DefaultReadsBack | docs/learning/viewer.js:512-531 | Whenever there is a record, both chosen keys read back as references that are in the list |
| GameCollision.RectsIntersectSymmetric | game/js/collisionDetect.js:6-16 | Overlap does not depend on argument order, and boxes that only share an edge do not overlap |
| GameCollision.DetectBulletEnemyHitsSpec | game/js/collisionDetect.js:18-43 | Every reported hit is a real overlap with valid indices, enemies come out in descending order, and an enemy is reported exactly when some bullet overlaps it, paired with the highest such bullet |
| GameCollision.SharedBullet | game/js/collisionDetect.js:18-43 | One bullet overlapping two enemies is reported for both |
| GameCollision.DetectPlayerEnemyHits | game/js/collisionDetect.js:45-65 | Nothing is reported exactly when no enemy touches the player; otherwise one touching enemy is |
| GameApply.SortHits | game/js/collisionApply.js:16-19 | The hits are reordered, without loss or duplication, by descending enemy index |
| GameApply.SortedUnique | game/js/collisionApply.js:16-19 | The sorted order is unique, so the sort is determined by the hits |
| GameApply.SortDetected | game/js/collisionApply.js:16-19 | Hits that already come in detection order are left as they are |
| GameApply.ApplyBulletEnemyHits | game/js/collisionApply.js:11-33 | Every hit that still has its enemy and bullet in range removes one of each and scores one point, so the score gain equals both removals and is at most the number of hits |
| GameApply.ApplyExact | game/js/collisionApply.js:11-33 | Hits with distinct enemies in range, each of whose bullet indices is still in range when its hit comes up, remove exactly the hit enemies and score one point per hit |
| GameApply.ApplyExactExample | game/js/collisionApply.js:11-33 | Of three bullets and two enemies, hits of bullet 2 on enemy 1 and bullet 1 on enemy 0 leave only bullet 0, no enemy and two more points |
| GameApply.BulletCollateral | game/js/collisionApply.js:11-33 | When one bullet hits two enemies, index-based bullet removal also removes a bullet that hit nothing |
| GameApply.SortDesc | game/js/collisionApply.js:35-55 | The player hit indices are reordered, without loss or duplication, from high to low |
| GameApply.ApplyPlayerEnemyHits | game/js/collisionApply.js:35-55 | Each player hit applied removes one enemy and one life, and starting alive game over is reported exactly when a hit leaves no life |
| GameApply.ApplyPlayerStops | game/js/collisionApply.js:35-55 | Processing stops at the hit that ends the game |
| Cull.CullLoop | game/js/bullets.js:18-27 | The backward loop that moves every element and splices out those gone keeps exactly the moved survivors, in order |
| Cull.SurvivorsSpec | game/js/bullets.js:18-27 | No survivor is gone, nothing is kept when everything leaves, and everything is kept when nothing leaves |
| Cull.SurvivorsAppend | game/js/bullets.js:18-27 | Culling two runs of elements is culling each, in order |
| GameBullets.SpawnBullet | game/js/bullets.js:7-16 | Spawning appends exactly one square bullet at the given position, with velocity 0 and -5 and size 10 for omitted options |
| GameBullets.UpdateBullets | game/js/bullets.js:18-27 | After an update every bullet left is at least partly on screen vertically |
| GameBullets.UpdateOne | game/js/bullets.js:18-27 | A bullet moves by its velocity and is removed exactly when its bottom edge leaves the top |
| GameBullets.ClearBullets | game/js/bullets.js:3-5 | Clearing leaves no bullet |
| GameHud.NewLife | game/js/hud/score.js:38-43 | A life counter starts at its initial option, 3 by default |
| GameHud.Add | game/js/hud/score.js:18-21 | Adding raises the value by the delta, 1 by default |
| GameHud.Lose | game/js/hud/score.js:59-62 | Losing lowers the value by the delta, 1 by default |
| GameHud.LoseUndoesAdd | game/js/hud/score.js:54-62 | Losing what was added, or adding what was lost, restores the counter |
| GameHud.AddTimesCounts | game/js/hud/score.js:18-21 | n default adds raise the value by n, like one add of n |
| GameHud.LoseTimesCounts | game/js/hud/score.js:59-62 | n default losses lower the value by n, below zero if need be |
| GameInput.HandleKeyDown | game/js/input.js:9-23 | Only the arrows move the player; Space by code shoots and u or U upgrades, each only when no earlier branch fired |
| GameInput.ArrowMoves | game/js/input.js:9-23 | With default options an arrow moves 10 when the move stays within the padded canvas and not at all otherwise |
| GameInput.NoClamp | game/js/input.js:9-23 | The bound is compared before the step, so the player can end up inside the padding |
| GameInput.SpaceByCode | game/js/input.js:9-23 | Space is recognised by its key code, and an arrow key name takes precedence over it |
| GameWeapon.SetWeaponLevel | game/js/shooting.js:9-13 | A non-finite level is ignored; a finite one is floored and clamped to 1..5 |
| GameWeapon.UpgradeSteps | game/js/shooting.js:15-17 | Upgrading raises the level by one below 5 and keeps it at 5 |
| GameWeapon.LevelStaysInRange | game/js/shooting.js:9-21 | Any sequence of set, upgrade and reset keeps the level in 1..5 |
| GameWeapon.PatternShape | game/js/shooting.js:23-37 | Every pattern mirrors itself; levels 1..5 fire 1, 2, 3, 4 and 5 bullets |
| GameWeapon.TryShoot | game/js/shooting.js:39-53 | A shot appends one bullet per pattern entry, centred over the player, with that entry's sideways speed, and keeps the old bullets |
| GameMain.ResetGame | game/js/main.js:27-35 | A reset clears bullets and enemies, zeroes the score, restores three lives and level 1, and returns to the start screen |
| GameMain.SpaceTransitions | game/js/main.js:42-53 | Space starts a fresh game from the start screen, goes back to a fresh start screen after game over, and during play only fires |
| GameMain.UpgradeOnlyWhilePlaying | game/js/main.js:55-58 | The upgrade key does nothing outside play, and during play raises the level by one up to 5 |
| GameMain.HandleCollisions | game/js/collision.js:17-29 | Score rises by the bullets spent, at most one life is lost, every enemy removed is a kill or a player hit, and game over is reported exactly when life runs out |
| GameMain.Update | game/js/main.js:71-83 | Outside play a frame changes nothing; a frame of play never lowers the score, costs at most one life, leaves level and player alone, and ends the game exactly when no life is left |
| GameMain.StepConsistent | game/js/main.js:23-83 | Every event keeps the game consistent: level in range, a fresh start screen, life left while playing, none at game over |
| GameMain.RunConsistent | game/js/main.js:23-83 | Any sequence of events keeps the game consistent |
| GameMain.FromLoad | game/js/main.js:16-21 | Every run from the loaded page is consistent |
| LessonWeapon.UpgradeWeapon | learning/step13/weapon.js:8-10 | An upgrade raises the level by one below the maximum and changes nothing at it |
| LessonWeapon.UpgradeTimesLevel | learning/step13/weapon.js:8-10 | n upgrades reach the smaller of the level plus n and the maximum |
| LessonWeapon.PatternShape | learning/step13/weapon.js:12-16 | Every pattern mirrors itself and levels 1, 2 and 3 fire 1, 2 and 3 bullets; below 1 a single straight bullet |
| LessonWeapon.VxPatternOf | learning/step13/bullets.js:13-31 | An omitted level falls back to the weapon's own level |
| LessonShooting.Pull | learning/step13/bullets.js:13-31 | A call fires exactly when the key is held and the cooldown has run out, and firing restarts the cooldown at 8 |
| LessonShooting.PullInRange | learning/step13/bullets.js:13-31 | The cooldown stays within 0..8 |
| LessonShooting.HeldEveryEighth | learning/step13/bullets.js:13-31 | Holding the key fires once every 8 calls |
| LessonShooting.ResetShootCooldown | learning/step13/bullets.js:9-11 | After a reset the next held call fires |
| LessonShooting.TryShootSingle | learning/step11/bullets.js:7-20 | A firing call appends one centred straight bullet, and a call that does not fire appends nothing |
| LessonShooting.UpdateBulletsUp | learning/step11/bullets.js:22-28 | Bullets move and those above the top are dropped, in order |
| LessonShooting.TryShootSpread | learning/step13/bullets.js:13-31 | A firing call appends the level's spread, one bullet per pattern entry |
| LessonShooting.UpdateBulletsSpread | learning/step13/bullets.js:33-43 | Bullets move and those off the top or either side are dropped, in order |
| LessonCollision.CircleHitSymmetric | docs/learning/step13/collision.js:3-8 | The circle test ignores argument order and counts touching circles as a hit |
| LessonCollision.SweepAll | docs/learning/step13/collision.js:10-31 | Each kill removes one bullet and one enemy, survivors keep their order, and no surviving bullet touches a surviving enemy |
| LessonCollision.SweepTopBullet | docs/learning/step13/collision.js:10-31 | The last bullet removes the highest-indexed enemy it touches and the loop goes on with the earlier bullets; a bullet touching nothing stays at the end |
| LessonCollision.SweepBelowTail | docs/learning/step13/collision.js:10-31 | Bullets above the ones the loop has still to visit are left in place |
| LessonCollision.BulletEnemyScored | docs/learning/step13/collision.js:10-31 | The score rises by the per-kill score for each kill |
| LessonCollision.BulletEnemyCalls | docs/learning/step11/collision.js:8-29 | The kill callback runs once per kill, and never when it is not a function |
| LessonCollision.PlayerEnemy | docs/learning/step13/collision.js:33-54 | Nothing happens while invincible; otherwise a touching enemy is removed exactly when one exists, costing a life, starting invincibility and ending the game at zero life |
| LessonCollision.PlayerEnemyCounts | docs/learning/step13/collision.js:33-54 | At most one enemy and one life go per frame, and the score is untouched |
| LessonPlayer.CreatePlayer | learning/step10/player.js:1-9 | The player starts centred, 60 above the bottom, 30 square with speed 5 |
| LessonPlayer.UpdatePlayerClamps | learning/step10/player.js:11-19 | The new position is the held keys' step clamped into the canvas; both keys cancel, and no key keeps an in-canvas player in place |
| LessonPlayer.NarrowCanvas | learning/step10/player.js:11-19 | On a canvas narrower than the player the right clamp wins and the player sits partly off the left edge |
| LessonPlayer.KillsScore | learning/step11/hud.js:6-8 | n kills add n times the per-kill score |
| LessonInput.KeyDown | learning/step13/input.js:9-16 | Arrows set their held flag, and only a non-repeated u or U sets the upgrade flag |
| LessonInput.KeyUp | learning/step13/input.js:18-21 | Releasing an arrow clears only its own flag |
| LessonInput.Consume | learning/step13/input.js:24-28 | Reading the upgrade flag returns it and clears it, leaving the arrows alone |
| LessonInput.ConsumeOnce | learning/step13/input.js:9-28 | A press is read once, and a held key's repeats set nothing new |
| LessonGame.CreateGame | learning/step12/game.js:7-15 | A new game is on the start screen with score 0, 100 per kill, three lives and no invincibility |
| LessonGame.ResetsAgree | learning/step12/game.js:17-35 | Starting and resetting to start differ only in the stage, and each is idempotent |
| LessonGame.TicksCountDown | learning/step12/game.js:37-39 | n ticks lower the invincibility timer by n, stopping at 0 |
| LessonGame.Restart | learning/step13/main.js:93-115 | Starting or resetting clears the field, restores the counters and centres the player, keeping the held keys |
| LessonGame.KeyDown | learning/step13/main.js:234-258 | Space fires during play exactly when the cooldown is 0, starts from the start screen and resets after game over; other keys leave stage, bullets and cooldown alone; u upgrades only during play, never past level 3 |
| LessonGame.SpawnEnemy | learning/step13/main.js:124-137 | A rolled enemy is added only while fewer than 7 are on screen |
| LessonGame.UpdatePlaying | learning/step13/main.js:265-275 | A frame never leaves more than 7 enemies, and a frame of play keeps the game sane: counters in range, life left while playing and none at game over |
| LessonGame.RunSane | learning/step13/main.js:234-362 | Any sequence of key events and frames keeps the game sane, whatever spawn roll and enemy motion each frame brings, where a frame's motion moves each enemy by its box alone |
| LessonGame.FromLoad | learning/step13/main.js:356-365 | Every run from the loaded page is sane |
| PrintTable.LabelInjective | docs/print2/generate-table.js:17-23 | Different problem numbers get different labels |
| PrintTable.LabelsDistinct | docs/print2/generate-table.js:17-23 | There are as many labels as the counts add up to, all different |
| PrintTable.LabelsComplete | docs/print2/generate-table.js:17-23 | Every existing problem is labelled |
| PrintTable.LabelsSound | docs/print2/generate-table.js:17-23 | Every label names an existing problem |
| PrintTable.RowsAt | docs/print2/generate-table.js:30-44 | There are half as many rows as labels, rounded up, and row i holds labels 2i and 2i+1 or an empty cell |
| PrintTable.Generate | docs/print2/generate-table.js:12-15 | No table is built exactly when the list is empty or its first number is not the number of counts after it |
| PrintTable.GenerateSpec | docs/print2/generate-table.js:6-44 | A consistent list gives a table whose cells read in order are every label once, plus one empty cell for an odd count |
| PrintTable.Example | docs/print2/generate-table.js:6-44 | The list 2, 2, 1 gives the rows 1.1/1.2 and 2.1/empty; 2, 2 gives none |

## Findings

| source | as written | input that shows it | evidently intended | confidence | as-written member | corrected member |
|---|---|---|---|---|---|---|
| docs/learning/viewer.js:92-133 | `backtrackMyers` reads the neighbour of round d from `trace[d]`, the map after round d, instead of the map round d started from; `docs/learning/playground.js:1033-1074` is the same code | old lines x, y, z against new lines x, z: the operations are delete x, equal y, equal z, whose new side reads y, z | each backtracking step reads the round before it, so the operations rebuild both texts, with one edit per round after the first | not executed | MyersAsWritten.DeleteCounterexample | MyersFixed.FixedDiffRebuilds |
| learning/playground.js:728-754 | the loose marker test (`hasModuleMarkers`, lines 245-247) accepts a marker without its closing dashes, but the strict splitter (`splitModules`, lines 249-278) does not, and the parser then returns only empty files | the text `// --- file: main.js` followed by a line `x`: every parsed file is empty and `x` is lost | text whose markers yield no section is kept whole as the fallback file, as for text with no marker | not executed | CodecProofs.OpenMarkerDropsCode | CodecFixed.FixedKeepsOpenMarker |

Where the rest of the model builds on the diff, it uses the corrected
backtrack. `RenderDiffFixed` renders it, and `DeleteRenderedFixed` shows
the row order it produces. The parser is kept both as written
(`ParseCombined`) and corrected (`ParseCombinedFixed`). Both keep the
assemble/parse round trip, because the assembler always writes closed
markers.

## Left out

- The DOM and everything it touches is left out, because it is presentation or I/O: CodeMirror editors, tabs, themes, `localStorage`, file inputs, `fetch`, downloads, canvas drawing (`draw`, `drawHud`, `drawBullets`, `Score.render`, `Life.render`, overlays) and the `requestAnimationFrame` loop. A frame is one `Step` of the model.
- LessonGame.RunSane: an enemy is modelled by its box only, without the straight or homing `type` it is spawned with (learning/step13/main.js:127-129). A frame's motion is one function of the box, so two enemies with the same box move alike in that frame, and a frame where a straight and a homing enemy share a box is not covered.
- `Object.entries` lists integer-like keys first, in ascending order, then the other keys in insertion order. `ViewerRecords.Entries` keeps first-written order for every key. Exports written by the playground use `step` names, which are never integer-like, so their record order is unaffected; a hand-written file with keys such as `"2"` and `"1"` gets its records in file order in the model.
- The clock is a parameter: `ExportFilename` takes the year, month and day, and `formatDateTime` is not modelled.
- Randomness and enemy motion are inputs. Each step 13 frame carries its spawn roll as `Option<Foe>` (`LessonGame.SpawnEnemy`) and its `updateEnemies` movement (straight or homing toward the player, with a square root) as a function, so the motion may change from frame to frame. The modular game receives the enemy list after `enemySystem.update` as part of the frame event.
- `game/js/player.js`, `game/js/enemies.js` and `game/js/hud/hud.js` are not part of this model, because they only draw, move enemies or forward to the counters. The player's spawn box is a parameter of `GameMain`.
- Registering and removing keyboard listeners (`initInput` wiring, `dispose`) is left out. The handlers themselves are modelled.
- The rewriting of the runner page beyond module keys and the main.js check is left out: `stripStepExternalRefs`, `injectCssAndJsIntoHtml`, and the style and script splicing of `buildModuleHtml`. These are regular-expression rewrites of HTML text with no property beyond "the page still loads".
- The `docs/learning/playground.js` variant of `stripLiveServerInjection` is left out. It cuts with a regular expression; `PageText.StripLiveServer` models the `learning/playground.js` copy.
- Strings are sequences of characters, not UTF-16 code units: length-based limits such as the 80-character cut in `ExportName.Sanitize` count characters.
- JavaScript numbers are modelled as unbounded `int` or exact `real`, with no floating-point rounding or overflow. `GameWeapon.SetWeaponLevel` models non-finite input explicitly.
- `PrintTable.Generate` takes the numbers as integers. Reading them from the page with `Number` on each whitespace-separated token, and the `NaN` a bad token gives, is left out.
- `GameHud.Add` and `GameHud.Lose` take integer deltas. The source's `add` and `lose` apply `+=` and `-=` to whatever they are passed; what a non-number delta does there (string concatenation, `NaN`) is left out.
- MyersFixed.FixedDiffRebuilds: the edit count equals the number of rounds after the first, but minimality of the edit script, which the Myers algorithm guarantees, is not proved.
- There is no size ceiling on the combined multi-file text, because the source code has none.
- The guide Markdown renderer covers headings, list items, fences and paragraphs; `RenderGuide` states no property about the HTML text itself beyond the block structure proved for `GuideBlocks`.

=== FILE: codec_fixed.dfy ===
/** When the splitter finds no file: the as-written parse loses the text,
    the corrected parse keeps it, and on every text the assembler writes
    the two agree, so the round trip carries over. */
module CodecFixed {
  import opened Wrappers
  import opened Strings
  import opened ModuleCodec
  import opened CodecProofs
  import opened CodecRoundTrip

  lemma KeysEmpty(es: seq<Entry>)
    ensures Keys(es) == {} <==> es == []
  {
    if |es| > 0 {
      assert es[0].key in Keys(es);
    }
  }

  /** One line leaves the modules found so far empty exactly when it is no
      marker and they were empty before. */
  lemma FeedEmpty(st: Scan, l: string)
    ensures Flush(Feed(st, l)) == [] <==> Flush(st) == [] && MarkerName(l) == None
  {
    KeysEmpty(Flush(Feed(st, l)));
    KeysEmpty(Flush(st));
    if st.current.Some? {
      assert st.current.value in Keys(Flush(st));
    }
    if MarkerName(l).Some? {
      assert MarkerName(l).value in Keys(Flush(Feed(st, l)));
    } else if st.current.Some? {
      assert st.current.value in Keys(Flush(Feed(st, l)));
    }
  }

  lemma {:induction false} ScanEmpty(st: Scan, ls: seq<string>)
    ensures Flush(FeedAll(st, ls)) == [] <==>
              Flush(st) == [] && forall l :: l in ls ==> MarkerName(l) == None
    decreases |ls|
  {
    if |ls| > 0 {
      ScanEmpty(Feed(st, ls[0]), ls[1..]);
      FeedEmpty(st, ls[0]);
      assert forall l :: l in ls <==> l == ls[0] || l in ls[1..];
    }
  }

  /** The splitter finds no file exactly when no line is a marker. */
  lemma SplitFindsNothing(text: string)
    ensures SplitModules(text) == [] <==> forall l :: l in SplitCrLf(text) ==> MarkerName(l) == None
  {
    ScanEmpty(Start, SplitCrLf(text));
  }

  /** The text that lost its code to the as-written parse is kept whole by
      the corrected one. */
  lemma FixedKeepsOpenMarker(n: string, c: string, manifest: seq<string>)
    requires MarkerSafe(n) && !(|n| >= 4 && n[|n| - 3..] == "---")
    requires '\n' !in c && MarkerName(c) == None
    ensures var r := ParseCombinedFixed(Opening + n + "\n" + c, manifest);
            r.files[r.fallbackName] == Opening + n + "\n" + c
  {
    OpenMarkerSplits(n, c);
  }

  /** On an assembled text the splitter finds every listed file. */
  lemma AssembledFindsFiles(files: map<string, string>, order: seq<string>)
    requires |order| >= 1 && AllCarried(files, order)
    ensures SplitModules(Join(Sections(files, order), "\n")) != []
  {
    SplitAssembled(files, order);
    StoreAllGet([], files, order);
    assert order[0] in order;
    assert Get(StoreAll([], files, order), order[0]).Some?;
  }

  /** So the corrected parse keeps the exact round trip. */
  lemma FixedRoundTrip(files: map<string, string>, manifest: seq<string>, fallback: string)
    requires AllCarried(files, Order(manifest, fallback))
    ensures Assemble(ParseCombinedFixed(Assemble(files, manifest, fallback), manifest).files, manifest, fallback)
            == Assemble(files, manifest, fallback)
  {
    AssembledFindsFiles(files, Order(manifest, fallback));
    AssembleParseAssemble(files, manifest, fallback);
  }
}

=== FILE: codec_proofs.dfy ===
/** What the multi-file codec guarantees: the marker line the assembler
    writes is the one the splitter reads, a combined text written by the
    assembler parses back to the trimmed bodies, and assembling the parsed
    files again reproduces the text exactly. Also the two places where the
    loose detector and the strict splitter disagree. */
module CodecProofs {
  import opened Wrappers
  import opened Strings
  import opened ModuleCodec

  // ---------------------------------------------------------------------
  // Marker lines

  /** A name the codec can carry through a marker: non-empty, without
      white space (the splitter's name is a run of non-space characters). */
  predicate MarkerSafe(n: string) {
    |n| >= 1 && NoSpace(n)
  }

  /** The fixed opening of every marker the assembler writes. */
  const Opening: string := Slashes + " --- file: "

  /** How the scanners pass over the opening: the comment, the dashes,
      `file:` and the space after it. */
  lemma OpeningScan(s: string)
    requires Opening <= s && |s| > 13 && !IsSpace(s[13])
    ensures SkipSpace(s, 0) == 0 && OccursAt(s, Slashes, 0)
    ensures SkipSpace(s, 2) == 3 && SkipDash(s, 3) == 6 && SkipSpace(s, 6) == 7
    ensures FileWordAt(s, 7) && SkipSpace(s, 12) == 13
  {
    assert s[..13] == Opening;
    assert s[0] == '/' && s[1] == '/' && s[2] == ' ' && s[3] == '-' && s[4] == '-' && s[5] == '-';
    assert s[6] == ' ' && s[7] == 'f' && s[8] == 'i' && s[9] == 'l' && s[10] == 'e' && s[11] == ':';
    assert s[12] == ' ';
    assert s[0..2] == Slashes;
  }

  /** After the opening only the name and what follows it decide. */
  lemma OpeningTail(s: string)
    requires Opening <= s && |s| > 13 && !IsSpace(s[13])
    ensures var e := SkipWord(s, 13);
            MarkerName(s)
            == if ClosingAt(s, e) then Some(s[13..e])
               else if AllSpace(s[e..]) && e - 13 >= 4 && s[e - 3..e] == "---" then Some(s[13..e - 3])
               else None
  {
    OpeningScan(s);
  }

  /** The characters of a marker line after its opening. */
  lemma MarkerChars(n: string, s: string)
    requires MarkerSafe(n) && MarkerLine(n) <= s
    ensures Opening <= s && |s| >= 17 + |n|
    ensures s[13..13 + |n|] == n && s[13] == n[0]
    ensures s[13 + |n|] == ' ' && s[14 + |n|] == '-' && s[15 + |n|] == '-' && s[16 + |n|] == '-'
  {
    var m := MarkerLine(n);
    assert m == Opening + n + " ---";
    assert |m| == 17 + |n|;
    assert m[..13] == Opening;
    assert m[13..13 + |n|] == n;
    assert s[..|m|] == m;
  }

  /** The splitter reads back the name of every marker the assembler
      writes. */
  lemma MarkerRoundTrip(n: string)
    requires MarkerSafe(n)
    ensures MarkerName(MarkerLine(n)) == Some(n)
  {
    var s := MarkerLine(n);
    MarkerChars(n, s);
    assert |s| == 17 + |n|;
    forall j | 13 <= j < 13 + |n|
      ensures !IsSpace(s[j])
    {
      assert s[j] == s[13..13 + |n|][j - 13];
    }
    assert SkipWord(s, 13) == 13 + |n|;
    assert SkipSpace(s, 13 + |n|) == 14 + |n|;
    assert SkipDash(s, 14 + |n|) == 17 + |n|;
    assert ClosingAt(s, 13 + |n|) by { assert s[17 + |n|..] == ""; }
    OpeningTail(s);
  }

  /** A text starting with a marker the assembler writes uses markers. */
  lemma MarkerDetected(n: string, s: string)
    requires MarkerSafe(n) && MarkerLine(n) <= s
    ensures HasModuleMarkers(s)
  {
    MarkerChars(n, s);
    OpeningScan(s);
    assert s[13] != '\n' && AllSpace(s[12..13]);
    assert LooseTail(s, 12);
    assert LooseAt(s, 0);
  }

  /** The empty line is not a marker. */
  lemma EmptyNotMarker()
    ensures MarkerName("") == None
  {
    assert SkipSpace("", 0) == 0;
  }

  /** A marker's dashes may run into the name: the first `---` of a run of
      four or more after the name closes the marker, the rest stays in the
      name. */
  lemma DashesJoinName(n: string)
    requires MarkerSafe(n)
    ensures MarkerName(Opening + n + "----") == Some(n + "-")
  {
    var s := Opening + n + "----";
    var e := |s|;
    assert e == 17 + |n|;
    assert s[13] == n[0];
    forall j | 13 <= j < e
      ensures !IsSpace(s[j])
    {
      if j < 13 + |n| {
        assert s[j] == n[j - 13];
      } else {
        assert s[j] == '-';
      }
    }
    assert SkipWord(s, 13) == e;
    assert !ClosingAt(s, e) by { assert SkipSpace(s, e) == e; }
    assert AllSpace(s[e..]) by { assert s[e..] == ""; }
    assert s[e - 3..e] == "---";
    assert s[13..e - 3] == n + "-";
    OpeningTail(s);
  }

  /** A marker line without closing dashes is not a marker to the
      splitter, unless the name itself ends in three dashes. */
  lemma OpenMarkerLine(n: string)
    requires MarkerSafe(n) && !(|n| >= 4 && n[|n| - 3..] == "---")
    ensures MarkerName(Opening + n) == None
  {
    var line := Opening + n;
    assert line[13] == n[0];
    forall j | 13 <= j < |line|
      ensures !IsSpace(line[j])
    {
      assert line[j] == n[j - 13];
    }
    assert SkipWord(line, 13) == |line|;
    assert !ClosingAt(line, |line|) by { assert SkipSpace(line, |line|) == |line|; }
    if |n| >= 4 {
      assert line[|line| - 3..] == n[|n| - 3..];
    }
    OpeningTail(line);
  }

  /** The opening with a name after it is a marker to the detector,
      whatever follows. */
  lemma OpenMarkerDetected(n: string, rest: string)
    requires MarkerSafe(n)
    ensures HasModuleMarkers(Opening + n + rest)
  {
    var s := Opening + n + rest;
    assert s[13] == n[0];
    OpeningScan(s);
    assert s[13] != '\n' && AllSpace(s[12..13]);
    assert LooseAt(s, 0);
  }

  lemma OpenMarkerLines(n: string, c: string)
    requires MarkerSafe(n) && '\n' !in c
    ensures SplitCrLf(Opening + n + "\n" + c) == [Opening + n, c]
  {
    var line := Opening + n;
    assert '\n' !in line by {
      forall j | 0 <= j < |line| ensures line[j] != '\n' {
        if j >= 13 { assert line[j] == n[j - 13]; }
      }
    }
    SplitJoin([line, c], '\n');
    assert Join([line, c], "\n") == Opening + n + "\n" + c;
    assert DropCr(line) == line by { assert line[|line| - 1] == n[|n| - 1]; }
  }

  /** The splitter finds no file in such a text. */
  lemma OpenMarkerSplits(n: string, c: string)
    requires MarkerSafe(n) && !(|n| >= 4 && n[|n| - 3..] == "---")
    requires '\n' !in c && MarkerName(c) == None
    ensures SplitModules(Opening + n + "\n" + c) == []
  {
    OpenMarkerLines(n, c);
    OpenMarkerLine(n);
    var st := Feed(Start, Opening + n);
    assert st == Scan(None, [Opening + n], []);
    var lines := [Opening + n, c];
    assert lines[0] == Opening + n && lines[1..] == [c];
    assert FeedAll(Start, lines) == FeedAll(st, [c]);
    assert [c][1..] == [];
    assert FeedAll(st, [c]) == FeedAll(Feed(st, c), []);
  }

  /** So a marker line that lacks the closing dashes, followed by a line of
      code, is taken as module files of which none is found: the code is
      dropped and every file, the fallback included, comes back empty. */
  lemma OpenMarkerDropsCode(n: string, c: string, manifest: seq<string>)
    requires MarkerSafe(n) && !(|n| >= 4 && n[|n| - 3..] == "---")
    requires '\n' !in c && MarkerName(c) == None
    ensures forall k :: k in ParseCombined(Opening + n + "\n" + c, manifest).files ==>
              ParseCombined(Opening + n + "\n" + c, manifest).files[k] == ""
  {
    var s := Opening + n + "\n" + c;
    OpenMarkerDetected(n, "\n" + c);
    assert s == Opening + n + ("\n" + c);
    OpenMarkerSplits(n, c);
    var names := NormalizeNames(manifest);
    var all := names + [FallbackName(names)];
    assert EntriesToFiles(SplitModules(s), map[]) == map[];
    assert ParseCombined(s, manifest).files == AddMissing(map[], all);
    AddMissingEmpty(all);
  }

  /** Names added to an empty map all hold the empty text. */
  lemma AddMissingEmpty(names: seq<string>)
    ensures forall k :: k in AddMissing(map[], names) ==> AddMissing(map[], names)[k] == ""
  {
  }
}

=== FILE: codec_roundtrip.dfy ===
/** The save/restore round trip of the multi-file codec. The assembler
    writes each file as its marker line, the lines of its trimmed body and
    an empty line; the splitter reads those lines back, stores each body
    with two LFs appended (the LF before the next marker and the one
    `splitModules` adds), and assembling again trims them off. */
module CodecRoundTrip {
  import opened Wrappers
  import opened Strings
  import opened ModuleCodec
  import opened CodecProofs

  // ---------------------------------------------------------------------
  // The lines of an assembled text

  /** The body of `n` as the assembler writes it. */
  function Body(files: map<string, string>, n: string): string {
    TrimEnd(FileOf(files, n))
  }

  /** `n` travels through the codec intact: its name survives the marker
      and the `./` stripping, and its body has no CR and no line the
      splitter would take for a marker. */
  predicate Carried(files: map<string, string>, n: string) {
    && MarkerSafe(n)
    && !StartsWith(n, "./")
    && '\r' !in Body(files, n)
    && forall l :: l in Split(Body(files, n), '\n') ==> MarkerName(l) == None
  }

  predicate AllCarried(files: map<string, string>, order: seq<string>) {
    forall i :: 0 <= i < |order| ==> Carried(files, order[i])
  }

  /** The lines one section consists of. */
  function SectionLines(files: map<string, string>, n: string): seq<string> {
    [MarkerLine(n)] + Split(Body(files, n), '\n') + [""]
  }

  function AllLines(files: map<string, string>, order: seq<string>): seq<string>
    decreases |order|
  {
    if |order| == 0 then [] else SectionLines(files, order[0]) + AllLines(files, order[1..])
  }

  /** What the splitter stores for `n`. */
  function Stored(files: map<string, string>, n: string): string {
    Body(files, n) + "\n\n"
  }

  /** Joining the lines of a section gives the section. */
  lemma SectionJoin(files: map<string, string>, n: string)
    ensures Join(SectionLines(files, n), "\n") == Section(n, FileOf(files, n))
  {
    var b := Body(files, n);
    var ps := Split(b, '\n');
    JoinAppend([MarkerLine(n)] + ps, "", "\n");
    JoinCons(MarkerLine(n), ps, "\n");
    JoinSplit(b, '\n');
  }

  /** Joining two non-empty lists is joining their joins. */
  lemma {:induction false} JoinConcat(xs: seq<string>, ys: seq<string>, sep: string)
    requires |xs| >= 1 && |ys| >= 1
    ensures Join(xs + ys, sep) == Join(xs, sep) + sep + Join(ys, sep)
    decreases |xs|
  {
    if |xs| == 1 {
      JoinCons(xs[0], ys, sep);
      assert xs + ys == [xs[0]] + ys;
    } else {
      JoinConcat(xs[1..], ys, sep);
      assert (xs + ys)[1..] == xs[1..] + ys;
    }
  }

  /** The assembled text is the join of all section lines. */
  lemma {:induction false} AllLinesJoin(files: map<string, string>, order: seq<string>)
    requires |order| >= 1
    ensures Join(AllLines(files, order), "\n") == Join(Sections(files, order), "\n")
    decreases |order|
  {
    var ss := Sections(files, order);
    var sl := SectionLines(files, order[0]);
    SectionJoin(files, order[0]);
    assert AllLines(files, order) == sl + AllLines(files, order[1..]);
    if |order| > 1 {
      AllLinesJoin(files, order[1..]);
      assert ss[1..] == Sections(files, order[1..]);
      assert ss == [ss[0]] + ss[1..];
      JoinCons(ss[0], ss[1..], "\n");
      assert |AllLines(files, order[1..])| >= 1 by {
        assert |AllLines(files, order[1..])| >= |SectionLines(files, order[1])|;
      }
      JoinConcat(sl, AllLines(files, order[1..]), "\n");
    } else {
      assert AllLines(files, order[1..]) == [];
      assert AllLines(files, order) == sl;
      assert ss == [ss[0]];
    }
  }

  /** A marker line the assembler writes holds no line break. */
  lemma MarkerLineClean(n: string)
    requires MarkerSafe(n)
    ensures '\n' !in MarkerLine(n) && '\r' !in MarkerLine(n)
  {
    var m := MarkerLine(n);
    assert m == Opening + n + " ---";
    forall j | 0 <= j < |m|
      ensures m[j] != '\n' && m[j] != '\r'
    {
      if 13 <= j < 13 + |n| {
        assert m[j] == n[j - 13];
      }
    }
  }

  /** No line of one carried section holds a break. */
  lemma SectionLinesClean(files: map<string, string>, n: string)
    requires Carried(files, n)
    ensures forall i :: 0 <= i < |SectionLines(files, n)| ==>
              '\n' !in SectionLines(files, n)[i] && '\r' !in SectionLines(files, n)[i]
  {
    var b := Body(files, n);
    var ps := Split(b, '\n');
    var sl := SectionLines(files, n);
    MarkerLineClean(n);
    forall i | 0 <= i < |ps|
      ensures '\r' !in ps[i]
    {
      if '\r' in ps[i] {
        JoinSplit(b, '\n');
        JoinHoldsPiece(ps, "\n", i, '\r');
      }
    }
    forall i | 0 <= i < |sl|
      ensures '\n' !in sl[i] && '\r' !in sl[i]
    {
      if 1 <= i < |sl| - 1 {
        assert sl[i] == ps[i - 1];
      }
    }
  }

  /** No line of an assembled text holds a break. */
  lemma {:induction false} AllLinesClean(files: map<string, string>, order: seq<string>)
    requires AllCarried(files, order)
    ensures forall i :: 0 <= i < |AllLines(files, order)| ==>
              '\n' !in AllLines(files, order)[i] && '\r' !in AllLines(files, order)[i]
    decreases |order|
  {
    if |order| > 0 {
      SectionLinesClean(files, order[0]);
      assert AllCarried(files, order[1..]) by {
        forall i | 0 <= i < |order[1..]| ensures Carried(files, order[1..][i]) {
          assert order[1..][i] == order[i + 1];
        }
      }
      AllLinesClean(files, order[1..]);
      var sl := SectionLines(files, order[0]);
      var rest := AllLines(files, order[1..]);
      forall i | 0 <= i < |sl + rest|
        ensures '\n' !in (sl + rest)[i] && '\r' !in (sl + rest)[i]
      {
        if i >= |sl| {
          assert (sl + rest)[i] == rest[i - |sl|];
        }
      }
    }
  }

  /** Without CRs in any piece the CR-tolerant split is the plain one. */
  lemma SplitCrLfClean(text: string)
    requires forall i :: 0 <= i < |Split(text, '\n')| ==> '\r' !in Split(text, '\n')[i]
    ensures SplitCrLf(text) == Split(text, '\n')
  {
    var ps := Split(text, '\n');
    forall i | 0 <= i < |ps| ensures DropCr(ps[i]) == ps[i] {
      if |ps[i]| > 0 {
        assert ps[i][|ps[i]| - 1] in ps[i];
      }
    }
  }

  /** The splitter sees exactly the section lines. */
  lemma AssembledLines(files: map<string, string>, order: seq<string>)
    requires |order| >= 1 && AllCarried(files, order)
    ensures SplitCrLf(Join(Sections(files, order), "\n")) == AllLines(files, order)
  {
    var lines := AllLines(files, order);
    AllLinesJoin(files, order);
    AllLinesClean(files, order);
    assert |lines| >= 1 by {
      assert |SectionLines(files, order[0])| >= 1;
    }
    SplitJoin(lines, '\n');
    SplitCrLfClean(Join(lines, "\n"));
  }

  // ---------------------------------------------------------------------
  // The scan over those lines

  lemma {:induction false} FeedAllAppend(st: Scan, xs: seq<string>, ys: seq<string>)
    ensures FeedAll(st, xs + ys) == FeedAll(FeedAll(st, xs), ys)
    decreases |xs|
  {
    if |xs| == 0 {
      assert xs + ys == ys;
    } else {
      assert (xs + ys)[1..] == xs[1..] + ys;
      FeedAllAppend(Feed(st, xs[0]), xs[1..], ys);
    }
  }

  /** Lines that are not markers are buffered. */
  lemma {:induction false} FeedPlain(st: Scan, ls: seq<string>)
    requires forall l :: l in ls ==> MarkerName(l) == None
    ensures FeedAll(st, ls) == st.(buf := st.buf + ls)
    decreases |ls|
  {
    if |ls| == 0 {
      assert st.buf + ls == st.buf;
    } else {
      assert ls[0] in ls;
      assert forall l :: l in ls[1..] ==> l in ls;
      FeedPlain(Feed(st, ls[0]), ls[1..]);
      assert st.buf + [ls[0]] + ls[1..] == st.buf + ls;
    }
  }

  /** Lines before the first marker are dropped: a preamble without
      markers does not change what the splitter finds. */
  lemma PreambleDropped(pre: seq<string>, rest: seq<string>)
    requires forall l :: l in pre ==> MarkerName(l) == None
    requires |rest| >= 1 && MarkerName(rest[0]).Some?
    ensures Flush(FeedAll(Start, pre + rest)) == Flush(FeedAll(Start, rest))
  {
    FeedPlain(Start, pre);
    FeedAllAppend(Start, pre, rest);
    assert Feed(Scan(None, pre, []), rest[0]) == Feed(Start, rest[0]);
  }

  /** One section: its marker starts a file, its other lines fill it. */
  lemma FeedSection(st: Scan, files: map<string, string>, n: string)
    requires Carried(files, n)
    ensures FeedAll(st, SectionLines(files, n))
            == Scan(Some(n), Split(Body(files, n), '\n') + [""], Flush(st))
  {
    var ps := Split(Body(files, n), '\n');
    MarkerRoundTrip(n);
    EmptyNotMarker();
    assert SectionLines(files, n) == [MarkerLine(n)] + (ps + [""]);
    FeedAllAppend(st, [MarkerLine(n)], ps + [""]);
    assert FeedAll(st, [MarkerLine(n)]) == Scan(Some(n), [], Flush(st));
    FeedPlain(Scan(Some(n), [], Flush(st)), ps + [""]);
    assert [] + (ps + [""]) == ps + [""];
  }

  /** The buffer of a section is stored as the body and two LFs. */
  lemma StoredJoin(files: map<string, string>, n: string)
    ensures Join(Split(Body(files, n), '\n') + [""], "\n") + "\n" == Stored(files, n)
  {
    JoinAppend(Split(Body(files, n), '\n'), "", "\n");
    JoinSplit(Body(files, n), '\n');
  }

  /** `map.set` for every name in order, with its stored body. */
  function StoreAll(mods: seq<Entry>, files: map<string, string>, order: seq<string>): seq<Entry>
    decreases |order|
  {
    if |order| == 0 then mods
    else StoreAll(MapSet(mods, order[0], Stored(files, order[0])), files, order[1..])
  }

  /** The scan over all sections stores every body under its name. */
  lemma {:induction false} ScanSections(st: Scan, files: map<string, string>, order: seq<string>)
    requires |order| >= 1 && AllCarried(files, order)
    ensures Flush(FeedAll(st, AllLines(files, order))) == StoreAll(Flush(st), files, order)
    decreases |order|
  {
    var n := order[0];
    var st1 := Scan(Some(n), Split(Body(files, n), '\n') + [""], Flush(st));
    FeedAllAppend(st, SectionLines(files, n), AllLines(files, order[1..]));
    FeedSection(st, files, n);
    StoredJoin(files, n);
    assert Flush(st1) == MapSet(Flush(st), n, Stored(files, n));
    if |order| > 1 {
      assert AllCarried(files, order[1..]) by {
        forall i | 0 <= i < |order[1..]| ensures Carried(files, order[1..][i]) {
          assert order[1..][i] == order[i + 1];
        }
      }
      ScanSections(st1, files, order[1..]);
    } else {
      assert AllLines(files, order[1..]) == [];
    }
  }

  /** `Keys` and `Get` agree. */
  lemma {:induction false} GetKeys(es: seq<Entry>, k: string)
    ensures k in Keys(es) <==> Get(es, k).Some?
    decreases |es|
  {
    if |es| > 0 {
      GetKeys(es[1..], k);
    }
  }

  /** After storing every name, each name maps to its stored body and the
      keys stay distinct. */
  lemma {:induction false} StoreAllGet(mods: seq<Entry>, files: map<string, string>, order: seq<string>)
    requires DistinctKeys(mods)
    ensures DistinctKeys(StoreAll(mods, files, order))
    ensures forall n :: n in order ==> Get(StoreAll(mods, files, order), n) == Some(Stored(files, n))
    ensures forall k :: k in Keys(StoreAll(mods, files, order)) ==> k in Keys(mods) || k in order
    decreases |order|
  {
    if |order| > 0 {
      var m1 := MapSet(mods, order[0], Stored(files, order[0]));
      StoreAllGet(m1, files, order[1..]);
      var r := StoreAll(m1, files, order[1..]);
      forall n | n in order
        ensures Get(r, n) == Some(Stored(files, n))
      {
        if n !in order[1..] {
          assert n == order[0];
          StoreAllUntouched(m1, files, order[1..], n);
        }
      }
      forall k | k in Keys(r)
        ensures k in Keys(mods) || k in order
      {
        if k !in order[1..] {
          assert k in Keys(m1);
        }
      }
    }
  }

  /** A name not stored keeps its earlier value. */
  lemma {:induction false} StoreAllUntouched(mods: seq<Entry>, files: map<string, string>, order: seq<string>, n: string)
    requires n !in order
    ensures Get(StoreAll(mods, files, order), n) == Get(mods, n)
    decreases |order|
  {
    if |order| > 0 {
      assert n !in order[1..];
      StoreAllUntouched(MapSet(mods, order[0], Stored(files, order[0])), files, order[1..], n);
    }
  }

  /** `EntriesToFiles` on distinct keys without `./`: each key maps to its
      entry's value, every other key keeps the value it had. */
  lemma {:induction false} EntriesToFilesGet(es: seq<Entry>, m: map<string, string>)
    requires DistinctKeys(es)
    requires forall k :: k in Keys(es) ==> !StartsWith(k, "./")
    ensures forall k :: Get(es, k).Some? ==>
              k in EntriesToFiles(es, m) && EntriesToFiles(es, m)[k] == Get(es, k).value
    ensures forall k :: Get(es, k).None? && k in m ==>
              k in EntriesToFiles(es, m) && EntriesToFiles(es, m)[k] == m[k]
    decreases |es|
  {
    if |es| > 0 {
      var k0 := es[0].key;
      assert StripDotSlash(k0) == k0;
      var m1 := m[k0 := es[0].value];
      EntriesToFilesGet(es[1..], m1);
      GetKeys(es[1..], k0);
    }
  }

  // ---------------------------------------------------------------------
  // The round trip

  /** The splitter on an assembled text stores every body under its name. */
  lemma SplitAssembled(files: map<string, string>, order: seq<string>)
    requires |order| >= 1 && AllCarried(files, order)
    ensures SplitModules(Join(Sections(files, order), "\n")) == StoreAll([], files, order)
  {
    AssembledLines(files, order);
    ScanSections(Start, files, order);
  }

  /** An assembled text starts with its first marker, so the detector
      sees markers in it. */
  lemma AssembledDetected(files: map<string, string>, order: seq<string>)
    requires |order| >= 1 && MarkerSafe(order[0])
    ensures HasModuleMarkers(Join(Sections(files, order), "\n"))
  {
    var ss := Sections(files, order);
    var text := Join(ss, "\n");
    assert MarkerLine(order[0]) <= text by {
      SectionJoin(files, order[0]);
      if |order| > 1 {
        assert ss == [ss[0]] + ss[1..];
        JoinCons(ss[0], ss[1..], "\n");
      }
    }
    MarkerDetected(order[0], text);
  }

  /** With markers detected, the parse is the split files completed with
      the listed names. */
  lemma ParseWithMarkers(text: string, manifest: seq<string>)
    requires HasModuleMarkers(text)
    ensures ParseCombined(text, manifest).files
            == AddMissing(EntriesToFiles(SplitModules(text), map[]),
                          NormalizeNames(manifest) + [FallbackName(NormalizeNames(manifest))])
  {
  }

  /** The split files of an assembled text hold every listed body. */
  lemma FoundAssembled(files: map<string, string>, order: seq<string>)
    requires |order| >= 1 && AllCarried(files, order)
    ensures forall n :: n in order ==>
              n in EntriesToFiles(SplitModules(Join(Sections(files, order), "\n")), map[])
              && EntriesToFiles(SplitModules(Join(Sections(files, order), "\n")), map[])[n]
                 == Stored(files, n)
  {
    SplitAssembled(files, order);
    var es := StoreAll([], files, order);
    StoreAllGet([], files, order);
    forall k | k in Keys(es) ensures !StartsWith(k, "./") {
      assert k in order;
    }
    EntriesToFilesGet(es, map[]);
  }

  /** Parsing an assembled text with the same manifest gives every listed
      file back as its trimmed body followed by two LFs. */
  lemma ParseAssembled(files: map<string, string>, manifest: seq<string>, fallback: string)
    requires AllCarried(files, Order(manifest, fallback))
    ensures forall n :: n in Order(manifest, fallback) ==>
              n in ParseCombined(Assemble(files, manifest, fallback), manifest).files
              && ParseCombined(Assemble(files, manifest, fallback), manifest).files[n]
                 == TrimEnd(FileOf(files, n)) + "\n\n"
  {
    var order := Order(manifest, fallback);
    var text := Assemble(files, manifest, fallback);
    AssembledDetected(files, order);
    FoundAssembled(files, order);
    ParseWithMarkers(text, manifest);
  }

  /** Trimming the parsed file gives the trimmed original. */
  lemma ParsedTrimsBack(files: map<string, string>, n: string)
    ensures TrimEnd(TrimEnd(FileOf(files, n)) + "\n\n") == TrimEnd(FileOf(files, n))
  {
    var b := TrimEnd(FileOf(files, n));
    TrimEndAppendSpace(b, "\n\n");
    assert TrimEnd(b) == b;
  }

  /** Files whose listed bodies trim alike assemble alike. */
  lemma AssembleCongruent(f1: map<string, string>, f2: map<string, string>, manifest: seq<string>, fallback: string)
    requires forall n :: n in Order(manifest, fallback) ==> TrimEnd(FileOf(f1, n)) == TrimEnd(FileOf(f2, n))
    ensures Assemble(f1, manifest, fallback) == Assemble(f2, manifest, fallback)
  {
    var order := Order(manifest, fallback);
    forall i | 0 <= i < |order|
      ensures Sections(f1, order)[i] == Sections(f2, order)[i]
    {
      assert order[i] in order;
    }
    assert Sections(f1, order) == Sections(f2, order);
  }

  /** Assembling the parse of an assembled text with the same manifest
      reproduces that text exactly. */
  lemma AssembleParseAssemble(files: map<string, string>, manifest: seq<string>, fallback: string)
    requires AllCarried(files, Order(manifest, fallback))
    ensures Assemble(ParseCombined(Assemble(files, manifest, fallback), manifest).files, manifest, fallback)
            == Assemble(files, manifest, fallback)
  {
    var parsed := ParseCombined(Assemble(files, manifest, fallback), manifest).files;
    ParseAssembled(files, manifest, fallback);
    forall n | n in Order(manifest, fallback)
      ensures TrimEnd(FileOf(parsed, n)) == TrimEnd(FileOf(files, n))
    {
      ParsedTrimsBack(files, n);
    }
    AssembleCongruent(parsed, files, manifest, fallback);
  }

  // ---------------------------------------------------------------------
  // `loadStepSources`

  /** A manifest whose names are already trimmed and non-empty. */
  predicate Normalized(names: seq<string>) {
    forall n :: n in names ==> n != "" && Trim(n) == n
  }

  lemma NormalizeCons(t: string, rest: seq<string>)
    requires t != "" && Trim(t) == t
    ensures NormalizeNames([t] + rest) == [t] + NormalizeNames(rest)
  {
    NormalizeNamesAppend([t], rest);
    NormalizeNamesSingle(t);
  }

  lemma {:induction false} NormalizeNamesKeeps(names: seq<string>)
    requires Normalized(names)
    ensures NormalizeNames(names) == names
    decreases |names|
  {
    if |names| > 0 {
      NormalizedTail(names);
      NormalizeNamesKeeps(names[1..]);
      NormalizeHead(names);
      assert names == [names[0]] + names[1..];
    }
  }

  lemma NormalizedTail(names: seq<string>)
    requires Normalized(names) && |names| > 0
    ensures Normalized(names[1..]) && names[0] != "" && Trim(names[0]) == names[0]
  {
    assert names[0] in names;
    forall n | n in names[1..] ensures n in names { }
  }

  lemma NormalizeHead(names: seq<string>)
    requires |names| > 0 && names[0] != "" && Trim(names[0]) == names[0]
    ensures NormalizeNames(names) == [names[0]] + NormalizeNames(names[1..])
  {
  }

  /** The text a step loads from a non-empty, normalised manifest is the
      assembly of the fetched files under that manifest. */
  lemma StepJsIsAssembled(names: seq<string>, fetched: map<string, string>, mainJs: string, fallback: string)
    requires |names| >= 1 && Normalized(names)
    requires forall i :: 0 <= i < |names| ==> names[i] in fetched
    ensures StepJs(names, fetched, mainJs) == Some(Assemble(fetched, names, fallback))
  {
    NormalizeNamesKeeps(names);
    assert Order(names, fallback) == names;
    var xs := seq(|names|, i requires 0 <= i < |names| => Section(names[i], fetched[names[i]]));
    var ys := Sections(fetched, names);
    assert |xs| == |ys|;
    forall i | 0 <= i < |names| ensures xs[i] == ys[i] {
      assert FileOf(fetched, names[i]) == fetched[names[i]];
    }
    assert xs == ys;
  }

  /** So a step's text survives parse and assembly with its own manifest
      unchanged. */
  lemma StepJsRoundTrip(names: seq<string>, fetched: map<string, string>, mainJs: string, fallback: string)
    requires |names| >= 1 && Normalized(names)
    requires forall i :: 0 <= i < |names| ==> names[i] in fetched
    requires AllCarried(fetched, names)
    ensures StepJs(names, fetched, mainJs).Some?
    ensures Assemble(ParseCombined(StepJs(names, fetched, mainJs).value, names).files, names, fallback)
            == StepJs(names, fetched, mainJs).value
  {
    StepJsIsAssembled(names, fetched, mainJs, fallback);
    NormalizeNamesKeeps(names);
    AssembleParseAssemble(fetched, names, fallback);
  }
}

=== FILE: cull.dfy ===
/** The bullet-update loop every version of the game shares: walk the list
    from the last index down, move each element in place, and splice it
    out when it has left the screen. */
module Cull {
  import opened SeqUtil

  /** The reference: move every element and keep, in order, those that are
      not gone. */
  function Survivors<T>(bs: seq<T>, move: T -> T, gone: T -> bool): seq<T>
    decreases |bs|
  {
    if |bs| == 0 then []
    else (if gone(move(bs[0])) then [] else [move(bs[0])]) + Survivors(bs[1..], move, gone)
  }

  /** The loop as written: index `i` runs down, so the elements below it
      are untouched and the ones above it are already the survivors. */
  method CullLoop<T>(bs: seq<T>, move: T -> T, gone: T -> bool) returns (out: seq<T>)
    ensures out == Survivors(bs, move, gone)
  {
    out := bs;
    var i := |bs|;
    while i > 0
      invariant 0 <= i <= |bs|
      invariant out == bs[..i] + Survivors(bs[i..], move, gone)
      decreases i
    {
      i := i - 1;
      assert out[i] == bs[i];
      assert bs[i..][1..] == bs[i + 1..];
      assert bs[..i + 1] == bs[..i] + [bs[i]];
      var b := move(out[i]);
      if gone(b) {
        out := RemoveAt(out, i);
      } else {
        out := out[i := b];
      }
    }
    assert bs[0..] == bs;
  }

  /** Survivors of two runs are the survivors of each, in order. */
  lemma {:induction false} SurvivorsAppend<T>(xs: seq<T>, ys: seq<T>, move: T -> T, gone: T -> bool)
    ensures Survivors(xs + ys, move, gone) == Survivors(xs, move, gone) + Survivors(ys, move, gone)
    decreases |xs|
  {
    if |xs| == 0 {
      assert xs + ys == ys;
    } else {
      assert (xs + ys)[1..] == xs[1..] + ys;
      assert (xs + ys)[0] == xs[0];
      SurvivorsAppend(xs[1..], ys, move, gone);
    }
  }

  /** Every survivor is a moved element that is not gone, and an element
      survives exactly when its moved self is not gone. */
  lemma {:induction false} SurvivorsSpec<T>(bs: seq<T>, move: T -> T, gone: T -> bool)
    ensures |Survivors(bs, move, gone)| <= |bs|
    ensures forall k :: 0 <= k < |Survivors(bs, move, gone)| ==> !gone(Survivors(bs, move, gone)[k])
    ensures (forall i :: 0 <= i < |bs| ==> !gone(move(bs[i]))) ==>
              Survivors(bs, move, gone) == seq(|bs|, i requires 0 <= i < |bs| => move(bs[i]))
    ensures (forall i :: 0 <= i < |bs| ==> gone(move(bs[i]))) ==> Survivors(bs, move, gone) == []
    decreases |bs|
  {
    if |bs| > 0 {
      SurvivorsSpec(bs[1..], move, gone);
      assert forall i :: 0 <= i < |bs| - 1 ==> bs[1..][i] == bs[i + 1];
    }
  }
}

=== FILE: diff_render.dfy ===
/** `renderDiffToElement`: the rows the viewer and the playground show for
    two texts. Each row is modelled by its style and its (escaped) text; the
    markup around them is fixed per style. */
module DiffRender {
  import opened Wrappers
  import opened Strings
  import opened LineDiff
  import opened HtmlEscape
  import opened MyersFixed
  import opened MyersAsWritten

  /** The row styles `diffEq`, `diffAdd` and `diffDel`. */
  datatype Kind = Same | Added | Removed

  /** One `diffLine` row: its style and the text inside its second span. */
  datatype Row = Row(kind: Kind, text: string)

  const NoDifferences: string := "（差分なし）"

  /** The sentinel row shown when there is nothing to show. */
  const Sentinel: Row := Row(Same, NoDifferences)

  /** The sign a row carries in its first span. */
  function Sign(k: Kind): (c: char)
    ensures c == ' ' <==> k == Same
  {
    match k
    case Same => ' '
    case Added => '+'
    case Removed => '-'
  }

  /** `String(o.line)`: a line the backtrack read past the end of its text
      prints as `undefined`. */
  function LineText(line: Option<string>): string {
    match line
    case Some(s) => s
    case None => "undefined"
  }

  function KindOf(op: Op): Kind {
    match op
    case Add(_) => Added
    case Del(_) => Removed
    case Equal(_) => Same
  }

  /** Both texts are the single empty line. */
  predicate OnlyEmpty(a: seq<string>, b: seq<string>) {
    |a| == 1 && a[0] == "" && |b| == 1 && b[0] == ""
  }

  /** Some op is an `add` or a `del`. */
  predicate HasChange(ops: seq<Op>) {
    exists i :: 0 <= i < |ops| && !ops[i].Equal?
  }

  /** The rows for the ops of `a` against `b`. */
  function RenderOps(a: seq<string>, b: seq<string>, ops: seq<Op>): (rows: seq<Row>)
    ensures rows == [Sentinel] <==> OnlyEmpty(a, b) || !HasChange(ops)
    ensures !OnlyEmpty(a, b) && HasChange(ops) ==>
              |rows| == |ops|
              && (forall i :: 0 <= i < |ops| ==> rows[i].kind == KindOf(ops[i]))
              && (forall i :: 0 <= i < |ops| ==> '<' !in rows[i].text && '>' !in rows[i].text)
              && (forall i :: 0 <= i < |ops| ==> UnescapeDiff(rows[i].text) == LineText(ops[i].line))
  {
    if OnlyEmpty(a, b) || !HasChange(ops) then [Sentinel]
    else
      var rows := seq(|ops|, i requires 0 <= i < |ops| => Row(KindOf(ops[i]), EscapeDiff(LineText(ops[i].line))));
      assert forall i :: 0 <= i < |ops| ==>
               ('<' !in rows[i].text && '>' !in rows[i].text && UnescapeDiff(rows[i].text) == LineText(ops[i].line)) by {
        forall i | 0 <= i < |ops|
          ensures '<' !in rows[i].text && '>' !in rows[i].text
          ensures UnescapeDiff(rows[i].text) == LineText(ops[i].line)
        {
          EscapeDiffRoundTrip(LineText(ops[i].line));
        }
      }
      assert rows != [Sentinel] by {
        var i :| 0 <= i < |ops| && !ops[i].Equal?;
        assert rows[i].kind != Same;
      }
      rows
  }

  /** What the page shows for two texts, with the diff as written: a text
      compared with itself always shows the single "no differences" row,
      and any other table holds only escaped lines. */
  function RenderDiff(before: string, after: string): (rows: seq<Row>)
    ensures before == after ==> rows == [Sentinel]
    ensures forall i :: 0 <= i < |rows| ==> '<' !in rows[i].text && '>' !in rows[i].text
  {
    var a := SplitLines(before);
    var b := SplitLines(after);
    SelfNoChange(a);
    RenderOps(a, b, MyersDiffLines(a, b))
  }

  /** The same page with the Myers backtrack. */
  function RenderDiffFixed(before: string, after: string): seq<Row> {
    var a := SplitLines(before);
    var b := SplitLines(after);
    RenderOps(a, b, FixedDiff(a, b))
  }

  /** `equal` ops are no change. */
  lemma {:induction false} EqualsNoChange(a: seq<string>, lo: int, hi: int)
    ensures !HasChange(Equals(a, lo, hi))
    decreases hi - lo
  {
    if hi > lo {
      EqualsNoChange(a, lo, hi - 1);
      var e := Equals(a, lo, hi - 1);
      var e2 := e + [Equal(At(a, hi - 1))];
      forall i | 0 <= i < |e2| ensures e2[i].Equal? {
        if i < |e| { assert e2[i] == e[i]; }
      }
    }
  }

  /** The diff as written of a text against itself has no change. */
  lemma SelfNoChange(a: seq<string>)
    ensures !HasChange(MyersDiffLines(a, a))
  {
    SameTextAsWritten(a);
    EqualsNoChange(a, 0, |a|);
  }

  lemma ThreeLines()
    ensures SplitLines("x\ny\nz") == ["x", "y", "z"]
    ensures SplitLines("x\nz") == ["x", "z"]
  {
    SplitJoin(["x", "y", "z"], '\n');
    SplitJoin(["x", "z"], '\n');
    assert Join(["x", "y", "z"], "\n") == "x\ny\nz";
    assert Join(["x", "z"], "\n") == "x\nz";
  }

  /** The rows have the given styles and, once unescaped, the given lines. */
  predicate Shows(rows: seq<Row>, kinds: seq<Kind>, lines: seq<string>) {
    |rows| == |kinds| == |lines|
    && (forall i :: 0 <= i < |rows| ==> rows[i].kind == kinds[i])
    && (forall i :: 0 <= i < |rows| ==> UnescapeDiff(rows[i].text) == lines[i])
  }

  lemma DeleteOps(before: string, after: string)
    requires before == "x\ny\nz" && after == "x\nz"
    ensures RenderDiff(before, after)
            == RenderOps(["x", "y", "z"], ["x", "z"], [Del(Some("x")), Equal(Some("y")), Equal(Some("z"))])
  {
    ThreeLines();
    DeleteAsWritten();
  }

  lemma DeleteOpsFixed(before: string, after: string)
    requires before == "x\ny\nz" && after == "x\nz"
    ensures RenderDiffFixed(before, after)
            == RenderOps(["x", "y", "z"], ["x", "z"], [Equal(Some("x")), Del(Some("y")), Equal(Some("z"))])
  {
    ThreeLines();
    DeleteFixed();
  }

  /** Three rows with the given styles and lines. */
  lemma ShowsThree(rows: seq<Row>, kinds: seq<Kind>, lines: seq<string>)
    requires |rows| == 3 && |kinds| == 3 && |lines| == 3
    requires rows[0].kind == kinds[0] && rows[1].kind == kinds[1] && rows[2].kind == kinds[2]
    requires UnescapeDiff(rows[0].text) == lines[0]
    requires UnescapeDiff(rows[1].text) == lines[1]
    requires UnescapeDiff(rows[2].text) == lines[2]
    ensures Shows(rows, kinds, lines)
  {
  }

  /** Deleting the middle line of `x y z`: the page marks `x` as deleted
      and shows `y` as unchanged. */
  lemma DeleteRendered(before: string, after: string)
    requires before == "x\ny\nz" && after == "x\nz"
    ensures Shows(RenderDiff(before, after), [Removed, Same, Same], ["x", "y", "z"])
  {
    DeleteOps(before, after);
    var a, b := ["x", "y", "z"], ["x", "z"];
    var ops := [Del(Some("x")), Equal(Some("y")), Equal(Some("z"))];
    assert HasChange(ops) by { assert !ops[0].Equal?; }
    assert !OnlyEmpty(a, b);
    var r := RenderOps(a, b, ops);
    assert |r| == 3;
    assert r[0].kind == KindOf(ops[0]) && UnescapeDiff(r[0].text) == LineText(ops[0].line);
    assert r[1].kind == KindOf(ops[1]) && UnescapeDiff(r[1].text) == LineText(ops[1].line);
    assert r[2].kind == KindOf(ops[2]) && UnescapeDiff(r[2].text) == LineText(ops[2].line);
    ShowsThree(r, [Removed, Same, Same], ["x", "y", "z"]);
  }

  /** With the Myers backtrack the page marks `y` as deleted. */
  lemma DeleteRenderedFixed(before: string, after: string)
    requires before == "x\ny\nz" && after == "x\nz"
    ensures Shows(RenderDiffFixed(before, after), [Same, Removed, Same], ["x", "y", "z"])
  {
    DeleteOpsFixed(before, after);
    var a, b := ["x", "y", "z"], ["x", "z"];
    var ops := [Equal(Some("x")), Del(Some("y")), Equal(Some("z"))];
    assert HasChange(ops) by { assert !ops[1].Equal?; }
    assert !OnlyEmpty(a, b);
    var r := RenderOps(a, b, ops);
    assert |r| == 3;
    assert r[0].kind == KindOf(ops[0]) && UnescapeDiff(r[0].text) == LineText(ops[0].line);
    assert r[1].kind == KindOf(ops[1]) && UnescapeDiff(r[1].text) == LineText(ops[1].line);
    assert r[2].kind == KindOf(ops[2]) && UnescapeDiff(r[2].text) == LineText(ops[2].line);
    ShowsThree(r, [Same, Removed, Same], ["x", "y", "z"]);
  }
}

=== FILE: export_name.dfy ===
/** `sanitizeFilenameBase` and `buildExportFilename`: the file name the
    playground offers when it exports or submits the learner's work. */
module ExportName {
  import opened Wrappers
  import opened Strings

  // ---------------------------------------------------------------------
  // Character classes

  /** The characters Windows refuses in file names: `\ / : * ? " < > |`. */
  predicate Reserved(c: char) {
    c == '\\' || c == '/' || c == ':' || c == '*' || c == '?' || c == '"'
    || c == '<' || c == '>' || c == '|'
  }

  /** A character that survives sanitising unchanged: not reserved, not
      white space and not the `_` the sanitiser writes. */
  predicate Kept(c: char) {
    !Reserved(c) && !IsSpace(c) && c != '_'
  }

  /** The kept characters of `s`, in order. */
  function KeptOf(s: string): seq<char>
    decreases |s|
  {
    if |s| == 0 then []
    else (if Kept(s[0]) then [s[0]] else []) + KeptOf(s[1..])
  }

  lemma {:induction false} KeptAppend(a: string, b: string)
    ensures KeptOf(a + b) == KeptOf(a) + KeptOf(b)
    decreases |a|
  {
    if |a| > 0 {
      assert (a + b)[1..] == a[1..] + b;
      KeptAppend(a[1..], b);
    } else {
      assert a + b == b;
    }
  }

  /** Every character is allowed in a file name. */
  predicate SafeChars(s: string) {
    forall i :: 0 <= i < |s| ==> !Reserved(s[i]) && !IsSpace(s[i])
  }

  /** No two `_` in a row. */
  predicate NoDoubleUnderscore(s: string) {
    forall i :: 0 <= i < |s| - 1 ==> !(s[i] == '_' && s[i + 1] == '_')
  }

  // ---------------------------------------------------------------------
  // The five replacements of `sanitizeFilenameBase`

  /** `.replace(/[\\/:*?"<>|]/g, "_")`. */
  function MapReserved(s: string): (r: string)
    ensures |r| == |s|
    ensures forall i :: 0 <= i < |s| ==> !Reserved(r[i]) && (IsSpace(r[i]) <==> IsSpace(s[i]))
    ensures KeptOf(r) == KeptOf(s)
    ensures (forall i :: 0 <= i < |s| ==> !Reserved(s[i])) ==> r == s
    decreases |s|
  {
    if |s| == 0 then ""
    else
      var r := [if Reserved(s[0]) then '_' else s[0]] + MapReserved(s[1..]);
      assert r[1..] == MapReserved(s[1..]);
      r
  }

  /** Drops a leading run of `_`. */
  function DropUnderscores(s: string): (r: string)
    ensures |r| <= |s| && r == s[|s| - |r|..]
    ensures |r| == 0 || r[0] != '_'
    ensures forall i :: 0 <= i < |s| - |r| ==> s[i] == '_'
    ensures KeptOf(r) == KeptOf(s)
    ensures SafeChars(s) && NoDoubleUnderscore(s) ==> SafeChars(r) && NoDoubleUnderscore(r)
    decreases |s|
  {
    if |s| > 0 && s[0] == '_' then
      if SafeChars(s) && NoDoubleUnderscore(s) then SliceSafe(s, 1, |s|); DropUnderscores(s[1..])
      else DropUnderscores(s[1..])
    else s
  }

  /** The kept characters of a white-space prefix are none. */
  lemma {:induction false} KeptTrimStart(s: string)
    ensures KeptOf(TrimStart(s)) == KeptOf(s)
    decreases |s|
  {
    if |s| > 0 && IsSpace(s[0]) {
      KeptTrimStart(s[1..]);
    }
  }

  /** `.replace(/\s+/g, "_")`: every maximal run of white space becomes one
      `_`. */
  function SpaceRuns(s: string): (r: string)
    requires forall i :: 0 <= i < |s| ==> !Reserved(s[i])
    ensures SafeChars(r)
    ensures KeptOf(r) == KeptOf(s)
    ensures |r| == 0 <==> |s| == 0
    ensures |r| > 0 ==> (r[0] == '_' <==> s[0] == '_' || IsSpace(s[0]))
    ensures NoSpace(s) ==> r == s
    decreases |s|
  {
    if |s| == 0 then ""
    else if IsSpace(s[0]) then
      var t := TrimStart(s);
      assert |t| < |s|;
      assert forall i :: 0 <= i < |t| ==> t[i] == s[|s| - |t| + i];
      KeptTrimStart(s);
      var c := SpaceRuns(t);
      SafeCons('_', c);
      "_" + c
    else
      var c := SpaceRuns(s[1..]);
      SafeCons(s[0], c);
      [s[0]] + c
  }

  /** A safe character in front of a safe text. */
  lemma SafeCons(ch: char, c: string)
    requires !Reserved(ch) && !IsSpace(ch) && SafeChars(c)
    ensures SafeChars([ch] + c) && ([ch] + c)[0] == ch && ([ch] + c)[1..] == c
    ensures KeptOf([ch] + c) == (if Kept(ch) then [ch] else []) + KeptOf(c)
  {
    assert ([ch] + c)[1..] == c;
  }

  /** `.replace(/_+/g, "_")`: every run of `_` becomes one. */
  function Collapse(s: string): (r: string)
    requires SafeChars(s)
    ensures SafeChars(r) && NoDoubleUnderscore(r)
    ensures KeptOf(r) == KeptOf(s)
    ensures |r| == 0 <==> |s| == 0
    ensures |r| > 0 ==> r[0] == s[0]
    ensures NoDoubleUnderscore(s) ==> r == s
    decreases |s|
  {
    if |s| == 0 then ""
    else if s[0] == '_' then
      var t := DropUnderscores(s);
      assert |t| < |s|;
      var c := Collapse(t);
      var r := "_" + c;
      ConsKeeps('_', c);
      assert NoDoubleUnderscore(s) ==> t == s[1..] by {
        if NoDoubleUnderscore(s) && |s| > 1 { assert s[1] != '_'; }
      }
      r
    else
      var c := Collapse(s[1..]);
      var r := [s[0]] + c;
      ConsKeeps(s[0], c);
      r
  }

  /** Putting a character before a text that does not start with `_` keeps
      it free of double underscores. */
  lemma ConsKeeps(ch: char, c: string)
    requires NoDoubleUnderscore(c) && (|c| == 0 || ch != '_' || c[0] != '_')
    ensures NoDoubleUnderscore([ch] + c)
    ensures ([ch] + c)[1..] == c
  {
  }

  /** Drops a trailing run of `_`. */
  function DropTrailingUnderscores(s: string): (r: string)
    ensures r <= s
    ensures |r| == 0 || r[|r| - 1] != '_'
    ensures forall i :: |r| <= i < |s| ==> s[i] == '_'
    ensures SafeChars(s) && NoDoubleUnderscore(s) ==> SafeChars(r) && NoDoubleUnderscore(r)
    decreases |s|
  {
    if |s| > 0 && s[|s| - 1] == '_' then
      if SafeChars(s) && NoDoubleUnderscore(s) then SliceSafe(s, 0, |s| - 1); DropTrailingUnderscores(s[..|s| - 1])
      else DropTrailingUnderscores(s[..|s| - 1])
    else s
  }

  lemma {:induction false} KeptDropTrailing(s: string)
    ensures KeptOf(DropTrailingUnderscores(s)) == KeptOf(s)
    decreases |s|
  {
    if |s| > 0 && s[|s| - 1] == '_' {
      KeptDropTrailing(s[..|s| - 1]);
      KeptAppend(s[..|s| - 1], [s[|s| - 1]]);
      assert s[..|s| - 1] + [s[|s| - 1]] == s;
    }
  }

  /** `.replace(/^_+|_+$/g, "")`. */
  function StripUnderscores(s: string): (r: string)
    requires SafeChars(s) && NoDoubleUnderscore(s)
    ensures SafeChars(r) && NoDoubleUnderscore(r)
    ensures |r| == 0 || (r[0] != '_' && r[|r| - 1] != '_')
    ensures KeptOf(r) == KeptOf(s)
  {
    var t := DropUnderscores(s);
    KeptDropTrailing(t);
    DropTrailingUnderscores(t)
  }

  /** A slice of a safe text without double underscores is one too. */
  lemma SliceSafe(s: string, lo: nat, hi: nat)
    requires lo <= hi <= |s| && SafeChars(s) && NoDoubleUnderscore(s)
    ensures SafeChars(s[lo..hi]) && NoDoubleUnderscore(s[lo..hi])
  {
    var w := s[lo..hi];
    forall i | 0 <= i < |w| ensures !Reserved(w[i]) && !IsSpace(w[i]) {
      assert w[i] == s[lo + i];
    }
    forall i | 0 <= i < |w| - 1 ensures !(w[i] == '_' && w[i + 1] == '_') {
      assert w[i] == s[lo + i] && w[i + 1] == s[lo + i + 1];
    }
  }

  /** `.slice(0, 80)`. */
  function Take80(s: string): (r: string)
    ensures r <= s && |r| == if |s| <= 80 then |s| else 80
  {
    if |s| <= 80 then s else s[..80]
  }

  /** The replacements before the cut. */
  function Clean(raw: string): (r: string)
    ensures SafeChars(r) && NoDoubleUnderscore(r)
    ensures |r| == 0 || (r[0] != '_' && r[|r| - 1] != '_')
    ensures KeptOf(r) == KeptOf(raw)
  {
    StripUnderscores(Collapse(SpaceRuns(MapReserved(raw))))
  }

  /** `sanitizeFilenameBase(name)`. */
  function Sanitize(name: string): (r: string)
    ensures Trim(name) == "" ==> r == ""
    ensures |r| <= 80 && SafeChars(r) && NoDoubleUnderscore(r)
    ensures |r| == 0 || r[0] != '_'
    ensures |r| < 80 ==> |r| == 0 || r[|r| - 1] != '_'
    ensures KeptOf(r) <= KeptOf(name)
    ensures |r| < 80 ==> KeptOf(r) == KeptOf(name)
  {
    var raw := Trim(name);
    if raw == "" then KeptTrim(name); ""
    else
      var clean := Clean(raw);
      CutFacts(name);
      Take80(clean)
  }

  /** What `Sanitize` promises, for the cut of the cleaned, trimmed name. */
  lemma CutFacts(name: string)
    ensures var r := Take80(Clean(Trim(name)));
            && |r| <= 80 && SafeChars(r) && NoDoubleUnderscore(r)
            && (|r| == 0 || r[0] != '_')
            && (|r| < 80 ==> |r| == 0 || r[|r| - 1] != '_')
            && KeptOf(r) <= KeptOf(name)
            && (|r| < 80 ==> KeptOf(r) == KeptOf(name))
  {
    var clean := Clean(Trim(name));
    KeptTrim(name);
    assert KeptOf(clean) == KeptOf(name);
    CutKeeps(clean);
  }

  /** The cut keeps a prefix of the kept characters, and all of them when
      nothing is cut. */
  lemma CutKeeps(clean: string)
    requires SafeChars(clean) && NoDoubleUnderscore(clean)
    requires |clean| == 0 || (clean[0] != '_' && clean[|clean| - 1] != '_')
    ensures SafeChars(Take80(clean)) && NoDoubleUnderscore(Take80(clean))
    ensures |Take80(clean)| == 0 || Take80(clean)[0] != '_'
    ensures |Take80(clean)| < 80 ==> Take80(clean) == clean
    ensures KeptOf(Take80(clean)) <= KeptOf(clean)
  {
    var r := Take80(clean);
    KeptAppend(r, clean[|r|..]);
    assert r + clean[|r|..] == clean;
  }

  /** Trimming drops white space only. */
  lemma KeptTrim(s: string)
    ensures KeptOf(Trim(s)) == KeptOf(s)
  {
    var e := TrimEnd(s);
    KeptAppend(e, s[|e|..]);
    assert e + s[|e|..] == s;
    KeptAllSpace(s[|e|..]);
    KeptTrimStart(e);
  }

  lemma {:induction false} KeptAllSpace(w: string)
    requires AllSpace(w)
    ensures KeptOf(w) == []
    decreases |w|
  {
    if |w| > 0 {
      KeptAllSpace(w[1..]);
    }
  }

  /** A text of kept characters and single inner `_`s is left as it is. */
  lemma CleanIdentity(s: string)
    requires forall i :: 0 <= i < |s| ==> s[i] == '_' || Kept(s[i])
    requires NoDoubleUnderscore(s) && |s| > 0 && s[0] != '_' && s[|s| - 1] != '_'
    ensures Trim(s) == s
    ensures Clean(s) == s
  {
    TrimIdentity(s);
    SpaceIdentity(s);
    UnderscoreIdentity(s);
  }

  lemma TrimIdentity(s: string)
    requires |s| > 0 && !IsSpace(s[0]) && !IsSpace(s[|s| - 1])
    ensures Trim(s) == s
  {
    assert TrimEnd(s) == s;
  }

  lemma SpaceIdentity(s: string)
    requires forall i :: 0 <= i < |s| ==> s[i] == '_' || Kept(s[i])
    ensures SafeChars(s) && SpaceRuns(MapReserved(s)) == s
  {
    assert MapReserved(s) == s;
    assert NoSpace(s);
  }

  lemma UnderscoreIdentity(s: string)
    requires SafeChars(s) && NoDoubleUnderscore(s) && |s| > 0 && s[0] != '_' && s[|s| - 1] != '_'
    ensures StripUnderscores(Collapse(s)) == s
  {
    assert DropUnderscores(s) == s;
  }

  /** The 80-character cut can leave a trailing `_`: 79 kept characters,
      an `_` and one more kept character. */
  lemma TrailingUnderscoreSurvives(letters: string, last: char)
    requires |letters| == 79 && (forall i :: 0 <= i < 79 ==> Kept(letters[i])) && Kept(last)
    ensures Sanitize(letters + "_" + [last]) == letters + "_"
  {
    var name := letters + "_" + [last];
    assert forall i :: 0 <= i < |name| ==> name[i] == '_' || Kept(name[i]);
    assert NoDoubleUnderscore(name) by {
      forall i | 0 <= i < |name| - 1 ensures !(name[i] == '_' && name[i + 1] == '_') {
        if i < 79 { assert name[i] == letters[i]; }
      }
    }
    CleanIdentity(name);
    assert name[..80] == letters + "_";
  }

  // ---------------------------------------------------------------------
  // What the replacements make of a separator

  /** A part of a sanitised name: kept characters with single `_`s
      inside, and none at either end. */
  predicate Tidy(s: string) {
    && |s| > 0 && s[0] != '_' && s[|s| - 1] != '_'
    && (forall i :: 0 <= i < |s| ==> s[i] == '_' || Kept(s[i]))
    && NoDoubleUnderscore(s)
  }

  /** Any run of reserved characters, white space and `_` between two
      tidy parts becomes exactly one `_`. */
  lemma CleanSeparator(a: string, w: string, b: string)
    requires Tidy(a) && Tidy(b)
    requires |w| > 0 && forall i :: 0 <= i < |w| ==> !Kept(w[i])
    ensures Clean(a + w + b) == a + "_" + b
  {
    assert NoReserved(a) && NoReserved(b);
    MapSeparator(a, w, b);
    var w1 := MapReserved(w);
    SpaceSeparator(a, w1, b);
    var r := SpaceRuns(a + (w1 + b));
    var v := r[|a|..];
    assert r == a + v;
    CollapseSeparator(a, v, b);
    StripTidy(a + "_" + b);
  }

  /** The first replacement leaves the tidy parts alone and turns the
      separator into `_`s and white space. */
  lemma MapSeparator(a: string, w: string, b: string)
    requires NoReserved(a) && NoReserved(b)
    requires forall i :: 0 <= i < |w| ==> !Kept(w[i])
    ensures MapReserved(a + w + b) == a + (MapReserved(w) + b)
    ensures |MapReserved(w)| == |w|
    ensures forall i :: 0 <= i < |MapReserved(w)| ==>
              MapReserved(w)[i] == '_' || IsSpace(MapReserved(w)[i])
  {
    var w1 := MapReserved(w);
    calc {
      MapReserved(a + w + b);
    == { MapReservedAppend(a + w, b); }
      MapReserved(a + w) + MapReserved(b);
    == { MapReservedAppend(a, w); }
      MapReserved(a) + w1 + MapReserved(b);
    == { assert MapReserved(a) == a && MapReserved(b) == b; }
      a + w1 + b;
    == 
      a + (w1 + b);
    }
    MapReservedGap(w);
  }

  /** The second replacement leaves the tidy parts alone and turns the
      separator into a non-empty run of `_`s. */
  lemma SpaceSeparator(a: string, w1: string, b: string)
    requires Tidy(a) && Tidy(b) && |w1| > 0
    requires forall i :: 0 <= i < |w1| ==> w1[i] == '_' || IsSpace(w1[i])
    ensures NoReserved(a + (w1 + b))
    ensures var r := SpaceRuns(a + (w1 + b));
            |r| > |a| + |b| && r[..|a|] == a && UnderscoresThen(r[|a|..], b)
  {
    assert NoSpace(a) && NoReserved(a);
    assert NoSpace(b) && NoReserved(b);
    SpaceRunsGap(w1, b);
    SpaceRunsPrefix(a, w1 + b);
    var g := SpaceRuns(w1 + b);
    var r := a + g;
    assert r[..|a|] == a && r[|a|..] == g;
  }

  /** The third replacement merges the run of `_`s into one. */
  lemma CollapseSeparator(a: string, v: string, b: string)
    requires Tidy(a) && Tidy(b) && SafeChars(a + v)
    requires |v| > |b| && UnderscoresThen(v, b)
    ensures Collapse(a + v) == a + "_" + b
  {
    var u := v[..|v| - |b|];
    assert v == u + b;
    assert SafeChars(v) by {
      forall i | 0 <= i < |v| ensures !Reserved(v[i]) && !IsSpace(v[i]) {
        assert v[i] == (a + v)[|a| + i];
      }
    }
    calc {
      Collapse(a + v);
    == { CollapsePrefix(a, v); }
      a + Collapse(v);
    == { CollapseGap(u, b); }
      a + ("_" + b);
    ==
      a + "_" + b;
    }
  }

  /** The last replacement has nothing to strip from a text that starts
      and ends with a kept character. */
  lemma StripTidy(c: string)
    requires SafeChars(c) && NoDoubleUnderscore(c)
    requires |c| > 0 && c[0] != '_' && c[|c| - 1] != '_'
    ensures StripUnderscores(c) == c
  {
    assert DropUnderscores(c) == c;
    assert DropTrailingUnderscores(c) == c;
  }

  /** So `sanitizeFilenameBase` writes one `_` between two words, as long
      as the result fits in 80 characters. */
  lemma SanitizeSeparator(a: string, w: string, b: string)
    requires Tidy(a) && Tidy(b) && |a| + |b| < 80
    requires |w| > 0 && forall i :: 0 <= i < |w| ==> !Kept(w[i])
    ensures Sanitize(a + w + b) == a + "_" + b
  {
    var name := a + w + b;
    var joined := a + "_" + b;
    calc {
      Sanitize(name);
      { TrimSeparated(a, w, b); SanitizeTrimmed(name); }
      Take80(Clean(name));
      { CleanSeparator(a, w, b); }
      Take80(joined);
      joined;
    }
  }

  lemma TrimSeparated(a: string, w: string, b: string)
    requires |a| > 0 && !IsSpace(a[0]) && |b| > 0 && !IsSpace(b[|b| - 1])
    ensures a + w + b != "" && Trim(a + w + b) == a + w + b
  {
    var name := a + w + b;
    assert name[0] == a[0] && name[|name| - 1] == b[|b| - 1];
    TrimIdentity(name);
  }

  lemma SanitizeTrimmed(name: string)
    requires name != "" && Trim(name) == name
    ensures Sanitize(name) == Take80(Clean(name))
  {
  }

  /** `"my_file: v2"` is saved as `my_file_v2`. */
  lemma SanitizeExample()
    ensures Sanitize("my_file: v2") == "my_file_v2"
  {
    var a, w, b := "my_file", ": ", "v2";
    assert Tidy(a) by { assert a[2] == '_' && a[3] == 'f'; }
    assert Tidy(b);
    assert !Kept(w[0]) && !Kept(w[1]);
    assert a + w + b == "my_file: v2";
    assert a + "_" + b == "my_file_v2";
    SanitizeSeparator(a, w, b);
  }

  lemma {:induction false} MapReservedAppend(x: string, y: string)
    ensures MapReserved(x + y) == MapReserved(x) + MapReserved(y)
    decreases |x|
  {
    if |x| == 0 {
      assert x + y == y;
    } else {
      assert (x + y)[1..] == x[1..] + y;
      MapReservedAppend(x[1..], y);
    }
  }

  /** A run without kept characters maps to `_`s and white space. */
  lemma {:induction false} MapReservedGap(w: string)
    requires forall i :: 0 <= i < |w| ==> !Kept(w[i])
    ensures forall i :: 0 <= i < |MapReserved(w)| ==>
              MapReserved(w)[i] == '_' || IsSpace(MapReserved(w)[i])
    decreases |w|
  {
    if |w| > 0 {
      MapReservedGap(w[1..]);
      assert MapReserved(w)[1..] == MapReserved(w[1..]);
    }
  }

  lemma SafeAppend(x: string, y: string)
    requires SafeChars(x) && SafeChars(y)
    ensures SafeChars(x + y)
  {
    forall i | |x| <= i < |x + y| ensures !Reserved((x + y)[i]) && !IsSpace((x + y)[i]) {
      assert (x + y)[i] == y[i - |x|];
    }
  }

  /** White space in front of a non-space character is all `trimStart` drops. */
  lemma {:induction false} TrimStartAppend(w: string, b: string)
    requires |b| > 0 && !IsSpace(b[0])
    ensures TrimStart(w + b) == TrimStart(w) + b
    decreases |w|
  {
    if |w| == 0 {
      assert w + b == b;
    } else if IsSpace(w[0]) {
      assert (w + b)[1..] == w[1..] + b;
      TrimStartAppend(w[1..], b);
    }
  }

  predicate NoReserved(s: string) {
    forall i :: 0 <= i < |s| ==> !Reserved(s[i])
  }

  lemma NoReservedAppend(x: string, y: string)
    requires NoReserved(x) && NoReserved(y)
    ensures NoReserved(x + y)
  {
    forall i | |x| <= i < |x + y| ensures !Reserved((x + y)[i]) {
      assert (x + y)[i] == y[i - |x|];
    }
  }

  /** A prefix without white space passes through `SpaceRuns`. */
  lemma {:induction false} SpaceRunsPrefix(x: string, y: string)
    requires NoSpace(x) && NoReserved(x) && NoReserved(y)
    ensures NoReserved(x + y)
    ensures SpaceRuns(x + y) == x + SpaceRuns(y)
    decreases |x|
  {
    NoReservedAppend(x, y);
    if |x| == 0 {
      assert x + y == y;
    } else {
      var t := x[1..];
      assert (x + y)[1..] == t + y;
      assert NoSpace(t) && NoReserved(t) by {
        forall i | 0 <= i < |t| ensures !IsSpace(t[i]) && !Reserved(t[i]) {
          assert t[i] == x[i + 1];
        }
      }
      SpaceRunsPrefix(t, y);
      assert !IsSpace((x + y)[0]);
      assert SpaceRuns(x + y) == [x[0]] + SpaceRuns(t + y);
      assert x == [x[0]] + t;
    }
  }

  /** `r` is a run of `_`s followed by `b`. */
  predicate UnderscoresThen(r: string, b: string) {
    && |r| >= |b| && r[|r| - |b|..] == b
    && forall i :: 0 <= i < |r| - |b| ==> r[i] == '_'
  }

  /** Only `_`s and white space. */
  predicate GapChars(w: string) {
    forall i :: 0 <= i < |w| ==> w[i] == '_' || IsSpace(w[i])
  }

  /** What `SpaceRuns` leaves of a separator after its first character. */
  function GapTail(w: string): (t: string)
    requires |w| > 0 && GapChars(w)
    ensures |t| < |w| && GapChars(t)
  {
    if IsSpace(w[0]) then
      var t := TrimStart(w);
      assert forall i :: 0 <= i < |t| ==> t[i] == w[|w| - |t| + i];
      t
    else
      var t := w[1..];
      assert forall i :: 0 <= i < |t| ==> t[i] == w[i + 1];
      t
  }

  lemma GapNoReserved(w: string, b: string)
    requires GapChars(w) && NoReserved(b)
    ensures NoReserved(w + b)
  {
    assert NoReserved(w) by {
      forall i | 0 <= i < |w| ensures !Reserved(w[i]) {
        assert w[i] == '_' || IsSpace(w[i]);
      }
    }
    NoReservedAppend(w, b);
  }

  /** One step of `SpaceRuns` over a separator writes one `_`. */
  lemma GapStep(w: string, b: string)
    requires |w| > 0 && GapChars(w) && |b| > 0 && !IsSpace(b[0]) && NoReserved(b)
    ensures NoReserved(w + b) && NoReserved(GapTail(w) + b)
    ensures SpaceRuns(w + b) == "_" + SpaceRuns(GapTail(w) + b)
  {
    GapNoReserved(w, b);
    GapNoReserved(GapTail(w), b);
    assert (w + b)[0] == w[0];
    if IsSpace(w[0]) {
      TrimStartAppend(w, b);
    } else {
      TailAppend(w, b);
    }
  }

  /** A word passes through `SpaceRuns` and is a run of no `_`s before
      itself. */
  lemma WordRuns(b: string)
    requires NoSpace(b) && NoReserved(b)
    ensures SpaceRuns(b) == b && UnderscoresThen(b, b)
  {
    assert b[|b| - |b|..] == b;
  }

  /** A run of `_`s and white space before a word becomes a non-empty
      run of `_`s before it. */
  lemma {:induction false} SpaceRunsGap(w: string, b: string)
    requires GapChars(w)
    requires |b| > 0 && NoSpace(b) && NoReserved(b)
    ensures NoReserved(w + b)
    ensures UnderscoresThen(SpaceRuns(w + b), b)
    ensures |w| > 0 ==> |SpaceRuns(w + b)| > |b|
    decreases |w|
  {
    GapNoReserved(w, b);
    if |w| == 0 {
      assert w + b == b;
      WordRuns(b);
    } else {
      var t := GapTail(w);
      SpaceRunsGap(t, b);
      GapStep(w, b);
      GapCons(SpaceRuns(w + b), SpaceRuns(t + b), b);
    }
  }

  lemma TailAppend(w: string, b: string)
    requires |w| > 0
    ensures (w + b)[1..] == w[1..] + b
  {
  }

  /** One more `_` in front. */
  lemma GapCons(r: string, c: string, b: string)
    requires r == "_" + c && UnderscoresThen(c, b)
    ensures UnderscoresThen(r, b) && |r| > |b|
  {
    assert r[|r| - |b|..] == c[|c| - |b|..];
  }

  /** A prefix with single `_`s, not ending in one, passes through
      `Collapse`. */
  lemma {:induction false} CollapsePrefix(x: string, y: string)
    requires SafeChars(x + y) && SafeChars(y)
    requires NoDoubleUnderscore(x) && (|x| == 0 || x[|x| - 1] != '_')
    ensures Collapse(x + y) == x + Collapse(y)
    decreases |x|
  {
    if |x| == 0 {
      assert x + y == y;
    } else {
      var s := x + y;
      var t := x[1..];
      TailFacts(x, y);
      CollapsePrefix(t, y);
      var cy := Collapse(y);
      if x[0] == '_' {
        assert s[1] == x[1];
        assert DropUnderscores(s) == t + y;
        assert Collapse(s) == "_" + Collapse(DropUnderscores(s));
      } else {
        assert Collapse(s) == [s[0]] + Collapse(s[1..]);
      }
      ConsAppend(x, cy);
    }
  }

  /** What `CollapsePrefix` needs of the tail of its prefix. */
  lemma TailFacts(x: string, y: string)
    requires |x| > 0 && SafeChars(x + y)
    requires NoDoubleUnderscore(x) && x[|x| - 1] != '_'
    ensures (x + y)[0] == x[0] && (x + y)[1..] == x[1..] + y
    ensures SafeChars(x[1..] + y)
    ensures NoDoubleUnderscore(x[1..]) && (|x| == 1 || x[1..][|x| - 2] != '_')
  {
    var s := x + y;
    var t := x[1..];
    assert s[1..] == t + y;
    forall i | 0 <= i < |t + y| ensures !Reserved((t + y)[i]) && !IsSpace((t + y)[i]) {
      assert (t + y)[i] == s[i + 1];
    }
    forall i | 0 <= i < |t| - 1 ensures !(t[i] == '_' && t[i + 1] == '_') {
      assert t[i] == x[i + 1] && t[i + 1] == x[i + 2];
    }
  }

  /** Putting the head back in front. */
  lemma ConsAppend(x: string, c: string)
    requires |x| > 0
    ensures [x[0]] + (x[1..] + c) == x + c
  {
    assert x == [x[0]] + x[1..];
  }

  /** A non-empty run of `_`s before a tidy part collapses to one. */
  lemma CollapseGap(u: string, b: string)
    requires |u| > 0 && (forall i :: 0 <= i < |u| ==> u[i] == '_')
    requires Tidy(b) && SafeChars(u + b)
    ensures Collapse(u + b) == "_" + b
  {
    var s := u + b;
    var t := DropUnderscores(s);
    assert s[|u|] == b[0];
    assert t == b;
  }

  // ---------------------------------------------------------------------
  // The export file name

  /** `String(n).padStart(2, "0")` for a month or a day. */
  function Pad2(n: nat): (r: string)
    requires n < 100
    ensures |r| == 2 && AllDigits(r) && DigitsValue(r) == n
  {
    if n < 10 then
      var r := "0" + NatToString(n);
      assert r[..1] == "0";
      r
    else
      assert NatToString(n) == NatToString(n / 10) + [DigitChar(n % 10)];
      NatToString(n)
  }

  const SubmitBody: string := "shooting-learning-submit-"
  const ExportBody: string := "shooting-learning-export-"

  /** `buildExportFilename({ baseName, kind, date })` for the date whose
      local year, month (1 to 12) and day (1 to 31) are given. */
  function ExportFilename(baseName: string, kind: string, year: nat, month: nat, day: nat): (r: string)
    requires 1 <= month <= 12 && 1 <= day <= 31
    ensures |r| > 5 && r[|r| - 5..] == ".json"
  {
    var safe := Sanitize(baseName);
    var prefix := if safe != "" then safe + "-" else "";
    var body := if kind == "submit" then SubmitBody else ExportBody;
    var stamp := NatToString(year) + Pad2(month) + Pad2(day);
    FilenameShape(prefix, body, stamp);
    prefix + body + stamp + ".json"
  }

  /** A file name built this way ends in `.json`. */
  lemma FilenameShape(prefix: string, body: string, stamp: string)
    ensures var r := prefix + body + stamp + ".json";
            |r| >= 5 && r[|r| - 5..] == ".json"
  {
  }

  /** What an export file name says: the sanitised base, whether it is a
      submission, and the date. */
  datatype NameParts = NameParts(base: string, submit: bool, year: nat, month: nat, day: nat)

  /** The longest run of digits at the end of `s`. */
  function TrailingDigits(s: string): (r: nat)
    ensures r <= |s| && AllDigits(s[|s| - r..])
    ensures r < |s| ==> !IsDigit(s[|s| - r - 1])
    decreases |s|
  {
    if |s| > 0 && IsDigit(s[|s| - 1]) then
      var p := s[..|s| - 1];
      var k := TrailingDigits(p);
      DigitsSnoc(s, k);
      k + 1
    else 0
  }

  /** One more digit at the end of a digit run. */
  lemma DigitsSnoc(s: string, k: nat)
    requires |s| > 0 && IsDigit(s[|s| - 1])
    requires k <= |s| - 1 && AllDigits(s[..|s| - 1][|s| - 1 - k..])
    requires k < |s| - 1 ==> !IsDigit(s[..|s| - 1][|s| - 2 - k])
    ensures AllDigits(s[|s| - (k + 1)..])
    ensures k + 1 < |s| ==> !IsDigit(s[|s| - (k + 1) - 1])
  {
    var p := s[..|s| - 1];
    forall i | |s| - (k + 1) <= i < |s|
      ensures IsDigit(s[i])
    {
      if i < |s| - 1 {
        assert s[i] == p[|s| - 1 - k..][i - (|s| - 1 - k)];
      }
    }
  }

  /** Reads an export file name back, from its end: `.json`, the date
      stamp, the kind, and what is left as the base. */
  function ParseExportFilename(name: string): Option<NameParts> {
    if |name| >= 5 && name[|name| - 5..] == ".json" then ParseStem(name[..|name| - 5]) else None
  }

  /** The date stamp is the trailing digit run, at least five long. */
  function ParseStem(stem: string): Option<NameParts> {
    var n := TrailingDigits(stem);
    if n < 5 then None else ParseKind(stem[..|stem| - n], stem[|stem| - n..])
  }

  /** The kind ends the text before the stamp; a non-empty base is
      separated from it by `-`. */
  function ParseKind(before: string, stamp: string): Option<NameParts>
    requires AllDigits(stamp) && |stamp| >= 5
  {
    var k := |SubmitBody|;
    var body := if |before| >= k then before[|before| - k..] else "";
    var rest := if |before| >= k then before[..|before| - k] else "";
    if body != SubmitBody && body != ExportBody then None
    else if rest != "" && rest[|rest| - 1] != '-' then None
    else Some(NameParts(if rest == "" then "" else rest[..|rest| - 1], body == SubmitBody, StampYear(stamp),
                        DigitsValue(stamp[|stamp| - 4..|stamp| - 2]), DigitsValue(stamp[|stamp| - 2..])))
  }

  function StampYear(stamp: string): nat
    requires AllDigits(stamp) && |stamp| >= 4
  {
    DigitsValue(stamp[..|stamp| - 4])
  }

  /** The parser undoes the layout: a prefix that is empty or ends in `-`,
      one of the two kinds, and the year, month and day digits. */
  lemma ParseLayout(prefix: string, body: string, ys: string, ms: string, ds: string)
    requires prefix == "" || prefix[|prefix| - 1] == '-'
    requires body == SubmitBody || body == ExportBody
    requires |ys| >= 1 && |ms| == 2 && |ds| == 2 && AllDigits(ys) && AllDigits(ms) && AllDigits(ds)
    ensures ParseExportFilename(prefix + body + (ys + ms + ds) + ".json")
            == Some(NameParts(if prefix == "" then "" else prefix[..|prefix| - 1], body == SubmitBody,
                              DigitsValue(ys), DigitsValue(ms), DigitsValue(ds)))
  {
    var stamp := ys + ms + ds;
    var before := prefix + body;
    StampValues(ys, ms, ds);
    assert ParseExportFilename(before + stamp + ".json") == ParseStem(before + stamp) by {
      NameShape(before, stamp);
    }
    assert ParseStem(before + stamp) == ParseKind(before, stamp) by {
      assert before[|before| - 1] == body[|body| - 1] == '-';
      StemParse(before, stamp);
    }
    KindParse(prefix, body, stamp);
  }

  /** The stamp reads back as its three parts. */
  lemma StampValues(ys: string, ms: string, ds: string)
    requires |ys| >= 1 && |ms| == 2 && |ds| == 2 && AllDigits(ys) && AllDigits(ms) && AllDigits(ds)
    ensures var stamp := ys + ms + ds;
            && AllDigits(stamp) && |stamp| >= 5
            && StampYear(stamp) == DigitsValue(ys)
            && DigitsValue(stamp[|stamp| - 4..|stamp| - 2]) == DigitsValue(ms)
            && DigitsValue(stamp[|stamp| - 2..]) == DigitsValue(ds)
  {
    StampParts(ys, ms, ds);
    Slices3(ys, ms, ds);
  }

  lemma NameShape(before: string, stamp: string)
    ensures ParseExportFilename(before + stamp + ".json") == ParseStem(before + stamp)
    ensures (before + stamp)[..|before + stamp| - |stamp|] == before
    ensures (before + stamp)[|before + stamp| - |stamp|..] == stamp
  {
    var name := before + stamp + ".json";
    assert name[|name| - 5..] == ".json";
    assert name[..|name| - 5] == before + stamp;
  }

  lemma StemParse(before: string, stamp: string)
    requires |before| > 0 && before[|before| - 1] == '-' && AllDigits(stamp) && |stamp| >= 5
    ensures ParseStem(before + stamp) == ParseKind(before, stamp)
  {
    StampDigits(before, stamp);
    var s := before + stamp;
    assert s[..|s| - |stamp|] == before;
    assert s[|s| - |stamp|..] == stamp;
  }

  lemma KindParse(prefix: string, body: string, stamp: string)
    requires prefix == "" || prefix[|prefix| - 1] == '-'
    requires body == SubmitBody || body == ExportBody
    requires AllDigits(stamp) && |stamp| >= 5
    ensures ParseKind(prefix + body, stamp)
            == Some(NameParts(if prefix == "" then "" else prefix[..|prefix| - 1], body == SubmitBody,
                              StampYear(stamp), DigitsValue(stamp[|stamp| - 4..|stamp| - 2]),
                              DigitsValue(stamp[|stamp| - 2..])))
  {
    KindParts(prefix, body);
  }

  lemma Slices3(a: string, b: string, c: string)
    requires |b| == 2 && |c| == 2
    ensures (a + b + c)[..|a + b + c| - 4] == a
    ensures (a + b + c)[|a + b + c| - 4..|a + b + c| - 2] == b
  {
  }

  lemma StampParts(ys: string, ms: string, ds: string)
    requires |ys| >= 1 && |ms| == 2 && |ds| == 2 && AllDigits(ys) && AllDigits(ms) && AllDigits(ds)
    ensures AllDigits(ys + ms + ds)
    ensures |ys + ms + ds| >= 5
    ensures (ys + ms + ds)[|ys| + 2..] == ds
  {
  }

  lemma KindParts(prefix: string, body: string)
    requires body == SubmitBody || body == ExportBody
    ensures (prefix + body)[|prefix + body| - |SubmitBody|..] == body
    ensures (prefix + body)[..|prefix + body| - |SubmitBody|] == prefix
  {
  }

  /** The file name carries the sanitised base, the kind and the date: it
      reads back to them. */
  lemma ExportFilenameRoundTrip(baseName: string, kind: string, year: nat, month: nat, day: nat)
    requires 1 <= month <= 12 && 1 <= day <= 31
    ensures ParseExportFilename(ExportFilename(baseName, kind, year, month, day))
            == Some(NameParts(Sanitize(baseName), kind == "submit", year, month, day))
  {
    var safe := Sanitize(baseName);
    var prefix := if safe != "" then safe + "-" else "";
    var body := if kind == "submit" then SubmitBody else ExportBody;
    var ys, ms, ds := NatToString(year), Pad2(month), Pad2(day);
    ParseLayout(prefix, body, ys, ms, ds);
    assert prefix != "" ==> prefix[..|prefix| - 1] == safe;
  }

  /** The stamp is exactly the trailing digit run of the stem, since the
      kind before it ends in `-`. */
  lemma StampDigits(before: string, stamp: string)
    requires |before| > 0 && before[|before| - 1] == '-' && AllDigits(stamp)
    ensures TrailingDigits(before + stamp) == |stamp|
  {
    var s := before + stamp;
    var n := TrailingDigits(s);
    assert s[|s| - |stamp|..] == stamp;
  }
}

=== FILE: game_apply.dfy ===
/** `collisionApply.js`: removing what the detector reported, highest index
    first, and counting score and lives. The bullet and enemy records are
    left abstract: only their positions in the lists matter here. */
module GameApply {
  import opened SeqUtil
  import opened GameCollision

  // ---------------------------------------------------------------------
  // The order hits are applied in

  /** The comparator of `applyBulletEnemyHits`: enemy index descending,
      then bullet index descending. */
  predicate Before(a: Hit, b: Hit) {
    a.enemyIndex > b.enemyIndex || (a.enemyIndex == b.enemyIndex && a.bulletIndex >= b.bulletIndex)
  }

  predicate SortedHits(hs: seq<Hit>) {
    forall i, j :: 0 <= i < j < |hs| ==> Before(hs[i], hs[j])
  }

  function InsertHit(h: Hit, hs: seq<Hit>): (r: seq<Hit>)
    requires SortedHits(hs)
    ensures SortedHits(r) && multiset(r) == multiset(hs) + multiset{h}
    ensures |r| > 0 && (r[0] == h || (|hs| > 0 && r[0] == hs[0]))
    decreases |hs|
  {
    if |hs| == 0 then [h]
    else if Before(h, hs[0]) then HitCons(h, hs); [h] + hs
    else
      var t := InsertHit(h, hs[1..]);
      assert |hs| > 1 ==> Before(hs[0], hs[1]);
      HitCons(hs[0], t);
      ConsMultiset(hs, t, h);
      [hs[0]] + t
  }

  /** A hit that comes before the head of a sorted list may go in front. */
  lemma HitCons(a: Hit, t: seq<Hit>)
    requires SortedHits(t) && (|t| == 0 || Before(a, t[0]))
    ensures SortedHits([a] + t)
  {
    var r := [a] + t;
    forall i, j | 0 <= i < j < |r| ensures Before(r[i], r[j]) {
      if i == 0 && j > 1 {
        assert Before(t[0], t[j - 1]);
      }
    }
  }

  /** Putting back the head of `xs` in front of `t`, which holds the rest
      of `xs` and `x`. */
  lemma ConsMultiset<T>(xs: seq<T>, t: seq<T>, x: T)
    requires |xs| > 0 && multiset(t) == multiset(xs[1..]) + multiset{x}
    ensures multiset([xs[0]] + t) == multiset(xs) + multiset{x}
  {
    assert xs == [xs[0]] + xs[1..];
  }

  /** `[...hits].sort(...)`: a sorted copy. */
  function SortHits(hs: seq<Hit>): (r: seq<Hit>)
    ensures SortedHits(r) && multiset(r) == multiset(hs)
    decreases |hs|
  {
    if |hs| == 0 then []
    else
      assert hs == [hs[0]] + hs[1..];
      InsertHit(hs[0], SortHits(hs[1..]))
  }

  /** The comparator is a total order on hits, so there is only one
      sorted copy: whichever algorithm the engine sorts with gives the one
      this model computes. */
  lemma {:induction false} SortedUnique(a: seq<Hit>, b: seq<Hit>)
    requires SortedHits(a) && SortedHits(b) && multiset(a) == multiset(b)
    ensures a == b
    decreases |a|
  {
    assert |a| == |multiset(a)| == |multiset(b)| == |b|;
    if |a| > 0 {
      assert a[0] in multiset(b);
      assert b[0] in multiset(a);
      var j :| 0 <= j < |b| && b[j] == a[0];
      var i :| 0 <= i < |a| && a[i] == b[0];
      assert Before(b[0], a[0]) by { if j > 0 { assert Before(b[0], b[j]); } }
      assert Before(a[0], b[0]) by { if i > 0 { assert Before(a[0], a[i]); } }
      assert a[0] == b[0];
      MultisetTail(a);
      MultisetTail(b);
      SortedUnique(a[1..], b[1..]);
    }
  }

  lemma MultisetTail<T>(a: seq<T>)
    requires |a| > 0
    ensures multiset(a[1..]) == multiset(a) - multiset{a[0]}
  {
    assert a == [a[0]] + a[1..];
  }

  /** Hits in strictly decreasing enemy order, as the detector reports
      them, are already sorted, so sorting them changes nothing. */
  lemma SortDetected(hs: seq<Hit>)
    requires EnemiesDescending(hs)
    ensures SortHits(hs) == hs
  {
    SortedUnique(SortHits(hs), hs);
  }

  // ---------------------------------------------------------------------
  // Bullets against enemies

  /** The bullet list, the enemy list and the score. */
  datatype Arena<B, E> = Arena(bullets: seq<B>, enemies: seq<E>, score: int)

  /** One pass of the loop: skipped unless both indices are in range now;
      otherwise both elements go and the score rises by one. */
  function ApplyHit<B, E>(a: Arena<B, E>, h: Hit): Arena<B, E> {
    if h.enemyIndex < |a.enemies| && h.bulletIndex < |a.bullets| then
      Arena(RemoveAt(a.bullets, h.bulletIndex), RemoveAt(a.enemies, h.enemyIndex), a.score + 1)
    else a
  }

  function ApplyAll<B, E>(a: Arena<B, E>, hs: seq<Hit>): Arena<B, E>
    decreases |hs|
  {
    if |hs| == 0 then a else ApplyAll(ApplyHit(a, hs[0]), hs[1..])
  }

  /** `applyBulletEnemyHits`: the score gain equals the number of enemies
      removed and the number of bullets removed, and is at most the number
      of hits. */
  function ApplyBulletEnemyHits<B, E>(a: Arena<B, E>, hits: seq<Hit>): (r: Arena<B, E>)
    ensures 0 <= r.score - a.score <= |hits|
    ensures |a.enemies| - |r.enemies| == r.score - a.score
    ensures |a.bullets| - |r.bullets| == r.score - a.score
  {
    ApplyAllCounts(a, SortHits(hits));
    assert |SortHits(hits)| == |multiset(SortHits(hits))| == |multiset(hits)| == |hits|;
    ApplyAll(a, SortHits(hits))
  }

  /** Each applied hit takes one bullet, one enemy and adds one point. */
  lemma {:induction false} ApplyAllCounts<B, E>(a: Arena<B, E>, hs: seq<Hit>)
    ensures var r := ApplyAll(a, hs);
            0 <= r.score - a.score <= |hs|
            && |a.enemies| - |r.enemies| == r.score - a.score
            && |a.bullets| - |r.bullets| == r.score - a.score
    decreases |hs|
  {
    if |hs| > 0 {
      ApplyAllCounts(ApplyHit(a, hs[0]), hs[1..]);
    }
  }

  /** The enemy indices the hits name. */
  function EnemySet(hs: seq<Hit>): set<int> {
    set k | 0 <= k < |hs| :: hs[k].enemyIndex
  }

  /** Every hit can be applied: its enemy is in range and its bullet index
      stays in range after the bullets the earlier hits remove. */
  predicate AllApplicable<B, E>(a: Arena<B, E>, hs: seq<Hit>) {
    forall k :: 0 <= k < |hs| ==> hs[k].enemyIndex < |a.enemies| && hs[k].bulletIndex + k < |a.bullets|
  }

  /** Removing in strictly decreasing enemy order takes exactly the named
      enemies, whatever their positions. */
  lemma {:induction false} ApplyAllExact<B, E>(a: Arena<B, E>, hs: seq<Hit>)
    requires EnemiesDescending(hs) && AllApplicable(a, hs)
    ensures ApplyAll(a, hs).enemies == Without(a.enemies, EnemySet(hs))
    ensures ApplyAll(a, hs).score == a.score + |hs|
    decreases |hs|
  {
    if |hs| == 0 {
      assert EnemySet(hs) == {};
      WithoutNothing(a.enemies);
    } else {
      var i := hs[0].enemyIndex;
      var a1 := ApplyHit(a, hs[0]);
      var rest := hs[1..];
      assert a1.enemies == RemoveAt(a.enemies, i);
      assert AllApplicable(a1, rest) by {
        forall k | 0 <= k < |rest|
          ensures rest[k].enemyIndex < |a1.enemies| && rest[k].bulletIndex + k < |a1.bullets|
        {
          assert rest[k] == hs[k + 1];
        }
      }
      ApplyAllExact(a1, rest);
      EnemySetCons(hs);
      RemoveAtWithout(a.enemies, i, EnemySet(rest));
    }
  }

  /** The first hit's enemy and the rest's, all of which are lower. */
  lemma EnemySetCons(hs: seq<Hit>)
    requires |hs| > 0 && EnemiesDescending(hs)
    ensures EnemySet(hs) == EnemySet(hs[1..]) + {hs[0].enemyIndex}
    ensures forall d :: d in EnemySet(hs[1..]) ==> d < hs[0].enemyIndex
  {
    var rest := hs[1..];
    forall d | d in EnemySet(hs) ensures d in EnemySet(rest) + {hs[0].enemyIndex} {
      var k :| 0 <= k < |hs| && hs[k].enemyIndex == d;
      if k > 0 { assert rest[k - 1] == hs[k]; }
    }
    forall d | d in EnemySet(rest) ensures d in EnemySet(hs) && d < hs[0].enemyIndex {
      var k :| 0 <= k < |rest| && rest[k].enemyIndex == d;
      assert hs[k + 1] == rest[k];
    }
  }

  /** Hits with strictly decreasing enemy indices, as the detector
      reports them, remove exactly the enemies they name and score one
      point each, provided every bullet index is still in range when its
      hit comes up. */
  lemma ApplyExact<B, E>(a: Arena<B, E>, hits: seq<Hit>)
    requires EnemiesDescending(hits)
    requires AllApplicable(a, hits)
    ensures ApplyBulletEnemyHits(a, hits).enemies == Without(a.enemies, EnemySet(hits))
    ensures ApplyBulletEnemyHits(a, hits).score == a.score + |hits|
  {
    SortDetected(hits);
    ApplyAllExact(a, hits);
  }

  /** The last bullet may score the first hit: three bullets, two enemies,
      enemy 1 hit by bullet 2 and enemy 0 by bullet 1, lose both enemies. */
  lemma ApplyExactExample<B, E>(b0: B, b1: B, b2: B, e0: E, e1: E, score: int)
    ensures ApplyBulletEnemyHits(Arena([b0, b1, b2], [e0, e1], score), [Hit(1, 2), Hit(0, 1)])
            == Arena([b0], [], score + 2)
  {
    var hs := [Hit(1, 2), Hit(0, 1)];
    var a := Arena([b0, b1, b2], [e0, e1], score);
    SortDetected(hs);
    var a1 := ApplyHit(a, hs[0]);
    assert a1 == Arena([b0, b1], [e0], score + 1);
    assert ApplyHit(a1, hs[1]) == Arena([b0], [], score + 2);
    assert ApplyAll(a, hs) == ApplyAll(a1, [Hit(0, 1)]);
  }

  /** Bullets have no such guarantee: a bullet that overlaps two enemies
      is reported for both, and the second removal takes the bullet that
      has moved into its index, though that bullet touched nothing. */
  lemma BulletCollateral(b0: Box, b1: Box, e0: Box, e1: Box, score: int)
    requires RectsIntersect(b0, e0) && RectsIntersect(b0, e1)
    requires !RectsIntersect(b1, e0) && !RectsIntersect(b1, e1)
    ensures DetectBulletEnemyHits([b0, b1], [e0, e1]) == [Hit(1, 0), Hit(0, 0)]
    ensures ApplyBulletEnemyHits(Arena([b0, b1], [e0, e1], score), [Hit(1, 0), Hit(0, 0)])
            == Arena([], [], score + 2)
  {
    assert LastOverlap([b0, b1], e1, 2) == 0;
    assert LastOverlap([b0, b1], e0, 2) == 0;
    assert HitsBelow([b0, b1], [e0, e1], 1) == [Hit(0, 0)] + HitsBelow([b0, b1], [e0, e1], 0);
    var hs := [Hit(1, 0), Hit(0, 0)];
    SortDetected(hs);
    var a := Arena([b0, b1], [e0, e1], score);
    var a1 := ApplyHit(a, hs[0]);
    assert a1 == Arena([b1], [e0], score + 1);
    assert ApplyHit(a1, hs[1]) == Arena([], [], score + 2);
    assert ApplyAll(a, hs) == ApplyAll(a1, [Hit(0, 0)]);
  }

  // ---------------------------------------------------------------------
  // The player against enemies

  predicate Descending(xs: seq<nat>) {
    forall i, j :: 0 <= i < j < |xs| ==> xs[i] >= xs[j]
  }

  function InsertDesc(x: nat, xs: seq<nat>): (r: seq<nat>)
    requires Descending(xs)
    ensures Descending(r) && multiset(r) == multiset(xs) + multiset{x}
    ensures |r| > 0 && (r[0] == x || (|xs| > 0 && r[0] == xs[0]))
    decreases |xs|
  {
    if |xs| == 0 then [x]
    else if x >= xs[0] then DescCons(x, xs); [x] + xs
    else
      var t := InsertDesc(x, xs[1..]);
      assert |xs| > 1 ==> xs[0] >= xs[1];
      DescCons(xs[0], t);
      ConsMultiset(xs, t, x);
      [xs[0]] + t
  }

  /** A number at least the head of a descending list may go in front. */
  lemma DescCons(a: nat, t: seq<nat>)
    requires Descending(t) && (|t| == 0 || a >= t[0])
    ensures Descending([a] + t)
  {
    var r := [a] + t;
    forall i, j | 0 <= i < j < |r| ensures r[i] >= r[j] {
      if i == 0 && j > 1 {
        assert t[0] >= t[j - 1];
      }
    }
  }

  /** `[...enemyIndices].sort((a, b) => b - a)`. */
  function SortDesc(xs: seq<nat>): (r: seq<nat>)
    ensures Descending(r) && multiset(r) == multiset(xs)
    decreases |xs|
  {
    if |xs| == 0 then []
    else
      assert xs == [xs[0]] + xs[1..];
      InsertDesc(xs[0], SortDesc(xs[1..]))
  }

  /** The enemy list, the life counter and whether the game is over. */
  datatype Outcome<E> = Outcome(enemies: seq<E>, life: int, over: bool)

  /** The loop: skip an index out of range, otherwise remove that enemy
      and lose a life, and stop with `true` once life is at most 0. */
  function ApplyPlayerAll<E>(enemies: seq<E>, life: int, idx: seq<nat>): Outcome<E>
    decreases |idx|
  {
    if |idx| == 0 then Outcome(enemies, life, false)
    else if idx[0] >= |enemies| then ApplyPlayerAll(enemies, life, idx[1..])
    else if life - 1 <= 0 then Outcome(RemoveAt(enemies, idx[0]), life - 1, true)
    else ApplyPlayerAll(RemoveAt(enemies, idx[0]), life - 1, idx[1..])
  }

  /** `applyPlayerEnemyHits`, with the life counter passed in and out:
      enemies removed equal lives lost, and starting with a life left, the
      game is over exactly when life has reached 0 or less. */
  function ApplyPlayerEnemyHits<E>(enemies: seq<E>, life: int, indices: seq<nat>): (r: Outcome<E>)
    ensures 0 <= life - r.life <= |indices|
    ensures |enemies| - |r.enemies| == life - r.life
    ensures r.over ==> r.life <= 0
    ensures life > 0 ==> (r.over <==> r.life <= 0)
  {
    ApplyPlayerAllCounts(enemies, life, SortDesc(indices));
    assert |SortDesc(indices)| == |multiset(SortDesc(indices))| == |multiset(indices)| == |indices|;
    ApplyPlayerAll(enemies, life, SortDesc(indices))
  }

  /** One life per enemy removed, at most one per index; `true` only with
      life at most 0, and `false` after a removal only with life left. */
  lemma {:induction false} ApplyPlayerAllCounts<E>(enemies: seq<E>, life: int, idx: seq<nat>)
    ensures var r := ApplyPlayerAll(enemies, life, idx);
            0 <= life - r.life <= |idx|
            && |enemies| - |r.enemies| == life - r.life
            && (r.over ==> r.life <= 0)
            && (!r.over && r.life < life ==> r.life > 0)
    decreases |idx|
  {
    if |idx| > 0 {
      if idx[0] >= |enemies| {
        ApplyPlayerAllCounts(enemies, life, idx[1..]);
      } else if life - 1 > 0 {
        ApplyPlayerAllCounts(RemoveAt(enemies, idx[0]), life - 1, idx[1..]);
      }
    }
  }

  /** Once a removal brings life to 0 the loop returns at once, leaving the
      later indices alone. */
  lemma ApplyPlayerStops<E>(enemies: seq<E>, life: int, i: nat, rest: seq<nat>)
    requires i < |enemies| && life <= 1
    ensures ApplyPlayerAll(enemies, life, [i] + rest) == Outcome(RemoveAt(enemies, i), life - 1, true)
  {
    assert ([i] + rest)[0] == i;
  }
}

=== FILE: game_bullets.dfy ===
/** `bullets.js` of the game: the bullet list, spawning with defaults,
    moving and culling off the top of the screen. */
module GameBullets {
  import opened Wrappers
  import opened Cull
  import opened GameCollision

  datatype Bullet = Bullet(x: real, y: real, width: real, height: real, vx: real, vy: real)

  /** The box collision detection sees. */
  function BoxOf(b: Bullet): Box {
    Box(b.x, b.y, b.width, b.height)
  }

  /** The boxes of a bullet list, index for index. */
  function Boxes(bs: seq<Bullet>): (r: seq<Box>)
    ensures |r| == |bs| && forall i :: 0 <= i < |bs| ==> r[i] == BoxOf(bs[i])
  {
    seq(|bs|, i requires 0 <= i < |bs| => BoxOf(bs[i]))
  }

  /** The argument of `spawnBullet`; `None` is an omitted property. */
  datatype SpawnParams = SpawnParams(x: real, y: real, vx: Option<real>, vy: Option<real>, size: Option<real>)

  const DefaultVx: real := 0.0
  const DefaultVy: real := -5.0
  const DefaultSize: real := 10.0

  /** `spawnBullet`: exactly one bullet more, square, with the defaults
      filled in. */
  function SpawnBullet(bs: seq<Bullet>, p: SpawnParams): (r: seq<Bullet>)
    ensures |r| == |bs| + 1 && r[..|bs|] == bs
    ensures r[|bs|].width == r[|bs|].height
    ensures r[|bs|].x == p.x && r[|bs|].y == p.y
    ensures p.vx.None? ==> r[|bs|].vx == 0.0
    ensures p.vy.None? ==> r[|bs|].vy == -5.0
    ensures p.size.None? ==> r[|bs|].width == 10.0
  {
    var size := p.size.GetOr(DefaultSize);
    bs + [Bullet(p.x, p.y, size, size, p.vx.GetOr(DefaultVx), p.vy.GetOr(DefaultVy))]
  }

  /** `bullet.y += bullet.vy; bullet.x += bullet.vx`. */
  function Move(b: Bullet): Bullet {
    b.(x := b.x + b.vx, y := b.y + b.vy)
  }

  /** Off the top of the screen; leaving sideways does not count. */
  predicate Gone(b: Bullet) {
    b.y + b.height < 0.0
  }

  /** `updateBullets`. */
  method UpdateBullets(bs: seq<Bullet>) returns (out: seq<Bullet>)
    ensures out == Survivors(bs, Move, Gone)
    ensures forall k :: 0 <= k < |out| ==> out[k].y + out[k].height >= 0.0
  {
    out := CullLoop(bs, Move, Gone);
    SurvivorsSpec(bs, Move, Gone);
  }

  /** A bullet is removed exactly when its moved top edge plus height is
      above 0; one far off to the side is kept. */
  lemma UpdateOne(b: Bullet)
    ensures Move(b).y == b.y + b.vy && Move(b).x == b.x + b.vx
    ensures b.y + b.vy + b.height < 0.0 ==> Survivors([b], Move, Gone) == []
    ensures b.y + b.vy + b.height >= 0.0 ==> Survivors([b], Move, Gone) == [Move(b)]
  {
    assert [b][1..] == [];
  }

  /** `clearBullets`. */
  function ClearBullets(bs: seq<Bullet>): (r: seq<Bullet>)
    ensures |r| == 0
  {
    []
  }
}

=== FILE: game_collision.dfy ===
/** `collisionDetect.js`: which bullets and enemies overlap, and which enemy
    touches the player, reported by index; nothing is changed. */
module GameCollision {

  /** An axis-aligned box with its top-left corner at `x`, `y`. */
  datatype Box = Box(x: real, y: real, width: real, height: real)

  /** `rectsIntersect`: the boxes overlap with positive area. */
  predicate RectsIntersect(a: Box, b: Box) {
    a.x < b.x + b.width && a.x + a.width > b.x && a.y < b.y + b.height && a.y + a.height > b.y
  }

  /** Overlap does not depend on the order of the boxes, and boxes that
      only share an edge do not overlap. */
  lemma RectsIntersectSymmetric(a: Box, b: Box)
    ensures RectsIntersect(a, b) <==> RectsIntersect(b, a)
    ensures b.x == a.x + a.width ==> !RectsIntersect(a, b)
    ensures b.y == a.y + a.height ==> !RectsIntersect(a, b)
  {
  }

  /** `{ enemyIndex, bulletIndex }`. */
  datatype Hit = Hit(enemyIndex: nat, bulletIndex: nat)

  /** The inner loop: the highest bullet index below `n` that overlaps
      `enemy`, or -1. */
  function LastOverlap(bullets: seq<Box>, enemy: Box, n: nat): (r: int)
    requires n <= |bullets|
    ensures -1 <= r < n
    ensures r >= 0 ==> RectsIntersect(bullets[r], enemy)
    ensures forall j :: r < j < n ==> !RectsIntersect(bullets[j], enemy)
    decreases n
  {
    if n == 0 then -1
    else if RectsIntersect(bullets[n - 1], enemy) then n - 1
    else LastOverlap(bullets, enemy, n - 1)
  }

  /** The outer loop over the enemies `n - 1` down to `0`. */
  function HitsBelow(bullets: seq<Box>, enemies: seq<Box>, n: nat): seq<Hit>
    requires n <= |enemies|
    decreases n
  {
    if n == 0 then []
    else
      var b := LastOverlap(bullets, enemies[n - 1], |bullets|);
      (if b >= 0 then [Hit(n - 1, b)] else []) + HitsBelow(bullets, enemies, n - 1)
  }

  /** `detectBulletEnemyHits`. */
  function DetectBulletEnemyHits(bullets: seq<Box>, enemies: seq<Box>): seq<Hit> {
    HitsBelow(bullets, enemies, |enemies|)
  }

  /** Some bullet overlaps `enemy`. */
  ghost predicate HitBySome(bullets: seq<Box>, enemy: Box) {
    exists j :: 0 <= j < |bullets| && RectsIntersect(bullets[j], enemy)
  }

  /** A reported hit: both indices in range, the boxes overlap, and no
      bullet of higher index overlaps that enemy. */
  predicate ValidHit(bullets: seq<Box>, enemies: seq<Box>, h: Hit) {
    h.enemyIndex < |enemies| && h.bulletIndex < |bullets|
    && RectsIntersect(bullets[h.bulletIndex], enemies[h.enemyIndex])
    && forall j :: h.bulletIndex < j < |bullets| ==> !RectsIntersect(bullets[j], enemies[h.enemyIndex])
  }

  /** Some hit names enemy `e`. */
  ghost predicate Reported(hits: seq<Hit>, e: nat) {
    exists k :: 0 <= k < |hits| && hits[k].enemyIndex == e
  }

  /** Enemy indices strictly decrease along the hits. */
  predicate EnemiesDescending(hits: seq<Hit>) {
    forall i, j :: 0 <= i < j < |hits| ==> hits[i].enemyIndex > hits[j].enemyIndex
  }

  /** The hits for the enemies below `n` are valid and name only those
      enemies. */
  lemma {:induction false} HitsBelowValid(bullets: seq<Box>, enemies: seq<Box>, n: nat)
    requires n <= |enemies|
    ensures forall k :: 0 <= k < |HitsBelow(bullets, enemies, n)| ==>
              HitsBelow(bullets, enemies, n)[k].enemyIndex < n
              && ValidHit(bullets, enemies, HitsBelow(bullets, enemies, n)[k])
    decreases n
  {
    if n > 0 {
      HitsBelowValid(bullets, enemies, n - 1);
    }
  }

  lemma {:induction false} HitsBelowDescending(bullets: seq<Box>, enemies: seq<Box>, n: nat)
    requires n <= |enemies|
    ensures EnemiesDescending(HitsBelow(bullets, enemies, n))
    decreases n
  {
    if n > 0 {
      HitsBelowDescending(bullets, enemies, n - 1);
      HitsBelowValid(bullets, enemies, n - 1);
    }
  }

  /** An enemy below `n` is reported exactly when some bullet overlaps
      it. */
  lemma {:induction false} HitsBelowComplete(bullets: seq<Box>, enemies: seq<Box>, n: nat)
    requires n <= |enemies|
    ensures forall e :: 0 <= e < n ==>
              (HitBySome(bullets, enemies[e])
               <==> Reported(HitsBelow(bullets, enemies, n), e))
    decreases n
  {
    if n > 0 {
      HitsBelowComplete(bullets, enemies, n - 1);
      HitsBelowValid(bullets, enemies, n - 1);
      var b := LastOverlap(bullets, enemies[n - 1], |bullets|);
      var rest := HitsBelow(bullets, enemies, n - 1);
      var hs := HitsBelow(bullets, enemies, n);
      var first: seq<Hit> := if b >= 0 then [Hit(n - 1, b)] else [];
      assert hs == first + rest;
      assert HitBySome(bullets, enemies[n - 1]) <==> b >= 0;
      forall e | 0 <= e < n
        ensures HitBySome(bullets, enemies[e]) <==> Reported(hs, e)
      {
        if e < n - 1 {
          ShiftedHits(first, rest, e);
        } else if b >= 0 {
          assert hs[0].enemyIndex == e;
        } else {
          assert hs == rest;
          assert forall k :: 0 <= k < |hs| ==> hs[k].enemyIndex < e;
        }
      }
    }
  }

  /** An enemy other than the one `first` names is reported in
      `first + rest` exactly when it is reported in `rest`. */
  lemma ShiftedHits(first: seq<Hit>, rest: seq<Hit>, e: nat)
    requires forall k :: 0 <= k < |first| ==> first[k].enemyIndex != e
    ensures Reported(first + rest, e) <==> Reported(rest, e)
  {
    var hs := first + rest;
    if exists k :: 0 <= k < |hs| && hs[k].enemyIndex == e {
      var k :| 0 <= k < |hs| && hs[k].enemyIndex == e;
      assert hs[k] == rest[k - |first|];
    }
    if exists k :: 0 <= k < |rest| && rest[k].enemyIndex == e {
      var k :| 0 <= k < |rest| && rest[k].enemyIndex == e;
      assert hs[k + |first|] == rest[k];
    }
  }

  /** Every hit is in range and overlapping, each enemy overlapped by some
      bullet is reported exactly once, paired with the highest-index bullet
      that overlaps it, and the enemy indices strictly decrease. */
  lemma DetectBulletEnemyHitsSpec(bullets: seq<Box>, enemies: seq<Box>)
    ensures forall k :: 0 <= k < |DetectBulletEnemyHits(bullets, enemies)| ==>
              ValidHit(bullets, enemies, DetectBulletEnemyHits(bullets, enemies)[k])
    ensures EnemiesDescending(DetectBulletEnemyHits(bullets, enemies))
    ensures forall e :: 0 <= e < |enemies| ==>
              (HitBySome(bullets, enemies[e])
               <==> Reported(DetectBulletEnemyHits(bullets, enemies), e))
  {
    HitsBelowValid(bullets, enemies, |enemies|);
    HitsBelowDescending(bullets, enemies, |enemies|);
    HitsBelowComplete(bullets, enemies, |enemies|);
  }

  /** The `break` only ends the scan for one enemy: a bullet overlapping
      two enemies is reported for both. */
  lemma SharedBullet(b: Box, e0: Box, e1: Box)
    requires RectsIntersect(b, e0) && RectsIntersect(b, e1)
    ensures DetectBulletEnemyHits([b], [e0, e1]) == [Hit(1, 0), Hit(0, 0)]
  {
    assert LastOverlap([b], e1, 1) == 0;
    assert LastOverlap([b], e0, 1) == 0;
    assert HitsBelow([b], [e0, e1], 1) == [Hit(0, 0)] + HitsBelow([b], [e0, e1], 0);
  }

  /** The highest enemy index below `n` touching the player, or -1. */
  function LastTouching(player: Box, enemies: seq<Box>, n: nat): (r: int)
    requires n <= |enemies|
    ensures -1 <= r < n
    ensures r >= 0 ==> RectsIntersect(player, enemies[r])
    ensures forall j :: r < j < n ==> !RectsIntersect(player, enemies[j])
    decreases n
  {
    if n == 0 then -1
    else if RectsIntersect(player, enemies[n - 1]) then n - 1
    else LastTouching(player, enemies, n - 1)
  }

  /** `detectPlayerEnemyHits`: the enemy indices the player touches, which
      the `break` cuts to the highest one. */
  function DetectPlayerEnemyHits(player: Box, enemies: seq<Box>): (r: seq<nat>)
    ensures r == [] <==> forall j :: 0 <= j < |enemies| ==> !RectsIntersect(player, enemies[j])
    ensures r != [] ==> |r| == 1 && r[0] < |enemies| && RectsIntersect(player, enemies[r[0]])
                        && forall j :: r[0] < j < |enemies| ==> !RectsIntersect(player, enemies[j])
  {
    var i := LastTouching(player, enemies, |enemies|);
    if i >= 0 then [i] else []
  }
}

=== FILE: game_hud.dfy ===
/** `hud/score.js`: the score and life counters. Only the stored value is
    modelled; `render` writes it to the page and changes nothing. */
module GameHud {
  import opened Wrappers

  /** The stored `_value` of a `Score` or a `Life`. */
  datatype Counter = Counter(value: int)

  const DefaultLife: int := 3

  /** `new Score()`. */
  function NewScore(): (c: Counter)
    ensures c.value == 0
  {
    Counter(0)
  }

  /** `new Life({ initial })`, with `None` for an omitted option. */
  function NewLife(initial: Option<int>): (c: Counter)
    ensures initial.None? ==> c.value == 3
    ensures initial.Some? ==> c.value == initial.value
  {
    Counter(initial.GetOr(DefaultLife))
  }

  /** `set(v)` on either class. */
  function Set(c: Counter, v: int): (r: Counter)
    ensures r.value == v
  {
    Counter(v)
  }

  /** `add(delta = 1)` on either class. */
  function Add(c: Counter, delta: Option<int>): (r: Counter)
    ensures delta.None? ==> r.value == c.value + 1
    ensures delta.Some? ==> r.value - c.value == delta.value
  {
    Counter(c.value + delta.GetOr(1))
  }

  /** `Life.lose(delta = 1)`: no lower bound. */
  function Lose(c: Counter, delta: Option<int>): (r: Counter)
    ensures delta.None? ==> r.value == c.value - 1
    ensures delta.Some? ==> c.value - r.value == delta.value
  {
    Counter(c.value - delta.GetOr(1))
  }

  /** `Score.reset()`. */
  function ResetScore(c: Counter): (r: Counter)
    ensures r == NewScore()
  {
    Counter(0)
  }

  /** `Life.reset(value = 3)`. */
  function ResetLife(c: Counter, v: Option<int>): (r: Counter)
    ensures r == NewLife(v)
  {
    Counter(v.GetOr(DefaultLife))
  }

  /** Losing what was added gives back the counter, and the other way
      round. */
  lemma LoseUndoesAdd(c: Counter, delta: Option<int>)
    ensures Lose(Add(c, delta), delta) == c
    ensures Add(Lose(c, delta), delta) == c
  {
  }

  /** `n` calls of `add()` with no argument. */
  function AddTimes(c: Counter, n: nat): Counter
    decreases n
  {
    if n == 0 then c else AddTimes(Add(c, None), n - 1)
  }

  lemma {:induction false} AddTimesCounts(c: Counter, n: nat)
    ensures AddTimes(c, n).value == c.value + n
    ensures AddTimes(c, n) == Add(c, Some(n))
    decreases n
  {
    if n > 0 {
      AddTimesCounts(Add(c, None), n - 1);
    }
  }

  /** `n` calls of `lose()` with no argument. */
  function LoseTimes(c: Counter, n: nat): Counter
    decreases n
  {
    if n == 0 then c else LoseTimes(Lose(c, None), n - 1)
  }

  /** Lives keep falling below zero: nothing stops at 0. */
  lemma {:induction false} LoseTimesCounts(c: Counter, n: nat)
    ensures LoseTimes(c, n).value == c.value - n
    ensures c.value < n ==> LoseTimes(c, n).value < 0
    decreases n
  {
    if n > 0 {
      LoseTimesCounts(Lose(c, None), n - 1);
    }
  }
}

=== FILE: game_input.dfy ===
/** `input.js`: what one keydown does to the player and which callback it
    triggers. Listener registration is browser plumbing and not modelled. */
module GameInput {
  import opened Wrappers

  /** The two fields of a `KeyboardEvent` the handler reads. */
  datatype KeyEvent = KeyEvent(key: string, code: string)

  /** The callback a key press calls, if any. */
  datatype Action = NoAction | Shoot | Upgrade

  /** The options of `initInput`; `None` is an omitted option. */
  datatype InputOptions = InputOptions(moveStep: Option<real>, padding: Option<real>)

  const DefaultStep: real := 10.0
  const DefaultPadding: real := 10.0

  /** The new `player.x` and the callback to run. */
  datatype KeyResult = KeyResult(x: real, action: Action)

  predicate IsArrow(e: KeyEvent) {
    e.key == "ArrowLeft" || e.key == "ArrowRight"
  }

  /** `handleKeyDown`: an `else if` chain, so one branch at most. */
  function HandleKeyDown(e: KeyEvent, x: real, width: real, canvasWidth: real, opts: InputOptions): (r: KeyResult)
    ensures !IsArrow(e) ==> r.x == x
    ensures r.action.Shoot? <==> !IsArrow(e) && e.code == "Space"
    ensures r.action.Upgrade? <==> !IsArrow(e) && e.code != "Space" && (e.key == "u" || e.key == "U")
  {
    var step := opts.moveStep.GetOr(DefaultStep);
    var padding := opts.padding.GetOr(DefaultPadding);
    if e.key == "ArrowLeft" then
      KeyResult(if x > padding then x - step else x, NoAction)
    else if e.key == "ArrowRight" then
      KeyResult(if x < canvasWidth - width - padding then x + step else x, NoAction)
    else if e.code == "Space" then KeyResult(x, Shoot)
    else if e.key == "u" || e.key == "U" then KeyResult(x, Upgrade)
    else KeyResult(x, NoAction)
  }

  /** With the default step and padding an arrow moves by exactly 10 or
      not at all, and only while the guard holds. */
  lemma ArrowMoves(e: KeyEvent, x: real, width: real, canvasWidth: real)
    requires IsArrow(e)
    ensures var r := HandleKeyDown(e, x, width, canvasWidth, InputOptions(None, None));
            r.action == NoAction
            && (e.key == "ArrowLeft" ==> (r.x == x - 10.0 <==> x > 10.0) && (r.x == x <==> x <= 10.0))
            && (e.key == "ArrowRight" ==> (r.x == x + 10.0 <==> x < canvasWidth - width - 10.0)
                                          && (r.x == x <==> x >= canvasWidth - width - 10.0))
  {
  }

  /** The guard is checked before the step and nothing clamps afterwards:
      a left step from just inside the padding ends inside it. */
  lemma NoClamp(width: real, canvasWidth: real)
    ensures HandleKeyDown(KeyEvent("ArrowLeft", "ArrowLeft"), 11.0, width, canvasWidth, InputOptions(None, None)).x == 1.0
  {
  }

  /** Space is recognised by its code, so the key name does not matter;
      an arrow key name wins over a Space code. */
  lemma SpaceByCode(key: string, x: real, width: real, canvasWidth: real)
    requires key != "ArrowLeft" && key != "ArrowRight"
    ensures HandleKeyDown(KeyEvent(key, "Space"), x, width, canvasWidth, InputOptions(None, None)) == KeyResult(x, Shoot)
    ensures HandleKeyDown(KeyEvent("ArrowLeft", "Space"), 20.0, width, canvasWidth, InputOptions(None, None)) == KeyResult(10.0, NoAction)
  {
  }
}

=== FILE: game_main.dfy ===
/** `main.js` with `collision.js`: the start / playing / game-over machine
    of the game, one record-in / record-out transition per event. Enemy
    motion and spawning are random and arrive as the enemy list after the
    enemy update; the player's starting record comes from `player.js`, which
    is not part of this model, and arrives as a parameter. */
module GameMain {
  import opened Wrappers
  import opened SeqUtil
  import opened Cull
  import opened GameCollision
  import opened GameApply
  import opened GameBullets
  import opened GameWeapon
  import opened GameInput

  datatype Phase = Start | Playing | GameOver

  /** Everything the main loop reads and writes: the phase, the bullet and
      enemy lists, the score and life counters, the weapon level and the
      player's box. */
  datatype Game = Game(phase: Phase, bullets: seq<Bullet>, enemies: seq<Box>,
                       score: int, life: int, level: int, player: Box)

  const StartLife: int := 3

  /** The state when the page has loaded. */
  function Initial(player: Box): (g: Game)
    ensures g.phase == Start && g.life == StartLife && g.score == 0 && g.level == MinLevel
  {
    Game(Start, [], [], 0, StartLife, MinLevel, player)
  }

  /** `resetGame`: the phase is left alone. */
  function ResetGame(g: Game, spawn: Box): (r: Game)
    ensures r.phase == g.phase && r.bullets == [] && r.enemies == []
    ensures r.score == 0 && r.life == StartLife && r.level == MinLevel && r.player == spawn
  {
    g.(bullets := [], enemies := [], score := 0, life := StartLife,
       level := ResetWeapon(g.level), player := spawn)
  }

  /** `startGame`. */
  function StartGame(g: Game): (r: Game)
    ensures r.phase == Playing && r.(phase := g.phase) == g
  {
    g.(phase := Playing)
  }

  /** `restartGame`. */
  function RestartGame(g: Game, spawn: Box): (r: Game)
    ensures r == ResetGame(g, spawn).(phase := Playing)
  {
    StartGame(ResetGame(g, spawn))
  }

  /** `handleSpace`. */
  function HandleSpace(g: Game, spawn: Box): Game {
    match g.phase
    case Start => RestartGame(g, spawn)
    case GameOver => ResetGame(g, spawn).(phase := Start)
    case Playing =>
      g.(bullets := g.bullets + Volley(g.level, g.player.x, g.player.y, g.player.width))
  }

  /** `handleUpgrade`. */
  function HandleUpgrade(g: Game): Game {
    if g.phase == Playing then g.(level := UpgradeWeapon(g.level)) else g
  }

  /** Space leaves the start screen for a new game, leaves the game-over
      screen for the start screen, and during play only adds a volley. */
  lemma SpaceTransitions(g: Game, spawn: Box)
    ensures g.phase == Start ==> HandleSpace(g, spawn) == Initial(spawn).(phase := Playing)
    ensures g.phase == GameOver ==> HandleSpace(g, spawn) == Initial(spawn)
    ensures g.phase == Playing ==>
              HandleSpace(g, spawn).(bullets := g.bullets) == g
              && |HandleSpace(g, spawn).bullets| == |g.bullets| + |VxPattern(g.level)|
  {
  }

  /** The upgrade key only counts during play. */
  lemma UpgradeOnlyWhilePlaying(g: Game)
    ensures g.phase != Playing ==> HandleUpgrade(g) == g
    ensures g.phase == Playing && InRange(g.level) ==>
              HandleUpgrade(g).level == if g.level < MaxLevel then g.level + 1 else g.level
  {
    if g.phase == Playing && InRange(g.level) {
      UpgradeSteps(g.level);
    }
  }

  /** What `handleCollisions` changes. */
  datatype Collision = Collision(bullets: seq<Bullet>, enemies: seq<Box>, score: int, life: int, over: bool)

  /** `handleCollisions`: detect and remove bullet-enemy hits, then detect
      and apply the player's hit. One point per bullet spent, one life per
      enemy that reached the player (at most one), every removed enemy paid
      for by one of the two, and starting alive the game is over exactly
      when life is gone. */
  function HandleCollisions(bullets: seq<Bullet>, enemies: seq<Box>, player: Box, score: int, life: int): (c: Collision)
    ensures c.score - score == |bullets| - |c.bullets| >= 0
    ensures 0 <= life - c.life <= 1
    ensures |enemies| - |c.enemies| == (c.score - score) + (life - c.life)
    ensures c.over ==> c.life <= 0
    ensures life > 0 ==> (c.over <==> c.life <= 0)
  {
    var hits := DetectBulletEnemyHits(Boxes(bullets), enemies);
    var a := ApplyBulletEnemyHits(Arena(bullets, enemies, score), hits);
    var touched := DetectPlayerEnemyHits(player, a.enemies);
    var o := ApplyPlayerEnemyHits(a.enemies, life, touched);
    Collision(a.bullets, o.enemies, a.score, o.life, o.over)
  }

  /** `update`: outside play nothing but the HUD is touched; during play
      bullets move, the enemies take their new positions, collisions are
      handled and a reported game over switches the phase. A frame of
      play never lowers the score, costs at most one life, and ends the
      game exactly when life runs out. */
  function Update(g: Game, enemiesAfter: seq<Box>): (r: Game)
    ensures g.phase != Playing ==> r == g
    ensures g.phase == Playing && g.life > 0 ==>
              r.score >= g.score && g.life - 1 <= r.life <= g.life
              && (r.phase == GameOver <==> r.life <= 0)
              && r.level == g.level && r.player == g.player
  {
    if g.phase != Playing then g
    else
      var c := HandleCollisions(Survivors(g.bullets, Move, Gone), enemiesAfter, g.player, g.score, g.life);
      g.(bullets := c.bullets, enemies := c.enemies, score := c.score, life := c.life,
         phase := if c.over then GameOver else Playing)
  }

  // ---------------------------------------------------------------------
  // Whole runs

  /** A keydown or an animation frame. */
  datatype Event = Key(e: KeyEvent) | Frame(enemiesAfter: seq<Box>)

  /** The keydown handler wired to `handleSpace` and `handleUpgrade` with
      the default step and padding, and `update` for a frame. */
  function Step(g: Game, ev: Event, spawn: Box, canvasWidth: real): Game {
    match ev
    case Frame(es) => Update(g, es)
    case Key(e) =>
      var k := HandleKeyDown(e, g.player.x, g.player.width, canvasWidth, InputOptions(None, None));
      var moved := g.(player := g.player.(x := k.x));
      match k.action
      case Shoot => HandleSpace(moved, spawn)
      case Upgrade => HandleUpgrade(moved)
      case NoAction => moved
  }

  function Run(g: Game, evs: seq<Event>, spawn: Box, canvasWidth: real): Game
    decreases |evs|
  {
    if |evs| == 0 then g else Run(Step(g, evs[0], spawn, canvasWidth), evs[1..], spawn, canvasWidth)
  }

  /** The weapon level is in range, the start screen always shows a new
      game, play goes on only with life left, and the game-over screen is
      reached only with none. */
  predicate Consistent(g: Game) {
    InRange(g.level)
    && (g.phase == Start ==> g.bullets == [] && g.enemies == [] && g.score == 0
                             && g.life == StartLife && g.level == MinLevel)
    && (g.phase == Playing ==> g.life > 0)
    && (g.phase == GameOver ==> g.life <= 0)
  }

  lemma StepConsistent(g: Game, ev: Event, spawn: Box, canvasWidth: real)
    requires Consistent(g)
    ensures Consistent(Step(g, ev, spawn, canvasWidth))
  {
    match ev
    case Frame(es) =>
    case Key(e) =>
      var k := HandleKeyDown(e, g.player.x, g.player.width, canvasWidth, InputOptions(None, None));
      var moved := g.(player := g.player.(x := k.x));
      assert Consistent(moved);
      match k.action
      case Shoot => SpaceConsistent(moved, spawn);
      case Upgrade => UpgradeConsistent(moved);
      case NoAction =>
  }

  lemma SpaceConsistent(g: Game, spawn: Box)
    requires Consistent(g)
    ensures Consistent(HandleSpace(g, spawn))
  {
  }

  lemma UpgradeConsistent(g: Game)
    requires Consistent(g)
    ensures Consistent(HandleUpgrade(g))
  {
  }

  lemma {:induction false} RunConsistent(g: Game, evs: seq<Event>, spawn: Box, canvasWidth: real)
    requires Consistent(g)
    ensures Consistent(Run(g, evs, spawn, canvasWidth))
    decreases |evs|
  {
    if |evs| > 0 {
      StepConsistent(g, evs[0], spawn, canvasWidth);
      RunConsistent(Step(g, evs[0], spawn, canvasWidth), evs[1..], spawn, canvasWidth);
    }
  }

  /** Every run from page load stays consistent. */
  lemma FromLoad(player: Box, evs: seq<Event>, spawn: Box, canvasWidth: real)
    ensures Consistent(Run(Initial(player), evs, spawn, canvasWidth))
  {
    RunConsistent(Initial(player), evs, spawn, canvasWidth);
  }
}

=== FILE: game_weapon.dfy ===
/** `shooting.js`: the weapon level, its spread patterns and a volley. */
module GameWeapon {
  import opened Wrappers
  import opened GameBullets

  /** `Number(level)`: a finite number or one of NaN and the infinities. */
  datatype Num = Finite(value: real) | NotFinite

  const MinLevel: int := 1
  const MaxLevel: int := 5
  const BulletSpeed: real := -5.0
  const BulletSize: real := 10.0

  predicate InRange(level: int) {
    MinLevel <= level <= MaxLevel
  }

  /** `setWeaponLevel`: a non-finite argument leaves `current` as it is;
      otherwise the floor, clamped into `1..5`. */
  function SetWeaponLevel(current: int, next: Num): (r: int)
    ensures next.NotFinite? ==> r == current
    ensures next.Finite? ==> InRange(r)
    ensures next.Finite? && InRange(next.value.Floor) ==> r == next.value.Floor
    ensures next.Finite? && next.value.Floor < MinLevel ==> r == MinLevel
    ensures next.Finite? && next.value.Floor > MaxLevel ==> r == MaxLevel
  {
    match next
    case NotFinite => current
    case Finite(v) =>
      var f := v.Floor;
      if f < MinLevel then MinLevel else if f > MaxLevel then MaxLevel else f
  }

  /** `upgradeWeapon`. */
  function UpgradeWeapon(level: int): (r: int)
    ensures InRange(r)
  {
    SetWeaponLevel(level, Finite((level + 1) as real))
  }

  /** `resetWeapon`. */
  function ResetWeapon(level: int): (r: int)
    ensures r == MinLevel
  {
    SetWeaponLevel(level, Finite(MinLevel as real))
  }

  /** Upgrading climbs by one below the top level and then stays there. */
  lemma UpgradeSteps(level: int)
    requires InRange(level)
    ensures level < MaxLevel ==> UpgradeWeapon(level) == level + 1
    ensures level == MaxLevel ==> UpgradeWeapon(level) == level
  {
    assert ((level + 1) as real).Floor == level + 1;
  }

  /** Starting from level 1, every sequence of set, upgrade and reset
      keeps the level in `1..5`. */
  datatype WeaponOp = Set(arg: Num) | Upgrade | Reset

  function Apply(level: int, op: WeaponOp): int {
    match op
    case Set(n) => SetWeaponLevel(level, n)
    case Upgrade => UpgradeWeapon(level)
    case Reset => ResetWeapon(level)
  }

  function Replay(level: int, ops: seq<WeaponOp>): int
    decreases |ops|
  {
    if |ops| == 0 then level else Replay(Apply(level, ops[0]), ops[1..])
  }

  lemma {:induction false} LevelStaysInRange(level: int, ops: seq<WeaponOp>)
    requires InRange(level)
    ensures InRange(Replay(level, ops))
    decreases |ops|
  {
    if |ops| > 0 {
      LevelStaysInRange(Apply(level, ops[0]), ops[1..]);
    }
  }

  /** `getVxPattern`: the horizontal speeds of one volley. */
  function VxPattern(level: int): seq<int> {
    if level == 1 then [0]
    else if level == 2 then [-1, 1]
    else if level == 3 then [-1, 0, 1]
    else if level == 4 then [-2, -1, 1, 2]
    else [-2, -1, 0, 1, 2]
  }

  predicate Ascending(p: seq<int>) {
    forall i, j :: 0 <= i < j < |p| ==> p[i] < p[j]
  }

  predicate Symmetric(p: seq<int>) {
    forall i :: 0 <= i < |p| ==> p[i] == -p[|p| - 1 - i]
  }

  /** For the levels `1..5` the pattern has one bullet per level, spreads
      out evenly on both sides, and flies straight up with one bullet
      exactly when the level is odd; any other level gets the widest
      pattern. */
  lemma PatternShape(level: int)
    ensures InRange(level) ==> |VxPattern(level)| == level
    ensures Ascending(VxPattern(level)) && Symmetric(VxPattern(level))
    ensures InRange(level) ==> (0 in VxPattern(level) <==> level % 2 == 1)
    ensures !InRange(level) ==> VxPattern(level) == VxPattern(MaxLevel)
  {
  }

  /** The point every bullet of a volley starts at. */
  function VolleyX(px: real, pw: real): real {
    px + pw / 2.0 - BulletSize / 2.0
  }

  /** The bullets of one volley, as a list. */
  function Volley(level: int, px: real, py: real, pw: real): (v: seq<Bullet>)
    ensures |v| == |VxPattern(level)|
  {
    var p := VxPattern(level);
    seq(|p|, i requires 0 <= i < |p| => Bullet(VolleyX(px, pw), py, BulletSize, BulletSize, p[i] as real, BulletSpeed))
  }

  /** `tryShoot`: one bullet per entry of the pattern, all from the same
      point, in pattern order. */
  method TryShoot(bs: seq<Bullet>, level: int, px: real, py: real, pw: real) returns (out: seq<Bullet>)
    ensures out == bs + Volley(level, px, py, pw)
    ensures |out| == |bs| + |VxPattern(level)|
    ensures out[..|bs|] == bs
    ensures forall i :: 0 <= i < |VxPattern(level)| ==>
              out[|bs| + i] == Bullet(VolleyX(px, pw), py, BulletSize, BulletSize,
                                      VxPattern(level)[i] as real, BulletSpeed)
  {
    var vxs := VxPattern(level);
    var baseX := VolleyX(px, pw);
    out := bs;
    var i := 0;
    while i < |vxs|
      invariant 0 <= i <= |vxs|
      invariant |out| == |bs| + i
      invariant out[..|bs|] == bs
      invariant forall k :: 0 <= k < i ==>
                  out[|bs| + k] == Bullet(baseX, py, BulletSize, BulletSize, vxs[k] as real, BulletSpeed)
    {
      out := SpawnBullet(out, SpawnParams(baseX, py, Some(vxs[i] as real), Some(BulletSpeed), Some(BulletSize)));
      i := i + 1;
    }
  }
}

=== FILE: guide_markdown.dfy ===
/** `renderGuideMarkdown`: the small Markdown subset of the step guides,
    rendered line by line with two flags, one for an open list and one for
    an open code fence. The output is modelled as a sequence of blocks, each
    with its fixed HTML. */
module GuideMarkdown {
  import opened Wrappers
  import opened Strings
  import opened LineDiff
  import opened HtmlEscape
  import opened ModuleCodec

  // ---------------------------------------------------------------------
  // Inline code

  /** The index of the first backtick at or after `from`, or -1. */
  function NextTick(s: string, from: nat): (r: int)
    ensures r == -1 || (from <= r < |s| && s[r] == '`')
    ensures forall j :: from <= j < (if r == -1 then |s| else r) ==> s[j] != '`'
    decreases |s| - from
  {
    if from >= |s| then -1
    else if s[from] == '`' then from
    else NextTick(s, from + 1)
  }

  /** `.replace(/`([^`]+)`/g, "<code>$1</code>")`: left to right, a backtick
      followed by at least one other character and a closing backtick
      becomes a code span; a backtick without such a partner stays. */
  function InlineCode(s: string): string
    decreases |s|
  {
    if |s| == 0 then ""
    else if s[0] != '`' then [s[0]] + InlineCode(s[1..])
    else
      var j := NextTick(s, 1);
      if j == -1 then s
      else if j == 1 then "`" + InlineCode(s[1..])
      else "<code>" + s[1..j] + "</code>" + InlineCode(s[j + 1..])
  }

  /** `renderInlineMd(text)`. */
  function InlineMd(text: string): string {
    InlineCode(EscapeHtml(text))
  }

  /** Turns both code tags back into backticks. */
  function Untag(r: string): string
    decreases |r|
  {
    if |r| == 0 then ""
    else if |r| >= 6 && r[..6] == "<code>" then "`" + Untag(r[6..])
    else if |r| >= 7 && r[..7] == "</code>" then "`" + Untag(r[7..])
    else [r[0]] + Untag(r[1..])
  }

  /** Text without `<` goes through `Untag` unchanged. */
  lemma {:induction false} UntagPlain(x: string, y: string)
    requires '<' !in x
    ensures Untag(x + y) == x + Untag(y)
    decreases |x|
  {
    if |x| > 0 {
      var s := x + y;
      assert s[0] == x[0] != '<';
      assert |s| >= 6 ==> s[..6][0] != '<';
      assert |s| >= 7 ==> s[..7][0] != '<';
      assert s[1..] == x[1..] + y;
      UntagPlain(x[1..], y);
    } else {
      assert x + y == y;
    }
  }

  /** The code spans are the only tags `InlineCode` writes: on text without
      `<`, turning them back into backticks gives the text back. */
  lemma {:induction false} UntagInlineCode(s: string)
    requires '<' !in s
    ensures Untag(InlineCode(s)) == s
    decreases |s|
  {
    if |s| > 0 {
      if s[0] != '`' {
        UntagInlineCode(s[1..]);
        PlainCase(s);
      } else {
        var j := NextTick(s, 1);
        if j == -1 {
          UnclosedCase(s);
        } else if j == 1 {
          UntagInlineCode(s[1..]);
          DoubleTickCase(s);
        } else {
          UntagInlineCode(s[j + 1..]);
          SpanCase(s, j);
        }
      }
    }
  }

  lemma PlainCase(s: string)
    requires |s| > 0 && s[0] != '`' && '<' !in s && Untag(InlineCode(s[1..])) == s[1..]
    ensures Untag(InlineCode(s)) == s
  {
    UntagPlain([s[0]], InlineCode(s[1..]));
  }

  lemma UnclosedCase(s: string)
    requires |s| > 0 && s[0] == '`' && '<' !in s && NextTick(s, 1) == -1
    ensures Untag(InlineCode(s)) == s
  {
    UntagPlain(s, "");
    assert s + "" == s;
  }

  lemma DoubleTickCase(s: string)
    requires |s| > 1 && s[0] == '`' && s[1] == '`' && Untag(InlineCode(s[1..])) == s[1..]
    ensures Untag(InlineCode(s)) == s
  {
    UntagPlain("`", InlineCode(s[1..]));
  }

  lemma SpanCase(s: string, j: int)
    requires |s| > 0 && s[0] == '`' && '<' !in s && NextTick(s, 1) == j && j > 1
    requires Untag(InlineCode(s[j + 1..])) == s[j + 1..]
    ensures Untag(InlineCode(s)) == s
  {
    InlineCodeSpan(s, j);
    TickSplit(s, j);
    UntagSpan(s[1..j], InlineCode(s[j + 1..]));
  }

  /** The text around a span: its ticks, the code between them and what
      follows. */
  lemma TickSplit(s: string, j: int)
    requires |s| > 0 && s[0] == '`' && '<' !in s && NextTick(s, 1) == j && j > 1
    ensures '<' !in s[1..j]
    ensures s == "`" + (s[1..j] + ("`" + s[j + 1..]))
  {
    assert '<' !in s[1..j] by {
      forall k | 0 <= k < j - 1 ensures s[1..j][k] != '<' {
        assert s[1..j][k] == s[k + 1];
      }
    }
    assert s == "`" + (s[1..j] + ("`" + s[j + 1..])) by {
      assert s[j] == '`';
    }
  }

  /** A closed span is rendered as one code element. */
  lemma InlineCodeSpan(s: string, j: int)
    requires |s| > 0 && s[0] == '`' && NextTick(s, 1) == j && j > 1
    ensures InlineCode(s) == "<code>" + (s[1..j] + ("</code>" + InlineCode(s[j + 1..])))
  {
  }

  /** Both tags of a span turn back into backticks. */
  lemma UntagSpan(mid: string, rest: string)
    requires '<' !in mid
    ensures Untag("<code>" + (mid + ("</code>" + rest))) == "`" + (mid + ("`" + Untag(rest)))
  {
    UntagOpen(mid + ("</code>" + rest));
    UntagPlain(mid, "</code>" + rest);
    UntagClose(rest);
  }

  lemma UntagOpen(y: string)
    ensures Untag("<code>" + y) == "`" + Untag(y)
  {
    assert ("<code>" + y)[..6] == "<code>";
    assert ("<code>" + y)[6..] == y;
  }

  lemma UntagClose(y: string)
    ensures Untag("</code>" + y) == "`" + Untag(y)
  {
    var s := "</code>" + y;
    assert s[..7] == "</code>";
    assert s[7..] == y;
    assert |s| >= 6 ==> s[..6] != "<code>" by {
      assert |s| >= 6 ==> s[..6][1] == '/';
    }
  }

  /** Inline rendering loses nothing: turning the code tags back into
      backticks and decoding the entities gives the guide text back. */
  lemma InlineMdDecodes(text: string)
    ensures UnescapeHtml(Untag(InlineMd(text))) == text
  {
    UntagInlineCode(EscapeHtml(text));
  }

  // ---------------------------------------------------------------------
  // Line patterns

  /** The end of the run of `#` starting at `i`. */
  function SkipHash(s: string, i: nat): (r: nat)
    requires i <= |s|
    ensures i <= r <= |s|
    ensures forall j :: i <= j < r ==> s[j] == '#'
    ensures r < |s| ==> s[r] != '#'
    decreases |s| - i
  {
    if i < |s| && s[i] == '#' then SkipHash(s, i + 1) else i
  }

  /** The characters `.` does not match: the line terminators of
      ECMAScript. `\n` and `\r` are gone after line splitting; these two
      remain. */
  predicate IsLineTerminator(c: char) {
    c == '\n' || c == '\r' || c == '\U{2028}' || c == '\U{2029}'
  }

  /** `(.*)$` matches the rest of the line. */
  predicate NoTerminator(s: string) {
    forall i :: 0 <= i < |s| ==> !IsLineTerminator(s[i])
  }

  /** `/^(#{1,3})\s+(.*)$/` on one line: one to three `#`, white space, and
      the captured text after all of that white space. */
  function HeadingText(line: string): (r: Option<string>)
    ensures r.Some? ==> NoTerminator(r.value) && (|r.value| == 0 || !IsSpace(r.value[0]))
  {
    var h := SkipHash(line, 0);
    var p := SkipSpace(line, h);
    if 1 <= h <= 3 && p > h && NoTerminator(line[p..]) then Some(line[p..]) else None
  }

  /** `/^\s*-\s+(.*)$/` on one line: white space, `-`, white space, and the
      captured text after all of that white space. */
  function ItemText(line: string): (r: Option<string>)
    ensures r.Some? ==> NoTerminator(r.value) && (|r.value| == 0 || !IsSpace(r.value[0]))
  {
    var d := SkipSpace(line, 0);
    if d < |line| && line[d] == '-' then
      var p := SkipSpace(line, d + 1);
      if p > d + 1 && NoTerminator(line[p..]) then Some(line[p..]) else None
    else None
  }

  /** `line.trim().startsWith("```")`. */
  predicate IsFence(line: string) {
    var t := Trim(line);
    |t| >= 3 && t[..3] == "```"
  }

  // ---------------------------------------------------------------------
  // The state machine

  /** One piece of output: an `<h3>`, the list tags and items, a paragraph
      or a code block. */
  datatype Block = Heading(text: string) | ListOpen | Item(text: string) | ListClose
                 | Para(text: string) | Code(code: string)

  /** The fixed HTML of each block. */
  function BlockHtml(b: Block): string {
    match b
    case Heading(t) => "<h3>" + InlineMd(t) + "</h3>"
    case ListOpen => "<ul>"
    case Item(t) => "<li>" + InlineMd(t) + "</li>"
    case ListClose => "</ul>"
    case Para(t) => "<p>" + InlineMd(t) + "</p>"
    case Code(c) => "<pre><code>" + EscapeHtml(c) + "</code></pre>"
  }

  function Html(bs: seq<Block>): string
    decreases |bs|
  {
    if |bs| == 0 then "" else BlockHtml(bs[0]) + Html(bs[1..])
  }

  datatype Machine = Machine(out: seq<Block>, inList: bool, inCode: bool, codeBuf: seq<string>)

  const Start: Machine := Machine([], false, false, [])

  /** `closeList()`. */
  function CloseList(m: Machine): Machine {
    if m.inList then m.(out := m.out + [ListClose], inList := false) else m
  }

  /** `flushCode()`. */
  function FlushCode(m: Machine): Machine {
    if m.inCode then m.(out := m.out + [Code(Join(m.codeBuf, "\n"))], codeBuf := [], inCode := false)
    else m
  }

  /** One pass of the loop over the lines. */
  function Step(m: Machine, line: string): Machine {
    if IsFence(line) then
      var c := CloseList(m);
      if c.inCode then FlushCode(c) else c.(inCode := true, codeBuf := [])
    else if m.inCode then m.(codeBuf := m.codeBuf + [line])
    else if HeadingText(line).Some? then
      var c := CloseList(m);
      c.(out := c.out + [Heading(HeadingText(line).value)])
    else if ItemText(line).Some? then
      var o := if m.inList then m else m.(out := m.out + [ListOpen], inList := true);
      o.(out := o.out + [Item(ItemText(line).value)])
    else if Trim(line) == "" then CloseList(m)
    else
      var c := CloseList(m);
      c.(out := c.out + [Para(line)])
  }

  function Run(m: Machine, lines: seq<string>): Machine
    decreases |lines|
  {
    if |lines| == 0 then m else Run(Step(m, lines[0]), lines[1..])
  }

  /** The final `closeList(); flushCode();`. */
  function Finish(m: Machine): seq<Block> {
    FlushCode(CloseList(m)).out
  }

  /** The blocks of a guide. Every `<ul>` is closed: the blocks leave no
      list open, and items stand only inside a list. */
  function GuideBlocks(mdText: string): (bs: seq<Block>)
    ensures ListState(bs) == Some(false)
  {
    var m := Run(Start, SplitLines(mdText));
    RunValid(Start, SplitLines(mdText));
    CloseListValid(m);
    FlushCodeValid(CloseList(m));
    Finish(m)
  }

  /** `renderGuideMarkdown(mdText)`. */
  function RenderGuide(mdText: string): string {
    Html(GuideBlocks(mdText))
  }

  // ---------------------------------------------------------------------
  // Lists are balanced

  /** Reading the blocks in order: whether a list is open at the end, or
      `None` if a list tag or item stands where it cannot. Headings,
      paragraphs and code stand only outside a list. */
  function ListState(bs: seq<Block>): Option<bool>
    decreases |bs|
  {
    if |bs| == 0 then Some(false)
    else
      match ListState(bs[..|bs| - 1])
      case None => None
      case Some(open) =>
        match bs[|bs| - 1]
        case ListOpen => if open then None else Some(true)
        case Item(_) => if open then Some(true) else None
        case ListClose => if open then Some(false) else None
        case _ => if open then None else Some(false)
  }

  lemma ListStateAppend(bs: seq<Block>, b: Block)
    ensures ListState(bs + [b]) == match ListState(bs)
                                   case None => None
                                   case Some(open) =>
                                     match b
                                     case ListOpen => if open then None else Some(true)
                                     case Item(_) => if open then Some(true) else None
                                     case ListClose => if open then Some(false) else None
                                     case _ => if open then None else Some(false)
  {
    assert (bs + [b])[..|bs + [b]| - 1] == bs;
  }

  /** What the loop keeps true: the list flag says whether the blocks so
      far leave a list open, and the code buffer is empty outside a fence. */
  predicate Valid(m: Machine) {
    ListState(m.out) == Some(m.inList) && (m.inCode ==> !m.inList) && (!m.inCode ==> m.codeBuf == [])
  }

  lemma CloseListValid(m: Machine)
    requires Valid(m)
    ensures Valid(CloseList(m)) && !CloseList(m).inList
    ensures CloseList(m).inCode == m.inCode && CloseList(m).codeBuf == m.codeBuf
  {
    if m.inList {
      ListStateAppend(m.out, ListClose);
    }
  }

  lemma FlushCodeValid(m: Machine)
    requires Valid(m) && !m.inList
    ensures Valid(FlushCode(m)) && !FlushCode(m).inList && !FlushCode(m).inCode
  {
    if m.inCode {
      ListStateAppend(m.out, Code(Join(m.codeBuf, "\n")));
    }
  }

  lemma StepValid(m: Machine, line: string)
    requires Valid(m)
    ensures Valid(Step(m, line))
  {
    if IsFence(line) {
      CloseListValid(m);
      FlushCodeValid(CloseList(m));
    } else if m.inCode {
    } else if HeadingText(line).Some? {
      CloseListValid(m);
      ListStateAppend(CloseList(m).out, Heading(HeadingText(line).value));
    } else if ItemText(line).Some? {
      if !m.inList {
        ListStateAppend(m.out, ListOpen);
        ListStateAppend(m.out + [ListOpen], Item(ItemText(line).value));
      } else {
        ListStateAppend(m.out, Item(ItemText(line).value));
      }
    } else if Trim(line) == "" {
      CloseListValid(m);
    } else {
      CloseListValid(m);
      ListStateAppend(CloseList(m).out, Para(line));
    }
  }

  lemma {:induction false} RunValid(m: Machine, lines: seq<string>)
    requires Valid(m)
    ensures Valid(Run(m, lines))
    decreases |lines|
  {
    if |lines| > 0 {
      StepValid(m, lines[0]);
      RunValid(Step(m, lines[0]), lines[1..]);
    }
  }

  // ---------------------------------------------------------------------
  // Fences

  /** Inside a fence, lines that are not fences go into the code buffer as
      they are: none becomes a heading, an item or a paragraph. */
  lemma {:induction false} FenceBody(out: seq<Block>, buf: seq<string>, body: seq<string>)
    requires NoFence(body)
    ensures Run(Machine(out, false, true, buf), body) == Machine(out, false, true, buf + body)
    decreases |body|
  {
    if |body| > 0 {
      CodeLineRun(out, buf, body);
      FenceBody(out, buf + [body[0]], body[1..]);
      ConsTail(buf, body);
    } else {
      assert buf + body == buf;
    }
  }

  lemma ConsTail(buf: seq<string>, body: seq<string>)
    requires |body| > 0
    ensures (buf + [body[0]]) + body[1..] == buf + body
  {
    assert body == [body[0]] + body[1..];
  }

  /** No line of `body` is a fence. */
  predicate NoFence(body: seq<string>)
    decreases |body|
  {
    |body| == 0 || (!IsFence(body[0]) && NoFence(body[1..]))
  }

  lemma {:induction false} NoFenceAll(body: seq<string>)
    requires forall i :: 0 <= i < |body| ==> !IsFence(body[i])
    ensures NoFence(body)
    decreases |body|
  {
    if |body| > 0 {
      NoFenceAll(body[1..]);
    }
  }

  lemma CodeLineRun(out: seq<Block>, buf: seq<string>, body: seq<string>)
    requires |body| > 0 && !IsFence(body[0])
    ensures Run(Machine(out, false, true, buf), body) == Run(Machine(out, false, true, buf + [body[0]]), body[1..])
  {
    CodeLine(out, buf, body[0]);
  }

  lemma CodeLine(out: seq<Block>, buf: seq<string>, line: string)
    requires !IsFence(line)
    ensures Step(Machine(out, false, true, buf), line) == Machine(out, false, true, buf + [line])
  {
  }

  lemma RunAppend(m: Machine, xs: seq<string>, ys: seq<string>)
    ensures Run(m, xs + ys) == Run(Run(m, xs), ys)
    decreases |xs|
  {
    if |xs| > 0 {
      assert (xs + ys)[1..] == xs[1..] + ys;
      RunAppend(Step(m, xs[0]), xs[1..], ys);
    } else {
      assert xs + ys == ys;
    }
  }

  /** A fenced block renders as one code block holding its lines joined by
      line breaks, after closing any open list. */
  lemma FencedBlock(m: Machine, open: string, body: seq<string>, close: string)
    requires Valid(m) && !m.inCode && IsFence(open) && IsFence(close)
    requires forall i :: 0 <= i < |body| ==> !IsFence(body[i])
    ensures Run(m, [open] + body + [close])
            == Machine(CloseList(m).out + [Code(Join(body, "\n"))], false, false, [])
  {
    var c := CloseList(m);
    CloseListValid(m);
    var m1 := Step(m, open);
    assert m1 == Machine(c.out, false, true, []);
    NoFenceAll(body);
    FenceBody(c.out, [], body);
    RunAppend(m, [open], body);
    RunAppend(m, [open] + body, [close]);
    assert [] + body == body;
  }

  /** A fence left open at the end is still flushed as a code block. */
  lemma UnclosedFence(m: Machine, open: string, body: seq<string>)
    requires Valid(m) && !m.inCode && IsFence(open)
    requires forall i :: 0 <= i < |body| ==> !IsFence(body[i])
    ensures Finish(Run(m, [open] + body)) == CloseList(m).out + [Code(Join(body, "\n"))]
  {
    var c := CloseList(m);
    CloseListValid(m);
    var m1 := Step(m, open);
    assert m1 == Machine(c.out, false, true, []);
    NoFenceAll(body);
    FenceBody(c.out, [], body);
    RunAppend(m, [open], body);
    assert [] + body == body;
  }

  // ---------------------------------------------------------------------
  // Headings

  /** `#`, `##` and `###` followed by white space make the same heading,
      and four `#` do not. */
  lemma HeadingLevels(hashes: string, space: char, text: string)
    requires forall i :: 0 <= i < |hashes| ==> hashes[i] == '#'
    requires IsSpace(space) && NoTerminator(text) && (|text| == 0 || !IsSpace(text[0]))
    ensures 1 <= |hashes| <= 3 ==> HeadingText(hashes + [space] + text) == Some(text)
    ensures |hashes| >= 4 ==> HeadingText(hashes + [space] + text) == None
  {
    var line := hashes + [space] + text;
    var h := |hashes|;
    assert line[h] == space;
    assert SkipHash(line, 0) == h by {
      assert forall j :: 0 <= j < h ==> line[j] == '#';
    }
    assert SkipSpace(line, h + 1) == h + 1 by {
      if |text| > 0 { assert line[h + 1] == text[0]; }
    }
    assert line[h + 1..] == text;
  }

  // ---------------------------------------------------------------------
  // List items

  /** A run of white space from `i` up to a non-space character (or the
      end) is exactly what `SkipSpace` passes over. */
  lemma SkipSpaceTo(s: string, i: nat, k: nat)
    requires i <= k <= |s|
    requires forall j :: i <= j < k ==> IsSpace(s[j])
    requires k < |s| ==> !IsSpace(s[k])
    ensures SkipSpace(s, i) == k
  {
  }

  /** Indentation, a dash, at least one white-space character and text that
      does not start with white space make a list item holding that text. */
  lemma ItemLine(lead: string, gap: string, text: string)
    requires AllSpace(lead) && |gap| > 0 && AllSpace(gap)
    requires NoTerminator(text) && (|text| == 0 || !IsSpace(text[0]))
    ensures ItemText(lead + "-" + gap + text) == Some(text)
  {
    var line := lead + "-" + gap + text;
    var d := |lead|;
    var p := d + 1 + |gap|;
    assert line[d] == '-';
    SkipSpaceTo(line, 0, d);
    assert forall j :: d + 1 <= j < p ==> line[j] == gap[j - d - 1];
    if |text| > 0 { assert line[p] == text[0]; }
    SkipSpaceTo(line, d + 1, p);
    assert line[p..] == text;
  }

  /** A line whose first non-space character is not a dash is no item. */
  lemma ItemNeedsDash(lead: string, c: char, rest: string)
    requires AllSpace(lead) && !IsSpace(c) && c != '-'
    ensures ItemText(lead + [c] + rest) == None
  {
    var line := lead + [c] + rest;
    assert line[|lead|] == c;
    SkipSpaceTo(line, 0, |lead|);
  }

  /** A blank line is no item. */
  lemma BlankIsNoItem(lead: string)
    requires AllSpace(lead)
    ensures ItemText(lead) == None
  {
    SkipSpaceTo(lead, 0, |lead|);
  }

  /** A dash directly followed by a non-space character is no item. */
  lemma ItemNeedsGap(lead: string, c: char, rest: string)
    requires AllSpace(lead) && !IsSpace(c)
    ensures ItemText(lead + "-" + [c] + rest) == None
  {
    var line := lead + "-" + [c] + rest;
    var d := |lead|;
    assert line[d] == '-' && line[d + 1] == c;
    SkipSpaceTo(line, 0, d);
    SkipSpaceTo(line, d + 1, d + 1);
  }
}

=== FILE: html_escape.dfy ===
/** HTML escaping as the pages write it: a chain of global replacements,
    ampersand first. `escapeHtml` replaces the five characters `&`, `<`,
    `>`, `"` and `'`; the diff renderer's local `escape` replaces only the
    first three. Both chains are shown to act character by character, and
    decoding the entities they emit restores the input. */
module HtmlEscape {

  /** `s.replace(/c/g, r)` for a single character `c`. */
  function ReplaceChar(s: string, c: char, r: string): (t: string)
    ensures c !in r ==> c !in t
    ensures forall x :: x in t ==> x in s || x in r
    decreases |s|
  {
    if |s| == 0 then "" else (if s[0] == c then r else [s[0]]) + ReplaceChar(s[1..], c, r)
  }

  lemma {:induction false} ReplaceAppend(s: string, t: string, c: char, r: string)
    ensures ReplaceChar(s + t, c, r) == ReplaceChar(s, c, r) + ReplaceChar(t, c, r)
    decreases |s|
  {
    if |s| == 0 {
      assert s + t == t;
    } else {
      assert (s + t)[1..] == s[1..] + t;
      ReplaceAppend(s[1..], t, c, r);
    }
  }

  /** Replacing a character that does not occur changes nothing. */
  lemma {:induction false} ReplaceAbsent(s: string, c: char, r: string)
    requires c !in s
    ensures ReplaceChar(s, c, r) == s
    decreases |s|
  {
    if |s| > 0 {
      assert s[1..] <= s[1..];
      assert forall x :: x in s[1..] ==> x in s;
      ReplaceAbsent(s[1..], c, r);
      assert s == [s[0]] + s[1..];
    }
  }

  lemma ReplaceOne(c: char, r: string)
    ensures ReplaceChar([c], c, r) == r
  {
    assert [c][1..] == "";
  }

  // ---------------------------------------------------------------------
  // The diff renderer's three entities

  function DiffEntity(c: char): string {
    if c == '&' then "&amp;" else if c == '<' then "&lt;" else if c == '>' then "&gt;" else [c]
  }

  /** The renderer's `escape`: `&`, then `<`, then `>`. */
  function EscapeDiff(s: string): string {
    ReplaceChar(ReplaceChar(ReplaceChar(s, '&', "&amp;"), '<', "&lt;"), '>', "&gt;")
  }

  /** Every character replaced by its entity, independently of the others. */
  function EscapeDiffChars(s: string): (t: string)
    decreases |s|
  {
    if |s| == 0 then "" else DiffEntity(s[0]) + EscapeDiffChars(s[1..])
  }

  /** One character through the chain. */
  lemma DiffChainOne(c: char)
    ensures EscapeDiff([c]) == DiffEntity(c)
  {
    if c == '&' {
      DiffChainAmp();
    } else if c == '<' {
      DiffChainLt();
    } else if c == '>' {
      DiffChainGt();
    } else {
      DiffChainPlain(c);
    }
  }

  lemma DiffChainAmp()
    ensures EscapeDiff("&") == "&amp;"
  {
    assert ReplaceChar("&", '&', "&amp;") == "&amp;" by { ReplaceOne('&', "&amp;"); }
    assert ReplaceChar("&amp;", '<', "&lt;") == "&amp;" by { ReplaceAbsent("&amp;", '<', "&lt;"); }
    assert ReplaceChar("&amp;", '>', "&gt;") == "&amp;" by { ReplaceAbsent("&amp;", '>', "&gt;"); }
  }

  lemma DiffChainLt()
    ensures EscapeDiff("<") == "&lt;"
  {
    assert ReplaceChar("<", '&', "&amp;") == "<" by { ReplaceAbsent("<", '&', "&amp;"); }
    assert ReplaceChar("<", '<', "&lt;") == "&lt;" by { ReplaceOne('<', "&lt;"); }
    assert ReplaceChar("&lt;", '>', "&gt;") == "&lt;" by { ReplaceAbsent("&lt;", '>', "&gt;"); }
  }

  lemma DiffChainGt()
    ensures EscapeDiff(">") == "&gt;"
  {
    assert ReplaceChar(">", '&', "&amp;") == ">" by { ReplaceAbsent(">", '&', "&amp;"); }
    assert ReplaceChar(">", '<', "&lt;") == ">" by { ReplaceAbsent(">", '<', "&lt;"); }
    assert ReplaceChar(">", '>', "&gt;") == "&gt;" by { ReplaceOne('>', "&gt;"); }
  }

  lemma DiffChainPlain(c: char)
    requires c != '&' && c != '<' && c != '>'
    ensures EscapeDiff([c]) == [c]
  {
    ReplaceAbsent([c], '&', "&amp;");
    ReplaceAbsent([c], '<', "&lt;");
    ReplaceAbsent([c], '>', "&gt;");
  }

  /** The chain of replacements is the character-wise escape: the later
      replacements never touch what the earlier ones emitted. */
  lemma {:induction false} EscapeDiffCharwise(s: string)
    ensures EscapeDiff(s) == EscapeDiffChars(s)
    decreases |s|
  {
    if |s| > 0 {
      var h, t := [s[0]], s[1..];
      assert s == h + t;
      ReplaceAppend(h, t, '&', "&amp;");
      ReplaceAppend(ReplaceChar(h, '&', "&amp;"), ReplaceChar(t, '&', "&amp;"), '<', "&lt;");
      ReplaceAppend(ReplaceChar(ReplaceChar(h, '&', "&amp;"), '<', "&lt;"),
                    ReplaceChar(ReplaceChar(t, '&', "&amp;"), '<', "&lt;"), '>', "&gt;");
      DiffChainOne(s[0]);
      EscapeDiffCharwise(t);
    }
  }

  /** Reads the three entities back; any other `&` stays as it is. */
  function UnescapeDiff(s: string): string
    decreases |s|
  {
    if |s| == 0 then ""
    else if |s| >= 5 && s[..5] == "&amp;" then "&" + UnescapeDiff(s[5..])
    else if |s| >= 4 && s[..4] == "&lt;" then "<" + UnescapeDiff(s[4..])
    else if |s| >= 4 && s[..4] == "&gt;" then ">" + UnescapeDiff(s[4..])
    else [s[0]] + UnescapeDiff(s[1..])
  }

  /** Decoding one emitted entity gives its character back. */
  lemma UnescapeDiffEntity(c: char, rest: string)
    ensures UnescapeDiff(DiffEntity(c) + rest) == [c] + UnescapeDiff(rest)
  {
    var e := DiffEntity(c);
    var s := e + rest;
    assert s[|e|..] == rest;
    if c == '&' {
      assert s[..5] == e;
    } else if c == '<' || c == '>' {
      assert s[..4] == e;
      if |s| >= 5 {
        assert s[..5][1] == s[1] == e[1] != 'a';
      }
    } else {
      assert s[0] == c && s[0] != '&';
      assert |s| >= 5 ==> s[..5][0] != '&';
      assert |s| >= 4 ==> s[..4][0] != '&';
    }
  }

  /** The escaped text has no raw `<` or `>`, and decoding it restores the
      input. */
  lemma {:induction false} EscapeDiffRoundTrip(s: string)
    ensures '<' !in EscapeDiff(s) && '>' !in EscapeDiff(s)
    ensures UnescapeDiff(EscapeDiff(s)) == s
    decreases |s|
  {
    EscapeDiffCharwise(s);
    if |s| > 0 {
      EscapeDiffRoundTrip(s[1..]);
      EscapeDiffCharwise(s[1..]);
      UnescapeDiffEntity(s[0], EscapeDiffChars(s[1..]));
      assert s == [s[0]] + s[1..];
    }
  }

  // ---------------------------------------------------------------------
  // `escapeHtml`'s five entities

  function HtmlEntity(c: char): string {
    if c == '&' then "&amp;"
    else if c == '<' then "&lt;"
    else if c == '>' then "&gt;"
    else if c == '"' then "&quot;"
    else if c == '\'' then "&#39;"
    else [c]
  }

  /** The last two replacements of `escapeHtml`: `"`, then `'`. */
  function EscapeQuotes(s: string): string {
    ReplaceChar(ReplaceChar(s, '"', "&quot;"), '\'', "&#39;")
  }

  lemma QuotesAppend(x: string, y: string)
    ensures EscapeQuotes(x + y) == EscapeQuotes(x) + EscapeQuotes(y)
  {
    ReplaceAppend(x, y, '"', "&quot;");
    ReplaceAppend(ReplaceChar(x, '"', "&quot;"), ReplaceChar(y, '"', "&quot;"), '\'', "&#39;");
  }

  /** `escapeHtml(s)`: `&`, `<`, `>`, `"`, then `'`. The chain of
      replacements escapes character by character (the ampersand goes
      first, so nothing is escaped twice), leaves no raw `<`, `>`, `"` or
      `'`, every `&` it leaves begins an entity, and decoding restores the
      input. */
  function EscapeHtml(s: string): (r: string)
    ensures r == EscapeHtmlChars(s)
    ensures '<' !in r && '>' !in r && '"' !in r && '\'' !in r
    ensures AmpersandsAreEntities(r)
    ensures UnescapeHtml(r) == s
  {
    EscapeDiffCharwise(s);
    QuotesCharwise(s);
    HtmlCharsNoRaw(s);
    HtmlCharsDecode(s);
    EscapeQuotes(EscapeDiff(s))
  }

  function EscapeHtmlChars(s: string): (t: string)
    decreases |s|
  {
    if |s| == 0 then "" else HtmlEntity(s[0]) + EscapeHtmlChars(s[1..])
  }

  /** The quote replacements turn each three-entity escape of a character
      into its five-entity escape. */
  lemma QuoteEntity(c: char)
    ensures EscapeQuotes(DiffEntity(c)) == HtmlEntity(c)
  {
    var d := DiffEntity(c);
    if c == '"' {
      ReplaceOne('"', "&quot;");
      ReplaceAbsent("&quot;", '\'', "&#39;");
    } else if c == '\'' {
      ReplaceAbsent(d, '"', "&quot;");
      ReplaceOne('\'', "&#39;");
    } else {
      ReplaceAbsent(d, '"', "&quot;");
      ReplaceAbsent(d, '\'', "&#39;");
    }
  }

  lemma {:induction false} QuotesCharwise(s: string)
    ensures EscapeQuotes(EscapeDiffChars(s)) == EscapeHtmlChars(s)
    decreases |s|
  {
    if |s| > 0 {
      QuotesAppend(DiffEntity(s[0]), EscapeDiffChars(s[1..]));
      QuoteEntity(s[0]);
      QuotesCharwise(s[1..]);
    }
  }

  /** Every `&` in `s` begins one of the five entities. */
  predicate AmpersandsAreEntities(s: string) {
    forall i :: 0 <= i < |s| && s[i] == '&' ==> EntityAt(s, i)
  }

  /** One of the five entities starts at `i`. */
  predicate EntityAt(s: string, i: nat) {
    || (i + 5 <= |s| && (s[i..i + 5] == "&amp;" || s[i..i + 5] == "&#39;"))
    || (i + 4 <= |s| && (s[i..i + 4] == "&lt;" || s[i..i + 4] == "&gt;"))
    || (i + 6 <= |s| && s[i..i + 6] == "&quot;")
  }

  function UnescapeHtml(s: string): string
    decreases |s|
  {
    if |s| == 0 then ""
    else if |s| >= 5 && s[..5] == "&amp;" then "&" + UnescapeHtml(s[5..])
    else if |s| >= 4 && s[..4] == "&lt;" then "<" + UnescapeHtml(s[4..])
    else if |s| >= 4 && s[..4] == "&gt;" then ">" + UnescapeHtml(s[4..])
    else if |s| >= 6 && s[..6] == "&quot;" then "\"" + UnescapeHtml(s[6..])
    else if |s| >= 5 && s[..5] == "&#39;" then "'" + UnescapeHtml(s[5..])
    else [s[0]] + UnescapeHtml(s[1..])
  }

  /** One entity followed by the rest keeps every `&` at an entity. */
  lemma EntityPrefix(c: char, rest: string)
    requires AmpersandsAreEntities(rest)
    ensures AmpersandsAreEntities(HtmlEntity(c) + rest)
  {
    var e := HtmlEntity(c);
    var s := e + rest;
    forall i | 0 <= i < |s| && s[i] == '&'
      ensures EntityAt(s, i)
    {
      if i >= |e| {
        assert rest[i - |e|] == s[i];
        EntityShift(e, rest, i - |e|);
      } else {
        assert e[i] == s[i];
        EntityHead(c, rest, i);
      }
    }
  }

  /** An entity in `rest` is still one after a prefix. */
  lemma EntityShift(e: string, rest: string, j: nat)
    requires j < |rest| && EntityAt(rest, j)
    ensures EntityAt(e + rest, |e| + j)
  {
    var s := e + rest;
    var i := |e| + j;
    if j + 5 <= |rest| { assert s[i..i + 5] == rest[j..j + 5]; }
    if j + 4 <= |rest| { assert s[i..i + 4] == rest[j..j + 4]; }
    if j + 6 <= |rest| { assert s[i..i + 6] == rest[j..j + 6]; }
  }

  /** The only `&` of an emitted entity is its first character, and an
      entity starts there. */
  lemma EntityHead(c: char, rest: string, i: nat)
    requires i < |HtmlEntity(c)| && HtmlEntity(c)[i] == '&'
    ensures i == 0 && EntityAt(HtmlEntity(c) + rest, 0)
  {
    var e := HtmlEntity(c);
    var s := e + rest;
    assert s[..|e|] == e;
    if c == '&' { assert s[0..5] == e; }
    else if c == '<' || c == '>' { assert s[0..4] == e; }
    else if c == '"' { assert s[0..6] == e; }
    else if c == '\'' { assert s[0..5] == e; }
  }

  /** Decoding one emitted entity gives its character back. */
  lemma UnescapeHtmlEntity(c: char, rest: string)
    ensures UnescapeHtml(HtmlEntity(c) + rest) == [c] + UnescapeHtml(rest)
  {
    if c == '&' {
      UnescapeAmp(rest);
    } else if c == '<' {
      UnescapeLt(rest);
    } else if c == '>' {
      UnescapeGt(rest);
    } else if c == '"' {
      UnescapeQuot(rest);
    } else if c == '\'' {
      UnescapeApos(rest);
    } else {
      UnescapePlain(c, rest);
    }
  }

  lemma UnescapeAmp(rest: string)
    ensures UnescapeHtml("&amp;" + rest) == "&" + UnescapeHtml(rest)
  {
    var s := "&amp;" + rest;
    assert s[..5] == "&amp;" && s[5..] == rest;
  }

  lemma UnescapeLt(rest: string)
    ensures UnescapeHtml("&lt;" + rest) == "<" + UnescapeHtml(rest)
  {
    var s := "&lt;" + rest;
    assert s[..4] == "&lt;" && s[4..] == rest;
    assert |s| >= 5 ==> s[..5][1] == 'l';
  }

  lemma UnescapeGt(rest: string)
    ensures UnescapeHtml("&gt;" + rest) == ">" + UnescapeHtml(rest)
  {
    var s := "&gt;" + rest;
    assert s[..4] == "&gt;" && s[4..] == rest;
    assert |s| >= 5 ==> s[..5][1] == 'g';
  }

  lemma UnescapeQuot(rest: string)
    ensures UnescapeHtml("&quot;" + rest) == "\"" + UnescapeHtml(rest)
  {
    var s := "&quot;" + rest;
    assert s[..6] == "&quot;" && s[6..] == rest;
    assert s[..5][1] == 'q' && s[..4][1] == 'q';
  }

  lemma UnescapeApos(rest: string)
    ensures UnescapeHtml("&#39;" + rest) == "'" + UnescapeHtml(rest)
  {
    var s := "&#39;" + rest;
    assert s[..5] == "&#39;" && s[5..] == rest;
    assert s[..4][1] == '#';
    assert |s| >= 6 ==> s[..6][1] == '#';
  }

  lemma UnescapePlain(c: char, rest: string)
    requires c != '&'
    ensures UnescapeHtml([c] + rest) == [c] + UnescapeHtml(rest)
  {
    var s := [c] + rest;
    assert s[1..] == rest;
    assert |s| >= 6 ==> s[..6][0] != '&';
    assert |s| >= 5 ==> s[..5][0] != '&';
    assert |s| >= 4 ==> s[..4][0] != '&';
  }

  /** The character-wise escape leaves no raw `<`, `>`, `"` or `'`. */
  lemma {:induction false} HtmlCharsNoRaw(s: string)
    ensures forall x :: x in EscapeHtmlChars(s) ==> x != '<' && x != '>' && x != '"' && x != '\''
    decreases |s|
  {
    if |s| > 0 {
      HtmlCharsNoRaw(s[1..]);
    }
  }

  /** Every `&` it leaves begins an entity, and decoding restores the
      input. */
  lemma {:induction false} HtmlCharsDecode(s: string)
    ensures AmpersandsAreEntities(EscapeHtmlChars(s))
    ensures UnescapeHtml(EscapeHtmlChars(s)) == s
    decreases |s|
  {
    if |s| > 0 {
      HtmlCharsDecode(s[1..]);
      var rest := EscapeHtmlChars(s[1..]);
      EntityPrefix(s[0], rest);
      UnescapeHtmlEntity(s[0], rest);
      assert s == [s[0]] + s[1..];
    }
  }
}

=== FILE: js_replace.dfy ===
/** `String.prototype.replace` with a string pattern: the `$` patterns of
    the replacement string. */
module JsReplace {

  /** The text one `$` pattern of a replacement string stands for, as in
      the GetSubstitution operation of the ECMAScript language
      specification: `$$` is a dollar sign, `$&` the matched text, `` $` ``
      the text before the match and `$'` the text after it. */
  function PatternText(c: char, before: string, matched: string, after: string): string {
    if c == '$' then "$"
    else if c == '&' then matched
    else if c == '`' then before
    else after
  }

  predicate IsPatternChar(c: char) {
    c == '$' || c == '&' || c == '`' || c == '\''
  }

  /** The replacement text `replace` writes for `template` when it matched
      `matched` between `before` and `after`. A string pattern has no
      capture groups, so `$1`, `$<` and a lone or final `$` stay as they are. */
  function Substitution(template: string, before: string, matched: string, after: string): string
    decreases |template|
  {
    if |template| == 0 then ""
    else if template[0] == '$' && |template| > 1 && IsPatternChar(template[1]) then
      PatternText(template[1], before, matched, after) + Substitution(template[2..], before, matched, after)
    else
      [template[0]] + Substitution(template[1..], before, matched, after)
  }

  /** Each pattern on its own; `$1` is no pattern without capture groups. */
  lemma PatternExamples(before: string, matched: string, after: string)
    ensures Substitution("$$", before, matched, after) == "$"
    ensures Substitution("$&", before, matched, after) == matched
    ensures Substitution("$`", before, matched, after) == before
    ensures Substitution("$'", before, matched, after) == after
    ensures Substitution("$1", before, matched, after) == "$1"
  {
    assert "$$"[2..] == "" && "$&"[2..] == "" && "$`"[2..] == "" && "$'"[2..] == "";
    assert "$1"[1..] == "1" && "1"[1..] == "";
  }

  /** A dollar-free start of the template is written as it is. */
  lemma {:induction false} SubstitutionPlainPrefix(p: string, t: string, before: string, matched: string, after: string)
    requires '$' !in p
    ensures Substitution(p + t, before, matched, after) == p + Substitution(t, before, matched, after)
    decreases |p|
  {
    if |p| == 0 {
      assert p + t == t;
    } else {
      var rest := p[1..];
      assert '$' !in rest by { assert forall c :: c in rest ==> c in p; }
      assert (p + t)[0] == p[0] != '$';
      calc {
        Substitution(p + t, before, matched, after);
        [p[0]] + Substitution((p + t)[1..], before, matched, after);
        { assert (p + t)[1..] == rest + t; }
        [p[0]] + Substitution(rest + t, before, matched, after);
        { SubstitutionPlainPrefix(rest, t, before, matched, after); }
        [p[0]] + (rest + Substitution(t, before, matched, after));
        { assert [p[0]] + rest == p; }
        p + Substitution(t, before, matched, after);
      }
    }
  }

  /** A template without `$` is written as it is. */
  lemma SubstitutionPlain(template: string, before: string, matched: string, after: string)
    requires '$' !in template
    ensures Substitution(template, before, matched, after) == template
  {
    SubstitutionPlainPrefix(template, "", before, matched, after);
    assert template + "" == template;
  }

  /** A dollar-free end of the template that does not start with a pattern
      character is written as it is. */
  lemma {:induction false} SubstitutionPlainSuffix(p: string, t: string, before: string, matched: string, after: string)
    requires '$' !in t && (|t| > 0 ==> !IsPatternChar(t[0]))
    ensures Substitution(p + t, before, matched, after) == Substitution(p, before, matched, after) + t
    decreases |p|
  {
    if |p| == 0 {
      assert p + t == t;
      SubstitutionPlain(t, before, matched, after);
    } else if p[0] == '$' && |p| > 1 && IsPatternChar(p[1]) {
      SubstitutionPlainSuffix(p[2..], t, before, matched, after);
      SuffixAfterPattern(p, t, before, matched, after);
    } else {
      SubstitutionPlainSuffix(p[1..], t, before, matched, after);
      SuffixAfterChar(p, t, before, matched, after);
    }
  }

  lemma SuffixAfterPattern(p: string, t: string, before: string, matched: string, after: string)
    requires |p| > 1 && p[0] == '$' && IsPatternChar(p[1])
    requires Substitution(p[2..] + t, before, matched, after) == Substitution(p[2..], before, matched, after) + t
    ensures Substitution(p + t, before, matched, after) == Substitution(p, before, matched, after) + t
  {
    var text := PatternText(p[1], before, matched, after);
    var rest := Substitution(p[2..], before, matched, after);
    PatternFront(p, t, before, matched, after);
    UnfoldPattern(p, before, matched, after);
    Assoc(text, rest, t);
  }

  lemma SuffixAfterChar(p: string, t: string, before: string, matched: string, after: string)
    requires |p| > 0 && !(p[0] == '$' && |p| > 1 && IsPatternChar(p[1]))
    requires |t| > 0 ==> !IsPatternChar(t[0])
    requires Substitution(p[1..] + t, before, matched, after) == Substitution(p[1..], before, matched, after) + t
    ensures Substitution(p + t, before, matched, after) == Substitution(p, before, matched, after) + t
  {
    var rest := Substitution(p[1..], before, matched, after);
    CharFront(p, t, before, matched, after);
    UnfoldChar(p, before, matched, after);
    Assoc([p[0]], rest, t);
  }

  /** A pattern at the front of `p` is also at the front of `p + t`. */
  lemma PatternFront(p: string, t: string, before: string, matched: string, after: string)
    requires |p| > 1 && p[0] == '$' && IsPatternChar(p[1])
    ensures Substitution(p + t, before, matched, after)
            == PatternText(p[1], before, matched, after) + Substitution(p[2..] + t, before, matched, after)
  {
    var q := p + t;
    assert q[0] == '$' && q[1] == p[1] && q[2..] == p[2..] + t;
    UnfoldPattern(q, before, matched, after);
  }

  /** A plain character at the front of `p` stays plain in `p + t`. */
  lemma CharFront(p: string, t: string, before: string, matched: string, after: string)
    requires |p| > 0 && !(p[0] == '$' && |p| > 1 && IsPatternChar(p[1]))
    requires |t| > 0 ==> !IsPatternChar(t[0])
    ensures Substitution(p + t, before, matched, after) == [p[0]] + Substitution(p[1..] + t, before, matched, after)
  {
    var q := p + t;
    assert q[0] == p[0] && q[1..] == p[1..] + t;
    assert !(q[0] == '$' && |q| > 1 && IsPatternChar(q[1])) by {
      if |p| > 1 {
        assert q[1] == p[1];
      } else if |t| > 0 {
        assert q[1] == t[0];
      }
    }
    UnfoldChar(q, before, matched, after);
  }

  lemma Assoc(a: string, b: string, c: string)
    ensures a + (b + c) == (a + b) + c
  {
  }

  lemma UnfoldPattern(s: string, before: string, matched: string, after: string)
    requires |s| > 1 && s[0] == '$' && IsPatternChar(s[1])
    ensures Substitution(s, before, matched, after)
            == PatternText(s[1], before, matched, after) + Substitution(s[2..], before, matched, after)
  {
  }

  lemma UnfoldChar(s: string, before: string, matched: string, after: string)
    requires |s| > 0 && !(s[0] == '$' && |s| > 1 && IsPatternChar(s[1]))
    ensures Substitution(s, before, matched, after) == [s[0]] + Substitution(s[1..], before, matched, after)
  {
  }
}

=== FILE: lesson_collision.dfy ===
/** The circle collisions of the lesson steps (`docs/learning/step13/collision.js`,
    `docs/learning/step11/collision.js`, repeated inline in
    `learning/step13/main.js`): each bullet takes out at most one enemy, and
    the player is hit at most once per frame unless invincible. */
module LessonCollision {
  import opened SeqUtil
  import opened LessonShooting

  /** `circleHit`: the centres are at most the sum of the radii apart
      (compared squared, so no square root). */
  predicate CircleHit(x1: real, y1: real, r1: real, x2: real, y2: real, r2: real) {
    (x1 - x2) * (x1 - x2) + (y1 - y2) * (y1 - y2) <= (r1 + r2) * (r1 + r2)
  }

  /** The test does not depend on the order of the circles, and circles
      that just touch count as a hit. */
  lemma CircleHitSymmetric(x1: real, y1: real, r1: real, x2: real, y2: real, r2: real)
    ensures CircleHit(x1, y1, r1, x2, y2, r2) <==> CircleHit(x2, y2, r2, x1, y1, r1)
    ensures x2 == x1 + r1 + r2 && y2 == y1 ==> CircleHit(x1, y1, r1, x2, y2, r2)
  {
  }

  /** An enemy's box; only its position and size are read. */
  datatype Foe = Foe(x: real, y: real, width: real, height: real)

  function MinReal(a: real, b: real): real {
    if a <= b then a else b
  }

  /** A bullet's circle against an enemy's inscribed circle. */
  predicate ShotHits(b: Shot, e: Foe) {
    var br := b.size / 2.0;
    CircleHit(b.x + br, b.y + br, br, e.x + e.width / 2.0, e.y + e.height / 2.0, MinReal(e.width, e.height) / 2.0)
  }

  /** The inner loop: the highest enemy index below `n` hit by `b`, or -1. */
  function LastHit(b: Shot, es: seq<Foe>, n: nat): (r: int)
    requires n <= |es|
    ensures -1 <= r < n
    ensures r >= 0 ==> ShotHits(b, es[r])
    ensures forall j :: r < j < n ==> !ShotHits(b, es[j])
    decreases n
  {
    if n == 0 then -1
    else if ShotHits(b, es[n - 1]) then n - 1
    else LastHit(b, es, n - 1)
  }

  /** What the bullet loop leaves: the lists and the number of kills. */
  datatype Sweep = Sweep(bullets: seq<Shot>, enemies: seq<Foe>, kills: nat)

  /** The outer loop over the bullets below index `n`, last first; a
      bullet that hits removes itself and that one enemy. */
  function SweepBelow(bs: seq<Shot>, es: seq<Foe>, n: nat): Sweep
    requires n <= |bs|
    decreases n
  {
    if n == 0 then Sweep(bs, es, 0)
    else
      var ei := LastHit(bs[n - 1], es, |es|);
      if ei >= 0 then
        var s := SweepBelow(RemoveAt(bs, n - 1), RemoveAt(es, ei), n - 1);
        s.(kills := s.kills + 1)
      else SweepBelow(bs, es, n - 1)
  }

  /** `handleBulletEnemyCollisions` without the score: bullets removed =
      enemies removed = kills, at most one enemy per bullet, order kept,
      and nothing left touching. */
  function SweepAll(bs: seq<Shot>, es: seq<Foe>): (s: Sweep)
    ensures s.kills == |bs| - |s.bullets| == |es| - |s.enemies| && s.kills <= |bs|
    ensures Subseq(s.bullets, bs) && Subseq(s.enemies, es)
    ensures ClearFrom(s.bullets, s.enemies, 0)
  {
    SweepBelowSpec(bs, es, |bs|);
    SweepBelow(bs, es, |bs|)
  }

  /** No bullet at index `n` or above touches any enemy. */
  predicate ClearFrom(bs: seq<Shot>, es: seq<Foe>, n: nat) {
    forall i, j :: n <= i < |bs| && 0 <= j < |es| ==> !ShotHits(bs[i], es[j])
  }

  /** Kills equal both the bullets and the enemies removed, survivors keep
      their order, and no surviving bullet touches a surviving enemy. */
  lemma {:induction false} SweepBelowSpec(bs: seq<Shot>, es: seq<Foe>, n: nat)
    requires n <= |bs| && ClearFrom(bs, es, n)
    ensures var s := SweepBelow(bs, es, n);
            s.kills == |bs| - |s.bullets| == |es| - |s.enemies| && s.kills <= n
            && Subseq(s.bullets, bs) && Subseq(s.enemies, es)
            && ClearFrom(s.bullets, s.enemies, 0)
    decreases n
  {
    if n == 0 {
      SubseqRefl(bs);
      SubseqRefl(es);
    } else {
      var ei := LastHit(bs[n - 1], es, |es|);
      if ei >= 0 {
        var bs1 := RemoveAt(bs, n - 1);
        var es1 := RemoveAt(es, ei);
        ClearAfterRemove(bs, es, n, ei);
        SweepBelowSpec(bs1, es1, n - 1);
        var s := SweepBelow(bs1, es1, n - 1);
        SubseqRemoveAt(bs, n - 1);
        SubseqRemoveAt(es, ei);
        SubseqTrans(s.bullets, bs1, bs);
        SubseqTrans(s.enemies, es1, es);
      } else {
        SweepBelowSpec(bs, es, n - 1);
      }
    }
  }

  /** Removing the bullet just below the cleared ones and any enemy keeps
      the cleared part clear. */
  lemma ClearAfterRemove(bs: seq<Shot>, es: seq<Foe>, n: nat, ei: nat)
    requires 0 < n <= |bs| && ei < |es| && ClearFrom(bs, es, n)
    ensures ClearFrom(RemoveAt(bs, n - 1), RemoveAt(es, ei), n - 1)
  {
    var bs1 := RemoveAt(bs, n - 1);
    var es1 := RemoveAt(es, ei);
    forall i, j | n - 1 <= i < |bs1| && 0 <= j < |es1|
      ensures !ShotHits(bs1[i], es1[j])
    {
      assert bs1[i] == bs[i + 1];
      assert es1[j] == es[j] || es1[j] == es[j + 1];
    }
  }

  /** Bullets above the ones the loop visits ride along untouched. */
  lemma {:induction false} SweepBelowTail(bs: seq<Shot>, tail: seq<Shot>, es: seq<Foe>, n: nat)
    requires n <= |bs|
    ensures SweepBelow(bs + tail, es, n)
            == var s := SweepBelow(bs, es, n); s.(bullets := s.bullets + tail)
    decreases n
  {
    if n > 0 {
      assert (bs + tail)[n - 1] == bs[n - 1];
      var ei := LastHit(bs[n - 1], es, |es|);
      if ei >= 0 {
        assert RemoveAt(bs + tail, n - 1) == RemoveAt(bs, n - 1) + tail;
        SweepBelowTail(RemoveAt(bs, n - 1), tail, RemoveAt(es, ei), n - 1);
      } else {
        SweepBelowTail(bs, tail, es, n - 1);
      }
    }
  }

  /** The first step of the bullet loop: the last bullet removes the
      highest-indexed enemy it touches and scores one kill, the rest of the
      loop then runs on the earlier bullets; a bullet touching no enemy
      survives at the end of the list. */
  lemma SweepTopBullet(bs: seq<Shot>, es: seq<Foe>)
    requires |bs| > 0
    ensures var b := bs[|bs| - 1];
            (forall i :: 0 <= i < |es| ==> !ShotHits(b, es[i])) ==>
              SweepAll(bs, es) == var s := SweepAll(bs[..|bs| - 1], es); s.(bullets := s.bullets + [b])
    ensures var b := bs[|bs| - 1];
            forall i :: 0 <= i < |es| && ShotHits(b, es[i]) && (forall j :: i < j < |es| ==> !ShotHits(b, es[j])) ==>
              SweepAll(bs, es) == var s := SweepAll(bs[..|bs| - 1], RemoveAt(es, i)); s.(kills := s.kills + 1)
  {
    var n := |bs|;
    var b := bs[n - 1];
    var rest := bs[..n - 1];
    var ei := LastHit(b, es, |es|);
    assert RemoveAt(bs, n - 1) == rest;
    if ei < 0 {
      assert bs == rest + [b];
      SweepBelowTail(rest, [b], es, n - 1);
    }
    forall i | 0 <= i < |es| && ShotHits(b, es[i]) && (forall j :: i < j < |es| ==> !ShotHits(b, es[j]))
      ensures ei == i
    {
    }
  }

  /** The game fields the collisions of step 13 read and write. */
  datatype Play = Play(over: bool, score: int, scorePerKill: int, life: int, invincibleTimer: int)

  const HitInvincibility: int := 60

  /** `handleBulletEnemyCollisions(bullets, enemies, game)` of step 13. */
  function BulletEnemyScored(bs: seq<Shot>, es: seq<Foe>, g: Play): (r: (Sweep, Play))
    ensures r.0 == SweepAll(bs, es)
    ensures r.1 == g.(score := g.score + g.scorePerKill * r.0.kills)
  {
    var s := SweepAll(bs, es);
    (s, g.(score := g.score + g.scorePerKill * s.kills))
  }

  /** `handleBulletEnemyCollisions(bullets, enemies, onKill)` of step 11:
      the number of `onKill` calls, which happen only when it is a
      function. */
  function BulletEnemyCalls(bs: seq<Shot>, es: seq<Foe>, onKillIsFunction: bool): (r: (Sweep, nat))
    ensures r.0 == SweepAll(bs, es)
    ensures onKillIsFunction ==> r.1 == r.0.kills
    ensures !onKillIsFunction ==> r.1 == 0
  {
    var s := SweepAll(bs, es);
    (s, if onKillIsFunction then s.kills else 0)
  }

  /** The player's inscribed circle against an enemy's. */
  predicate PlayerHits(p: Foe, e: Foe) {
    CircleHit(p.x + p.width / 2.0, p.y + p.height / 2.0, MinReal(p.width, p.height) / 2.0,
              e.x + e.width / 2.0, e.y + e.height / 2.0, MinReal(e.width, e.height) / 2.0)
  }

  function LastTouch(p: Foe, es: seq<Foe>, n: nat): (r: int)
    requires n <= |es|
    ensures -1 <= r < n
    ensures r >= 0 ==> PlayerHits(p, es[r])
    ensures forall j :: r < j < n ==> !PlayerHits(p, es[j])
    decreases n
  {
    if n == 0 then -1
    else if PlayerHits(p, es[n - 1]) then n - 1
    else LastTouch(p, es, n - 1)
  }

  /** `handlePlayerEnemyCollisions`: nothing while invincible; otherwise
      the highest touching enemy goes, a life is lost, invincibility
      starts, and the game is over once life is at most 0. */
  function PlayerEnemy(p: Foe, es: seq<Foe>, g: Play): (r: (seq<Foe>, Play))
    ensures g.invincibleTimer > 0 ==> r == (es, g)
    ensures g.invincibleTimer <= 0 ==>
              (|r.0| == |es| - 1 <==> exists j :: 0 <= j < |es| && PlayerHits(p, es[j]))
    ensures |r.0| == |es| ==> r == (es, g)
    ensures |r.0| != |es| ==>
              exists i :: 0 <= i < |es| && PlayerHits(p, es[i]) && r.0 == RemoveAt(es, i)
                          && (forall j :: i < j < |es| ==> !PlayerHits(p, es[j]))
    ensures |r.0| != |es| ==>
              r.1 == g.(life := g.life - 1, invincibleTimer := HitInvincibility,
                        over := g.over || g.life - 1 <= 0)
  {
    if g.invincibleTimer > 0 then (es, g)
    else
      var i := LastTouch(p, es, |es|);
      if i < 0 then (es, g)
      else
        (RemoveAt(es, i), g.(life := g.life - 1, invincibleTimer := HitInvincibility,
                             over := g.over || g.life - 1 <= 0))
  }

  /** At most one enemy goes and at most one life is lost per frame. */
  lemma PlayerEnemyCounts(p: Foe, es: seq<Foe>, g: Play)
    ensures var r := PlayerEnemy(p, es, g);
            |es| - |r.0| == g.life - r.1.life
            && 0 <= g.life - r.1.life <= 1
            && r.1.score == g.score && r.1.scorePerKill == g.scorePerKill
            && Subseq(r.0, es)
  {
    var r := PlayerEnemy(p, es, g);
    if |r.0| == |es| {
      SubseqRefl(es);
    } else {
      var i := LastTouch(p, es, |es|);
      SubseqRemoveAt(es, i);
    }
  }
}

=== FILE: lesson_game.dfy ===
/** The start / playing / game-over machines of the lesson steps:
    `learning/step12/game.js` and the single-file `learning/step13/main.js`.
    Each frame carries its random spawn roll and its enemy motion
    (straight or homing, with a square root). */
module LessonGame {
  import opened Wrappers
  import opened Cull
  import opened LessonWeapon
  import opened LessonShooting
  import opened LessonCollision
  import opened LessonPlayer

  datatype Stage = Start | Playing | GameOver

  const StartLife: int := 3
  const ScorePerKill: int := 100

  // ---------------------------------------------------------------------
  // learning/step12/game.js

  /** The `game` record of step 12. */
  datatype Game = Game(stage: Stage, score: int, scorePerKill: int, life: int, invincibleTimer: int)

  /** `createGame()`. */
  function CreateGame(): (g: Game)
    ensures g.stage == Start && g.score == 0 && g.scorePerKill == 100
    ensures g.life == 3 && g.invincibleTimer == 0
  {
    Game(Start, 0, ScorePerKill, StartLife, 0)
  }

  /** The game together with the lists and the player `resetToStart` and
      `startGame` also touch. */
  datatype World = World(game: Game, bullets: seq<Shot>, enemies: seq<Foe>, player: Player)

  /** What `resetToStart` and `startGame` share: empty lists, a new
      score, life and timer, and a centred player. */
  function Reset(w: World, stage: Stage, canvasWidth: real): World {
    World(w.game.(stage := stage, score := 0, life := StartLife, invincibleTimer := 0),
          [], [], w.player.(x := canvasWidth / 2.0 - w.player.width / 2.0))
  }

  /** `resetToStart(game, player, canvas, bullets, enemies)`. */
  function ResetToStart(w: World, canvasWidth: real): World {
    Reset(w, Start, canvasWidth)
  }

  /** `startGame(game, player, canvas, bullets, enemies)`. */
  function StartGame(w: World, canvasWidth: real): World {
    Reset(w, Playing, canvasWidth)
  }

  /** Both reset the same fields to the same values and differ only in the
      stage; both are idempotent, keep the per-kill score and centre the
      player. */
  lemma ResetsAgree(w: World, canvasWidth: real)
    ensures StartGame(w, canvasWidth).(game := StartGame(w, canvasWidth).game.(stage := Start)) == ResetToStart(w, canvasWidth)
    ensures StartGame(w, canvasWidth).game.stage == Playing && ResetToStart(w, canvasWidth).game.stage == Start
    ensures StartGame(StartGame(w, canvasWidth), canvasWidth) == StartGame(w, canvasWidth)
    ensures ResetToStart(ResetToStart(w, canvasWidth), canvasWidth) == ResetToStart(w, canvasWidth)
    ensures var r := StartGame(w, canvasWidth);
            r.bullets == [] && r.enemies == [] && r.game.score == 0 && r.game.life == 3
            && r.game.invincibleTimer == 0 && r.game.scorePerKill == w.game.scorePerKill
            && r.player.x + r.player.width / 2.0 == canvasWidth / 2.0
  {
  }

  /** `tickTimers(game)`. */
  function TickTimers(g: Game): (r: Game)
    ensures g.invincibleTimer > 0 ==> r == g.(invincibleTimer := g.invincibleTimer - 1)
    ensures g.invincibleTimer <= 0 ==> r == g
  {
    if g.invincibleTimer > 0 then g.(invincibleTimer := g.invincibleTimer - 1) else g
  }

  /** A non-negative timer stays non-negative and reaches 0 after as many
      ticks as it shows. */
  function Ticks(g: Game, n: nat): Game
    decreases n
  {
    if n == 0 then g else Ticks(TickTimers(g), n - 1)
  }

  lemma {:induction false} TicksCountDown(g: Game, n: nat)
    requires g.invincibleTimer >= 0
    ensures Ticks(g, n) == g.(invincibleTimer := if n <= g.invincibleTimer then g.invincibleTimer - n else 0)
    decreases n
  {
    if n > 0 {
      TicksCountDown(TickTimers(g), n - 1);
    }
  }

  // ---------------------------------------------------------------------
  // learning/step13/main.js

  /** All module-level state of step 13. */
  datatype Arcade = Arcade(stage: Stage, bullets: seq<Shot>, enemies: seq<Foe>, cooldown: int,
                           score: int, life: int, invincibleTimer: int, level: int,
                           player: Player, held: Held)

  const MaxWeaponLevel: int := 3
  const MaxEnemies: int := 7
  const EnemySize: real := 50.0

  /** `resetToStart` and `startGame` of step 13: the held keys survive. */
  function Restart(a: Arcade, stage: Stage, canvasWidth: real): (r: Arcade)
    ensures r.stage == stage && r.bullets == [] && r.enemies == [] && r.cooldown == 0
    ensures r.score == 0 && r.life == 3 && r.invincibleTimer == 0 && r.level == 1
    ensures r.held == a.held && r.player == a.player.(x := r.player.x)
    ensures r.player.x + r.player.width / 2.0 == canvasWidth / 2.0
  {
    Arcade(stage, [], [], 0, 0, StartLife, 0, 1,
           a.player.(x := canvasWidth / 2.0 - a.player.width / 2.0), a.held)
  }

  /** The keydown listener: the arrows set the held flags, `u` upgrades
      during play, and Space starts, returns to the start screen, or fires
      a spread when the cooldown is 0. The three tests are independent
      `if`s. Space during play fires exactly when the cooldown is 0, then
      waits; `u` upgrades only during play and never past level 3. */
  function KeyDown(a: Arcade, key: string, code: string, canvasWidth: real): (r: Arcade)
    ensures code != "Space" ==> r.stage == a.stage && r.bullets == a.bullets && r.cooldown == a.cooldown
    ensures a.stage == Start && code == "Space" ==> r.stage == Playing && r.life == 3 && r.score == 0
    ensures a.stage == GameOver && code == "Space" ==> r.stage == Start && r.life == 3
    ensures a.stage != Playing && code != "Space" ==> r.level == a.level
    ensures 1 <= a.level <= MaxWeaponLevel && a.stage == Playing && code == "Space" ==>
              (a.cooldown == 0 <==> |r.bullets| > |a.bullets|)
              && (a.cooldown == 0 ==> r.cooldown == 8 && |r.bullets| == |a.bullets| + |VxPattern(r.level)|)
    ensures 1 <= a.level <= MaxWeaponLevel && a.stage == Playing ==> r.level <= MaxWeaponLevel
  {
    var h1 := if key == "ArrowLeft" then a.held.(left := true) else a.held;
    var h2 := if key == "ArrowRight" then h1.(right := true) else h1;
    var a1 := a.(held := h2);
    var a2 := if (key == "u" || key == "U") && a1.stage == Playing
              then a1.(level := UpgradeWeapon(Weapon(a1.level, MaxWeaponLevel)).level) else a1;
    if code != "Space" then a2
    else if a2.stage == Start then Restart(a2, Playing, canvasWidth)
    else if a2.stage == GameOver then Restart(a2, Start, canvasWidth)
    else if a2.cooldown == 0 then
      a2.(bullets := a2.bullets + Spread(VxPattern(a2.level), a2.player.x, a2.player.y, a2.player.width),
          cooldown := Cooldown)
    else a2
  }

  /** The keyup listener. */
  function KeyUp(a: Arcade, key: string): Arcade {
    var h1 := if key == "ArrowLeft" then a.held.(left := false) else a.held;
    a.(held := if key == "ArrowRight" then h1.(right := false) else h1)
  }

  /** `spawnEnemy` with the random outcome as a parameter: `roll` is the
      enemy the dice produced, if any. Never more than 7. */
  function SpawnEnemy(es: seq<Foe>, roll: Option<Foe>): (r: seq<Foe>)
    ensures |es| >= MaxEnemies ==> r == es
    ensures |es| < MaxEnemies && roll.Some? ==> r == es + [roll.value]
    ensures roll.None? ==> r == es
  {
    if |es| >= MaxEnemies then es
    else if roll.Some? then es + [roll.value]
    else es
  }

  /** An enemy past the bottom edge. */
  predicate BelowBottom(e: Foe, canvasHeight: real) {
    e.y > canvasHeight + EnemySize
  }

  /** The player as a box for the circle test. */
  function PlayerBox(p: Player): Foe {
    Foe(p.x, p.y, p.width, p.height)
  }

  /** `updatePlaying`: count down both timers, move the player, maybe
      spawn, move and cull bullets and enemies, then the two collision
      passes. `motion` is how `updateEnemies` moves one enemy. A frame
      never leaves more than 7 enemies, and a frame of play keeps the game
      sane. */
  function UpdatePlaying(a: Arcade, canvasWidth: real, canvasHeight: real,
                         roll: Option<Foe>, motion: Foe -> Foe): (r: Arcade)
    ensures |a.enemies| <= MaxEnemies ==> |r.enemies| <= MaxEnemies
    ensures Sane(a) && a.stage == Playing ==> Sane(r)
  {
    var cooldown := Tick(a.cooldown);
    var timer := if a.invincibleTimer > 0 then a.invincibleTimer - 1 else a.invincibleTimer;
    var player := UpdatePlayer(a.player, canvasWidth, a.held);
    var spawned := SpawnEnemy(a.enemies, roll);
    var bullets := Survivors(a.bullets, LessonShooting.Move, b => OffScreen(b, canvasWidth));
    var enemies := Survivors(spawned, motion, e => BelowBottom(e, canvasHeight));
    SurvivorsSpec(spawned, motion, e => BelowBottom(e, canvasHeight));
    var s := SweepAll(bullets, enemies);
    var play := Play(false, a.score + ScorePerKill * s.kills, ScorePerKill, a.life, timer);
    var hit := PlayerEnemy(PlayerBox(player), s.enemies, play);
    PlayerEnemyCounts(PlayerBox(player), s.enemies, play);
    a.(stage := if hit.1.over then GameOver else a.stage,
       bullets := s.bullets, enemies := hit.0, cooldown := cooldown,
       score := hit.1.score, life := hit.1.life, invincibleTimer := hit.1.invincibleTimer,
       player := player)
  }

  /** `gameLoop` without drawing: only play updates anything. */
  function Frame(a: Arcade, canvasWidth: real, canvasHeight: real,
                 roll: Option<Foe>, motion: Foe -> Foe): Arcade {
    if a.stage == Playing then UpdatePlaying(a, canvasWidth, canvasHeight, roll, motion) else a
  }

  /** The invariant of step 13: counters in range, at most 7 enemies, the
      start screen shows a reset game, play goes on only with life left and
      the game-over screen only without. */
  predicate Sane(a: Arcade) {
    0 <= a.cooldown <= Cooldown && 0 <= a.invincibleTimer <= HitInvincibility
    && 1 <= a.level <= MaxWeaponLevel && |a.enemies| <= MaxEnemies
    && (a.stage == Start ==> a.bullets == [] && a.enemies == [] && a.cooldown == 0 && a.score == 0
                             && a.life == StartLife && a.invincibleTimer == 0 && a.level == 1)
    && (a.stage == Playing ==> a.life > 0)
    && (a.stage == GameOver ==> a.life <= 0)
  }

  /** An input or a frame. A frame carries its spawn roll and how
      `updateEnemies` moves each enemy in it, since the homing enemies
      steer toward where the player is in that frame. */
  datatype Event = Down(key: string, code: string) | Up(key: string)
                 | Tock(roll: Option<Foe>, motion: Foe -> Foe)

  function Step(a: Arcade, ev: Event, canvasWidth: real, canvasHeight: real): Arcade {
    match ev
    case Down(k, c) => KeyDown(a, k, c, canvasWidth)
    case Up(k) => KeyUp(a, k)
    case Tock(roll, motion) => Frame(a, canvasWidth, canvasHeight, roll, motion)
  }

  lemma StepSane(a: Arcade, ev: Event, canvasWidth: real, canvasHeight: real)
    requires Sane(a)
    ensures Sane(Step(a, ev, canvasWidth, canvasHeight))
  {
    match ev
    case Down(k, c) =>
    case Up(k) =>
    case Tock(roll, motion) =>
  }

  function Run(a: Arcade, evs: seq<Event>, canvasWidth: real, canvasHeight: real): Arcade
    decreases |evs|
  {
    if |evs| == 0 then a else Run(Step(a, evs[0], canvasWidth, canvasHeight), evs[1..], canvasWidth, canvasHeight)
  }

  lemma {:induction false} RunSane(a: Arcade, evs: seq<Event>, canvasWidth: real, canvasHeight: real)
    requires Sane(a)
    ensures Sane(Run(a, evs, canvasWidth, canvasHeight))
    decreases |evs|
  {
    if |evs| > 0 {
      StepSane(a, evs[0], canvasWidth, canvasHeight);
      RunSane(Step(a, evs[0], canvasWidth, canvasHeight), evs[1..], canvasWidth, canvasHeight);
    }
  }

  /** The page calls `resetToStart()` once at load; from there every run
      of inputs and frames keeps the invariant. */
  lemma FromLoad(a: Arcade, evs: seq<Event>, canvasWidth: real, canvasHeight: real)
    ensures Sane(Run(Restart(a, Start, canvasWidth), evs, canvasWidth, canvasHeight))
  {
    RunSane(Restart(a, Start, canvasWidth), evs, canvasWidth, canvasHeight);
  }
}

=== FILE: lesson_input.dfy ===
/** `learning/step13/input.js`: held arrow keys and a one-shot upgrade
    flag that a key repeat cannot set and reading clears. */
module LessonInput {

  /** `input = { left, right, upgradePressed }`. */
  datatype Keys = Keys(left: bool, right: bool, upgradePressed: bool)

  function InitialKeys(): (k: Keys)
    ensures !k.left && !k.right && !k.upgradePressed
  {
    Keys(false, false, false)
  }

  /** The keydown listener; `repeat` is the event's auto-repeat flag. */
  function KeyDown(k: Keys, key: string, repeat: bool): (r: Keys)
    ensures (key == "u" || key == "U") && !repeat ==> r.upgradePressed
    ensures !((key == "u" || key == "U") && !repeat) ==> r.upgradePressed == k.upgradePressed
    ensures r.left == (k.left || key == "ArrowLeft") && r.right == (k.right || key == "ArrowRight")
  {
    var k1 := if key == "ArrowLeft" then k.(left := true) else k;
    var k2 := if key == "ArrowRight" then k1.(right := true) else k1;
    if (key == "u" || key == "U") && !repeat then k2.(upgradePressed := true) else k2
  }

  /** The keyup listener. */
  function KeyUp(k: Keys, key: string): (r: Keys)
    ensures r.upgradePressed == k.upgradePressed
    ensures r.left == (k.left && key != "ArrowLeft") && r.right == (k.right && key != "ArrowRight")
  {
    var k1 := if key == "ArrowLeft" then k.(left := false) else k;
    if key == "ArrowRight" then k1.(right := false) else k1
  }

  /** `consumeUpgradePressed`: the flag as it was, and the keys with the
      flag cleared. */
  function Consume(k: Keys): (r: (bool, Keys))
    ensures r.0 == k.upgradePressed
    ensures !r.1.upgradePressed && r.1.left == k.left && r.1.right == k.right
  {
    (k.upgradePressed, k.(upgradePressed := false))
  }

  /** One press is read once: a second read right after returns false,
      and a held `u` whose events are all repeats sets nothing new. */
  lemma ConsumeOnce(k: Keys)
    ensures !Consume(Consume(k).1).0
    ensures Consume(KeyDown(Consume(k).1, "u", true)).0 == false
    ensures Consume(KeyDown(Consume(k).1, "U", false)).0
  {
  }

  /** The arrows only touch their own flags. */
  lemma ArrowsLeaveUpgrade(k: Keys, key: string, repeat: bool)
    requires key == "ArrowLeft" || key == "ArrowRight"
    ensures KeyDown(k, key, repeat).upgradePressed == k.upgradePressed
    ensures KeyUp(k, key).upgradePressed == k.upgradePressed
    ensures KeyUp(KeyDown(k, key, repeat), key) == KeyUp(k, key)
  {
  }
}

=== FILE: lesson_player.dfy ===
/** The player of the lesson steps (`learning/step10/player.js`, repeated
    inline in `learning/step13/main.js`) and the score counter of
    `learning/step11/hud.js`. */
module LessonPlayer {

  datatype Player = Player(x: real, y: real, width: real, height: real, speed: real)

  const PlayerSize: real := 30.0
  const PlayerSpeed: real := 5.0

  /** `createPlayer(canvas)`: centred, 60 above the bottom edge. */
  function CreatePlayer(canvasWidth: real, canvasHeight: real): (p: Player)
    ensures p.width == 30.0 && p.height == 30.0 && p.speed == 5.0
    ensures p.x + p.width / 2.0 == canvasWidth / 2.0 && p.y == canvasHeight - 60.0
  {
    Player(canvasWidth / 2.0 - PlayerSize / 2.0, canvasHeight - 60.0, PlayerSize, PlayerSize, PlayerSpeed)
  }

  /** The two held arrow keys. */
  datatype Held = Held(left: bool, right: bool)

  /** `updatePlayer(player, canvas, input)`: step left, step right, then
      clamp to the left edge and then to the right edge. */
  function UpdatePlayer(p: Player, canvasWidth: real, input: Held): (r: Player)
    ensures r == p.(x := r.x)
    ensures r.x <= canvasWidth - p.width
    ensures canvasWidth >= p.width ==> r.x >= 0.0
  {
    var x1 := if input.left then p.x - p.speed else p.x;
    var x2 := if input.right then x1 + p.speed else x1;
    var x3 := if x2 < 0.0 then 0.0 else x2;
    var x4 := if x3 > canvasWidth - p.width then canvasWidth - p.width else x3;
    p.(x := x4)
  }

  /** The clamped position of the unclamped target `x`. */
  function Clamp(x: real, lo: real, hi: real): real {
    if x < lo then lo else if x > hi then hi else x
  }

  /** The update is the step the held keys ask for, clamped into the
      canvas; both keys cancel out, and a player inside the canvas with no
      key held stays where it is. */
  lemma UpdatePlayerClamps(p: Player, canvasWidth: real, input: Held)
    requires canvasWidth >= p.width
    ensures UpdatePlayer(p, canvasWidth, input).x
            == Clamp(p.x - (if input.left then p.speed else 0.0) + (if input.right then p.speed else 0.0),
                     0.0, canvasWidth - p.width)
    ensures UpdatePlayer(p, canvasWidth, Held(true, true)) == UpdatePlayer(p, canvasWidth, Held(false, false))
    ensures 0.0 <= p.x <= canvasWidth - p.width ==> UpdatePlayer(p, canvasWidth, Held(false, false)) == p
  {
  }

  /** When the canvas is narrower than the player the right clamp wins and
      the player sits partly off the left edge. */
  lemma NarrowCanvas(p: Player, canvasWidth: real, input: Held)
    requires canvasWidth < p.width
    ensures UpdatePlayer(p, canvasWidth, input).x == canvasWidth - p.width < 0.0
  {
  }

  /** `hud = { score, scorePerKill }`. */
  datatype Hud = Hud(score: int, scorePerKill: int)

  function InitialHud(): (h: Hud)
    ensures h.score == 0 && h.scorePerKill == 100
  {
    Hud(0, 100)
  }

  /** `addScoreKill`. */
  function AddScoreKill(h: Hud): (r: Hud)
    ensures r.scorePerKill == h.scorePerKill && r.score - h.score == h.scorePerKill
  {
    h.(score := h.score + h.scorePerKill)
  }

  function Kills(h: Hud, n: nat): Hud
    decreases n
  {
    if n == 0 then h else Kills(AddScoreKill(h), n - 1)
  }

  /** `n` kills add `n` times the per-kill score; from the start that is
      `100 * n`. */
  lemma {:induction false} KillsScore(h: Hud, n: nat)
    ensures Kills(h, n) == Hud(h.score + n * h.scorePerKill, h.scorePerKill)
    decreases n
  {
    if n > 0 {
      KillsScore(AddScoreKill(h), n - 1);
    }
  }

  lemma KillsFromStart(n: nat)
    ensures Kills(InitialHud(), n).score == 100 * n
  {
    KillsScore(InitialHud(), n);
  }
}

=== FILE: lesson_shooting.dfy ===
/** The cooldown-gated firing and the bullet update of the lesson steps:
    `learning/step11/bullets.js`, `docs/learning/step12/bullets.js` and
    `learning/step13/bullets.js`. The three share one cooldown machine;
    step 13 fires a spread and culls at the sides as well. */
module LessonShooting {
  import opened Wrappers
  import opened Cull
  import opened LessonWeapon

  /** `{ size, x, y, vx, vy }`. The bullets of steps 11 and 12 have no `vx`;
      they get 0 here and their update never reads it. */
  datatype Shot = Shot(x: real, y: real, size: real, vx: real, vy: real)

  const ShotSize: real := 10.0
  const ShotSpeedY: real := -8.0
  const Cooldown: int := 8

  // ---------------------------------------------------------------------
  // The cooldown machine

  /** The start of every `tryShoot`: a positive cooldown counts down. */
  function Tick(c: int): (r: int)
    ensures c > 0 ==> r == c - 1
    ensures c <= 0 ==> r == c
  {
    if c > 0 then c - 1 else c
  }

  /** The new cooldown and whether this call fires. */
  datatype Trigger = Trigger(cooldown: int, fires: bool)

  /** `tryShoot` without the spawning: fire when held and the cooldown has
      run out, and then wait 8 calls. */
  function Pull(c: int, held: bool): (t: Trigger)
    ensures t.fires <==> held && Tick(c) == 0
    ensures t.fires ==> t.cooldown == Cooldown
    ensures !t.fires ==> t.cooldown == Tick(c)
  {
    var c1 := Tick(c);
    if !held then Trigger(c1, false)
    else if c1 == 0 then Trigger(Cooldown, true)
    else Trigger(c1, false)
  }

  /** `resetShootCooldown`. */
  function ResetShootCooldown(c: int): (r: int)
    ensures r == 0 && Pull(r, true).fires
  {
    0
  }

  /** The cooldown stays in `0..8`. */
  lemma PullInRange(c: int, held: bool)
    requires 0 <= c <= Cooldown
    ensures 0 <= Pull(c, held).cooldown <= Cooldown
  {
  }

  /** How many of `n` calls with the key held fire, from cooldown `c`. */
  function HeldShots(c: int, n: nat): nat
    decreases n
  {
    if n == 0 then 0
    else
      var t := Pull(c, true);
      (if t.fires then 1 else 0) + HeldShots(t.cooldown, n - 1)
  }

  /** Holding the key fires once every 8 calls: from cooldown `c` the
      first shot comes on call `max(c, 1)` and then every 8th call. */
  lemma {:induction false} HeldEveryEighth(c: int, n: nat)
    requires 0 <= c <= Cooldown
    ensures HeldShots(c, n) == (n + Cooldown - (if c == 0 then 1 else c)) / Cooldown
    decreases n
  {
    if n > 0 {
      var t := Pull(c, true);
      HeldEveryEighth(t.cooldown, n - 1);
      if t.fires {
        assert (n + 7) / 8 == 1 + (n - 1) / 8;
      }
    }
  }

  /** Where the bullets of a shot start: centred over the player. */
  function ShotX(px: real, pw: real): real {
    px + pw / 2.0 - ShotSize / 2.0
  }

  // ---------------------------------------------------------------------
  // Steps 11 and 12: one bullet per shot, moving straight up

  /** `tryShoot` of steps 11 and 12. */
  function TryShootSingle(bs: seq<Shot>, c: int, held: bool, px: real, py: real, pw: real): (r: (seq<Shot>, int))
    ensures r.1 == Pull(c, held).cooldown
    ensures Pull(c, held).fires ==> r.0 == bs + [Shot(ShotX(px, pw), py, ShotSize, 0.0, ShotSpeedY)]
    ensures !Pull(c, held).fires ==> r.0 == bs
  {
    var t := Pull(c, held);
    if t.fires then (bs + [Shot(ShotX(px, pw), py, ShotSize, 0.0, ShotSpeedY)], t.cooldown)
    else (bs, t.cooldown)
  }

  function MoveUp(b: Shot): Shot {
    b.(y := b.y + b.vy)
  }

  predicate AboveTop(b: Shot) {
    b.y + b.size < 0.0
  }

  /** `updateBullets` of steps 11 and 12. */
  method UpdateBulletsUp(bs: seq<Shot>) returns (out: seq<Shot>)
    ensures out == Survivors(bs, MoveUp, AboveTop)
    ensures forall k :: 0 <= k < |out| ==> out[k].y + out[k].size >= 0.0
  {
    out := CullLoop(bs, MoveUp, AboveTop);
    SurvivorsSpec(bs, MoveUp, AboveTop);
  }

  // ---------------------------------------------------------------------
  // Step 13: a spread per shot, culled on three sides

  /** The bullets of one shot, in pattern order. */
  function Spread(pattern: seq<int>, px: real, py: real, pw: real): (v: seq<Shot>)
    ensures |v| == |pattern|
    ensures forall i :: 0 <= i < |v| ==> v[i] == Shot(ShotX(px, pw), py, ShotSize, pattern[i] as real, ShotSpeedY)
  {
    seq(|pattern|, i requires 0 <= i < |pattern| => Shot(ShotX(px, pw), py, ShotSize, pattern[i] as real, ShotSpeedY))
  }

  /** `tryShoot(player, shootHeld, weapon)` of step 13; `level` is
      `weapon?.level`, `None` when there is no weapon or no level. */
  method TryShootSpread(bs: seq<Shot>, c: int, held: bool, px: real, py: real, pw: real,
                        level: Option<int>, current: Weapon) returns (out: seq<Shot>, c2: int)
    ensures c2 == Pull(c, held).cooldown
    ensures Pull(c, held).fires ==> out == bs + Spread(VxPatternOf(level, current), px, py, pw)
    ensures !Pull(c, held).fires ==> out == bs
  {
    var t := Pull(c, held);
    c2 := t.cooldown;
    out := bs;
    if t.fires {
      var vxs := VxPatternOf(level, current);
      var i := 0;
      while i < |vxs|
        invariant 0 <= i <= |vxs|
        invariant out == bs + Spread(vxs[..i], px, py, pw)
      {
        assert vxs[..i + 1] == vxs[..i] + [vxs[i]];
        out := out + [Shot(ShotX(px, pw), py, ShotSize, vxs[i] as real, ShotSpeedY)];
        i := i + 1;
      }
      assert vxs[..i] == vxs;
    }
  }

  function Move(b: Shot): Shot {
    b.(x := b.x + b.vx, y := b.y + b.vy)
  }

  /** Off the top, off the left or past the right edge. */
  predicate OffScreen(b: Shot, width: real) {
    b.y + b.size < 0.0 || b.x + b.size < 0.0 || b.x > width
  }

  /** `updateBullets(canvas)` of step 13. */
  method UpdateBulletsSpread(bs: seq<Shot>, width: real) returns (out: seq<Shot>)
    ensures out == Survivors(bs, Move, b => OffScreen(b, width))
    ensures forall k :: 0 <= k < |out| ==> !OffScreen(out[k], width)
  {
    out := CullLoop(bs, Move, b => OffScreen(b, width));
    SurvivorsSpec(bs, Move, b => OffScreen(b, width));
  }
}

=== FILE: lesson_weapon.dfy ===
/** The weapon of the lesson steps (`learning/step13/weapon.js`, repeated
    inline in `learning/step13/main.js`): three levels and a spread of at
    most three bullets. */
module LessonWeapon {
  import opened Wrappers

  /** `weapon = { level, maxLevel }`. */
  datatype Weapon = Weapon(level: int, maxLevel: int)

  const SpeedX: int := 3

  /** The weapon at load. */
  function InitialWeapon(): (w: Weapon)
    ensures w.level == 1 && w.maxLevel == 3
  {
    Weapon(1, 3)
  }

  /** `upgradeWeapon`: one level more, only below the maximum. */
  function UpgradeWeapon(w: Weapon): (r: Weapon)
    ensures r.maxLevel == w.maxLevel
    ensures w.level < w.maxLevel ==> r.level == w.level + 1
    ensures w.level >= w.maxLevel ==> r == w
  {
    if w.level < w.maxLevel then w.(level := w.level + 1) else w
  }

  /** Upgrading never passes the maximum and only ever raises the level. */
  lemma UpgradeKeepsBound(w: Weapon)
    requires w.level <= w.maxLevel
    ensures w.level <= UpgradeWeapon(w).level <= w.maxLevel
  {
  }

  /** `n` presses of the upgrade key. */
  function UpgradeTimes(w: Weapon, n: nat): Weapon
    decreases n
  {
    if n == 0 then w else UpgradeTimes(UpgradeWeapon(w), n - 1)
  }

  /** From any level at most the maximum, `n` upgrades reach the smaller
      of the level plus `n` and the maximum. */
  lemma {:induction false} UpgradeTimesLevel(w: Weapon, n: nat)
    requires w.level <= w.maxLevel
    ensures UpgradeTimes(w, n).level == if w.level + n <= w.maxLevel then w.level + n else w.maxLevel
    ensures UpgradeTimes(w, n).maxLevel == w.maxLevel
    decreases n
  {
    if n > 0 {
      UpgradeTimesLevel(UpgradeWeapon(w), n - 1);
    }
  }

  /** `getVxPattern(level)`. */
  function VxPattern(level: int): seq<int> {
    if level <= 1 then [0]
    else if level == 2 then [-SpeedX, SpeedX]
    else [-SpeedX, 0, SpeedX]
  }

  /** `getVxPattern()` with the argument omitted or `undefined`: the
      current level. */
  function VxPatternOf(level: Option<int>, w: Weapon): (p: seq<int>)
    ensures level.None? ==> p == VxPattern(w.level)
    ensures level.Some? ==> p == VxPattern(level.value)
  {
    VxPattern(level.GetOr(w.level))
  }

  function Min(a: int, b: int): int {
    if a <= b then a else b
  }

  /** Every pattern mirrors itself and, from level 1 on, has one bullet per
      level up to three; levels below 1 fire one bullet straight up. */
  lemma PatternShape(level: int)
    ensures forall i :: 0 <= i < |VxPattern(level)| ==>
              VxPattern(level)[i] == -VxPattern(level)[|VxPattern(level)| - 1 - i]
    ensures level >= 1 ==> |VxPattern(level)| == Min(level, 3)
    ensures level < 1 ==> VxPattern(level) == [0]
  {
  }
}

=== FILE: line_diff.dfy ===
/** The line diff of the viewer page and the playground: `splitLines`,
    the forward pass of the Myers O(ND) algorithm that records one map of
    furthest-reaching x per edit distance, and the backtrack that turns the
    recorded maps into a list of equal/add/del operations.

    Lines are read the way JavaScript reads an array: an index outside the
    array yields `undefined`, modelled as `None`, and `undefined === undefined`
    holds, so `At` and `==` on `Option<string>` follow the code exactly. */
module LineDiff {
  import opened Wrappers
  import opened Strings

  /** One output row of the diff. The line is `undefined` (`None`) when the
      code reads an array out of range. */
  datatype Op = Equal(line: Option<string>) | Add(line: Option<string>) | Del(line: Option<string>)

  /** The line at index `i`, or `undefined`. */
  function At(s: seq<string>, i: int): (r: Option<string>)
    ensures r.Some? <==> 0 <= i < |s|
    ensures r.Some? ==> r.value == s[i]
  {
    if 0 <= i < |s| then Some(s[i]) else None
  }

  /** `m.get(k) ?? dflt`. */
  function Lookup(m: map<int, int>, k: int, dflt: int): int {
    if k in m then m[k] else dflt
  }

  /** Every line wrapped as a present array element. */
  function Wrap(s: seq<string>): (r: seq<Option<string>>)
    ensures |r| == |s|
    ensures forall i :: 0 <= i < |s| ==> r[i] == Some(s[i])
  {
    seq(|s|, i requires 0 <= i < |s| => Some(s[i]))
  }

  // ---------------------------------------------------------------------
  // splitLines

  /** `replace(/\r\n?/g, '\n')`: CRLF and a lone CR both become LF. */
  function NormalizeNewlines(s: string): (r: string)
    ensures '\r' !in r
    ensures '\r' !in s ==> r == s
    ensures |r| <= |s|
    decreases |s|
  {
    if |s| == 0 then ""
    else if s[0] == '\r' then "\n" + NormalizeNewlines(if |s| > 1 && s[1] == '\n' then s[2..] else s[1..])
    else [s[0]] + NormalizeNewlines(s[1..])
  }

  /** Text before the first CR passes through the rewrite unchanged. */
  lemma {:induction false} NormalizeKeepsPrefix(a: string, b: string)
    requires '\r' !in a
    ensures NormalizeNewlines(a + b) == a + NormalizeNewlines(b)
    decreases |a|
  {
    if |a| > 0 {
      assert (a + b)[0] == a[0];
      assert (a + b)[1..] == a[1..] + b;
      NormalizeKeepsPrefix(a[1..], b);
      assert [a[0]] + (a[1..] + NormalizeNewlines(b)) == a + NormalizeNewlines(b);
    } else {
      assert a + b == b;
    }
  }

  /** A CRLF pair becomes a single LF. */
  lemma NormalizeCrLf(a: string, b: string)
    requires '\r' !in a
    ensures NormalizeNewlines(a + "\r\n" + b) == a + "\n" + NormalizeNewlines(b)
  {
    var c := "\r\n" + b;
    assert a + "\r\n" + b == a + c;
    NormalizeKeepsPrefix(a, c);
    assert c[0] == '\r' && c[1] == '\n' && c[2..] == b;
  }

  /** A CR not followed by LF also becomes a single LF. */
  lemma NormalizeLoneCr(a: string, b: string)
    requires '\r' !in a
    requires |b| == 0 || b[0] != '\n'
    ensures NormalizeNewlines(a + "\r" + b) == a + "\n" + NormalizeNewlines(b)
  {
    var c := "\r" + b;
    assert a + "\r" + b == a + c;
    NormalizeKeepsPrefix(a, c);
    LoneCrHead(b);
    var n := NormalizeNewlines(b);
    assert a + ("\n" + n) == a + "\n" + n;
  }

  /** A leading CR that does not start a CRLF pair becomes LF. */
  lemma LoneCrHead(b: string)
    requires |b| == 0 || b[0] != '\n'
    ensures NormalizeNewlines("\r" + b) == "\n" + NormalizeNewlines(b)
  {
    var c := "\r" + b;
    assert c[0] == '\r';
    assert c[1..] == b;
    if |b| > 0 {
      assert c[1] == b[0];
    }
  }

  /** `splitLines(text)`: the lines of the text after newline
      normalisation; never empty, and no line holds a line break. */
  function SplitLines(text: string): (r: seq<string>)
    ensures |r| >= 1
    ensures forall i :: 0 <= i < |r| ==> '\n' !in r[i] && '\r' !in r[i]
  {
    var s := NormalizeNewlines(text);
    var r := Split(s, '\n');
    assert forall i :: 0 <= i < |r| ==> '\r' !in r[i] by {
      forall i | 0 <= i < |r|
        ensures '\r' !in r[i]
      {
        if '\r' in r[i] {
          JoinSplit(s, '\n');
          JoinHoldsPiece(r, "\n", i, '\r');
          assert false;
        }
      }
    }
    r
  }

  /** A character of any piece occurs in the joined text. */
  lemma {:induction false} JoinHoldsPiece(parts: seq<string>, sep: string, i: int, c: char)
    requires 0 <= i < |parts|
    requires c in parts[i]
    ensures c in Join(parts, sep)
    decreases |parts|
  {
    if |parts| > 1 {
      if i == 0 {
        assert Join(parts, sep) == parts[0] + (sep + Join(parts[1..], sep));
      } else {
        JoinHoldsPiece(parts[1..], sep, i - 1, c);
        assert Join(parts, sep) == (parts[0] + sep) + Join(parts[1..], sep);
      }
    }
  }

  /** Joining the lines with LF gives back the normalised text. */
  lemma SplitLinesJoin(text: string)
    ensures Join(SplitLines(text), "\n") == NormalizeNewlines(text)
  {
    JoinSplit(NormalizeNewlines(text), '\n');
  }

  /** An empty text is one empty line. */
  lemma SplitLinesEmpty()
    ensures SplitLines("") == [""]
  {
  }

  /** Text that ends in a newline has a trailing empty line. */
  lemma SplitLinesTrailingNewline()
    ensures SplitLines("a\n") == ["a", ""]
  {
    assert "a\n"[1..] == "\n" && "\n"[1..] == "";
    assert Split("\n", '\n') == ["", ""];
    assert ['a'] + "" == "a";
    assert Split("a\n", '\n') == ["a", ""];
  }

  /** CRLF and a lone CR both end a line. */
  lemma SplitLinesMixedBreaks()
    ensures SplitLines("a\r\nb\rc") == ["a", "b", "c"]
  {
    assert "a\r\nb\rc"[1..] == "\r\nb\rc" && "\r\nb\rc"[2..] == "b\rc";
    assert "b\rc"[1..] == "\rc" && "\rc"[1..] == "c" && "c"[1..] == "";
    assert NormalizeNewlines("a\r\nb\rc") == "a\nb\nc";
    SplitThreeLines();
  }

  lemma SplitThreeLines()
    ensures Split("a\nb\nc", '\n') == ["a", "b", "c"]
  {
    assert "a\nb\nc"[1..] == "\nb\nc" && "\nb\nc"[1..] == "b\nc";
    assert "b\nc"[1..] == "\nc" && "\nc"[1..] == "c" && "c"[1..] == "";
    assert ['c'] + "" == "c" && ['a'] + "" == "a";
    assert Split("c", '\n') == ["c"];
    assert Split("\nc", '\n') == ["", "c"];
    assert ['b'] + "" == "b";
    assert Split("b\nc", '\n') == ["b", "c"];
    assert Split("\nb\nc", '\n') == ["", "b", "c"];
  }

  // ---------------------------------------------------------------------
  // Forward pass

  /** The map before the first round: `v.set(1, 0)`. */
  const Init: map<int, int> := map[1 := 0]

  /** Whether diagonal `k` of round `d` continues the path of diagonal
      `k + 1` (a step down, inserting a line of the new text) rather than
      that of diagonal `k - 1` (a step right, deleting a line). The forward
      pass and the backtrack evaluate the same condition. */
  predicate FromAbove(v: map<int, int>, d: int, k: int) {
    k == -d || (k != d && Lookup(v, k - 1, -1) < Lookup(v, k + 1, -1))
  }

  /** The x coordinate where round `d` starts on diagonal `k`, before the
      snake. */
  function StartX(v: map<int, int>, d: int, k: int): int {
    if FromAbove(v, d, k) then Lookup(v, k + 1, 0) else Lookup(v, k - 1, 0) + 1
  }

  /** The snake: from (x, y), advance both indices while the lines agree.
      The result is the x where it stops. */
  function Slide(a: seq<string>, b: seq<string>, x: int, y: int): int
    decreases |a| - x
  {
    if x < |a| && y < |b| && At(a, x) == At(b, y) then Slide(a, b, x + 1, y + 1) else x
  }

  /** The snake never moves back, and it only moves inside both texts. */
  lemma {:induction false} SlideBounds(a: seq<string>, b: seq<string>, x: int, y: int)
    ensures x <= Slide(a, b, x, y)
    ensures Slide(a, b, x, y) > x ==> Slide(a, b, x, y) <= |a| && Slide(a, b, x, y) - x + y <= |b|
    decreases |a| - x
  {
    if x < |a| && y < |b| && At(a, x) == At(b, y) {
      SlideBounds(a, b, x + 1, y + 1);
    }
  }

  /** Every pair the snake passes agrees, and it stops at the first pair
      that differs or at the end of a text. */
  lemma {:induction false} SlideMatches(a: seq<string>, b: seq<string>, x: int, y: int)
    ensures forall i :: x <= i < Slide(a, b, x, y) ==> At(a, i) == At(b, i - x + y)
    ensures var r := Slide(a, b, x, y);
            !(r < |a| && r - x + y < |b| && At(a, r) == At(b, r - x + y))
    decreases |a| - x
  {
    if x < |a| && y < |b| && At(a, x) == At(b, y) {
      SlideMatches(a, b, x + 1, y + 1);
      SlideBounds(a, b, x + 1, y + 1);
    }
  }

  /** The point of round `d` on diagonal `k`, as x. */
  function Point(a: seq<string>, b: seq<string>, v: map<int, int>, d: int, k: int): int {
    var x0 := StartX(v, d, k);
    Slide(a, b, x0, x0 - k)
  }

  /** The point (x, x - k) has reached the end of both texts. */
  predicate Reaches(a: seq<string>, b: seq<string>, x: int, k: int) {
    x >= |a| && x - k >= |b|
  }

  /** Diagonal `k` is one round `d` visits: `-d, -d + 2, ..., d`. */
  predicate OnDiagonal(d: int, k: int) {
    -d <= k <= d && (k + d) % 2 == 0
  }

  /** The outcome of one round: it reached the end (and the function
      returned from inside the inner loop) or it visited every diagonal. */
  datatype Round = Reached(v: map<int, int>) | Exhausted(v: map<int, int>)

  /** The inner loop of one round, from diagonal `k` on, extending the
      partial map `next`. */
  function Sweep(a: seq<string>, b: seq<string>, v: map<int, int>, d: nat, k: int, next: map<int, int>): Round
    decreases d - k + 2
  {
    if k > d then Exhausted(next)
    else
      var x := Point(a, b, v, d, k);
      var next1 := next[k := x];
      if Reaches(a, b, x, k) then Reached(next1)
      else Sweep(a, b, v, d, k + 2, next1)
  }

  /** The outer loop from round `d` on, `v` being the map of round `d - 1`
      and `trace` the maps pushed so far. */
  function Forward(a: seq<string>, b: seq<string>, v: map<int, int>, d: nat, trace: seq<map<int, int>>): (r: seq<map<int, int>>)
    requires d <= |a| + |b| + 1
    ensures trace <= r
    ensures |r| <= |trace| + (|a| + |b| + 1 - d)
    decreases |a| + |b| + 1 - d
  {
    if d > |a| + |b| then trace
    else
      match Sweep(a, b, v, d, -(d as int), map[])
      case Reached(n) => trace + [n]
      case Exhausted(n) => Forward(a, b, n, d + 1, trace + [n])
  }

  /** The maps `myersDiffLines` pushes, one per round it ran. */
  function Trace(a: seq<string>, b: seq<string>): seq<map<int, int>> {
    Forward(a, b, Init, 0, [])
  }

  // ---------------------------------------------------------------------
  // Backtrack

  /** A run of operations together with the point where it starts. */
  datatype Walk = Walk(ops: seq<Op>, x: int, y: int)

  /** The backtrack's equal loop: from (x, y), step back diagonally while
      `x > px && y > py`. The operations come out in forward order (the
      order after the final `reverse`). */
  function EqualRun(a: seq<string>, x: int, y: int, px: int, py: int): (w: Walk)
    ensures |w.ops| == x - w.x == y - w.y
    ensures w.x <= x
    decreases x - px
  {
    if x > px && y > py then
      var w := EqualRun(a, x - 1, y - 1, px, py);
      Walk(w.ops + [Equal(At(a, x - 1))], w.x, w.y)
    else Walk([], x, y)
  }

  /** `backtrackMyers` from round `d` down to round 0, standing at (x, y):
      the operations it pushes from here on, in the order they have after
      the final `reverse`. Round `d` reads `trace[d]`. */
  function Back(trace: seq<map<int, int>>, a: seq<string>, b: seq<string>, d: nat, x: int, y: int): seq<Op>
    requires d < |trace|
    decreases d
  {
    var v := trace[d];
    var k := x - y;
    var prevK := if FromAbove(v, d, k) then k + 1 else k - 1;
    var prevX := Lookup(v, prevK, 0);
    var prevY := prevX - prevK;
    var run := EqualRun(a, x, y, prevX, prevY);
    if d == 0 then run.ops
    else if run.x == prevX then Back(trace, a, b, d - 1, run.x, run.y - 1) + [Add(At(b, run.y - 1))] + run.ops
    else Back(trace, a, b, d - 1, run.x - 1, run.y) + [Del(At(a, run.x - 1))] + run.ops
  }

  /** `backtrackMyers(trace, a, b)`: starts at (|a|, |b|) in the last round. */
  function Backtrack(trace: seq<map<int, int>>, a: seq<string>, b: seq<string>): seq<Op> {
    if |trace| == 0 then [] else Back(trace, a, b, |trace| - 1, |a|, |b|)
  }

  /** `myersDiffLines(a, b)` as written. */
  function MyersDiffLines(a: seq<string>, b: seq<string>): seq<Op> {
    Backtrack(Trace(a, b), a, b)
  }

  /** The map in force when round `d` starts: `Init` for round 0, else the
      map round `d - 1` pushed. */
  function Prior(trace: seq<map<int, int>>, d: nat): map<int, int>
    requires d <= |trace|
  {
    if d == 0 then Init else trace[d - 1]
  }

  /** For each round, the map in force when it started. */
  function PriorMaps(trace: seq<map<int, int>>): (r: seq<map<int, int>>)
    ensures |r| == |trace|
  {
    seq(|trace|, d requires 0 <= d < |trace| => Prior(trace, d))
  }

  /** The diff with the backtrack reading, at round `d`, the map round `d`
      started from — the Myers backtrack. This is the diff `RenderDiffFixed`
      shows. */
  function FixedDiff(a: seq<string>, b: seq<string>): seq<Op> {
    Backtrack(PriorMaps(Trace(a, b)), a, b)
  }

  // ---------------------------------------------------------------------
  // Reading a diff back

  /** The line a row contributes to the old text (`before`) or to the new
      text: `equal` rows to both, `del` rows to the old, `add` rows to the
      new. */
  function RowLine(op: Op, before: bool): seq<Option<string>> {
    if (before && op.Add?) || (!before && op.Del?) then [] else [op.line]
  }

  /** The lines the first `n` rows contribute to one side. */
  function Side(ops: seq<Op>, n: nat, before: bool): seq<Option<string>>
    requires n <= |ops|
  {
    if n == 0 then [] else Side(ops, n - 1, before) + RowLine(ops[n - 1], before)
  }

  /** The lines a diff keeps or deletes: the old text it describes. */
  function OldSide(ops: seq<Op>): seq<Option<string>> {
    Side(ops, |ops|, true)
  }

  /** The lines a diff keeps or adds: the new text it describes. */
  function NewSide(ops: seq<Op>): seq<Option<string>> {
    Side(ops, |ops|, false)
  }

  /** The number of rows among the first `n` that are not `equal`. */
  function Edits(ops: seq<Op>, n: nat): nat
    requires n <= |ops|
  {
    if n == 0 then 0 else Edits(ops, n - 1) + (if ops[n - 1].Equal? then 0 else 1)
  }

  /** The number of rows that are not `equal`. */
  function EditCount(ops: seq<Op>): nat {
    Edits(ops, |ops|)
  }

  lemma {:induction false} SidePrefix(p: seq<Op>, q: seq<Op>, n: nat, before: bool)
    requires n <= |p|
    ensures Side(p + q, n, before) == Side(p, n, before)
  {
    if n > 0 {
      SidePrefix(p, q, n - 1, before);
    }
  }

  lemma {:induction false} EditsPrefix(p: seq<Op>, q: seq<Op>, n: nat)
    requires n <= |p|
    ensures Edits(p + q, n) == Edits(p, n)
  {
    if n > 0 {
      EditsPrefix(p, q, n - 1);
    }
  }

  lemma {:induction false} SideAppendN(p: seq<Op>, q: seq<Op>, k: nat, before: bool)
    requires k <= |q|
    ensures Side(p + q, |p| + k, before) == Side(p, |p|, before) + Side(q, k, before)
  {
    if k == 0 {
      SidePrefix(p, q, |p|, before);
    } else {
      SideAppendN(p, q, k - 1, before);
      assert (p + q)[|p| + k - 1] == q[k - 1];
    }
  }

  lemma {:induction false} EditsAppendN(p: seq<Op>, q: seq<Op>, k: nat)
    requires k <= |q|
    ensures Edits(p + q, |p| + k) == Edits(p, |p|) + Edits(q, k)
  {
    if k == 0 {
      EditsPrefix(p, q, |p|);
    } else {
      EditsAppendN(p, q, k - 1);
      assert (p + q)[|p| + k - 1] == q[k - 1];
    }
  }

  /** A single row reads back as the line it contributes. */
  lemma SideOne(op: Op)
    ensures OldSide([op]) == RowLine(op, true)
    ensures NewSide([op]) == RowLine(op, false)
    ensures EditCount([op]) == if op.Equal? then 0 else 1
  {
    assert Side([op], 0, true) == [] && Side([op], 0, false) == [] && Edits([op], 0) == 0;
  }

  /** Reading a concatenation of diffs back reads each part in turn. */
  lemma SideAppend(p: seq<Op>, q: seq<Op>)
    ensures OldSide(p + q) == OldSide(p) + OldSide(q)
    ensures NewSide(p + q) == NewSide(p) + NewSide(q)
    ensures EditCount(p + q) == EditCount(p) + EditCount(q)
  {
    SideAppendN(p, q, |q|, true);
    SideAppendN(p, q, |q|, false);
    EditsAppendN(p, q, |q|);
  }
}

=== FILE: module_codec.dfy ===
/** The playground's multi-file JavaScript codec: one editor holds several
    module files as a single text, each file introduced by a marker line:
    a line comment, three dashes, `file:`, the name and three dashes
    (`MarkerLine`). `hasModuleMarkers` decides whether a text uses
    markers at all, `splitModules` cuts it at marker lines into an ordered
    map from name to body, `parseCombinedJsToFileMap` turns that into the
    file map of a manifest, and `assembleFileMapToCombinedJs` writes a file
    map back as one text, in the layout `loadStepSources` also builds.

    JavaScript's `Map` keeps keys in first-insertion order and `set` on a
    present key replaces the value in place; `Entry` sequences model that.
    The regular expressions are modelled by scanning: in both marker
    patterns every `\s*` and `-{3,}` is followed by a character it cannot
    match, so each of them matches a maximal run, and only the captured name
    is left to the backtracking of `[^\s]+`. */
module ModuleCodec {
  import opened Wrappers
  import opened Strings

  // ---------------------------------------------------------------------
  // Lines as `split(/\r?\n/)` cuts them

  /** The line comment that opens every marker. */
  const Slashes: string := ['/', '/']

  /** Drops one trailing CR. */
  function DropCr(s: string): (r: string)
    ensures r == s || s == r + "\r"
  {
    if |s| > 0 && s[|s| - 1] == '\r' then s[..|s| - 1] else s
  }

  /** `text.split(/\r?\n/)`: cut at every LF; a CR right before an LF is
      part of the separator. */
  function SplitCrLf(text: string): (r: seq<string>)
    ensures |r| == |Split(text, '\n')|
    ensures forall i :: 0 <= i < |r| ==> '\n' !in r[i]
  {
    var pieces := Split(text, '\n');
    seq(|pieces|, i requires 0 <= i < |pieces| =>
      if i < |pieces| - 1 then DropCr(pieces[i]) else pieces[i])
  }

  /** Without CRs the cut is a plain split at LF. */
  lemma SplitCrLfNoCr(text: string)
    requires '\r' !in text
    ensures SplitCrLf(text) == Split(text, '\n')
  {
    var pieces := Split(text, '\n');
    JoinSplit(text, '\n');
    forall i | 0 <= i < |pieces|
      ensures '\r' !in pieces[i]
    {
      if '\r' in pieces[i] {
        JoinHoldsPiece(pieces, "\n", i, '\r');
      }
    }
  }

  /** A character of any piece occurs in the joined text. */
  lemma {:induction false} JoinHoldsPiece(parts: seq<string>, sep: string, i: int, c: char)
    requires 0 <= i < |parts|
    requires c in parts[i]
    ensures c in Join(parts, sep)
    decreases |parts|
  {
    if |parts| > 1 {
      if i == 0 {
        assert Join(parts, sep) == parts[0] + (sep + Join(parts[1..], sep));
      } else {
        JoinHoldsPiece(parts[1..], sep, i - 1, c);
        assert Join(parts, sep) == (parts[0] + sep) + Join(parts[1..], sep);
      }
    }
  }

  // ---------------------------------------------------------------------
  // Scanning runs

  /** The end of the run of white space starting at `i`. */
  function SkipSpace(s: string, i: nat): (r: nat)
    requires i <= |s|
    ensures i <= r <= |s|
    ensures forall j :: i <= j < r ==> IsSpace(s[j])
    ensures r < |s| ==> !IsSpace(s[r])
    decreases |s| - i
  {
    if i < |s| && IsSpace(s[i]) then SkipSpace(s, i + 1) else i
  }

  /** The end of the run of dashes starting at `i`. */
  function SkipDash(s: string, i: nat): (r: nat)
    requires i <= |s|
    ensures i <= r <= |s|
    ensures forall j :: i <= j < r ==> s[j] == '-'
    ensures r < |s| ==> s[r] != '-'
    decreases |s| - i
  {
    if i < |s| && s[i] == '-' then SkipDash(s, i + 1) else i
  }

  /** The end of the run of non-space characters starting at `i`. */
  function SkipWord(s: string, i: nat): (r: nat)
    requires i <= |s|
    ensures i <= r <= |s|
    ensures forall j :: i <= j < r ==> !IsSpace(s[j])
    ensures r < |s| ==> IsSpace(s[r])
    decreases |s| - i
  {
    if i < |s| && !IsSpace(s[i]) then SkipWord(s, i + 1) else i
  }

  /** `file:` at `i`, the letters in either case (the patterns carry the
      `i` flag; no character outside ASCII folds onto these letters). */
  predicate FileWordAt(s: string, i: nat) {
    && i + 5 <= |s|
    && (s[i] == 'f' || s[i] == 'F') && (s[i + 1] == 'i' || s[i + 1] == 'I')
    && (s[i + 2] == 'l' || s[i + 2] == 'L') && (s[i + 3] == 'e' || s[i + 3] == 'E')
    && s[i + 4] == ':'
  }

  // ---------------------------------------------------------------------
  // The marker line of `splitModules`

  /** From `e` to the end: white space, at least three dashes, white space. */
  predicate ClosingAt(s: string, e: nat)
    requires e <= |s|
  {
    var p := SkipSpace(s, e);
    var q := SkipDash(s, p);
    p > e && q - p >= 3 && AllSpace(s[q..])
  }

  /** The name `^\s*\/\/\s*-{3,}\s*file:\s*([^\s]+)\s*-{3,}\s*$` captures
      from one line, or `None` when the line does not match. The name is the
      whole run of non-space characters after `file:` when closing dashes
      follow after white space; otherwise, when only white space follows,
      the run minus its last three characters, provided those are dashes and
      something is left. */
  function MarkerName(line: string): (r: Option<string>)
    ensures r.Some? ==> |r.value| >= 1 && NoSpace(r.value)
  {
    var i := SkipSpace(line, 0);
    if !OccursAt(line, Slashes, i) then None
    else
      var j := SkipSpace(line, i + 2);
      var k := SkipDash(line, j);
      var f := SkipSpace(line, k);
      if k - j < 3 || !FileWordAt(line, f) then None
      else
        NameAt(line, SkipSpace(line, f + 5))
  }

  /** The rest of the match once the name starts at `n`. */
  function NameAt(line: string, n: nat): (r: Option<string>)
    requires n <= |line|
    ensures r.Some? ==> |r.value| >= 1 && NoSpace(r.value)
  {
    var e := SkipWord(line, n);
    if e == n then None
    else if ClosingAt(line, e) then WordPrefix(line, n, e); Some(line[n..e])
    else if AllSpace(line[e..]) && e - n >= 4 && line[e - 3..e] == "---" then
      WordPrefix(line, n, e - 3); Some(line[n..e - 3])
    else None
  }

  /** A piece of a run of non-space characters has no space in it. */
  lemma WordPrefix(s: string, n: nat, m: nat)
    requires n <= |s| && n <= m <= SkipWord(s, n)
    ensures NoSpace(s[n..m])
  {
  }

  /** The marker line `assembleFileMapToCombinedJs` writes. */
  function MarkerLine(name: string): string {
    Slashes + " --- file: " + name + " ---"
  }

  // ---------------------------------------------------------------------
  // `hasModuleMarkers`

  /** After `file:` at `p`: possibly some white space, then a character
      other than LF (`\s*[^\n]+`). */
  predicate LooseTail(s: string, p: nat)
    requires p <= |s|
  {
    exists q :: p <= q < |s| && s[q] != '\n' && AllSpace(s[p..q])
  }

  /** `\/\/\s*-{3,}\s*file:\s*[^\n]+` matches at index `i`. */
  predicate LooseAt(s: string, i: nat) {
    && OccursAt(s, Slashes, i)
    && var j := SkipSpace(s, i + 2);
       var k := SkipDash(s, j);
       var f := SkipSpace(s, k);
       k - j >= 3 && FileWordAt(s, f) && LooseTail(s, f + 5)
  }

  /** `hasModuleMarkers(text)`: the loose pattern matches somewhere. It
      needs no closing dashes and may span lines. */
  predicate HasModuleMarkers(text: string) {
    exists i :: 0 <= i < |text| && LooseAt(text, i)
  }

  // ---------------------------------------------------------------------
  // Ordered maps

  /** One key/value pair of a JavaScript `Map`. */
  datatype Entry = Entry(key: string, value: string)

  function Keys(es: seq<Entry>): set<string>
    decreases |es|
  {
    if |es| == 0 then {} else {es[0].key} + Keys(es[1..])
  }

  /** `map.get(k)` on a map with distinct keys. */
  function Get(es: seq<Entry>, k: string): (r: Option<string>)
    decreases |es|
  {
    if |es| == 0 then None
    else if es[0].key == k then Some(es[0].value)
    else Get(es[1..], k)
  }

  predicate DistinctKeys(es: seq<Entry>)
    decreases |es|
  {
    |es| == 0 || (es[0].key !in Keys(es[1..]) && DistinctKeys(es[1..]))
  }

  /** `map.set(k, v)`: replace the value in place when `k` is present,
      append otherwise. */
  function MapSet(es: seq<Entry>, k: string, v: string): (r: seq<Entry>)
    ensures Keys(r) == Keys(es) + {k}
    ensures DistinctKeys(es) ==> DistinctKeys(r)
    ensures Get(r, k) == Some(v)
    ensures forall other :: other != k ==> Get(r, other) == Get(es, other)
    decreases |es|
  {
    if |es| == 0 then [Entry(k, v)]
    else if es[0].key == k then
      var r := [Entry(k, v)] + es[1..];
      assert r[1..] == es[1..];
      r
    else
      var r := [es[0]] + MapSet(es[1..], k, v);
      assert r[1..] == MapSet(es[1..], k, v);
      r
  }

  // ---------------------------------------------------------------------
  // `splitModules`

  /** The loop state: the current file name (`null` before the first
      marker), the buffered lines and the modules found so far. */
  datatype Scan = Scan(current: Option<string>, buf: seq<string>, modules: seq<Entry>)

  /** A file name a marker can carry: non-empty, without white space. */
  predicate FileName(k: string) {
    |k| >= 1 && NoSpace(k)
  }

  /** What the loop keeps: distinct file names, each one a marker carried,
      and the current name one too. */
  predicate ScanOk(st: Scan) {
    DistinctKeys(st.modules)
    && (forall k :: k in Keys(st.modules) ==> FileName(k))
    && (st.current.Some? ==> FileName(st.current.value))
  }

  /** `flush()`: store the buffered lines under the current name, joined
      with LF and with one more LF at the end. */
  function Flush(st: Scan): (r: seq<Entry>)
    ensures st.current.Some? ==> Keys(r) == Keys(st.modules) + {st.current.value}
    ensures st.current.None? ==> r == st.modules
    ensures ScanOk(st) ==> DistinctKeys(r) && forall k :: k in Keys(r) ==> FileName(k)
  {
    if st.current.Some? then MapSet(st.modules, st.current.value, Join(st.buf, "\n") + "\n")
    else st.modules
  }

  /** One line: a marker flushes and starts a new file; any other line is
      buffered. */
  function Feed(st: Scan, line: string): (r: Scan)
    ensures ScanOk(st) ==> ScanOk(r)
  {
    match MarkerName(line)
    case Some(name) => Scan(Some(name), [], Flush(st))
    case None => st.(buf := st.buf + [line])
  }

  function FeedAll(st: Scan, lines: seq<string>): (r: Scan)
    ensures ScanOk(st) ==> ScanOk(r)
    decreases |lines|
  {
    if |lines| == 0 then st else FeedAll(Feed(st, lines[0]), lines[1..])
  }

  const Start: Scan := Scan(None, [], [])

  /** `splitModules(jsText)`: a `Map` from file names, each named once and
      each a name a marker line can carry. */
  function SplitModules(text: string): (r: seq<Entry>)
    ensures DistinctKeys(r)
    ensures forall k :: k in Keys(r) ==> FileName(k)
  {
    assert ScanOk(Start);
    Flush(FeedAll(Start, SplitCrLf(text)))
  }

  // ---------------------------------------------------------------------
  // `parseCombinedJsToFileMap`

  /** `list.map(s => s.trim()).filter(Boolean)`. */
  function NormalizeNames(list: seq<string>): (r: seq<string>)
    ensures forall i :: 0 <= i < |r| ==> r[i] != ""
    ensures |r| <= |list|
    decreases |list|
  {
    if |list| == 0 then []
    else
      var t := Trim(list[0]);
      (if t == "" then [] else [t]) + NormalizeNames(list[1..])
  }

  /** A name is in the normalised manifest exactly when it is the trimmed
      form of some entry and not blank. */
  lemma {:induction false} NormalizeNamesMembers(list: seq<string>)
    ensures forall x :: x in NormalizeNames(list) <==> exists i :: 0 <= i < |list| && x == Trim(list[i]) && x != ""
    decreases |list|
  {
    if |list| > 0 {
      NormalizeNamesMembers(list[1..]);
      NamesCons(list, NormalizeNames(list[1..]), NormalizeNames(list));
    }
  }

  /** The trimmed, non-blank entries of `list` are its first entry's, when
      not blank, and those of the rest. */
  lemma NamesCons(list: seq<string>, rest: seq<string>, r: seq<string>)
    requires |list| > 0
    requires forall x :: x in rest <==> exists i :: 0 <= i < |list[1..]| && x == Trim(list[1..][i]) && x != ""
    requires r == (if Trim(list[0]) == "" then [] else [Trim(list[0])]) + rest
    ensures forall x :: x in r <==> exists i :: 0 <= i < |list| && x == Trim(list[i]) && x != ""
  {
    var t := Trim(list[0]);
    forall x
      ensures x in r <==> exists i :: 0 <= i < |list| && x == Trim(list[i]) && x != ""
    {
      if x in rest {
        var i :| 0 <= i < |list[1..]| && x == Trim(list[1..][i]) && x != "";
        assert list[i + 1] == list[1..][i];
      }
      if exists i :: 0 <= i < |list| && x == Trim(list[i]) && x != "" {
        var i :| 0 <= i < |list| && x == Trim(list[i]) && x != "";
        if i > 0 {
          assert list[1..][i - 1] == list[i];
        }
      }
    }
  }

  /** Normalising keeps the manifest's order: the names of a concatenation
      are the names of its first part followed by those of its second. */
  lemma {:induction false} NormalizeNamesAppend(a: seq<string>, b: seq<string>)
    ensures NormalizeNames(a + b) == NormalizeNames(a) + NormalizeNames(b)
    decreases |a|
  {
    if |a| > 0 {
      var t := Trim(a[0]);
      var head := if t == "" then [] else [t];
      assert (a + b)[0] == a[0];
      assert (a + b)[1..] == a[1..] + b;
      NormalizeNamesAppend(a[1..], b);
      calc {
        NormalizeNames(a + b);
        head + NormalizeNames(a[1..] + b);
        head + (NormalizeNames(a[1..]) + NormalizeNames(b));
        (head + NormalizeNames(a[1..])) + NormalizeNames(b);
        NormalizeNames(a) + NormalizeNames(b);
      }
    } else {
      assert a + b == b;
    }
  }

  /** A single entry contributes its trimmed form exactly when that is not blank. */
  lemma NormalizeNamesSingle(x: string)
    ensures NormalizeNames([x]) == if Trim(x) == "" then [] else [Trim(x)]
  {
    assert [x][1..] == [];
  }

  /** `main.js` when listed, else the first name, else `main.js`. */
  function FallbackName(names: seq<string>): (r: string)
    ensures r == "main.js" || (|names| > 0 && r == names[0])
    ensures |names| > 0 ==> r in names
    ensures "main.js" in names ==> r == "main.js"
  {
    if "main.js" in names then "main.js" else if |names| > 0 then names[0] else "main.js"
  }

  /** The parser's removal of one leading `./` from a module name. */
  function StripDotSlash(k: string): string {
    if StartsWith(k, "./") then k[2..] else k
  }

  /** `map.set(name-without-./, value)` for every entry, in order. */
  function EntriesToFiles(es: seq<Entry>, files: map<string, string>): map<string, string>
    decreases |es|
  {
    if |es| == 0 then files
    else EntriesToFiles(es[1..], files[StripDotSlash(es[0].key) := es[0].value])
  }

  /** `if (!map.has(name)) map.set(name, "")` for every name, in order. */
  function AddMissing(files: map<string, string>, names: seq<string>): (r: map<string, string>)
    ensures forall n :: n in names ==> n in r
    ensures forall n :: n in r ==> n in files || n in names
    ensures forall n :: n in files ==> n in r && r[n] == files[n]
    ensures forall n :: n in r && n !in files ==> r[n] == ""
    decreases |names|
  {
    if |names| == 0 then files
    else
      var f := if names[0] in files then files else files[names[0] := ""];
      var r := AddMissing(f, names[1..]);
      assert forall n :: n in names ==> n == names[0] || n in names[1..];
      r
  }

  /** The result of `parseCombinedJsToFileMap`. */
  datatype Parsed = Parsed(files: map<string, string>, fallbackName: string, names: seq<string>)

  /** `parseCombinedJsToFileMap(jsText, manifestJs)`. */
  function ParseCombined(text: string, manifest: seq<string>): (r: Parsed)
    ensures r.names == NormalizeNames(manifest) && r.fallbackName == FallbackName(r.names)
    ensures forall x :: x in r.names <==> exists i :: 0 <= i < |manifest| && x == Trim(manifest[i]) && x != ""
    ensures forall n :: n in r.names ==> n in r.files
    ensures r.fallbackName in r.files
    ensures !HasModuleMarkers(text) ==> r.files[r.fallbackName] == text
    ensures !HasModuleMarkers(text) ==>
              forall n :: n in r.files ==> n in r.names || n == r.fallbackName
    ensures !HasModuleMarkers(text) ==>
              forall n :: n in r.files && n != r.fallbackName ==> r.files[n] == ""
  {
    var names := NormalizeNames(manifest);
    NormalizeNamesMembers(manifest);
    var fb := FallbackName(names);
    var found := if HasModuleMarkers(text) then EntriesToFiles(SplitModules(text), map[]) else map[fb := text];
    Parsed(AddMissing(found, names + [fb]), fb, names)
  }

  /** The parse with a detected marker that the splitter does not accept
      handled as the description of the format intends: a text in which
      the splitter finds no file is kept whole under the fallback name,
      exactly as a text without markers is. Everywhere else it is the parse
      as written. */
  function ParseCombinedFixed(text: string, manifest: seq<string>): (r: Parsed)
    ensures SplitModules(text) == [] ==> r.fallbackName in r.files && r.files[r.fallbackName] == text
    ensures !HasModuleMarkers(text) || SplitModules(text) != [] ==> r == ParseCombined(text, manifest)
  {
    var names := NormalizeNames(manifest);
    var fb := FallbackName(names);
    var es := SplitModules(text);
    var found := if HasModuleMarkers(text) && es != [] then EntriesToFiles(es, map[]) else map[fb := text];
    Parsed(AddMissing(found, names + [fb]), fb, names)
  }

  // ---------------------------------------------------------------------
  // `assembleFileMapToCombinedJs` and `loadStepSources`

  /** `fileMap.get(name) ?? ""`. */
  function FileOf(files: map<string, string>, name: string): string {
    if name in files then files[name] else ""
  }

  /** One file as written back: the marker, the body without trailing
      white space, a final LF. */
  function Section(name: string, code: string): string {
    MarkerLine(name) + "\n" + TrimEnd(code) + "\n"
  }

  /** The names written: the normalised manifest, or the fallback name
      alone when it is empty. */
  function Order(manifest: seq<string>, fallback: string): (r: seq<string>)
    ensures |r| >= 1
  {
    var names := NormalizeNames(manifest);
    if |names| > 0 then names else [fallback]
  }

  function Sections(files: map<string, string>, order: seq<string>): (r: seq<string>)
    ensures |r| == |order|
    ensures forall i :: 0 <= i < |order| ==> r[i] == Section(order[i], FileOf(files, order[i]))
  {
    seq(|order|, i requires 0 <= i < |order| => Section(order[i], FileOf(files, order[i])))
  }

  /** `assembleFileMapToCombinedJs(fileMap, manifestJs, fallbackName)`:
      whatever the files hold, the text opens with the marker line of the
      first name written. */
  function Assemble(files: map<string, string>, manifest: seq<string>, fallback: string): (r: string)
    ensures var n := Order(manifest, fallback)[0];
            |r| > |MarkerLine(n)| && r[..|MarkerLine(n)| + 1] == MarkerLine(n) + "\n"
  {
    var order := Order(manifest, fallback);
    var parts := Sections(files, order);
    var n := order[0];
    JoinStarts(parts, "\n");
    var head := MarkerLine(n) + "\n";
    assert parts[0] == head + (TrimEnd(FileOf(files, n)) + "\n");
    assert parts[0][..|head|] == head;
    Join(parts, "\n")
  }

  /** A join starts with its first part. */
  lemma JoinStarts(parts: seq<string>, sep: string)
    requires |parts| >= 1
    ensures |Join(parts, sep)| >= |parts[0]| && Join(parts, sep)[..|parts[0]|] == parts[0]
  {
    if |parts| > 1 {
      assert Join(parts, sep) == parts[0] + (sep + Join(parts[1..], sep));
    }
  }

  /** The JavaScript text `loadStepSources` builds: with a non-empty
      manifest, the sections of the fetched files joined with LF; `None`
      when a listed file cannot be fetched (the load rejects); without a
      manifest, `main.js` as fetched. */
  function StepJs(names: seq<string>, fetched: map<string, string>, mainJs: string): (r: Option<string>)
    ensures |names| == 0 ==> r == Some(mainJs)
    ensures r.None? <==> exists i :: 0 <= i < |names| && names[i] !in fetched
  {
    if |names| == 0 then Some(mainJs)
    else if exists i :: 0 <= i < |names| && names[i] !in fetched then None
    else Some(Join(seq(|names|, i requires 0 <= i < |names| => Section(names[i], fetched[names[i]])), "\n"))
  }
}

=== FILE: myers_as_written.dfy ===
/** The backtrack as the viewer and the playground write it reads, at round
    `d`, the map round `d` pushed rather than the map it started from. On
    identical texts the two readings agree; as soon as one round of edits
    is needed they can part, and the diff shown then no longer describes
    the new text. */
module MyersAsWritten {
  import opened Wrappers
  import opened LineDiff
  import opened MyersFixed

  /** The snake from (x, x) along a text compared with itself runs to the
      end of the text. */
  lemma {:induction false} SlideSelf(a: seq<string>, x: int)
    requires 0 <= x <= |a|
    ensures Slide(a, a, x, x) == |a|
    decreases |a| - x
  {
    if x < |a| {
      SlideSelf(a, x + 1);
    }
  }

  /** A text compared with itself: the forward pass ends in round 0 with
      the one point (|a|, |a|). */
  lemma SelfTrace(a: seq<string>)
    ensures Trace(a, a) == [map[0 := |a|]]
  {
    SlideSelf(a, 0);
    assert Sweep(a, a, Init, 0, 0, map[]) == Reached(map[0 := |a|]);
  }

  /** On identical texts the backtrack as written keeps every line, in
      order, and adds or deletes nothing. */
  lemma SameTextAsWritten(a: seq<string>)
    ensures MyersDiffLines(a, a) == Equals(a, 0, |a|)
  {
    SelfTrace(a);
    SelfBackAsWritten(a);
  }

  /** Round 0 read from the map it pushed walks the same `equal` rows. */
  lemma SelfBackAsWritten(a: seq<string>)
    ensures Back([map[0 := |a|]], a, a, 0, |a|, |a|) == Equals(a, 0, |a|)
  {
    var t := [map[0 := |a|]];
    assert Lookup(t[0], 1, 0) == 0;
    RunIsEquals(a, 0, 0, |a|, 0, -1);
    assert Back(t, a, a, 0, |a|, |a|) == EqualRun(a, |a|, |a|, 0, -1).ops;
  }

  /** Round 0 started from the initial map, on a text compared with
      itself, walks the whole text back as `equal` rows. */
  lemma SelfBack(a: seq<string>)
    ensures Back([Init], a, a, 0, |a|, |a|) == Equals(a, 0, |a|)
  {
    assert Lookup(Init, 1, 0) == 0;
    RunIsEquals(a, 0, 0, |a|, 0, -1);
  }

  /** So does the Myers backtrack: the two agree on identical texts. */
  lemma SameTextFixed(a: seq<string>)
    ensures FixedDiff(a, a) == Equals(a, 0, |a|)
  {
    SelfTrace(a);
    var p := PriorMaps(Trace(a, a));
    assert |p| == 1 && p[0] == Init;
    assert p == [Init];
    SelfBack(a);
  }

  /** The forward pass on old `x y z` against new `x z`: round 0 slides
      over `x`, round 1 deletes `y` and slides over `z` to the end. */
  lemma DeleteTrace()
    ensures Trace(["x", "y", "z"], ["x", "z"]) == [map[0 := 1], map[-1 := 1, 1 := 3]]
  {
    var a, b := ["x", "y", "z"], ["x", "z"];
    assert Slide(a, b, 2, 2) == 2;
    assert Slide(a, b, 1, 1) == 1;
    assert Slide(a, b, 0, 0) == 1;
    assert Sweep(a, b, Init, 0, 0, map[]) == Exhausted(map[0 := 1]);
    assert Slide(a, b, 1, 2) == 1;
    assert Slide(a, b, 3, 2) == 3;
    assert Slide(a, b, 2, 1) == 3;
    var n := map[0 := 1];
    assert Sweep(a, b, n, 1, 1, map[-1 := 1]) == Reached(map[-1 := 1, 1 := 3]);
    assert Sweep(a, b, n, 1, -1, map[]) == Reached(map[-1 := 1, 1 := 3]);
  }

  /** Deleting the middle line, as written: the diff reports that `x` was
      deleted and `y` kept. */
  lemma DeleteAsWritten()
    ensures MyersDiffLines(["x", "y", "z"], ["x", "z"])
            == [Del(Some("x")), Equal(Some("y")), Equal(Some("z"))]
  {
    var a, b := ["x", "y", "z"], ["x", "z"];
    DeleteTrace();
    var t := [map[0 := 1], map[-1 := 1, 1 := 3]];
    assert EqualRun(a, 1, 0, 0, 0) == Walk([], 1, 0);
    assert EqualRun(a, 2, 1, 0, 0) == Walk([Equal(Some("y"))], 1, 0);
    assert EqualRun(a, 3, 2, 0, 0) == Walk([Equal(Some("y")), Equal(Some("z"))], 1, 0);
    assert Back(t, a, b, 0, 0, 0) == [];
  }

  /** So its kept and added lines read `y z`, not the new text `x z`. */
  lemma DeleteCounterexample()
    ensures NewSide(MyersDiffLines(["x", "y", "z"], ["x", "z"])) != Wrap(["x", "z"])
  {
    DeleteAsWritten();
    var ops := [Del(Some("x")), Equal(Some("y")), Equal(Some("z"))];
    SideAppend([Del(Some("x"))], [Equal(Some("y")), Equal(Some("z"))]);
    SideAppend([Equal(Some("y"))], [Equal(Some("z"))]);
    SideOne(Del(Some("x")));
    SideOne(Equal(Some("y")));
    SideOne(Equal(Some("z")));
    assert NewSide(ops)[0] == Some("y");
    assert Wrap(["x", "z"])[0] == Some("x");
  }

  /** The Myers backtrack on the same texts keeps `x`, deletes `y` and keeps
      `z`. */
  lemma DeleteFixed()
    ensures FixedDiff(["x", "y", "z"], ["x", "z"])
            == [Equal(Some("x")), Del(Some("y")), Equal(Some("z"))]
  {
    var a, b := ["x", "y", "z"], ["x", "z"];
    DeleteTrace();
    var p := PriorMaps([map[0 := 1], map[-1 := 1, 1 := 3]]);
    assert |p| == 2 && p[0] == Init && p[1] == map[0 := 1];
    assert FixedDiff(a, b) == Back(p, a, b, 1, 3, 2);
    DeleteFixedBack(p);
  }

  /** The two rounds of that backtrack, read from the maps the rounds
      started from. */
  lemma DeleteFixedBack(p: seq<map<int, int>>)
    requires p == [Init, map[0 := 1]]
    ensures Back(p, ["x", "y", "z"], ["x", "z"], 1, 3, 2)
            == [Equal(Some("x")), Del(Some("y")), Equal(Some("z"))]
  {
    var a, b := ["x", "y", "z"], ["x", "z"];
    assert !FromAbove(p[1], 1, 1);
    assert EqualRun(a, 2, 1, 1, 1) == Walk([], 2, 1);
    assert EqualRun(a, 3, 2, 1, 1) == Walk([Equal(Some("z"))], 2, 1);
    assert Back(p, a, b, 1, 3, 2) == Back(p, a, b, 0, 1, 1) + [Del(Some("y"))] + [Equal(Some("z"))];
    assert FromAbove(p[0], 0, 0);
    assert EqualRun(a, 0, 0, 0, -1) == Walk([], 0, 0);
    assert EqualRun(a, 1, 1, 0, -1) == Walk([Equal(Some("x"))], 0, 0);
    assert Back(p, a, b, 0, 1, 1) == [Equal(Some("x"))];
  }

  /** The forward pass on old `x z` against new `x y z`: round 0 slides
      over `x`, round 1 adds `y` and slides over `z` to the end. */
  lemma AddTrace()
    ensures Trace(["x", "z"], ["x", "y", "z"]) == [map[0 := 1], map[-1 := 2]]
  {
    var a, b := ["x", "z"], ["x", "y", "z"];
    assert Slide(a, b, 2, 2) == 2;
    assert Slide(a, b, 1, 1) == 1;
    assert Slide(a, b, 0, 0) == 1;
    assert Sweep(a, b, Init, 0, 0, map[]) == Exhausted(map[0 := 1]);
    assert Slide(a, b, 2, 3) == 2;
    assert Slide(a, b, 1, 2) == 2;
    var n := map[0 := 1];
    assert Sweep(a, b, n, 1, -1, map[]) == Reached(map[-1 := 2]);
  }

  /** Adding a middle line, as written: the diff reports that `x` was
      added and then kept. */
  lemma AddAsWritten()
    ensures MyersDiffLines(["x", "z"], ["x", "y", "z"])
            == [Add(Some("x")), Equal(Some("x")), Equal(Some("z"))]
  {
    var a, b := ["x", "z"], ["x", "y", "z"];
    AddTrace();
    var t := [map[0 := 1], map[-1 := 2]];
    assert EqualRun(a, 0, 1, 0, 1) == Walk([], 0, 1);
    assert EqualRun(a, 1, 2, 0, 1) == Walk([Equal(Some("x"))], 0, 1);
    assert EqualRun(a, 2, 3, 0, 1) == Walk([Equal(Some("x")), Equal(Some("z"))], 0, 1);
    assert Back(t, a, b, 0, 0, 0) == [];
  }

  /** So its kept and added lines read `x x z`, not the new text
      `x y z`. */
  lemma AddCounterexample()
    ensures NewSide(MyersDiffLines(["x", "z"], ["x", "y", "z"])) != Wrap(["x", "y", "z"])
  {
    AddAsWritten();
    var ops := [Add(Some("x")), Equal(Some("x")), Equal(Some("z"))];
    SideAppend([Add(Some("x"))], [Equal(Some("x")), Equal(Some("z"))]);
    SideAppend([Equal(Some("x"))], [Equal(Some("z"))]);
    SideOne(Add(Some("x")));
    SideOne(Equal(Some("x")));
    SideOne(Equal(Some("z")));
    assert NewSide(ops)[1] == Some("x");
    assert Wrap(["x", "y", "z"])[1] == Some("y");
  }

  /** The Myers backtrack on the same texts keeps `x`, adds `y` and keeps
      `z`. */
  lemma AddFixed()
    ensures FixedDiff(["x", "z"], ["x", "y", "z"])
            == [Equal(Some("x")), Add(Some("y")), Equal(Some("z"))]
  {
    var a, b := ["x", "z"], ["x", "y", "z"];
    AddTrace();
    var p := PriorMaps([map[0 := 1], map[-1 := 2]]);
    assert |p| == 2 && p[0] == Init && p[1] == map[0 := 1];
    assert EqualRun(a, 2, 3, 1, 2) == Walk([Equal(Some("z"))], 1, 2);
    assert EqualRun(a, 1, 1, 0, -1) == Walk([Equal(Some("x"))], 0, 0);
    assert Back(p, a, b, 0, 1, 1) == [Equal(Some("x"))];
  }
}

=== FILE: myers_fixed.dfy ===
/** The diff with the Myers backtrack (each round read from the map it started
    from) describes both texts exactly: its kept and deleted lines are the
    old text, its kept and added lines are the new text, and it has one
    add or delete per round the forward pass ran after the first. */
module MyersFixed {
  import opened Wrappers
  import opened LineDiff
  import opened MyersTrace

  /** Lines `lo` to `hi` of `s`, as the array reads them. */
  function Lines(s: seq<string>, lo: int, hi: int): seq<Option<string>>
    decreases hi - lo
  {
    if hi <= lo then [] else Lines(s, lo, hi - 1) + [At(s, hi - 1)]
  }

  /** `equal` rows for old lines `lo` to `hi`. */
  function Equals(a: seq<string>, lo: int, hi: int): seq<Op>
    decreases hi - lo
  {
    if hi <= lo then [] else Equals(a, lo, hi - 1) + [Equal(At(a, hi - 1))]
  }

  lemma {:induction false} LinesSplit(s: seq<string>, lo: int, mid: int, hi: int)
    requires lo <= mid <= hi
    ensures Lines(s, lo, hi) == Lines(s, lo, mid) + Lines(s, mid, hi)
    decreases hi - mid
  {
    if hi > mid {
      LinesSplit(s, lo, mid, hi - 1);
    }
  }

  lemma {:induction false} LinesWhole(s: seq<string>, n: nat)
    requires n <= |s|
    ensures Lines(s, 0, n) == Wrap(s)[..n]
  {
    if n > 0 {
      LinesWhole(s, n - 1);
      assert Wrap(s)[..n] == Wrap(s)[..n - 1] + [Wrap(s)[n - 1]];
    }
  }

  /** The equal loop walks a snake back to where it started. */
  lemma {:induction false} RunIsEquals(a: seq<string>, x0: int, y0: int, x: int, px: int, py: int)
    requires x0 <= x
    requires (px == x0 && py == y0 - 1) || (px == x0 - 1 && py == y0)
    ensures EqualRun(a, x, x - x0 + y0, px, py) == Walk(Equals(a, x0, x), x0, y0)
    decreases x - x0
  {
    if x > x0 {
      RunIsEquals(a, x0, y0, x - 1, px, py);
    }
  }

  /** A run of `equal` rows reads back as the same lines on both sides. */
  lemma {:induction false} EqualsSides(a: seq<string>, lo: int, hi: int)
    ensures OldSide(Equals(a, lo, hi)) == Lines(a, lo, hi)
    ensures NewSide(Equals(a, lo, hi)) == Lines(a, lo, hi)
    ensures EditCount(Equals(a, lo, hi)) == 0
    decreases hi - lo
  {
    if hi > lo {
      EqualsSides(a, lo, hi - 1);
      SideAppend(Equals(a, lo, hi - 1), [Equal(At(a, hi - 1))]);
      SideOne(Equal(At(a, hi - 1)));
    }
  }

  /** Inside both texts the snake passes equal lines. */
  lemma {:induction false} SlideAgrees(a: seq<string>, b: seq<string>, x: int, y: int)
    requires 0 <= x && 0 <= y
    ensures var r := Slide(a, b, x, y);
            r > x ==> r <= |a| && y + (r - x) <= |b| && Lines(a, x, r) == Lines(b, y, y + (r - x))
    decreases |a| - x
  {
    if x < |a| && y < |b| && At(a, x) == At(b, y) {
      SlideAgrees(a, b, x + 1, y + 1);
      SlideBounds(a, b, x + 1, y + 1);
      var r := Slide(a, b, x, y);
      LinesSplit(a, x, x + 1, r);
      LinesSplit(b, y, y + 1, y + (r - x));
    }
  }

  /** The sides and edit count of `rest`, one row, then `run`. */
  lemma ComposeSides(rest: seq<Op>, row: Op, run: seq<Op>)
    ensures OldSide(rest + [row] + run) == OldSide(rest) + RowLine(row, true) + OldSide(run)
    ensures NewSide(rest + [row] + run) == NewSide(rest) + RowLine(row, false) + NewSide(run)
    ensures EditCount(rest + [row] + run) == EditCount(rest) + (if row.Equal? then 0 else 1) + EditCount(run)
  {
    SideAppend(rest + [row], run);
    SideAppend(rest, [row]);
    SideOne(row);
  }

  /** One backtrack round: the point of round `d` on its diagonal lies
      inside both texts, it ends a snake of equal lines that starts at
      (x0, y0), and (x0, y0) was entered from the neighbour `FromAbove`
      names, which is present in the map round `d` started from. */
  lemma RoundStep(a: seq<string>, b: seq<string>, t: seq<map<int, int>>, d: nat, x: int, y: int)
    requires Rounds(a, b, t)
    requires d < |t|
    requires x - y in t[d] && t[d][x - y] == x
    requires x <= |a| && y <= |b|
    ensures 0 <= x && 0 <= y
    ensures var x0 := StartX(Prior(t, d), d, x - y);
            && 0 <= x0 <= x && 0 <= x0 - (x - y) <= y
            && Lines(a, x0, x) == Lines(b, x0 - (x - y), y)
    ensures d == 0 ==> FromAbove(Prior(t, d), d, x - y) && StartX(Prior(t, d), d, x - y) == 0 && x == y
    ensures FromAbove(Prior(t, d), d, x - y) ==>
              x - y + 1 in Prior(t, d) && Prior(t, d)[x - y + 1] == StartX(Prior(t, d), d, x - y)
    ensures d > 0 && FromAbove(Prior(t, d), d, x - y) ==> StartX(Prior(t, d), d, x - y) - (x - y) >= 1
    ensures !FromAbove(Prior(t, d), d, x - y) ==>
              x - y - 1 in Prior(t, d) && Prior(t, d)[x - y - 1] == StartX(Prior(t, d), d, x - y) - 1
              && StartX(Prior(t, d), d, x - y) >= 1
  {
    var j := x - y;
    StepFacts(a, b, t, d, j);
    PointStart(a, b, t, d, j);
    PointBounds(a, b, t, d, j);
    RoundEntry(a, b, t, d, j);
    SlideAgrees(a, b, StartX(Prior(t, d), d, j), StartX(Prior(t, d), d, j) - j);
  }

  /** Where round `d` enters diagonal `j`: inside both texts, from the
      neighbour `FromAbove` names, which the map round `d` started from
      holds. */
  lemma RoundEntry(a: seq<string>, b: seq<string>, t: seq<map<int, int>>, d: nat, j: int)
    requires Rounds(a, b, t)
    requires d < |t| && j in t[d]
    ensures var x0 := StartX(Prior(t, d), d, j);
            x0 >= 0 && x0 - j >= 0
    ensures d == 0 ==> FromAbove(Prior(t, d), d, j) && StartX(Prior(t, d), d, j) == 0
    ensures FromAbove(Prior(t, d), d, j) ==>
              j + 1 in Prior(t, d) && Prior(t, d)[j + 1] == StartX(Prior(t, d), d, j)
    ensures d > 0 && FromAbove(Prior(t, d), d, j) ==> StartX(Prior(t, d), d, j) - j >= 1
    ensures !FromAbove(Prior(t, d), d, j) ==>
              j - 1 in Prior(t, d) && Prior(t, d)[j - 1] == StartX(Prior(t, d), d, j) - 1
              && StartX(Prior(t, d), d, j) >= 1
  {
    StepFacts(a, b, t, d, j);
    var v := Prior(t, d);
    if d > 0 {
      if FromAbove(v, d, j) {
        PointBounds(a, b, t, d - 1, j + 1);
      } else {
        PointBounds(a, b, t, d - 1, j - 1);
      }
    }
  }

  /** A later round whose snake was entered from the diagonal above: the
      earlier rounds, the add that entered the snake, then the snake. */
  lemma BackAbove(p: seq<map<int, int>>, a: seq<string>, b: seq<string>, d: nat, x: int, y: int, x0: int)
    requires 0 < d < |p| && x0 <= x
    requires FromAbove(p[d], d, x - y) && x - y + 1 in p[d] && p[d][x - y + 1] == x0
    ensures Back(p, a, b, d, x, y)
            == Back(p, a, b, d - 1, x0, x0 - (x - y) - 1) + [Add(At(b, x0 - (x - y) - 1))] + Equals(a, x0, x)
  {
    RunIsEquals(a, x0, x0 - (x - y), x, x0, x0 - (x - y) - 1);
  }

  /** A later round whose snake was entered from the diagonal below: the
      earlier rounds, the delete that entered the snake, then the snake. */
  lemma BackLeft(p: seq<map<int, int>>, a: seq<string>, b: seq<string>, d: nat, x: int, y: int, x0: int)
    requires 0 < d < |p| && x0 <= x
    requires !FromAbove(p[d], d, x - y) && x - y - 1 in p[d] && p[d][x - y - 1] == x0 - 1
    ensures Back(p, a, b, d, x, y)
            == Back(p, a, b, d - 1, x0 - 1, x0 - (x - y)) + [Del(At(a, x0 - 1))] + Equals(a, x0, x)
  {
    RunIsEquals(a, x0, x0 - (x - y), x, x0 - 1, x0 - (x - y));
  }

  /** One backtrack round entered by an add, read back: if the rows
      before the add rebuild the texts up to (x0, y0 - 1), the round
      rebuilds them up to the end of the snake, with one more edit. */
  lemma StepAdd(a: seq<string>, b: seq<string>, ops: seq<Op>, rest: seq<Op>, d: nat, x0: int, y0: int, x: int, y: int)
    requires 0 <= x0 <= x && 1 <= y0 && y == y0 + (x - x0)
    requires Lines(a, x0, x) == Lines(b, y0, y)
    requires ops == rest + [Add(At(b, y0 - 1))] + Equals(a, x0, x)
    requires OldSide(rest) == Lines(a, 0, x0) && NewSide(rest) == Lines(b, 0, y0 - 1) && EditCount(rest) + 1 == d
    ensures OldSide(ops) == Lines(a, 0, x)
    ensures NewSide(ops) == Lines(b, 0, y)
    ensures EditCount(ops) == d
  {
    EqualsSides(a, x0, x);
    ComposeSides(rest, Add(At(b, y0 - 1)), Equals(a, x0, x));
    LinesSplit(a, 0, x0, x);
    LinesSplit(b, 0, y0, y);
    assert Lines(b, 0, y0) == Lines(b, 0, y0 - 1) + [At(b, y0 - 1)];
  }

  /** One backtrack round entered by a delete, read back: if the rows
      before the delete rebuild the texts up to (x0 - 1, y0), the round
      rebuilds them up to the end of the snake, with one more edit. */
  lemma StepDel(a: seq<string>, b: seq<string>, ops: seq<Op>, rest: seq<Op>, d: nat, x0: int, y0: int, x: int, y: int)
    requires 1 <= x0 <= x && 0 <= y0 && y == y0 + (x - x0)
    requires Lines(a, x0, x) == Lines(b, y0, y)
    requires ops == rest + [Del(At(a, x0 - 1))] + Equals(a, x0, x)
    requires OldSide(rest) == Lines(a, 0, x0 - 1) && NewSide(rest) == Lines(b, 0, y0) && EditCount(rest) + 1 == d
    ensures OldSide(ops) == Lines(a, 0, x)
    ensures NewSide(ops) == Lines(b, 0, y)
    ensures EditCount(ops) == d
  {
    EqualsSides(a, x0, x);
    ComposeSides(rest, Del(At(a, x0 - 1)), Equals(a, x0, x));
    LinesSplit(a, 0, x0, x);
    LinesSplit(b, 0, y0, y);
    assert Lines(a, 0, x0) == Lines(a, 0, x0 - 1) + [At(a, x0 - 1)];
  }

  /** Old lines `x0` to `x` equal the new lines ending at `y` on the same
      diagonal, all inside both texts: a snake from (x0, x0 - (x - y)). */
  ghost predicate Snake(a: seq<string>, b: seq<string>, x0: int, x: int, y: int) {
    && 0 <= x0 <= x <= |a| && 0 <= x0 - (x - y) && y <= |b|
    && Lines(a, x0, x) == Lines(b, x0 - (x - y), y)
  }

  /** Round 0, started from `v`, stands on the end of the snake from the
      origin. */
  ghost predicate ZeroStep(v: map<int, int>, a: seq<string>, b: seq<string>, x: int, y: int) {
    && x == y && Snake(a, b, 0, x, y)
    && FromAbove(v, 0, 0) && 1 in v && v[1] == 0
  }

  /** Round `d`, started from `v`, stands on the end of a snake from
      (x0, y0) that it entered from (x0, y0 - 1) on the diagonal above. */
  ghost predicate AboveStep(v: map<int, int>, a: seq<string>, b: seq<string>, d: nat, x: int, y: int, x0: int) {
    && 0 < d && Snake(a, b, x0, x, y) && x0 - (x - y) >= 1
    && FromAbove(v, d, x - y) && x - y + 1 in v && v[x - y + 1] == x0
  }

  /** Round `d`, started from `v`, stands on the end of a snake from
      (x0, y0) that it entered from (x0 - 1, y0) on the diagonal below. */
  ghost predicate LeftStep(v: map<int, int>, a: seq<string>, b: seq<string>, d: nat, x: int, y: int, x0: int) {
    && 0 < d && Snake(a, b, x0, x, y) && x0 >= 1
    && !FromAbove(v, d, x - y) && x - y - 1 in v && v[x - y - 1] == x0 - 1
  }

  /** One of the well-formed rounds: the step that holds at a point it
      reached inside both texts, and the point it was entered from, which
      the previous round reached inside both texts. */
  lemma GuideStep(a: seq<string>, b: seq<string>, t: seq<map<int, int>>, d: nat, x: int, y: int)
    requires Rounds(a, b, t)
    requires d < |t|
    requires x - y in t[d] && t[d][x - y] == x
    requires x <= |a| && y <= |b|
    ensures var v := Prior(t, d);
            var x0 := StartX(v, d, x - y);
            && (d == 0 ==> ZeroStep(v, a, b, x, y))
            && (d > 0 && FromAbove(v, d, x - y) ==>
                  && AboveStep(v, a, b, d, x, y, x0)
                  && x - y + 1 in t[d - 1] && t[d - 1][x - y + 1] == x0
                  && x0 <= |a| && x0 - (x - y) - 1 <= |b|)
            && (d > 0 && !FromAbove(v, d, x - y) ==>
                  && LeftStep(v, a, b, d, x, y, x0)
                  && x - y - 1 in t[d - 1] && t[d - 1][x - y - 1] == x0 - 1
                  && x0 - 1 <= |a| && x0 - (x - y) <= |b|)
  {
    RoundStep(a, b, t, d, x, y);
  }

  /** Round `d` of `t` reached (x, y), inside both texts. */
  ghost predicate ReachedAt(a: seq<string>, b: seq<string>, t: seq<map<int, int>>, d: nat, x: int, y: int) {
    d < |t| && x - y in t[d] && t[d][x - y] == x && x <= |a| && y <= |b|
  }

  /** The sides and edit count `Back` yields from round `d` at (x, y) are
      the first x old lines, the first y new lines and `d`. */
  ghost predicate BackRebuilds(p: seq<map<int, int>>, a: seq<string>, b: seq<string>, d: nat, x: int, y: int)
    requires d < |p|
  {
    var ops := Back(p, a, b, d, x, y);
    OldSide(ops) == Lines(a, 0, x) && NewSide(ops) == Lines(b, 0, y) && EditCount(ops) == d
  }

  /** A round whose snake was entered from above rebuilds the texts when
      the earlier rounds do. */
  lemma AboveRebuilds(t: seq<map<int, int>>, a: seq<string>, b: seq<string>, d: nat, x: int, y: int, x0: int)
    requires 0 < d < |t| && AboveStep(Prior(t, d), a, b, d, x, y, x0) == true
    requires BackRebuilds(PriorMaps(t), a, b, d - 1, x0, x0 - (x - y) - 1) == true
    ensures BackRebuilds(PriorMaps(t), a, b, d, x, y) == true
  {
    var p := PriorMaps(t);
    assert p[d] == Prior(t, d);
    var y0 := x0 - (x - y);
    BackAbove(p, a, b, d, x, y, x0);
    StepAdd(a, b, Back(p, a, b, d, x, y), Back(p, a, b, d - 1, x0, y0 - 1), d, x0, y0, x, y);
  }

  /** A round whose snake was entered from the left rebuilds the texts
      when the earlier rounds do. */
  lemma LeftRebuilds(t: seq<map<int, int>>, a: seq<string>, b: seq<string>, d: nat, x: int, y: int, x0: int)
    requires 0 < d < |t| && LeftStep(Prior(t, d), a, b, d, x, y, x0) == true
    requires BackRebuilds(PriorMaps(t), a, b, d - 1, x0 - 1, x0 - (x - y)) == true
    ensures BackRebuilds(PriorMaps(t), a, b, d, x, y) == true
  {
    var p := PriorMaps(t);
    assert p[d] == Prior(t, d);
    var y0 := x0 - (x - y);
    BackLeft(p, a, b, d, x, y, x0);
    StepDel(a, b, Back(p, a, b, d, x, y), Back(p, a, b, d - 1, x0 - 1, y0), d, x0, y0, x, y);
  }

  /** Round 0 of well-formed rounds: the backtrack from a point it
      reached rebuilds the common prefix it slid along. */
  lemma ZeroLink(a: seq<string>, b: seq<string>, t: seq<map<int, int>>, x: int, y: int)
    requires Rounds(a, b, t) == true && ReachedAt(a, b, t, 0, x, y) == true
    ensures BackRebuilds(PriorMaps(t), a, b, 0, x, y) == true
  {
    GuideStep(a, b, t, 0, x, y);
    assert PriorMaps(t)[0] == Prior(t, 0);
    RunIsEquals(a, 0, 0, x, 0, -1);
    EqualsSides(a, 0, x);
  }

  /** A later round of well-formed rounds that entered its snake from
      above: the previous round reached the point above, and the backtrack
      rebuilding the texts up to there extends to (x, y). */
  lemma AboveLink(a: seq<string>, b: seq<string>, t: seq<map<int, int>>, d: nat, x: int, y: int, x0: int)
    requires Rounds(a, b, t) == true && ReachedAt(a, b, t, d, x, y) == true
    requires 0 < d && FromAbove(Prior(t, d), d, x - y) && x0 == StartX(Prior(t, d), d, x - y)
    ensures ReachedAt(a, b, t, d - 1, x0, x0 - (x - y) - 1) == true
    ensures BackRebuilds(PriorMaps(t), a, b, d - 1, x0, x0 - (x - y) - 1) == true ==>
            BackRebuilds(PriorMaps(t), a, b, d, x, y) == true
  {
    GuideStep(a, b, t, d, x, y);
    if BackRebuilds(PriorMaps(t), a, b, d - 1, x0, x0 - (x - y) - 1) {
      AboveRebuilds(t, a, b, d, x, y, x0);
    }
  }

  /** A later round of well-formed rounds that entered its snake from the
      left: the previous round reached the point to the left, and the
      backtrack rebuilding the texts up to there extends to (x, y). */
  lemma LeftLink(a: seq<string>, b: seq<string>, t: seq<map<int, int>>, d: nat, x: int, y: int, x0: int)
    requires Rounds(a, b, t) == true && ReachedAt(a, b, t, d, x, y) == true
    requires 0 < d && !FromAbove(Prior(t, d), d, x - y) && x0 == StartX(Prior(t, d), d, x - y)
    ensures ReachedAt(a, b, t, d - 1, x0 - 1, x0 - (x - y)) == true
    ensures BackRebuilds(PriorMaps(t), a, b, d - 1, x0 - 1, x0 - (x - y)) == true ==>
            BackRebuilds(PriorMaps(t), a, b, d, x, y) == true
  {
    GuideStep(a, b, t, d, x, y);
    if BackRebuilds(PriorMaps(t), a, b, d - 1, x0 - 1, x0 - (x - y)) {
      LeftRebuilds(t, a, b, d, x, y, x0);
    }
  }

  /** One round of well-formed rounds, at a point it reached: round 0's
      backtrack rebuilds the texts outright, and a later round names the
      point the previous round reached, from which rebuilding the texts
      extends to (x, y). */
  lemma Link(a: seq<string>, b: seq<string>, t: seq<map<int, int>>, d: nat, x: int, y: int)
      returns (x1: int, y1: int)
    requires Rounds(a, b, t) == true && ReachedAt(a, b, t, d, x, y) == true
    ensures d == 0 ==> BackRebuilds(PriorMaps(t), a, b, d, x, y) == true
    ensures d > 0 ==> ReachedAt(a, b, t, d - 1, x1, y1) == true
    ensures d > 0 && BackRebuilds(PriorMaps(t), a, b, d - 1, x1, y1) == true ==>
            BackRebuilds(PriorMaps(t), a, b, d, x, y) == true
  {
    var x0 := StartX(Prior(t, d), d, x - y);
    if d == 0 {
      ZeroLink(a, b, t, x, y);
      x1, y1 := x, y;
    } else if FromAbove(Prior(t, d), d, x - y) {
      AboveLink(a, b, t, d, x, y, x0);
      x1, y1 := x0, x0 - (x - y) - 1;
    } else {
      LeftLink(a, b, t, d, x, y, x0);
      x1, y1 := x0 - 1, x0 - (x - y);
    }
  }

  /** The backtrack over the prior maps of well-formed rounds, standing on
      a point round `d` reached, produces a diff of the first x old lines
      against the first y new lines with exactly `d` adds and deletes. */
  lemma {:induction false} TraceRebuilds(a: seq<string>, b: seq<string>, t: seq<map<int, int>>, d: nat, x: int, y: int)
    requires Rounds(a, b, t) == true && ReachedAt(a, b, t, d, x, y) == true
    ensures BackRebuilds(PriorMaps(t), a, b, d, x, y) == true
    decreases d
  {
    var x1, y1 := Link(a, b, t, d, x, y);
    if d > 0 {
      TraceRebuilds(a, b, t, d - 1, x1, y1);
    }
  }

  /** The last round of the trace reached the end of both texts, and its
      rounds are well formed. */
  lemma EndReached(a: seq<string>, b: seq<string>)
    ensures |Trace(a, b)| >= 1
    ensures Rounds(a, b, Trace(a, b)) == true
    ensures ReachedAt(a, b, Trace(a, b), |Trace(a, b)| - 1, |a|, |b|) == true
  {
    var t := Trace(a, b);
    TraceWellFormed(a, b);
    var j :| j in t[|t| - 1] && Reaches(a, b, t[|t| - 1][j], j);
    Exactness(a, b, t, j);
  }

  /** The corrected diff describes both texts: reading its kept and
      deleted rows gives the old lines, its kept and added rows the new
      lines, and it has one add or delete per round after the first. */
  lemma FixedDiffRebuilds(a: seq<string>, b: seq<string>)
    ensures OldSide(FixedDiff(a, b)) == Wrap(a)
    ensures NewSide(FixedDiff(a, b)) == Wrap(b)
    ensures EditCount(FixedDiff(a, b)) == |Trace(a, b)| - 1
  {
    var t := Trace(a, b);
    EndReached(a, b);
    TraceRebuilds(a, b, t, |t| - 1, |a|, |b|);
    LinesWhole(a, |a|);
    LinesWhole(b, |b|);
  }
}

=== FILE: myers_trace.dfy ===
/** Facts about the maps the forward pass records: which diagonals each
    round holds, where each point comes from, that points only move away
    from the origin, and that the round which reaches the end reaches it
    exactly at (|a|, |b|). */
module MyersTrace {
  import opened LineDiff

  /** Every key of `n` is a diagonal of round `d` holding that diagonal's
      point computed from `v`. */
  ghost predicate RoundPoints(a: seq<string>, b: seq<string>, v: map<int, int>, d: int, n: map<int, int>) {
    forall j :: j in n ==> OnDiagonal(d, j) && n[j] == Point(a, b, v, d, j)
  }

  /** `n` holds every diagonal of round `d`. */
  ghost predicate Complete(d: int, n: map<int, int>) {
    forall j :: OnDiagonal(d, j) ==> j in n
  }

  ghost predicate NoneReach(a: seq<string>, b: seq<string>, n: map<int, int>) {
    forall j :: j in n ==> !Reaches(a, b, n[j], j)
  }

  ghost predicate SomeReach(a: seq<string>, b: seq<string>, n: map<int, int>) {
    exists j :: j in n && Reaches(a, b, n[j], j)
  }

  /** The map round `d` starts from: `Init` for round 0, otherwise a map
      whose keys are exactly the diagonals of round `d - 1`. */
  ghost predicate Before(d: int, v: map<int, int>) {
    (d == 0 && v == Init) || (d > 0 && forall j :: j in v <==> OnDiagonal(d - 1, j))
  }

  /** Each recorded round holds its points, and every round but the last
      holds all its diagonals. */
  ghost predicate Rounds(a: seq<string>, b: seq<string>, t: seq<map<int, int>>) {
    && (forall r {:trigger RoundPoints(a, b, Prior(t, r), r, t[r])} :: 0 <= r < |t| ==> RoundPoints(a, b, Prior(t, r), r, t[r]))
    && (forall r {:trigger Complete(r, t[r])} :: 0 <= r < |t| - 1 ==> Complete(r, t[r]))
  }

  /** The shape of a finished trace: rounds as above, at most
      |a| + |b| + 1 of them, the last one reaching the end and no other. */
  ghost predicate WellFormed(a: seq<string>, b: seq<string>, t: seq<map<int, int>>) {
    && 1 <= |t| <= |a| + |b| + 1
    && Rounds(a, b, t)
    && (forall r :: 0 <= r < |t| - 1 ==> NoneReach(a, b, t[r]))
    && SomeReach(a, b, t[|t| - 1])
  }

  /** Which neighbour a diagonal starts from, and that the neighbour is
      present in the map. */
  lemma StartFrom(v: map<int, int>, d: int, k: int)
    requires OnDiagonal(d, k)
    requires Before(d, v)
    ensures FromAbove(v, d, k) ==> k + 1 in v && StartX(v, d, k) == v[k + 1] && (k - 1 in v ==> v[k - 1] < v[k + 1])
    ensures !FromAbove(v, d, k) ==> k - 1 in v && StartX(v, d, k) == v[k - 1] + 1 && (k + 1 in v ==> v[k + 1] <= v[k - 1])
  {
    if d > 0 {
      assert OnDiagonal(d - 1, k + 1) <==> k + 1 in v;
      assert OnDiagonal(d - 1, k - 1) <==> k - 1 in v;
    }
  }

  /** The inner loop leaves the round's points in the map; an exhausted
      round holds every diagonal and none reaches, a reached round holds a
      reaching one. */
  lemma {:induction false} SweepShape(a: seq<string>, b: seq<string>, v: map<int, int>, d: nat, k: int, next: map<int, int>)
    requires 0 <= k + d && (k + d) % 2 == 0
    requires forall j :: j in next ==> OnDiagonal(d, j) && j < k && next[j] == Point(a, b, v, d, j)
    requires forall j :: OnDiagonal(d, j) && j < k ==> j in next
    requires NoneReach(a, b, next)
    ensures RoundPoints(a, b, v, d, Sweep(a, b, v, d, k, next).v)
    ensures Sweep(a, b, v, d, k, next).Exhausted? ==>
              Complete(d, Sweep(a, b, v, d, k, next).v) && NoneReach(a, b, Sweep(a, b, v, d, k, next).v)
    ensures Sweep(a, b, v, d, k, next).Reached? ==> SomeReach(a, b, Sweep(a, b, v, d, k, next).v)
    decreases d - k + 2
  {
    if k <= d {
      var x := Point(a, b, v, d, k);
      var next1 := next[k := x];
      if !Reaches(a, b, x, k) {
        assert forall j :: OnDiagonal(d, j) && j < k + 2 ==> j in next1 by {
          forall j | OnDiagonal(d, j) && j < k + 2
            ensures j in next1
          {
            if j != k {
              assert j < k;
            }
          }
        }
        SweepShape(a, b, v, d, k + 2, next1);
      } else {
        assert k in next1 && Reaches(a, b, next1[k], k);
      }
    } else {
      assert forall j :: OnDiagonal(d, j) ==> j < k;
    }
  }

  /** Round |a| + |b|, if it is ever run to the end, reaches: its point on
      diagonal |a| - |b| has made |a| + |b| steps. */
  lemma LastRoundReaches(a: seq<string>, b: seq<string>, t: seq<map<int, int>>)
    requires Rounds(a, b, t)
    requires |t| == |a| + |b| + 1
    requires Complete(|a| + |b|, t[|a| + |b|])
    ensures !NoneReach(a, b, t[|a| + |b|])
  {
    var n, m := |a|, |b|;
    assert OnDiagonal(n + m, n - m);
    PointBounds(a, b, t, n + m, n - m);
    assert Reaches(a, b, t[n + m][n - m], n - m);
  }

  /** Appending the map of round |t|, computed from the map before it,
      keeps every round's points. */
  lemma ExtendRounds(a: seq<string>, b: seq<string>, t: seq<map<int, int>>, n: map<int, int>)
    requires forall r {:trigger RoundPoints(a, b, Prior(t, r), r, t[r])} :: 0 <= r < |t| ==> RoundPoints(a, b, Prior(t, r), r, t[r])
    requires RoundPoints(a, b, Prior(t, |t|), |t|, n)
    ensures forall r {:trigger RoundPoints(a, b, Prior(t + [n], r), r, (t + [n])[r])} :: 0 <= r < |t + [n]| ==> RoundPoints(a, b, Prior(t + [n], r), r, (t + [n])[r])
  {
    forall r | 0 <= r < |t + [n]|
      ensures RoundPoints(a, b, Prior(t + [n], r), r, (t + [n])[r])
    {
      assert Prior(t + [n], r) == Prior(t, r);
      if r < |t| {
        assert (t + [n])[r] == t[r];
      }
    }
  }

  /** The outer loop, started on a trace of exhausted rounds, ends with a
      well-formed trace: some round reaches the end within |a| + |b| + 1
      rounds. */
  lemma {:induction false} ForwardShape(a: seq<string>, b: seq<string>, v: map<int, int>, d: nat, t: seq<map<int, int>>)
    requires |t| == d <= |a| + |b| + 1
    requires v == Prior(t, d)
    requires forall r {:trigger RoundPoints(a, b, Prior(t, r), r, t[r])} :: 0 <= r < |t| ==> RoundPoints(a, b, Prior(t, r), r, t[r])
    requires forall r :: 0 <= r < |t| ==> Complete(r, t[r]) && NoneReach(a, b, t[r])
    ensures WellFormed(a, b, Forward(a, b, v, d, t))
    decreases |a| + |b| + 1 - d
  {
    if d > |a| + |b| {
      LastRoundReaches(a, b, t);
      assert false;
    } else {
      var s := Sweep(a, b, v, d, -(d as int), map[]);
      SweepShape(a, b, v, d, -(d as int), map[]);
      ExtendRounds(a, b, t, s.v);
      var t1 := t + [s.v];
      if s.Exhausted? {
        assert forall r :: 0 <= r < |t1| ==> Complete(r, t1[r]) && NoneReach(a, b, t1[r]) by {
          forall r | 0 <= r < |t1|
            ensures Complete(r, t1[r]) && NoneReach(a, b, t1[r])
          {
            if r < |t| {
              assert t1[r] == t[r];
            }
          }
        }
        ForwardShape(a, b, s.v, d + 1, t1);
      } else {
        assert Forward(a, b, v, d, t) == t1;
        assert forall r :: 0 <= r < |t1| - 1 ==> t1[r] == t[r];
      }
    }
  }

  /** The trace `myersDiffLines` records is well formed. */
  lemma TraceWellFormed(a: seq<string>, b: seq<string>)
    ensures WellFormed(a, b, Trace(a, b))
  {
    ForwardShape(a, b, Init, 0, []);
  }

  /** The point of round `r` on diagonal `j`, unfolded: where it starts
      and that it is the snake from there. */
  lemma StepFacts(a: seq<string>, b: seq<string>, t: seq<map<int, int>>, r: nat, j: int)
    requires Rounds(a, b, t)
    requires r < |t| && j in t[r]
    ensures OnDiagonal(r, j) && Before(r, Prior(t, r))
    ensures t[r][j] == Slide(a, b, StartX(Prior(t, r), r, j), StartX(Prior(t, r), r, j) - j)
    ensures FromAbove(Prior(t, r), r, j) ==> j + 1 in Prior(t, r) && StartX(Prior(t, r), r, j) == Prior(t, r)[j + 1]
    ensures !FromAbove(Prior(t, r), r, j) ==> j - 1 in Prior(t, r) && StartX(Prior(t, r), r, j) == Prior(t, r)[j - 1] + 1
    ensures r == 0 ==> FromAbove(Prior(t, r), r, j) && StartX(Prior(t, r), r, j) == 0
  {
    assert RoundPoints(a, b, Prior(t, r), r, t[r]);
    if r > 0 {
      assert RoundPoints(a, b, Prior(t, r - 1), r - 1, t[r - 1]);
      assert Complete(r - 1, t[r - 1]);
    }
    StartFrom(Prior(t, r), r, j);
  }

  /** The point of round `r` on diagonal `j` is at or past where it
      starts, and past it only inside both texts. */
  lemma PointStart(a: seq<string>, b: seq<string>, t: seq<map<int, int>>, r: nat, j: int)
    requires Rounds(a, b, t)
    requires r < |t| && j in t[r]
    ensures OnDiagonal(r, j) && Before(r, Prior(t, r))
    ensures t[r][j] >= StartX(Prior(t, r), r, j)
    ensures t[r][j] > StartX(Prior(t, r), r, j) ==> t[r][j] <= |a| && t[r][j] - j <= |b|
  {
    StepFacts(a, b, t, r, j);
    SlideBounds(a, b, StartX(Prior(t, r), r, j), StartX(Prior(t, r), r, j) - j);
  }

  /** Every recorded point lies in the quadrant x >= 0, y >= 0 and has
      made at least `r` steps: x + y >= r. */
  lemma {:induction false} PointBounds(a: seq<string>, b: seq<string>, t: seq<map<int, int>>, r: nat, j: int)
    requires Rounds(a, b, t)
    requires r < |t| && j in t[r]
    ensures t[r][j] >= 0 && t[r][j] - j >= 0
    ensures 2 * t[r][j] - j >= r
  {
    StepFacts(a, b, t, r, j);
    PointStart(a, b, t, r, j);
    var v := Prior(t, r);
    if r > 0 {
      if FromAbove(v, r, j) {
        PointBounds(a, b, t, r - 1, j + 1);
      } else {
        PointBounds(a, b, t, r - 1, j - 1);
      }
    }
  }

  /** A point never lies behind the neighbours it could have come from. */
  lemma Monotone(a: seq<string>, b: seq<string>, t: seq<map<int, int>>, r: nat, j: int)
    requires Rounds(a, b, t)
    requires 0 < r < |t| && j in t[r]
    ensures j + 1 in t[r - 1] ==> t[r][j] >= t[r - 1][j + 1]
    ensures j - 1 in t[r - 1] ==> t[r][j] >= t[r - 1][j - 1] + 1
  {
    StepFacts(a, b, t, r, j);
    PointStart(a, b, t, r, j);
    StartFrom(Prior(t, r), r, j);
  }

  /** A point past the end of the old text (x > |a|) has a shadow: the
      point (|a|, y) of the same y was reached `x - |a|` rounds earlier. */
  lemma {:induction false} ShadowX(a: seq<string>, b: seq<string>, t: seq<map<int, int>>, r: nat, j: int)
    requires Rounds(a, b, t)
    requires r < |t| && j in t[r] && t[r][j] > |a|
    ensures t[r][j] - |a| <= r
    ensures |a| - (t[r][j] - j) in t[r - (t[r][j] - |a|)]
    ensures t[r - (t[r][j] - |a|)][|a| - (t[r][j] - j)] >= |a|
  {
    StepFacts(a, b, t, r, j);
    PointStart(a, b, t, r, j);
    var x, y := t[r][j], t[r][j] - j;
    var v := Prior(t, r);
    var e := x - |a|;
    if r == 0 {
      assert false;
    }
    if !FromAbove(v, r, j) {
      if x - 1 > |a| {
        ShadowX(a, b, t, r - 1, j - 1);
      }
    } else {
      ShadowX(a, b, t, r - 1, j + 1);
      var key := |a| - y;
      assert Complete(r - e, t[r - e]);
      assert OnDiagonal(r - 1 - e, key + 1) by {
        assert RoundPoints(a, b, Prior(t, r - 1 - e), r - 1 - e, t[r - 1 - e]);
      }
      assert OnDiagonal(r - e, key);
      Monotone(a, b, t, r - e, key);
    }
  }

  /** A point past the end of the new text (y > |b|) has a shadow: the
      point (x, |b|) of the same x was reached `y - |b|` rounds earlier. */
  lemma {:induction false} ShadowY(a: seq<string>, b: seq<string>, t: seq<map<int, int>>, r: nat, j: int)
    requires Rounds(a, b, t)
    requires r < |t| && j in t[r] && t[r][j] - j > |b|
    ensures t[r][j] - j - |b| <= r
    ensures t[r][j] - |b| in t[r - (t[r][j] - j - |b|)]
    ensures t[r - (t[r][j] - j - |b|)][t[r][j] - |b|] >= t[r][j]
  {
    StepFacts(a, b, t, r, j);
    PointStart(a, b, t, r, j);
    var x, y := t[r][j], t[r][j] - j;
    var v := Prior(t, r);
    var e := y - |b|;
    if r == 0 {
      assert false;
    }
    if FromAbove(v, r, j) {
      if y - 1 > |b| {
        ShadowY(a, b, t, r - 1, j + 1);
      }
    } else {
      ShadowY(a, b, t, r - 1, j - 1);
      var key := x - |b|;
      assert Complete(r - e, t[r - e]);
      assert OnDiagonal(r - 1 - e, key - 1) by {
        assert RoundPoints(a, b, Prior(t, r - 1 - e), r - 1 - e, t[r - 1 - e]);
      }
      assert OnDiagonal(r - e, key);
      Monotone(a, b, t, r - e, key);
    }
  }

  /** The round that reaches the end reaches it exactly at (|a|, |b|), on
      diagonal |a| - |b|. */
  lemma Exactness(a: seq<string>, b: seq<string>, t: seq<map<int, int>>, j: int)
    requires WellFormed(a, b, t)
    requires j in t[|t| - 1] && Reaches(a, b, t[|t| - 1][j], j)
    ensures j == |a| - |b| && t[|t| - 1][j] == |a|
  {
    var r := |t| - 1;
    var x := t[r][j];
    if x > |a| {
      ShadowX(a, b, t, r, j);
      assert false;
    }
    if x - j > |b| {
      ShadowY(a, b, t, r, j);
      assert false;
    }
  }
}

=== FILE: page_text.dfy ===
/** The playground's small text helpers: the `step` query parameter, the
    live-server cut, the `<base>` tag and the module keys of the runner. */
module PageText {
  import opened Wrappers
  import opened Strings
  import opened ModuleCodec
  import opened JsReplace

  // ---------------------------------------------------------------------
  // `getStepParam`

  /** `step<digits>` with a value from 1 to 13: the steps the playground
      has. Leading zeros are allowed. */
  predicate ValidStep(s: string) {
    |s| > 4 && s[..4] == "step" && AllDigits(s[4..]) && 1 <= DigitsValue(s[4..]) <= 13
  }

  /** `getStepParam()` for the value of the `step` query parameter (`None`
      when the URL has none). */
  function GetStepParam(query: Option<string>): (r: string)
    ensures ValidStep(r)
    ensures query.Some? && ValidStep(query.value) ==> r == query.value
    ensures !(query.Some? && ValidStep(query.value)) ==> r == "step1"
  {
    var step := if query.None? || query.value == "" then "step1" else query.value;
    assert ValidStep("step1") by { assert "step1"[4..] == "1"; }
    if !(|step| > 4 && step[..4] == "step" && AllDigits(step[4..])) then "step1"
    else
      var n := DigitsValue(step[4..]);
      if n < 1 || n > 13 then "step1" else step
  }

  /** Every step from 1 to 13, written plainly, is accepted as it is. */
  lemma EveryStepAccepted(n: nat)
    requires 1 <= n <= 13
    ensures GetStepParam(Some("step" + NatToString(n))) == "step" + NatToString(n)
  {
    var s := "step" + NatToString(n);
    assert s[..4] == "step" && s[4..] == NatToString(n);
  }

  /** The value is not normalised: a leading zero passes, one past the last
      step does not. */
  lemma StepExamples()
    ensures GetStepParam(Some("step01")) == "step01"
    ensures GetStepParam(Some("step14")) == "step1"
    ensures GetStepParam(Some("step0")) == "step1"
    ensures GetStepParam(None) == "step1"
  {
    assert "step01"[..4] == "step" && "step01"[4..] == "01";
    assert DigitsValue("01") == 1 by { assert "01"[..1] == "0"; assert "0"[..0] == ""; }
    assert "step14"[..4] == "step" && "step14"[4..] == "14";
    assert DigitsValue("14") == 14 by { assert "14"[..1] == "1"; assert "1"[..0] == ""; }
    assert "step0"[..4] == "step" && "step0"[4..] == "0";
    assert DigitsValue("0") == 0 by { assert "0"[..0] == ""; }
  }

  // ---------------------------------------------------------------------
  // `stripLiveServerInjection`

  const LiveServerMarker: string := "<!-- Code injected by live-server -->"

  /** `stripLiveServerInjection(text)`: the text before the first marker,
      or all of it, without trailing white space. */
  function StripLiveServer(text: string): (r: string)
    ensures r <= text
    ensures !Contains(r, LiveServerMarker)
    ensures |r| == 0 || !IsSpace(r[|r| - 1])
    ensures !Contains(text, LiveServerMarker) ==> r == TrimEnd(text)
    ensures forall i :: OccursAt(text, LiveServerMarker, i)
              && (forall j :: 0 <= j < i ==> !OccursAt(text, LiveServerMarker, j))
              ==> r == TrimEnd(text[..i])
  {
    var idx := IndexOf(text, LiveServerMarker);
    var cut := if idx >= 0 then text[..idx] else text;
    var r := TrimEnd(cut);
    assert r <= text;
    assert !Contains(r, LiveServerMarker) by {
      NoMarkerInPrefix(text, r, if idx >= 0 then idx else |text| + 1);
    }
    assert forall i :: OccursAt(text, LiveServerMarker, i)
              && (forall j :: 0 <= j < i ==> !OccursAt(text, LiveServerMarker, j))
              ==> r == TrimEnd(text[..i]) by {
      FirstOccurrence(text);
    }
    r
  }

  /** `indexOf` finds the occurrence of the marker that has none before
      it. */
  lemma FirstOccurrence(text: string)
    ensures forall i :: OccursAt(text, LiveServerMarker, i)
              && (forall j :: 0 <= j < i ==> !OccursAt(text, LiveServerMarker, j))
              ==> IndexOf(text, LiveServerMarker) == i
  {
    var idx := IndexOf(text, LiveServerMarker);
    forall i | OccursAt(text, LiveServerMarker, i)
               && (forall j :: 0 <= j < i ==> !OccursAt(text, LiveServerMarker, j))
      ensures idx == i
    {
      assert Contains(text, LiveServerMarker);
      assert !(idx < i);
    }
  }

  /** A prefix of `text` that ends before the first occurrence of the marker
      does not contain it. */
  lemma NoMarkerInPrefix(text: string, r: string, first: int)
    requires r <= text && |r| <= first
    requires forall j :: 0 <= j < first && j <= |text| ==> !OccursAt(text, LiveServerMarker, j)
    ensures !Contains(r, LiveServerMarker)
  {
    forall j | 0 <= j <= |r| - |LiveServerMarker|
      ensures !OccursAt(r, LiveServerMarker, j)
    {
      if OccursAt(r, LiveServerMarker, j) {
        assert r == text[..|r|];
        assert text[j..j + |LiveServerMarker|] == r[j..j + |LiveServerMarker|];
        assert OccursAt(text, LiveServerMarker, j);
      }
    }
  }

  /** Text followed by an injected script loses the script and the white
      space before it. */
  lemma StripInjected(a: string, tail: string)
    requires !Contains(a, LiveServerMarker)
    ensures StripLiveServer(a + LiveServerMarker + tail) == TrimEnd(a)
  {
    var s := a + LiveServerMarker + tail;
    assert OccursAt(s, LiveServerMarker, |a|) by {
      assert s[|a|..|a| + |LiveServerMarker|] == LiveServerMarker;
    }
    forall j | 0 <= j < |a|
      ensures !OccursAt(s, LiveServerMarker, j)
    {
      NoEarlyMarker(a, tail, j);
    }
    assert s[..|a|] == a;
  }

  /** No occurrence of the marker starts inside `a` when `a` holds none. */
  lemma NoEarlyMarker(a: string, tail: string, j: int)
    requires !Contains(a, LiveServerMarker) && 0 <= j < |a|
    ensures !OccursAt(a + LiveServerMarker + tail, LiveServerMarker, j)
  {
    var s := a + LiveServerMarker + tail;
    var m := |LiveServerMarker|;
    if j + m <= |a| {
      assert s[j..j + m] == a[j..j + m];
      assert !OccursAt(a, LiveServerMarker, j);
    } else if j + m <= |s| {
      var k := |a| - j;
      assert s[j..j + m][k] == s[|a|] == '<';
      OneOpenBracket(k);
    }
  }

  /** The marker holds `<` only at its start. */
  lemma OneOpenBracket(k: int)
    requires 0 < k < |LiveServerMarker|
    ensures LiveServerMarker[k] != '<'
  {
  }

  /** Stripping twice is stripping once. */
  lemma StripIdempotent(text: string)
    ensures StripLiveServer(StripLiveServer(text)) == StripLiveServer(text)
  {
    var r := StripLiveServer(text);
    assert TrimEnd(r) == r;
  }

  // ---------------------------------------------------------------------
  // `ensureBaseHref`

  predicate IsWordChar(c: char) {
    ('a' <= c <= 'z') || ('A' <= c <= 'Z') || ('0' <= c <= '9') || c == '_'
  }

  /** ASCII letters compared without case, as a JavaScript regular
      expression with the `i` flag compares them. */
  predicate SameLetter(c: char, lower: char)
    requires 'a' <= lower <= 'z'
  {
    c == lower || c as int == lower as int - 32
  }

  /** `/<base\b[^>]*>/i` matches at `i`. */
  predicate BaseTagAt(html: string, i: int) {
    0 <= i && i + 5 < |html|
    && html[i] == '<' && SameLetter(html[i + 1], 'b') && SameLetter(html[i + 2], 'a')
    && SameLetter(html[i + 3], 's') && SameLetter(html[i + 4], 'e')
    && !IsWordChar(html[i + 5])
    && '>' in html[i + 5..]
  }

  predicate HasBaseTag(html: string) {
    exists i :: 0 <= i < |html| && BaseTagAt(html, i)
  }

  function BaseTag(baseHref: string): string {
    "<base href=\"" + baseHref + "\">"
  }

  /** The tag the playground writes is a `<base>` tag wherever it stands. */
  lemma BaseTagIsBase(pre: string, baseHref: string, post: string)
    ensures BaseTagAt(pre + BaseTag(baseHref) + post, |pre|)
  {
    var s := pre + BaseTag(baseHref) + post;
    var t := BaseTag(baseHref);
    assert s[|pre|..|pre| + |t|] == t;
    assert s[|pre| + |t| - 1] == '>';
    assert s[|pre| + 5..][|t| - 6] == '>';
  }

  /** What goes before `</head>`: the tag on its own indented line. */
  function Inserted(baseHref: string): string {
    "  " + BaseTag(baseHref) + "\n"
  }

  lemma InsertedIsBase(pre: string, baseHref: string, post: string)
    ensures BaseTagAt(pre + Inserted(baseHref) + post, |pre| + 2)
  {
    BaseTagIsBase(pre + "  ", baseHref, "\n" + post);
    assert pre + Inserted(baseHref) + post == (pre + "  ") + BaseTag(baseHref) + ("\n" + post);
  }

  /** Splicing a piece into a text and cutting it out again. */
  lemma Splice(a: string, ins: string, b: string)
    ensures (a + ins + b)[..|a|] == a
    ensures (a + ins + b)[|a| + |ins|..] == b
    ensures (a + ins + b)[|a|..|a| + |ins|] == ins
  {
  }

  const HeadClose: string := "</head>"

  /** The template `ensureBaseHref` passes to `replace` is expanded only
      inside the href. */
  lemma SubstitutionTemplate(baseHref: string, before: string, after: string)
    ensures Substitution(Inserted(baseHref) + HeadClose, before, HeadClose, after)
            == Inserted(Substitution(baseHref, before, HeadClose, after)) + HeadClose
  {
    var e := Substitution(baseHref, before, HeadClose, after);
    assert TemplateParts(baseHref) by { TemplateSplit(baseHref); }
    assert TemplateParts(e) by { TemplateSplit(e); }
    assert Substitution(TemplateLead() + (baseHref + TemplateTail()), before, HeadClose, after)
        == TemplateLead() + Substitution(baseHref + TemplateTail(), before, HeadClose, after) by {
      assert '$' !in TemplateLead() by { assert forall i :: 0 <= i < |TemplateLead()| ==> TemplateLead()[i] != '$'; }
      SubstitutionPlainPrefix(TemplateLead(), baseHref + TemplateTail(), before, HeadClose, after);
    }
    assert Substitution(baseHref + TemplateTail(), before, HeadClose, after) == e + TemplateTail() by {
      assert '$' !in TemplateTail() by { assert forall i :: 0 <= i < |TemplateTail()| ==> TemplateTail()[i] != '$'; }
      assert TemplateTail()[0] == '"';
      SubstitutionPlainSuffix(baseHref, TemplateTail(), before, HeadClose, after);
    }
  }

  /** The fixed text around the href in that template. */
  function TemplateLead(): string { "  <base href=\"" }
  function TemplateTail(): string { "\">\n</head>" }

  predicate TemplateParts(h: string) {
    Inserted(h) + HeadClose == TemplateLead() + (h + TemplateTail())
  }

  lemma TemplateSplit(h: string)
    ensures TemplateParts(h)
  {
    assert Inserted(h) == TemplateLead() + h + "\">\n";
    assert TemplateTail() == "\">\n" + HeadClose;
  }

  /** The href as the `replace` call writes it into a page with a `</head>`. */
  function HrefWritten(html: string, baseHref: string): string
    requires Contains(html, HeadClose)
  {
    var k := IndexOf(html, HeadClose);
    Substitution(baseHref, html[..k], HeadClose, html[k + |HeadClose|..])
  }

  /** `ensureBaseHref(html, baseHref)`. */
  function EnsureBaseHref(html: string, baseHref: string): (r: string)
    ensures HasBaseTag(html) ==> r == html
    ensures HasBaseTag(r)
  {
    if HasBaseTag(html) then html
    else if Contains(html, HeadClose) then
      var k := IndexOf(html, HeadClose);
      var before, after := html[..k], html[k + |HeadClose|..];
      var r := before + Substitution(Inserted(baseHref) + HeadClose, before, HeadClose, after) + after;
      HeadSplice(html, baseHref);
      InsertedIsBase(before, HrefWritten(html, baseHref), html[k..]);
      assert 0 <= k + 2 < |r|;
      r
    else
      var r := BaseTag(baseHref) + "\n" + html;
      BaseTagIsBase("", baseHref, "\n" + html);
      assert "" + BaseTag(baseHref) + ("\n" + html) == r;
      assert 0 < |r|;
      r
  }

  /** The replaced text is the page with the tag's line spliced in before
      the first `</head>`. */
  lemma HeadSplice(html: string, baseHref: string)
    requires Contains(html, HeadClose)
    ensures var k := IndexOf(html, HeadClose);
            html[..k] + Substitution(Inserted(baseHref) + HeadClose, html[..k], HeadClose, html[k + |HeadClose|..])
              + html[k + |HeadClose|..]
            == html[..k] + Inserted(HrefWritten(html, baseHref)) + html[k..]
  {
    var k := IndexOf(html, HeadClose);
    SubstitutionTemplate(baseHref, html[..k], html[k + |HeadClose|..]);
    assert html[k..] == HeadClose + html[k + |HeadClose|..];
  }

  /** A second call, with any href, changes nothing. */
  lemma EnsureBaseHrefIdempotent(html: string, first: string, second: string)
    ensures EnsureBaseHref(EnsureBaseHref(html, first), second) == EnsureBaseHref(html, first)
  {
  }

  /** Without a `<base>` tag and with a `</head>`, the tag goes on its own
      indented line just before the first `</head>`, and cutting that line
      out again gives the page back. The href is written as `replace`
      expands it, which is the href itself when it holds no `$`. */
  lemma BaseBeforeHead(html: string, baseHref: string)
    requires !HasBaseTag(html) && Contains(html, HeadClose)
    ensures '$' !in baseHref ==> HrefWritten(html, baseHref) == baseHref
    ensures OccursAt(EnsureBaseHref(html, baseHref), Inserted(HrefWritten(html, baseHref)), IndexOf(html, HeadClose))
    ensures OccursAt(EnsureBaseHref(html, baseHref), HeadClose,
                     IndexOf(html, HeadClose) + |Inserted(HrefWritten(html, baseHref))|)
    ensures EnsureBaseHref(html, baseHref)[..IndexOf(html, HeadClose)]
            + EnsureBaseHref(html, baseHref)[IndexOf(html, HeadClose) + |Inserted(HrefWritten(html, baseHref))|..] == html
  {
    var k := IndexOf(html, HeadClose);
    var ins := Inserted(HrefWritten(html, baseHref));
    var r := EnsureBaseHref(html, baseHref);
    assert '$' !in baseHref ==> HrefWritten(html, baseHref) == baseHref by {
      if '$' !in baseHref {
        SubstitutionPlain(baseHref, html[..k], HeadClose, html[k + |HeadClose|..]);
      }
    }
    assert r == html[..k] + ins + html[k..] by { HeadCase(html, baseHref); }
    assert OccursAt(r, ins, k) && OccursAt(r, HeadClose, k + |ins|) && r[..k] + r[k + |ins|..] == html by {
      SpliceAt(html, k, ins);
    }
  }

  lemma HeadCase(html: string, baseHref: string)
    requires !HasBaseTag(html) && Contains(html, HeadClose)
    ensures EnsureBaseHref(html, baseHref)
            == html[..IndexOf(html, HeadClose)] + Inserted(HrefWritten(html, baseHref)) + html[IndexOf(html, HeadClose)..]
  {
    HeadSplice(html, baseHref);
  }

  /** An href holding `$'` gets the rest of the page copied into it. */
  lemma DollarQuoteCopiesRest()
    ensures EnsureBaseHref("</head>x", "a$'") == "  <base href=\"ax\">\n</head>x"
  {
    var html := "</head>x";
    ExamplePage();
    calc {
      EnsureBaseHref(html, "a$'");
      { HeadCase(html, "a$'"); assert html[..0] == "" && html[0..] == html; }
      Inserted("ax") + html;
      { InsertedExample(); }
      "  <base href=\"ax\">\n</head>x";
    }
  }

  /** The page of that example has no base tag, its `</head>` comes first,
      and `$'` there stands for `x`. */
  lemma ExamplePage()
    ensures !HasBaseTag("</head>x") && Contains("</head>x", HeadClose)
    ensures IndexOf("</head>x", HeadClose) == 0 && HrefWritten("</head>x", "a$'") == "ax"
  {
    var html := "</head>x";
    NoBaseExample();
    assert OccursAt(html, HeadClose, 0);
    assert html[..0] == "" && html[|HeadClose|..] == "x";
    DollarQuoteExample();
  }

  lemma InsertedExample()
    ensures Inserted("ax") + "</head>x" == "  <base href=\"ax\">\n</head>x"
  {
  }

  lemma NoBaseExample()
    ensures !HasBaseTag("</head>x")
  {
    var html := "</head>x";
    forall i | 0 <= i < |html| ensures !BaseTagAt(html, i) {
      assert i == 0 ==> html[1] == '/';
    }
  }

  lemma DollarQuoteExample()
    ensures Substitution("a$'", "", HeadClose, "x") == "ax"
  {
    assert "a$'"[1..] == "$'" && "$'"[2..] == "";
  }

  /** A piece spliced in at the start of an occurrence of `</head>`. */
  lemma SpliceAt(html: string, k: int, ins: string)
    requires OccursAt(html, HeadClose, k)
    ensures OccursAt(html[..k] + ins + html[k..], ins, k)
    ensures OccursAt(html[..k] + ins + html[k..], HeadClose, k + |ins|)
    ensures (html[..k] + ins + html[k..])[..k] + (html[..k] + ins + html[k..])[k + |ins|..] == html
  {
    var r := html[..k] + ins + html[k..];
    Splice(html[..k], ins, html[k..]);
    assert r[k + |ins|..][..|HeadClose|] == html[k..][..|HeadClose|];
    assert html[..k] + html[k..] == html;
  }

  /** Without either tag, the tag and a line break go first, and dropping
      them gives the page back. */
  lemma BaseFirst(html: string, baseHref: string)
    requires !HasBaseTag(html) && !Contains(html, HeadClose)
    ensures StartsWith(EnsureBaseHref(html, baseHref), BaseTag(baseHref) + "\n")
    ensures EnsureBaseHref(html, baseHref)[|BaseTag(baseHref)| + 1..] == html
  {
  }

  // ---------------------------------------------------------------------
  // Module keys in `buildModuleHtml`

  /** The import-map key of a module: `./name`, unless it already starts
      with `./`. */
  function ModuleKey(name: string): (k: string)
    ensures |k| >= 2 && k[..2] == "./"
    ensures k == "./main.js" <==> name == "main.js" || name == "./main.js"
  {
    if |name| >= 2 && name[..2] == "./" then
      assert "main.js"[..2] == "ma";
      name
    else
      assert ("./" + name)[2..] == name;
      "./" + name
  }

  /** A key is its own key. */
  lemma ModuleKeyIdempotent(name: string)
    ensures ModuleKey(ModuleKey(name)) == ModuleKey(name)
  {
  }

  /** Dropping the `./` of a key gives the module name back, for names
      that did not start with `./`. */
  lemma ModuleKeyStrips(name: string)
    requires !(|name| >= 2 && name[..2] == "./")
    ensures StripDotSlash(ModuleKey(name)) == name
  {
    assert ("./" + name)[2..] == name;
  }

  /** The module list with normalised keys, in the same order. */
  function ModuleEntries(modules: seq<Entry>): (r: seq<Entry>)
    ensures |r| == |modules|
    ensures forall i :: 0 <= i < |r| ==> r[i] == Entry(ModuleKey(modules[i].key), modules[i].value)
  {
    seq(|modules|, i requires 0 <= i < |modules| => Entry(ModuleKey(modules[i].key), modules[i].value))
  }

  /** The keyed modules `buildModuleHtml` builds its page from, or `None`
      (its `null`) when none of them is the entry module. */
  function RunnableModules(modules: seq<Entry>): (r: Option<seq<Entry>>)
    ensures r.None? <==> forall i :: 0 <= i < |modules| ==>
                           modules[i].key != "main.js" && modules[i].key != "./main.js"
    ensures r.Some? ==> r.value == ModuleEntries(modules)
  {
    var es := ModuleEntries(modules);
    if exists i :: 0 <= i < |es| && es[i].key == "./main.js" then Some(es) else None
  }
}

=== FILE: print_table.dfy ===
/** `docs/print2/generate-table.js`: a worksheet's problem numbers, from a
    list "number of large questions, then the count of small questions of
    each", laid out two per table row. Reading the numbers out of the page
    text (`Number` of each whitespace-separated token) is not modelled: the
    list arrives as integers. */
module PrintTable {
  import opened Wrappers
  import opened Strings

  // ---------------------------------------------------------------------
  // Labels

  /** The label `${L}.${S}`. */
  function Label(l: nat, s: nat): (r: string)
    ensures |r| >= 3
  {
    NatToString(l) + "." + NatToString(s)
  }

  /** In a label the first '.' sits right after the large question's
      digits. */
  lemma DotAt(a: string, b: string)
    requires AllDigits(a)
    ensures (a + "." + b)[|a|] == '.'
    ensures forall k :: 0 <= k < |a| ==> (a + "." + b)[k] == a[k] && IsDigit(a[k])
  {
  }

  /** Different problem numbers get different labels. */
  lemma LabelInjective(l1: nat, s1: nat, l2: nat, s2: nat)
    requires Label(l1, s1) == Label(l2, s2)
    ensures l1 == l2 && s1 == s2
  {
    var a1, a2 := NatToString(l1), NatToString(l2);
    var b1, b2 := NatToString(s1), NatToString(s2);
    var x := Label(l1, s1);
    DotAt(a1, b1);
    DotAt(a2, b2);
    assert |a1| == |a2|;
    assert a1 == x[..|a1|] == a2;
    assert b1 == x[|a1| + 1..] == b2;
  }

  /** The small questions of large question `l`, with `c` of them; a count
      below 1 gives none. */
  function BlockPairs(l: nat, c: int): (r: seq<(nat, nat)>)
    ensures |r| == if c > 0 then c else 0
  {
    if c <= 0 then [] else seq(c, j requires 0 <= j < c => (l, j + 1))
  }

  /** The nested loops from large question `i + 1` on. */
  function PairsFrom(counts: seq<int>, i: nat): seq<(nat, nat)>
    requires i <= |counts|
    decreases |counts| - i
  {
    if i == |counts| then [] else BlockPairs(i + 1, counts[i]) + PairsFrom(counts, i + 1)
  }

  /** The number of labels: the counts added up, negatives as 0. */
  function Total(counts: seq<int>, i: nat): nat
    requires i <= |counts|
    decreases |counts| - i
  {
    if i == |counts| then 0 else (if counts[i] > 0 then counts[i] else 0) + Total(counts, i + 1)
  }

  /** A problem number that exists: large question `1..|counts|`, small
      question `1..count`. */
  predicate Valid(counts: seq<int>, p: (nat, nat)) {
    1 <= p.0 <= |counts| && 1 <= p.1 <= counts[p.0 - 1]
  }

  /** Large question first, then small question. */
  predicate Earlier(p: (nat, nat), q: (nat, nat)) {
    p.0 < q.0 || (p.0 == q.0 && p.1 < q.1)
  }

  /** From `i + 1` on there are as many numbers as the counts add up to. */
  lemma {:induction false} PairsLength(counts: seq<int>, i: nat)
    requires i <= |counts|
    ensures |PairsFrom(counts, i)| == Total(counts, i)
    decreases |counts| - i
  {
    if i < |counts| {
      PairsLength(counts, i + 1);
    }
  }

  /** From `i + 1` on only valid numbers come out, all past `i`. */
  lemma {:induction false} PairsValid(counts: seq<int>, i: nat)
    requires i <= |counts|
    ensures forall k :: 0 <= k < |PairsFrom(counts, i)| ==>
              Valid(counts, PairsFrom(counts, i)[k]) && PairsFrom(counts, i)[k].0 > i
    decreases |counts| - i
  {
    if i < |counts| {
      PairsValid(counts, i + 1);
      var head := BlockPairs(i + 1, counts[i]);
      assert PairsFrom(counts, i) == head + PairsFrom(counts, i + 1);
    }
  }

  /** From `i + 1` on the numbers come out strictly in order. */
  lemma {:induction false} PairsOrdered(counts: seq<int>, i: nat)
    requires i <= |counts|
    ensures forall a, b :: 0 <= a < b < |PairsFrom(counts, i)| ==>
              Earlier(PairsFrom(counts, i)[a], PairsFrom(counts, i)[b])
    decreases |counts| - i
  {
    if i < |counts| {
      PairsOrdered(counts, i + 1);
      PairsValid(counts, i + 1);
      var head := BlockPairs(i + 1, counts[i]);
      assert PairsFrom(counts, i) == head + PairsFrom(counts, i + 1);
    }
  }

  /** Every valid number past `i` comes out. */
  lemma {:induction false} PairsComplete(counts: seq<int>, i: nat, p: (nat, nat))
    requires i <= |counts| && Valid(counts, p) && p.0 > i
    ensures p in PairsFrom(counts, i)
    decreases |counts| - i
  {
    var head := BlockPairs(i + 1, counts[i]);
    var rest := PairsFrom(counts, i + 1);
    assert PairsFrom(counts, i) == head + rest;
    if p.0 == i + 1 {
      assert head[p.1 - 1] == p;
      assert p in head;
    } else {
      PairsComplete(counts, i + 1, p);
      assert p in rest;
    }
  }

  /** `problems`: the labels in loop order. */
  function Labels(counts: seq<int>): (r: seq<string>)
    ensures |r| == |PairsFrom(counts, 0)|
  {
    var ps := PairsFrom(counts, 0);
    seq(|ps|, k requires 0 <= k < |ps| => Label(ps[k].0, ps[k].1))
  }

  /** As many labels as the counts add up to, and all different. */
  lemma LabelsDistinct(counts: seq<int>)
    ensures |Labels(counts)| == Total(counts, 0)
    ensures forall a, b :: 0 <= a < b < |Labels(counts)| ==> Labels(counts)[a] != Labels(counts)[b]
  {
    PairsLength(counts, 0);
    PairsOrdered(counts, 0);
    var ps := PairsFrom(counts, 0);
    var ls := Labels(counts);
    forall a, b | 0 <= a < b < |ls|
      ensures ls[a] != ls[b]
    {
      if ls[a] == ls[b] {
        LabelInjective(ps[a].0, ps[a].1, ps[b].0, ps[b].1);
      }
    }
  }

  /** Every problem that exists is labelled. */
  lemma LabelsComplete(counts: seq<int>, l: nat, s: nat)
    requires Valid(counts, (l, s))
    ensures exists k :: 0 <= k < |Labels(counts)| && Labels(counts)[k] == Label(l, s)
  {
    PairsComplete(counts, 0, (l, s));
    var ps := PairsFrom(counts, 0);
    var k :| 0 <= k < |ps| && ps[k] == (l, s);
    assert Labels(counts)[k] == Label(l, s);
  }

  /** Every label names a problem that exists. */
  lemma LabelsSound(counts: seq<int>, k: nat)
    requires k < |Labels(counts)|
    ensures exists l: nat, s: nat :: Valid(counts, (l, s)) && Labels(counts)[k] == Label(l, s)
  {
    PairsValid(counts, 0);
    var p := PairsFrom(counts, 0)[k];
    assert Valid(counts, p) && Labels(counts)[k] == Label(p.0, p.1);
  }

  // ---------------------------------------------------------------------
  // Rows

  /** One `<tr>` with its two `<td>` texts. */
  datatype Row = Row(first: string, second: string)

  /** The loop `for (i = 0; i < n; i += 2)`: labels `i` and `i + 1`, the
      second `""` when it is missing. */
  function Rows(labels: seq<string>): seq<Row>
    decreases |labels|
  {
    if |labels| == 0 then []
    else if |labels| == 1 then [Row(labels[0], "")]
    else [Row(labels[0], labels[1])] + Rows(labels[2..])
  }

  /** The cell texts of the table, row by row. */
  function Cells(rows: seq<Row>): seq<string>
    decreases |rows|
  {
    if |rows| == 0 then [] else [rows[0].first, rows[0].second] + Cells(rows[1..])
  }

  /** `ceil(n / 2)` rows, and row `i` holds labels `2i` and `2i + 1`. */
  lemma {:induction false} RowsAt(labels: seq<string>)
    ensures |Rows(labels)| == (|labels| + 1) / 2
    ensures forall i :: 0 <= i < |Rows(labels)| ==>
              Rows(labels)[i].first == labels[2 * i]
              && Rows(labels)[i].second == (if 2 * i + 1 < |labels| then labels[2 * i + 1] else "")
    decreases |labels|
  {
    if |labels| >= 2 {
      RowsAt(labels[2..]);
      var r := Rows(labels);
      forall i | 1 <= i < |r|
        ensures r[i].first == labels[2 * i]
        ensures r[i].second == (if 2 * i + 1 < |labels| then labels[2 * i + 1] else "")
      {
        assert r[i] == Rows(labels[2..])[i - 1];
      }
    }
  }

  /** Read in order, the cells are the labels, followed by one empty cell
      when there is an odd number of them. */
  lemma {:induction false} RowsCells(labels: seq<string>)
    ensures Cells(Rows(labels)) == labels + (if |labels| % 2 == 1 then [""] else [])
    decreases |labels|
  {
    if |labels| >= 2 {
      RowsCells(labels[2..]);
      assert Rows(labels)[1..] == Rows(labels[2..]);
      assert labels == [labels[0], labels[1]] + labels[2..];
    } else if |labels| == 1 {
      assert Cells(Rows(labels)) == [labels[0], ""];
    }
  }

  // ---------------------------------------------------------------------
  // The whole generator

  /** The table for `numbers`, or `None` when the first number does not
      equal how many counts follow it (the source logs an error and
      builds nothing). */
  function Generate(numbers: seq<int>): (r: Option<seq<Row>>)
    ensures r.None? <==> |numbers| == 0 || numbers[0] != |numbers| - 1
  {
    if |numbers| == 0 || numbers[0] != |numbers| - 1 then None
    else Some(Rows(Labels(numbers[1..])))
  }

  /** A consistent list gives a table whose cells are exactly the labels of
      all problems, each once, in order. */
  lemma GenerateSpec(numbers: seq<int>)
    requires |numbers| > 0 && numbers[0] == |numbers| - 1
    ensures Generate(numbers).Some?
    ensures var labels := Labels(numbers[1..]);
            Cells(Generate(numbers).value) == labels + (if |labels| % 2 == 1 then [""] else [])
            && |Generate(numbers).value| == (Total(numbers[1..], 0) + 1) / 2
  {
    RowsCells(Labels(numbers[1..]));
    RowsAt(Labels(numbers[1..]));
    LabelsDistinct(numbers[1..]);
  }

  /** Two large questions with two and one small questions. */
  lemma Example()
    ensures Labels([2, 1]) == ["1.1", "1.2", "2.1"]
    ensures Generate([2, 2, 1]) == Some([Row("1.1", "1.2"), Row("2.1", "")])
    ensures Generate([2, 2]) == None
  {
    assert NatToString(1) == "1" && NatToString(2) == "2";
    assert Label(1, 1) == "1.1" && Label(1, 2) == "1.2" && Label(2, 1) == "2.1";
    assert PairsFrom([2, 1], 2) == [];
    assert PairsFrom([2, 1], 1) == [(2, 1)];
    assert BlockPairs(1, 2) == [(1, 1), (1, 2)];
    assert PairsFrom([2, 1], 0) == [(1, 1), (1, 2), (2, 1)];
    assert [2, 2, 1][1..] == [2, 1];
    assert ["1.1", "1.2", "2.1"][2..] == ["2.1"];
    assert Rows(["1.1", "1.2", "2.1"]) == [Row("1.1", "1.2")] + Rows(["2.1"]);
    assert Rows(["2.1"]) == [Row("2.1", "")];
    assert [Row("1.1", "1.2")] + [Row("2.1", "")] == [Row("1.1", "1.2"), Row("2.1", "")];
    assert Rows(Labels([2, 1])) == [Row("1.1", "1.2"), Row("2.1", "")];
    assert Generate([2, 2, 1]) == Some(Rows(Labels([2, 1])));
  }
}

=== FILE: seq_util.dfy ===
/** Removing elements from a list the way `Array.prototype.splice(i, 1)`
    does, and what a run of such removals leaves. */
module SeqUtil {

  /** `s.splice(i, 1)`: element `i` goes and the later ones move down. */
  function RemoveAt<T>(s: seq<T>, i: nat): (r: seq<T>)
    requires i < |s|
    ensures |r| == |s| - 1
    ensures forall k :: 0 <= k < i ==> r[k] == s[k]
    ensures forall k :: i <= k < |r| ==> r[k] == s[k + 1]
  {
    s[..i] + s[i + 1..]
  }

  /** The elements of `s` whose index is not in `drop`, in order. */
  function Without<T>(s: seq<T>, drop: set<int>): seq<T>
    decreases |s|
  {
    if |s| == 0 then []
    else Without(s[..|s| - 1], drop) + (if |s| - 1 in drop then [] else [s[|s| - 1]])
  }

  /** Only the indices of `s` matter. */
  lemma {:induction false} WithoutSame<T>(s: seq<T>, d1: set<int>, d2: set<int>)
    requires forall j :: 0 <= j < |s| ==> (j in d1 <==> j in d2)
    ensures Without(s, d1) == Without(s, d2)
    decreases |s|
  {
    if |s| > 0 {
      WithoutSame(s[..|s| - 1], d1, d2);
    }
  }

  /** Dropping nothing keeps everything. */
  lemma {:induction false} WithoutNothing<T>(s: seq<T>)
    ensures Without(s, {}) == s
    decreases |s|
  {
    if |s| > 0 {
      WithoutNothing(s[..|s| - 1]);
    }
  }

  /** Removing index `i` when only smaller indices have been dropped so far
      is dropping `i` as well. */
  lemma {:induction false} RemoveAtWithout<T>(s: seq<T>, i: nat, drop: set<int>)
    requires i < |s|
    requires forall d :: d in drop ==> d < i
    ensures Without(RemoveAt(s, i), drop) == Without(s, drop + {i})
    decreases |s|
  {
    var n := |s| - 1;
    if i == n {
      assert RemoveAt(s, i) == s[..n];
      WithoutSame(s[..n], drop, drop + {i});
    } else {
      var t := RemoveAt(s, i);
      assert t[..|t| - 1] == RemoveAt(s[..n], i);
      assert t[|t| - 1] == s[n];
      RemoveAtWithout(s[..n], i, drop);
    }
  }

  /** How many indices of `s` are in `drop`. */
  function Dropped(n: nat, drop: set<int>): (c: nat)
    ensures c <= n
  {
    if n == 0 then 0 else Dropped(n - 1, drop) + (if n - 1 in drop then 1 else 0)
  }

  lemma {:induction false} WithoutLength<T>(s: seq<T>, drop: set<int>)
    ensures |Without(s, drop)| == |s| - Dropped(|s|, drop)
    decreases |s|
  {
    if |s| > 0 {
      WithoutLength(s[..|s| - 1], drop);
    }
  }

  /** `a` is `b` with some elements left out, order kept: `idx` says where
      each element of `a` sits in `b`. */
  ghost predicate Embeds<T>(a: seq<T>, b: seq<T>, idx: seq<nat>) {
    |idx| == |a|
    && (forall k :: 0 <= k < |idx| ==> idx[k] < |b| && a[k] == b[idx[k]])
    && (forall k, l :: 0 <= k < l < |idx| ==> idx[k] < idx[l])
  }

  ghost predicate Subseq<T>(a: seq<T>, b: seq<T>) {
    exists idx :: Embeds(a, b, idx)
  }

  function Identity(n: nat): (idx: seq<nat>)
    ensures |idx| == n && forall k :: 0 <= k < n ==> idx[k] == k
  {
    seq(n, k requires 0 <= k < n => k)
  }

  lemma SubseqRefl<T>(s: seq<T>)
    ensures Subseq(s, s)
  {
    assert Embeds(s, s, Identity(|s|));
  }

  lemma SubseqRemoveAt<T>(s: seq<T>, i: nat)
    requires i < |s|
    ensures Subseq(RemoveAt(s, i), s)
  {
    var idx := seq(|s| - 1, k requires 0 <= k < |s| - 1 => if k < i then k else k + 1);
    assert Embeds(RemoveAt(s, i), s, idx);
  }

  lemma SubseqTrans<T>(a: seq<T>, b: seq<T>, c: seq<T>)
    requires Subseq(a, b) && Subseq(b, c)
    ensures Subseq(a, c)
  {
    var i1: seq<nat> :| Embeds(a, b, i1);
    var i2: seq<nat> :| Embeds(b, c, i2);
    var idx := seq(|a|, k requires 0 <= k < |a| => i2[i1[k]]);
    assert Embeds(a, c, idx);
  }

  lemma SubseqPrefix<T>(a: seq<T>, b: seq<T>, x: T)
    requires Subseq(a, b)
    ensures Subseq(a, b + [x]) && Subseq(a + [x], b + [x])
  {
    var i1: seq<nat> :| Embeds(a, b, i1);
    assert Embeds(a, b + [x], i1);
    assert Embeds(a + [x], b + [x], i1 + [|b|]);
  }
}

=== FILE: strings.dfy ===
/** Character and string helpers shared by the text components: JavaScript's
    whitespace class, `trimEnd`/`trim`, `split`/`join` on one separator,
    substring search and decimal rendering of numbers. */
module Strings {

  /** The characters JavaScript's `\s` and `String.prototype.trim` treat as
      white space (WhiteSpace and LineTerminator of ECMAScript). */
  predicate IsSpace(c: char) {
    || c == '\t' || c == '\n' || c == '\U{B}' || c == '\U{C}' || c == '\r'
    || c == ' ' || c == '\U{A0}' || c == '\U{1680}'
    || ('\U{2000}' <= c <= '\U{200A}')
    || c == '\U{2028}' || c == '\U{2029}' || c == '\U{202F}' || c == '\U{205F}'
    || c == '\U{3000}' || c == '\U{FEFF}'
  }

  predicate AllSpace(s: string) {
    forall i :: 0 <= i < |s| ==> IsSpace(s[i])
  }

  predicate NoSpace(s: string) {
    forall i :: 0 <= i < |s| ==> !IsSpace(s[i])
  }

  /** `s.trimEnd()`: drops the longest all-space suffix. */
  function TrimEnd(s: string): (r: string)
    ensures r <= s
    ensures |r| == 0 || !IsSpace(r[|r| - 1])
    ensures AllSpace(s[|r|..])
    decreases |s|
  {
    if |s| > 0 && IsSpace(s[|s| - 1]) then TrimEnd(s[..|s| - 1]) else s
  }

  /** Drops the longest all-space prefix. */
  function TrimStart(s: string): (r: string)
    ensures |r| <= |s| && r == s[|s| - |r|..]
    ensures |r| == 0 || !IsSpace(r[0])
    ensures AllSpace(s[..|s| - |r|])
    decreases |s|
  {
    if |s| > 0 && IsSpace(s[0]) then TrimStart(s[1..]) else s
  }

  /** `s.trim()`. */
  function Trim(s: string): string {
    TrimStart(TrimEnd(s))
  }

  /** Appending white space does not change `trimEnd`. */
  lemma {:induction false} TrimEndAppendSpace(s: string, w: string)
    requires AllSpace(w)
    ensures TrimEnd(s + w) == TrimEnd(s)
    decreases |w|
  {
    if |w| > 0 {
      assert (s + w)[..|s + w| - 1] == s + w[..|w| - 1];
      TrimEndAppendSpace(s, w[..|w| - 1]);
    } else {
      assert s + w == s;
    }
  }

  /** `s.split(sep)` for a one-character separator: always at least one
      piece, and a trailing separator yields a trailing empty piece. */
  function Split(s: string, sep: char): (r: seq<string>)
    ensures |r| >= 1
    ensures forall i :: 0 <= i < |r| ==> sep !in r[i]
    decreases |s|
  {
    if |s| == 0 then [""]
    else
      var rest := Split(s[1..], sep);
      if s[0] == sep then [""] + rest
      else [[s[0]] + rest[0]] + rest[1..]
  }

  /** `parts.join(sep)`. */
  function Join(parts: seq<string>, sep: string): string
    decreases |parts|
  {
    if |parts| == 0 then ""
    else if |parts| == 1 then parts[0]
    else parts[0] + sep + Join(parts[1..], sep)
  }

  lemma JoinCons(p: string, ps: seq<string>, sep: string)
    requires |ps| >= 1
    ensures Join([p] + ps, sep) == p + sep + Join(ps, sep)
  {
    assert ([p] + ps)[1..] == ps;
  }

  lemma JoinAppend(ps: seq<string>, p: string, sep: string)
    requires |ps| >= 1
    ensures Join(ps + [p], sep) == Join(ps, sep) + sep + p
    decreases |ps|
  {
    if |ps| == 1 {
      assert ps + [p] == [ps[0], p];
      assert [ps[0], p][1..] == [p];
    } else {
      assert (ps + [p])[1..] == ps[1..] + [p];
      JoinAppend(ps[1..], p, sep);
    }
  }

  /** Joining the pieces of a split with the separator gives back the text. */
  lemma {:induction false} JoinSplit(s: string, sep: char)
    ensures Join(Split(s, sep), [sep]) == s
    decreases |s|
  {
    if |s| > 0 {
      var rest := Split(s[1..], sep);
      JoinSplit(s[1..], sep);
      if s[0] == sep {
        JoinCons("", rest, [sep]);
        assert s == [sep] + s[1..];
      } else {
        var head := [s[0]] + rest[0];
        if |rest| == 1 {
          assert Split(s, sep) == [head];
          assert s == [s[0]] + s[1..];
        } else {
          JoinCons(head, rest[1..], [sep]);
          JoinCons(rest[0], rest[1..], [sep]);
          assert rest == [rest[0]] + rest[1..];
          assert s == [s[0]] + s[1..];
        }
      }
    }
  }

  /** Splitting a join of separator-free pieces gives back the pieces. */
  lemma {:induction false} SplitJoin(parts: seq<string>, sep: char)
    requires |parts| >= 1
    requires forall i :: 0 <= i < |parts| ==> sep !in parts[i]
    ensures Split(Join(parts, [sep]), sep) == parts
    decreases |parts|, |parts[0]|
  {
    var p := parts[0];
    if |p| == 0 {
      if |parts| > 1 {
        SplitJoin(parts[1..], sep);
        JoinCons(p, parts[1..], [sep]);
        var s := Join(parts, [sep]);
        assert s == [sep] + Join(parts[1..], [sep]);
        assert s[1..] == Join(parts[1..], [sep]);
        assert parts == [""] + parts[1..];
      }
    } else {
      var parts1 := [p[1..]] + parts[1..];
      assert forall i :: 0 <= i < |parts1| ==> sep !in parts1[i] by {
        forall i | 0 <= i < |parts1|
          ensures sep !in parts1[i]
        {
          if i == 0 {
            assert forall c :: c in p[1..] ==> c in p;
          } else {
            assert parts1[i] == parts[i];
          }
        }
      }
      SplitJoin(parts1, sep);
      var s := Join(parts, [sep]);
      var s1 := Join(parts1, [sep]);
      if |parts| == 1 {
        assert s == p && s1 == p[1..];
      } else {
        JoinCons(p, parts[1..], [sep]);
        JoinCons(p[1..], parts[1..], [sep]);
        assert s == [p[0]] + s1;
      }
      assert s[0] == p[0] && s[1..] == s1;
      assert p[0] != sep by { assert p[0] in p; }
      assert [p[0]] + p[1..] == p;
      assert parts == [p] + parts1[1..];
    }
  }

  /** `s.startsWith(prefix)`. */
  predicate StartsWith(s: string, prefix: string) {
    |prefix| <= |s| && s[..|prefix|] == prefix
  }

  /** `pat` occurs in `s` at index `i`. */
  predicate OccursAt(s: string, pat: string, i: int) {
    0 <= i && i + |pat| <= |s| && s[i..i + |pat|] == pat
  }

  /** `s.includes(pat)`. */
  predicate Contains(s: string, pat: string) {
    exists i :: 0 <= i <= |s| - |pat| && OccursAt(s, pat, i)
  }

  /** `s.indexOf(pat, from)`: the first occurrence at or after `from`, or -1. */
  function IndexOfFrom(s: string, pat: string, from: nat): (r: int)
    ensures r == -1 || (from <= r && OccursAt(s, pat, r))
    ensures forall j :: from <= j < (if r == -1 then |s| + 1 else r) ==> !OccursAt(s, pat, j)
    decreases |s| + 1 - from
  {
    if from + |pat| > |s| then -1
    else if s[from..from + |pat|] == pat then from
    else IndexOfFrom(s, pat, from + 1)
  }

  /** `s.indexOf(pat)`. */
  function IndexOf(s: string, pat: string): (r: int)
    ensures r == -1 || OccursAt(s, pat, r)
    ensures r == -1 <==> !Contains(s, pat)
    ensures r >= 0 ==> forall j :: 0 <= j < r ==> !OccursAt(s, pat, j)
  {
    IndexOfFrom(s, pat, 0)
  }

  predicate IsDigit(c: char) {
    '0' <= c <= '9'
  }

  predicate AllDigits(s: string) {
    forall i :: 0 <= i < |s| ==> IsDigit(s[i])
  }

  /** The value of a run of decimal digits, most significant first. */
  function DigitsValue(s: string): nat
    requires AllDigits(s)
    decreases |s|
  {
    if |s| == 0 then 0
    else DigitsValue(s[..|s| - 1]) * 10 + (s[|s| - 1] as int - '0' as int)
  }

  function DigitChar(n: nat): (c: char)
    requires n < 10
    ensures IsDigit(c) && c as int - '0' as int == n
  {
    ('0' as int + n) as char
  }

  /** Decimal rendering of a natural number, as `String(n)` does for the
      integers this model uses. */
  function NatToString(n: nat): (r: string)
    ensures |r| >= 1 && AllDigits(r)
    ensures DigitsValue(r) == n
    ensures r[0] == '0' ==> n == 0
    decreases n
  {
    if n < 10 then [DigitChar(n)]
    else
      var r := NatToString(n / 10) + [DigitChar(n % 10)];
      assert r[..|r| - 1] == NatToString(n / 10);
      r
  }

  /** `String(i)` for an integer: a minus sign before the magnitude when
      negative. */
  function IntToString(i: int): (r: string)
    ensures |r| >= 1
    ensures i >= 0 ==> r == NatToString(i)
    ensures i < 0 ==> r == "-" + NatToString(-i)
  {
    if i < 0 then "-" + NatToString(-i) else NatToString(i)
  }
}

=== FILE: viewer_records.dfy ===
/** The record helpers of the submission viewer: step keys, the two JSON
    shapes a loaded file can have, step numbers, and the `file:record`
    references the compare selects carry. */
module ViewerRecords {
  import opened Wrappers
  import opened Strings

  // ---------------------------------------------------------------------
  // JSON values

  /** A parsed JSON value. Numbers are the integer-valued ones; an object
      holds its own properties in enumeration order. */
  datatype Json = JNull | JBool(b: bool) | JNum(n: int) | JStr(s: string)
                | JArr(elems: seq<Json>) | JObj(fields: seq<Field>)

  datatype Field = Field(key: string, value: Json)

  /** `isObject`: a non-null, non-array object. */
  predicate IsObject(v: Json) {
    v.JObj?
  }

  /** `obj[key]`: the last property with that key, as `JSON.parse` keeps
      the last of repeated keys; `None` is `undefined`. */
  function Lookup(fields: seq<Field>, key: string): (r: Option<Json>)
    ensures r.Some? <==> exists i :: 0 <= i < |fields| && fields[i].key == key
    ensures r.Some? ==> exists i :: 0 <= i < |fields| && fields[i] == Field(key, r.value)
                                   && forall j :: i < j < |fields| ==> fields[j].key != key
    decreases |fields|
  {
    if |fields| == 0 then None
    else if fields[|fields| - 1].key == key then Some(fields[|fields| - 1].value)
    else
      var r := Lookup(fields[..|fields| - 1], key);
      LookupEarlier(fields, key, r);
      r
  }

  /** What the lookup in all fields but a last one with another key
      says about all the fields. */
  lemma LookupEarlier(fields: seq<Field>, key: string, r: Option<Json>)
    requires |fields| > 0 && fields[|fields| - 1].key != key
    requires var init := fields[..|fields| - 1];
             && (r.Some? <==> exists i :: 0 <= i < |init| && init[i].key == key)
             && (r.Some? ==> exists i :: 0 <= i < |init| && init[i] == Field(key, r.value)
                                      && forall j :: i < j < |init| ==> init[j].key != key)
    ensures r.Some? <==> exists i :: 0 <= i < |fields| && fields[i].key == key
    ensures r.Some? ==> exists i :: 0 <= i < |fields| && fields[i] == Field(key, r.value)
                                 && forall j :: i < j < |fields| ==> fields[j].key != key
  {
    var init := fields[..|fields| - 1];
    assert forall i :: 0 <= i < |init| ==> init[i] == fields[i];
    if r.Some? {
      var i :| 0 <= i < |init| && init[i] == Field(key, r.value)
               && forall j :: i < j < |init| ==> init[j].key != key;
      assert fields[i] == Field(key, r.value);
      assert forall j :: i < j < |fields| ==> fields[j].key != key;
    }
  }

  // ---------------------------------------------------------------------
  // Object.entries

  /** Some property of `fields` is named `key`. */
  predicate HasKey(fields: seq<Field>, key: string) {
    exists f :: f in fields && f.key == key
  }

  /** No two properties share a name. */
  predicate UniqueKeys(fields: seq<Field>) {
    forall i, j :: 0 <= i < j < |fields| ==> fields[i].key != fields[j].key
  }

  /** `fields` without the properties named `key`. */
  function Drop(fields: seq<Field>, key: string): (r: seq<Field>)
    ensures |r| <= |fields|
    decreases |fields|
  {
    if |fields| == 0 then []
    else
      var last := fields[|fields| - 1];
      Drop(fields[..|fields| - 1], key) + (if last.key == key then [] else [last])
  }

  /** `Object.entries` of an object `JSON.parse` built from `fields`: each
      name once, at the place it first appears, holding the value written
      last under it (see `EntriesSpec`). */
  function Entries(fields: seq<Field>): (r: seq<Field>)
    ensures |r| <= |fields|
    decreases |fields|
  {
    if |fields| == 0 then []
    else
      var k := fields[0].key;
      [Field(k, Lookup(fields, k).value)] + Entries(Drop(fields[1..], k))
  }

  /** The entries hold every name of the object and no other, each name
      once, with the value a lookup of that name finds. */
  lemma {:induction false} EntriesSpec(fields: seq<Field>)
    ensures forall k :: HasKey(Entries(fields), k) <==> HasKey(fields, k)
    ensures forall f :: f in Entries(fields) ==> Lookup(fields, f.key) == Some(f.value)
    ensures UniqueKeys(Entries(fields))
    decreases |fields|
  {
    if |fields| > 0 {
      var k := fields[0].key;
      var rest := Drop(fields[1..], k);
      var e := Entries(rest);
      var head := Field(k, Lookup(fields, k).value);
      assert Entries(fields) == [head] + e;
      EntriesSpec(rest);
      DropKeys(fields[1..], k);
      assert HasKey(fields, k) by { assert fields[0] in fields; }
      forall k' ensures HasKey([head] + e, k') <==> HasKey(fields, k') {
        ConsHasKey(head, e, k');
        ConsHasKey(fields[0], fields[1..], k');
        assert fields == [fields[0]] + fields[1..];
      }
      forall f | f in [head] + e ensures Lookup(fields, f.key) == Some(f.value) {
        if f != head {
          assert f in e;
          assert HasKey(e, f.key) && f.key != k;
          LookupDropAt(fields[1..], k, f.key);
          LookupTailAt(fields, f.key);
        }
      }
      ConsUnique(head, e);
    }
  }

  lemma ConsHasKey(f: Field, e: seq<Field>, k: string)
    ensures HasKey([f] + e, k) <==> f.key == k || HasKey(e, k)
  {
    if HasKey(e, k) {
      var g :| g in e && g.key == k;
      assert g in [f] + e;
    }
    assert f in [f] + e;
  }

  /** The names left after a drop are the others. */
  lemma {:induction false} DropKeys(fields: seq<Field>, gone: string)
    ensures forall k :: HasKey(Drop(fields, gone), k) <==> HasKey(fields, k) && k != gone
    decreases |fields|
  {
    if |fields| > 0 {
      var init := fields[..|fields| - 1];
      var last := fields[|fields| - 1];
      DropKeys(init, gone);
      var d := Drop(init, gone);
      assert fields == init + [last];
      forall k ensures HasKey(Drop(fields, gone), k) <==> HasKey(fields, k) && k != gone {
        SnocHasKey(init, last, k);
        if last.key != gone {
          SnocHasKey(d, last, k);
        } else {
          assert Drop(fields, gone) == d;
        }
      }
    }
  }

  lemma SnocHasKey(e: seq<Field>, f: Field, k: string)
    ensures HasKey(e + [f], k) <==> HasKey(e, k) || f.key == k
  {
    if HasKey(e, k) {
      var g :| g in e && g.key == k;
      assert g in e + [f];
    }
    assert f in e + [f];
  }

  /** Dropping one name leaves the lookup of every other name alone. */
  lemma LookupDrop(fields: seq<Field>, gone: string)
    ensures forall k :: k != gone ==> Lookup(Drop(fields, gone), k) == Lookup(fields, k)
  {
    forall k | k != gone ensures Lookup(Drop(fields, gone), k) == Lookup(fields, k) {
      LookupDropAt(fields, gone, k);
    }
  }

  lemma {:induction false} LookupDropAt(fields: seq<Field>, gone: string, k: string)
    requires k != gone
    ensures Lookup(Drop(fields, gone), k) == Lookup(fields, k)
    decreases |fields|
  {
    if |fields| > 0 {
      var init := fields[..|fields| - 1];
      var last := fields[|fields| - 1];
      var d := Drop(init, gone);
      assert Lookup(d, k) == Lookup(init, k) by {
        LookupDropAt(init, gone, k);
      }
      assert Lookup(fields, k) == if last.key == k then Some(last.value) else Lookup(init, k) by {
        assert init + [last] == fields;
        LookupSnoc(init, last, k);
      }
      if last.key == gone {
        assert Drop(fields, gone) == d;
      } else {
        assert Drop(fields, gone) == d + [last];
        LookupSnoc(d, last, k);
      }
    } else {
      assert Drop(fields, gone) == [];
    }
  }

  /** A lookup on one more property written last. */
  lemma LookupSnoc(fields: seq<Field>, last: Field, k: string)
    ensures Lookup(fields + [last], k)
            == if last.key == k then Some(last.value) else Lookup(fields, k)
  {
    assert (fields + [last])[..|fields|] == fields;
  }

  /** A property other than the first one written decides a lookup of a
      name other than the first. */
  lemma LookupTail(fields: seq<Field>)
    requires |fields| > 0
    ensures forall k :: k != fields[0].key ==> Lookup(fields, k) == Lookup(fields[1..], k)
  {
    forall k | k != fields[0].key ensures Lookup(fields, k) == Lookup(fields[1..], k) {
      LookupTailAt(fields, k);
    }
  }

  lemma {:induction false} LookupTailAt(fields: seq<Field>, k: string)
    requires |fields| > 0 && k != fields[0].key
    ensures Lookup(fields, k) == Lookup(fields[1..], k)
    decreases |fields|
  {
    if |fields| > 1 {
      var init := fields[..|fields| - 1];
      var last := fields[|fields| - 1];
      LookupTailAt(init, k);
      assert init[1..] + [last] == fields[1..];
      assert init + [last] == fields;
      LookupSnoc(init, last, k);
      LookupSnoc(init[1..], last, k);
    } else {
      assert fields[1..] == [];
    }
  }

  /** A property in front of others with different names. */
  lemma ConsUnique(f: Field, e: seq<Field>)
    requires UniqueKeys(e) && !HasKey(e, f.key)
    ensures UniqueKeys([f] + e)
  {
    forall i, j | 0 <= i < j < |[f] + e| ensures ([f] + e)[i].key != ([f] + e)[j].key {
      if i == 0 {
        assert ([f] + e)[j] == e[j - 1] && e[j - 1] in e;
      } else {
        assert ([f] + e)[i] == e[i - 1] && ([f] + e)[j] == e[j - 1];
      }
    }
  }

  /** A parsed object without repeated names lists its properties as
      written. */
  lemma {:induction false} EntriesUnique(fields: seq<Field>)
    requires UniqueKeys(fields)
    ensures Entries(fields) == fields
    decreases |fields|
  {
    if |fields| > 0 {
      var k := fields[0].key;
      var tail := fields[1..];
      assert Entries(fields) == [Field(k, Lookup(fields, k).value)] + Entries(Drop(tail, k));
      assert Entries(Drop(tail, k)) == tail by {
        UniqueTail(fields);
        DropAbsent(tail, k);
        EntriesUnique(tail);
      }
      assert Field(k, Lookup(fields, k).value) == fields[0] by {
        UniqueHead(fields);
      }
      assert fields == [fields[0]] + tail;
    }
  }

  /** Without repeats, the first name is not among the rest, and the rest
      has no repeats either. */
  lemma UniqueTail(fields: seq<Field>)
    requires |fields| > 0 && UniqueKeys(fields)
    ensures !HasKey(fields[1..], fields[0].key) && UniqueKeys(fields[1..])
  {
    var tail := fields[1..];
    forall f | f in tail ensures f.key != fields[0].key {
      var j :| 0 <= j < |tail| && tail[j] == f;
      assert fields[j + 1] == f;
    }
    forall i, j | 0 <= i < j < |tail| ensures tail[i].key != tail[j].key {
      assert tail[i] == fields[i + 1] && tail[j] == fields[j + 1];
    }
  }

  /** Without repeats, the first name looks up its own value. */
  lemma UniqueHead(fields: seq<Field>)
    requires |fields| > 0 && UniqueKeys(fields)
    ensures Lookup(fields, fields[0].key) == Some(fields[0].value)
  {
    var k := fields[0].key;
    var v := Lookup(fields, k).value;
    var i :| 0 <= i < |fields| && fields[i] == Field(k, v);
    assert i == 0;
  }

  /** Dropping a name no property has changes nothing. */
  lemma {:induction false} DropAbsent(fields: seq<Field>, key: string)
    requires !HasKey(fields, key)
    ensures Drop(fields, key) == fields
    decreases |fields|
  {
    if |fields| > 0 {
      var init := fields[..|fields| - 1];
      assert fields[|fields| - 1] in fields;
      assert !HasKey(init, key) by {
        forall f | f in init ensures f.key != key {
          var j :| 0 <= j < |init| && init[j] == f;
          assert fields[j] == f;
        }
      }
      DropAbsent(init, key);
      assert init + [fields[|fields| - 1]] == fields;
    }
  }

  // ---------------------------------------------------------------------
  // Step keys

  /** `/^step\d+$/`. */
  predicate IsStepName(s: string) {
    |s| > 4 && s[..4] == "step" && AllDigits(s[4..])
  }

  /** The index of the first digit at or after `i`, or `|s|`. */
  function FirstDigit(s: string, i: nat): (r: nat)
    requires i <= |s|
    ensures i <= r <= |s|
    ensures forall j :: i <= j < r ==> !IsDigit(s[j])
    ensures r < |s| ==> IsDigit(s[r])
    decreases |s| - i
  {
    if i == |s| || IsDigit(s[i]) then i else FirstDigit(s, i + 1)
  }

  /** The end of the run of digits starting at `i`. */
  function DigitEnd(s: string, i: nat): (r: nat)
    requires i <= |s|
    ensures i <= r <= |s|
    ensures forall j :: i <= j < r ==> IsDigit(s[j])
    ensures r < |s| ==> !IsDigit(s[r])
    decreases |s| - i
  {
    if i < |s| && IsDigit(s[i]) then DigitEnd(s, i + 1) else i
  }

  /** `s.match(/(\d+)/)[1]`: the leftmost run of digits, taken whole. */
  function FirstDigitRun(s: string): (r: Option<string>)
    ensures r.None? <==> AllNonDigits(s)
    ensures r.Some? ==> exists i, j :: RunAt(s, i, j) && r.value == s[i..j]
  {
    var i := FirstDigit(s, 0);
    if i == |s| then None
    else
      var j := DigitEnd(s, i);
      assert RunAt(s, i, j);
      Some(s[i..j])
  }

  predicate AllNonDigits(s: string) {
    forall k :: 0 <= k < |s| ==> !IsDigit(s[k])
  }

  /** `s[i..j]` is the first run of digits of `s`: nothing before it is a
      digit, it is non-empty, and it ends where the digits end. */
  predicate RunAt(s: string, i: int, j: int) {
    0 <= i < j <= |s|
    && (forall k :: 0 <= k < i ==> !IsDigit(s[k]))
    && (forall k :: i <= k < j ==> IsDigit(s[k]))
    && (j == |s| || !IsDigit(s[j]))
  }

  /** `normalizeStepKey`. */
  function NormalizeStepKey(key: Json): (r: string)
    ensures key.JStr? ==> r == "" || IsStepName(r)
    ensures key.JNum? && key.n >= 0 ==> IsStepName(r)
    ensures !key.JStr? && !key.JNum? ==> r == ""
  {
    match key
    case JNum(n) => "step" + IntToString(n)
    case JStr(s) =>
      if IsStepName(s) then s
      else (
        match FirstDigitRun(s)
        case Some(d) => "step" + d
        case None => "")
    case _ => ""
  }

  /** Normalising a string key twice changes nothing, and a key already of
      the form `step<digits>` is kept exactly; a string with no digit at
      all is refused. */
  lemma NormalizeStepKeyIdempotent(s: string)
    ensures NormalizeStepKey(JStr(NormalizeStepKey(JStr(s)))) == NormalizeStepKey(JStr(s))
    ensures IsStepName(s) ==> NormalizeStepKey(JStr(s)) == s
    ensures AllNonDigits(s) ==> NormalizeStepKey(JStr(s)) == ""
  {
    if |s| > 4 && AllDigits(s[4..]) {
      assert s[4..][0] == s[4];
    }
  }

  /** Any other string takes the leftmost run of digits, whole. */
  lemma NormalizeStepKeyDigits(s: string, i: int, j: int)
    requires !IsStepName(s) && RunAt(s, i, j)
    ensures NormalizeStepKey(JStr(s)) == "step" + s[i..j]
  {
    assert IsDigit(s[i]);
    var i1, j1 :| RunAt(s, i1, j1) && FirstDigitRun(s).value == s[i1..j1];
    RunUnique(s, i, j, i1, j1);
  }

  lemma RunUnique(s: string, i: int, j: int, i1: int, j1: int)
    requires RunAt(s, i, j) && RunAt(s, i1, j1)
    ensures i == i1 && j == j1
  {
    assert IsDigit(s[i]) && IsDigit(s[i1]);
    assert j < |s| ==> !IsDigit(s[j]);
    assert j1 < |s| ==> !IsDigit(s[j1]);
  }

  /** A number key `n` becomes `step<n>`. */
  lemma NormalizeNumberKey(n: nat)
    ensures NormalizeStepKey(JNum(n)) == "step" + NatToString(n)
  {
  }

  /** A negative number key keeps its minus sign, which a second
      normalisation drops: `-3` gives `step-3` and then `step3`. */
  lemma NormalizeNegativeKey(m: nat, d: string)
    requires m >= 1 && d == NatToString(m)
    ensures NormalizeStepKey(JNum(-(m as int))) == "step" + ("-" + d)
    ensures NormalizeStepKey(JStr(NormalizeStepKey(JNum(-(m as int))))) == "step" + d
  {
    MinusDropped(d);
  }

  lemma MinusDropped(d: string)
    requires |d| >= 1 && AllDigits(d)
    ensures NormalizeStepKey(JStr("step" + ("-" + d))) == "step" + d
  {
    var s := "step" + ("-" + d);
    assert s[4] == '-';
    assert !IsStepName(s) by { assert s[4..][0] == s[4]; }
    assert RunAt(s, 5, |s|) by {
      assert s[..4] == "step";
      forall k | 0 <= k < 5 ensures !IsDigit(s[k]) {
        if k < 4 { assert s[k] == s[..4][k]; }
      }
      forall k | 5 <= k < |s| ensures IsDigit(s[k]) { assert s[k] == d[k - 5]; }
    }
    NormalizeStepKeyDigits(s, 5, |s|);
    assert s[5..] == d;
  }

  // ---------------------------------------------------------------------
  // Records

  datatype Item = Item(html: string, css: string, js: string, updatedAt: string)

  datatype Record = Record(step: string, item: Item, sourceName: string)

  /** `typeof item[key] === 'string' ? item[key] : ''`. */
  function StringField(fields: seq<Field>, key: string): (r: string)
    ensures Lookup(fields, key) == Some(JStr(r)) || (r == "" && !(Lookup(fields, key).Some? && Lookup(fields, key).value.JStr?))
  {
    match Lookup(fields, key)
    case Some(JStr(s)) => s
    case _ => ""
  }

  function ItemOf(fields: seq<Field>): Item {
    Item(StringField(fields, "html"), StringField(fields, "css"),
         StringField(fields, "js"), StringField(fields, "updatedAt"))
  }

  /** The property `key` holds an object. */
  predicate HasObject(fields: seq<Field>, key: string) {
    Lookup(fields, key).Some? && IsObject(Lookup(fields, key).value)
  }

  /** An entry of `items` makes a record: its key normalises and its value
      is an object. */
  predicate Kept(e: Field) {
    NormalizeStepKey(JStr(e.key)) != "" && IsObject(e.value)
  }

  function RecordOf(e: Field, sourceName: string): Record
    requires IsObject(e.value)
  {
    Record(NormalizeStepKey(JStr(e.key)), ItemOf(e.value.fields), sourceName)
  }

  /** The loop over `Object.entries(json.items)`. */
  function FromItems(entries: seq<Field>, sourceName: string): (rs: seq<Record>)
    ensures |rs| <= |entries|
    decreases |entries|
  {
    if |entries| == 0 then [] else EntryRecords(entries[0], sourceName) + FromItems(entries[1..], sourceName)
  }

  /** The record one entry makes, if any. */
  function EntryRecords(e: Field, sourceName: string): (rs: seq<Record>)
    ensures |rs| <= 1
  {
    if Kept(e) then [RecordOf(e, sourceName)] else []
  }

  /** `extractRecordsFromJson`: every record it finds has a step key and
      the file's name; in the export shape, whose keys are strings, every
      step is of the form `step<digits>` (a negative numeric `step` of the
      submit shape keeps its minus sign). */
  function ExtractRecords(json: Json, sourceName: string): (rs: seq<Record>)
    ensures !IsObject(json) ==> rs == []
    ensures forall i :: 0 <= i < |rs| ==> rs[i].step != "" && rs[i].sourceName == sourceName
    ensures IsObject(json) && HasObject(json.fields, "items") ==>
              forall i :: 0 <= i < |rs| ==> IsStepName(rs[i].step)
  {
    if !IsObject(json) then []
    else if HasObject(json.fields, "items") then
      var entries := Entries(Lookup(json.fields, "items").value.fields);
      FromItemsSteps(entries, sourceName);
      var rs := FromItems(entries, sourceName);
      assert forall i :: 0 <= i < |rs| ==> IsStepName(rs[i].step) ==> rs[i].step != "";
      rs
    else if Lookup(json.fields, "step").Some? && HasObject(json.fields, "item") then
      var step := NormalizeStepKey(Lookup(json.fields, "step").value);
      if step == "" then [] else [Record(step, ItemOf(Lookup(json.fields, "item").value.fields), sourceName)]
    else []
  }

  /** The export shape reads entry by entry: the records of two runs of
      entries are the records of each, in order. */
  lemma {:induction false} FromItemsAppend(xs: seq<Field>, ys: seq<Field>, sourceName: string)
    ensures FromItems(xs + ys, sourceName) == FromItems(xs, sourceName) + FromItems(ys, sourceName)
    decreases |xs|
  {
    if |xs| > 0 {
      assert (xs + ys)[0] == xs[0];
      assert (xs + ys)[1..] == xs[1..] + ys;
      FromItemsAppend(xs[1..], ys, sourceName);
      var e := EntryRecords(xs[0], sourceName);
      assert e + (FromItems(xs[1..], sourceName) + FromItems(ys, sourceName))
             == (e + FromItems(xs[1..], sourceName)) + FromItems(ys, sourceName);
    } else {
      assert xs + ys == ys;
    }
  }

  /** One entry gives one record exactly when it is kept. */
  lemma FromItemsOne(e: Field, sourceName: string)
    ensures Kept(e) ==> FromItems([e], sourceName) == [RecordOf(e, sourceName)]
    ensures !Kept(e) ==> FromItems([e], sourceName) == []
  {
    assert [e][1..] == [];
  }

  /** Every record of the export shape has a step of the form
      `step<digits>` and the file's name. */
  lemma {:induction false} FromItemsSteps(entries: seq<Field>, sourceName: string)
    ensures forall i :: 0 <= i < |FromItems(entries, sourceName)| ==>
              IsStepName(FromItems(entries, sourceName)[i].step)
              && FromItems(entries, sourceName)[i].sourceName == sourceName
    decreases |entries|
  {
    if |entries| > 0 {
      FromItemsSteps(entries[1..], sourceName);
    }
  }

  /** An object `items` property wins over `step` and `item`. */
  lemma ItemsWin(fields: seq<Field>, items: seq<Field>, sourceName: string)
    requires Lookup(fields, "items") == Some(JObj(items))
    ensures ExtractRecords(JObj(fields), sourceName) == FromItems(Entries(items), sourceName)
  {
  }

  /** A step written twice in `items` gives one record, made from the
      value written last. */
  lemma RepeatedStepOnce(first: seq<Field>, last: seq<Field>, sourceName: string)
    ensures var items := [Field("step1", JObj(first)), Field("step1", JObj(last))];
            ExtractRecords(JObj([Field("items", JObj(items))]), sourceName)
            == [Record("step1", ItemOf(last), sourceName)]
  {
    var items := [Field("step1", JObj(first)), Field("step1", JObj(last))];
    var fields := [Field("items", JObj(items))];
    var e := Field("step1", JObj(last));
    assert ExtractRecords(JObj(fields), sourceName) == FromItems(Entries(items), sourceName) by {
      assert Lookup(fields, "items") == Some(JObj(items));
      ItemsWin(fields, items, sourceName);
    }
    assert Entries(items) == [e] by {
      EntriesRepeated("step1", JObj(first), JObj(last));
    }
    assert FromItems([e], sourceName) == [Record("step1", ItemOf(last), sourceName)] by {
      StepOneKept();
      FromItemsOne(e, sourceName);
    }
  }

  lemma StepOneKept()
    ensures NormalizeStepKey(JStr("step1")) == "step1"
  {
    var s := "step1";
    assert s[..4] == "step" && s[4..] == "1";
    NormalizeStepKeyIdempotent(s);
  }

  /** A name written twice is listed once, with its second value. */
  lemma EntriesRepeated(k: string, a: Json, b: Json)
    ensures Entries([Field(k, a), Field(k, b)]) == [Field(k, b)]
  {
    var fs := [Field(k, a), Field(k, b)];
    assert fs[1..] == [Field(k, b)];
    assert Drop([Field(k, b)], k) == Drop([], k) + [];
  }

  /** The submit shape gives one record when its step normalises, none
      otherwise; string fields are copied and anything else is blanked, so
      a numeric `updatedAt` becomes "". */
  lemma SubmitShape(fields: seq<Field>, step: Json, item: seq<Field>, sourceName: string)
    requires !HasObject(fields, "items")
    requires Lookup(fields, "step") == Some(step) && Lookup(fields, "item") == Some(JObj(item))
    ensures NormalizeStepKey(step) == "" ==> ExtractRecords(JObj(fields), sourceName) == []
    ensures NormalizeStepKey(step) != "" ==>
              ExtractRecords(JObj(fields), sourceName)
              == [Record(NormalizeStepKey(step), ItemOf(item), sourceName)]
    ensures forall n :: Lookup(item, "updatedAt") == Some(JNum(n)) ==> ItemOf(item).updatedAt == ""
  {
  }

  // ---------------------------------------------------------------------
  // Step numbers

  /** `step` followed by a digit at `i`. */
  predicate StepDigitAt(s: string, i: int) {
    OccursAt(s, "step", i) && i + 4 < |s| && IsDigit(s[i + 4])
  }

  /** The leftmost match of `/step(\d+)/` at or after `i`. */
  function StepMatchFrom(s: string, i: nat): (r: int)
    requires i <= |s|
    ensures r == -1 || (i <= r && StepDigitAt(s, r))
    ensures forall j :: i <= j < (if r == -1 then |s| else r) ==> !StepDigitAt(s, j)
    decreases |s| - i
  {
    if i == |s| then -1
    else if StepDigitAt(s, i) then i
    else StepMatchFrom(s, i + 1)
  }

  /** `stepNumber`: the number after the first `step` followed by digits;
      `None` stands for `Infinity`, which sorts such steps last. */
  function StepNumber(step: string): Option<nat> {
    var i := StepMatchFrom(step, 0);
    if i == -1 then None
    else
      var j := DigitEnd(step, i + 4);
      Some(DigitsValue(step[i + 4..j]))
  }

  /** Every step name the viewer makes has the number it was named after,
      and a text without `step<digit>` sorts last. */
  lemma StepNumberOfName(s: string)
    requires IsStepName(s)
    ensures StepNumber(s) == Some(DigitsValue(s[4..]))
  {
    assert s[4..][0] == s[4];
    assert StepDigitAt(s, 0);
    assert forall k :: 4 <= k < |s| ==> IsDigit(s[k]) by {
      forall k | 4 <= k < |s| ensures IsDigit(s[k]) { assert s[k] == s[4..][k - 4]; }
    }
    assert DigitEnd(s, 4) == |s|;
    assert s[4..|s|] == s[4..];
  }

  lemma StepNumberOfNat(n: nat)
    ensures StepNumber("step" + NatToString(n)) == Some(n)
  {
    var s := "step" + NatToString(n);
    assert s[..4] == "step" && s[4..] == NatToString(n);
    StepNumberOfName(s);
  }

  lemma StepNumberNone(s: string)
    requires forall i :: 0 <= i < |s| ==> !StepDigitAt(s, i)
    ensures StepNumber(s) == None
  {
  }

  // ---------------------------------------------------------------------
  // Compare references

  /** `{ fileIndex, recordIndex }`. */
  datatype Ref = Ref(fileIndex: nat, recordIndex: nat)

  /** The option value `fillCompareSelect` writes for a reference. */
  function RefKey(r: Ref): string {
    NatToString(r.fileIndex) + ":" + NatToString(r.recordIndex)
  }

  /** `readRefFromSelect`: `/^(\d+):(\d+)$/`. */
  function ReadRef(value: string): Option<Ref> {
    var i := IndexOf(value, ":");
    if 1 <= i && AllDigits(value[..i]) && i + 1 < |value| && AllDigits(value[i + 1..]) then
      Some(Ref(DigitsValue(value[..i]), DigitsValue(value[i + 1..])))
    else None
  }

  /** `value` is two runs of digits around one colon. */
  predicate RefShaped(value: string, a: string, b: string) {
    |a| >= 1 && |b| >= 1 && AllDigits(a) && AllDigits(b) && value == a + ":" + b
  }

  lemma ColonAt(a: string, b: string)
    requires AllDigits(a)
    ensures IndexOf(a + ":" + b, ":") == |a|
  {
    var s := a + ":" + b;
    assert OccursAt(s, ":", |a|) by { assert s[|a|..|a| + 1] == ":"; }
    assert Contains(s, ":");
    forall k | 0 <= k < |a|
      ensures !OccursAt(s, ":", k)
    {
      assert s[k] == a[k] && IsDigit(a[k]);
      assert s[k..k + 1][0] == s[k];
    }
    var r := IndexOf(s, ":");
    assert r >= 0;
    assert r <= |a|;
  }

  /** A value is read exactly when it has the written shape, and then as
      the numbers its digits spell. */
  lemma ReadRefShape(value: string, a: string, b: string)
    requires RefShaped(value, a, b)
    ensures ReadRef(value) == Some(Ref(DigitsValue(a), DigitsValue(b)))
  {
    ColonAt(a, b);
    assert value[..|a|] == a;
    assert value[|a| + 1..] == b;
  }

  lemma ReadRefOnlyShape(value: string)
    requires ReadRef(value).Some?
    ensures exists a, b :: RefShaped(value, a, b)
  {
    var i := IndexOf(value, ":");
    assert value[i..i + 1] == ":";
    assert value == value[..i] + ":" + value[i + 1..];
    assert RefShaped(value, value[..i], value[i + 1..]);
  }

  /** Reading back an option value gives its reference. */
  lemma ReadRefKey(r: Ref)
    ensures ReadRef(RefKey(r)) == Some(r)
  {
    ReadRefShape(RefKey(r), NatToString(r.fileIndex), NatToString(r.recordIndex));
  }

  lemma RefKeyInjective(r: Ref, s: Ref)
    ensures RefKey(r) == RefKey(s) <==> r == s
  {
    ReadRefKey(r);
    ReadRefKey(s);
  }

  /** `keys.indexOf(key)`. */
  function KeyIndex(keys: seq<string>, key: string): (r: int)
    ensures -1 <= r < |keys|
    ensures r >= 0 ==> keys[r] == key && forall j :: 0 <= j < r ==> keys[j] != key
    ensures r == -1 ==> forall j :: 0 <= j < |keys| ==> keys[j] != key
    decreases |keys|
  {
    if |keys| == 0 then -1
    else if keys[0] == key then 0
    else
      var r := KeyIndex(keys[1..], key);
      if r == -1 then -1 else r + 1
  }

  function Keys(refs: seq<Ref>): (keys: seq<string>)
    ensures |keys| == |refs|
    ensures forall i :: 0 <= i < |refs| ==> keys[i] == RefKey(refs[i])
  {
    seq(|refs|, i requires 0 <= i < |refs| => RefKey(refs[i]))
  }

  /** `{ oldKey, newKey }`. */
  datatype Selection = Selection(oldKey: string, newKey: string)

  /** `keys[i] || ''`. */
  function KeyOr(keys: seq<string>, i: int): string {
    if 0 <= i < |keys| then keys[i] else ""
  }

  /** `computeDefaultCompareSelection`, with the viewer's current selection
      passed in. */
  function DefaultCompare(refs: seq<Ref>, selected: Ref): Selection {
    var keys := Keys(refs);
    var idx := KeyIndex(keys, RefKey(selected));
    if idx >= 0 then
      var oldIdx := if idx > 0 then idx - 1 else if |refs| > 1 then 0 else -1;
      var oldKey := if oldIdx >= 0 then keys[oldIdx] else "";
      var newKey := keys[idx];
      if oldKey != "" && oldKey != newKey then Selection(oldKey, newKey)
      else if |refs| >= 2 then Selection(keys[0], keys[1])
      else Selection(KeyOr(keys, 0), KeyOr(keys, 0))
    else if |refs| >= 2 then Selection(keys[0], keys[|keys| - 1])
    else Selection(KeyOr(keys, 0), KeyOr(keys, 0))
  }

  predicate Distinct(refs: seq<Ref>) {
    forall i, j :: 0 <= i < j < |refs| ==> refs[i] != refs[j]
  }

  lemma KeyIndexOf(refs: seq<Ref>, i: int)
    requires Distinct(refs) && 0 <= i < |refs|
    ensures KeyIndex(Keys(refs), RefKey(refs[i])) == i
  {
    var r := KeyIndex(Keys(refs), RefKey(refs[i]));
    RefKeyInjective(refs[r], refs[i]);
  }

  lemma KeyIndexAbsent(refs: seq<Ref>, sel: Ref)
    requires forall i :: 0 <= i < |refs| ==> refs[i] != sel
    ensures KeyIndex(Keys(refs), RefKey(sel)) == -1
  {
    var r := KeyIndex(Keys(refs), RefKey(sel));
    if r >= 0 { RefKeyInjective(refs[r], sel); }
  }

  /** A selection past the first is compared with the one before it. */
  lemma DefaultAfterFirst(refs: seq<Ref>, i: int)
    requires Distinct(refs) && 0 < i < |refs|
    ensures DefaultCompare(refs, refs[i]) == Selection(RefKey(refs[i - 1]), RefKey(refs[i]))
  {
    KeyIndexOf(refs, i);
    RefKeyInjective(refs[i - 1], refs[i]);
  }

  /** The first one is compared with the second. */
  lemma DefaultAtFirst(refs: seq<Ref>)
    requires Distinct(refs) && |refs| >= 2
    ensures DefaultCompare(refs, refs[0]) == Selection(RefKey(refs[0]), RefKey(refs[1]))
  {
    KeyIndexOf(refs, 0);
  }

  /** Without the selection among them, the oldest is compared with the
      newest. */
  lemma DefaultAbsent(refs: seq<Ref>, sel: Ref)
    requires |refs| >= 2 && forall i :: 0 <= i < |refs| ==> refs[i] != sel
    ensures DefaultCompare(refs, sel) == Selection(RefKey(refs[0]), RefKey(refs[|refs| - 1]))
  {
    KeyIndexAbsent(refs, sel);
  }

  /** With fewer than two references both sides get the same key, empty
      when there is none. */
  lemma DefaultFew(refs: seq<Ref>, sel: Ref)
    requires |refs| < 2
    ensures DefaultCompare(refs, sel).oldKey == DefaultCompare(refs, sel).newKey
    ensures |refs| == 1 ==> DefaultCompare(refs, sel).oldKey == RefKey(refs[0])
    ensures |refs| == 0 ==> DefaultCompare(refs, sel).oldKey == ""
  {
  }

  /** Whatever is picked, both keys read back as references on the list. */
  lemma DefaultReadsBack(refs: seq<Ref>, sel: Ref)
    requires |refs| >= 1
    ensures exists i :: 0 <= i < |refs| && ReadRef(DefaultCompare(refs, sel).oldKey) == Some(refs[i])
    ensures exists i :: 0 <= i < |refs| && ReadRef(DefaultCompare(refs, sel).newKey) == Some(refs[i])
  {
    var p := DefaultCompare(refs, sel);
    var keys := Keys(refs);
    assert p.oldKey in keys && p.newKey in keys;
    var a :| 0 <= a < |refs| && keys[a] == p.oldKey;
    var b :| 0 <= b < |refs| && keys[b] == p.newKey;
    ReadRefKey(refs[a]);
    ReadRefKey(refs[b]);
  }
}

=== FILE: wrappers.dfy ===
/** Option type used wherever the JavaScript code returns `null` or reads
    `undefined` (a missing map key, an array index out of range). */
module Wrappers {

  datatype Option<+T> = None | Some(value: T) {

    /** The value, or `default` when absent (JavaScript `x ?? default`). */
    function GetOr(default: T): T {
      match this
      case Some(v) => v
      case None => default
    }
  }
}
